=== FILE: README.md ===
# Hotham core, modelled in Dafny

Hotham is a Rust engine for standalone VR headsets. This project models, as
pure Dafny functions over immutable datatypes, the parts of the engine whose
behaviour is bookkeeping rather than GPU or floating-point work. Each one is
proved against the promises its code makes.

- **Host-side GPU buffers and resource tables.** `Buffer<T>` and the
  gambier buffer are bounded sequences with a capacity invariant. Other
  pieces covered:
  - the memory-type bitmask search;
  - the vertex joint-index packing;
  - the texture and cube-texture handle counters;
  - the reserved default material;
  - the `NO_TEXTURE` sentinel and the RGB→RGBA expansion;
  - material import: texture slots, alpha mode and workflow.
- **Indirect-draw batching** in the custom-rendering and complex-scene
  examples:
  - the primitive map with its quadric flag in the top bit;
  - the cull list (triangles before quadrics);
  - the scan that emits one instanced draw per non-empty group, with
    running instance offsets;
  - the end-of-frame flush.
- **Render context and Vulkan helpers:**
  - the two-deep frame-in-flight ring and the cull dispatch group count;
  - the multiview mask;
  - alignment rounding;
  - buffer-to-image copy regions, current and legacy;
  - image view kind, sample count and aspect selection;
  - the image-layout transition tables of the engine and the simulator.
- **OpenXR simulator and client:**
  - the simulator's session-state event machine;
  - the two-call array idiom (`set_array`, reference-space enumeration);
  - fixed-size name strings;
  - reference-space creation.
- **Wire formats:**
  - the editor protocol's request header and big-endian length-prefixed
    responses;
  - the asset client's tagged message (tag byte, big-endian u64 length,
    payload, UTF-8 check);
  - the asset server's watch-list update rule and request dispatch.
- **Small state machines:**
  - the crab-saber game: transitions, scoring and hit disposal;
  - controller input edge detection, current and legacy;
  - the editor's keyboard state and the simulator's pressed-key set and
    action bindings;
  - sound-emitter intents and the audio dispatch table;
  - grabbing and releasing;
  - the XR context's frame and view rules;
  - the engine's session dispatch, performance timers and `finish`;
  - two-handed stage navigation;
  - the per-frame GUI button reset and hover haptics.
- **Scene graph and import.** Global-transform propagation over parent
  chains (both systems) is modelled over an associative composition. The
  asset importer's collider tags and the entity remapping in
  `add_model_to_world` are modelled as well.

`Wrappers` holds `Option`/`Result`. `Bytes` holds integer widths and
big-endian codecs. Every other module follows one source file or component.
Panics and `Err` returns are modelled as `Failure`. A `requires` states
either a caller obligation the source documents (the buffers' `SAFETY`
notes) or an assumption the model makes explicit, such as acyclic parent
chains or a cull list in the order `begin` builds it; each assumption of
the second kind is listed under "## Left out" by member.

## Model

| member | source | states |
|---|---|---|
| GpuBuffer.New | hotham/src/rendering/buffer.rs:29-75 | a new buffer is empty and its capacity is the mapped allocation's |
| GpuBuffer.AsSlice | hotham/src/rendering/buffer.rs:109-111 | the visible slice has exactly `len` elements |
| GpuBuffer.Overwrite | hotham/src/rendering/buffer.rs:77-82 | under the documented caller obligation `data.len() <= max_len`, the visible contents become exactly `data` and capacity is kept |
| GpuBuffer.Append | hotham/src/rendering/buffer.rs:84-93 | under `len + data.len() <= max_len`, the old visible prefix is kept and `data` follows it; `len` grows by `data.len()` |
| GpuBuffer.Push | hotham/src/rendering/buffer.rs:95-106 | under `len + 1 <= max_len`, the element is written at slot `len as u32` (the old `len` modulo 2^32), which is also the returned index, and no other slot changes; below 2^32 elements this appends it |
| GpuBuffer.PushIndexIsSlot | hotham/src/rendering/buffer.rs:97-106 | for buffers within the u32 index range the returned index is the slot that now holds the pushed element |
| GpuBuffer.Clear | hotham/src/rendering/buffer.rs:126-129 | clearing empties the visible slice and leaves memory untouched |
| GpuBuffer.IsEmpty | hotham/src/rendering/buffer.rs:136-139 | `is_empty` holds exactly when the visible slice is empty |
| GpuBuffer.PushAllIsAppend | hotham/src/rendering/buffer.rs:200-207 | within the u32 index range a run of pushes has the same visible effect as one append of the same elements |
| GpuBuffer.SmokeScenario | hotham/src/rendering/buffer.rs:184-220 | the smoke test's overwrite, overwrite, append, pushes, clear, pushes sequence yields the expected slices for any contents that fit a buffer within the u32 index range |
| GambierBuffer.Overwrite | hotham/src/rendering/gambier_buffer.rs:69-74 | the visible contents become exactly `data` |
| GambierBuffer.Append | hotham/src/rendering/gambier_buffer.rs:76-85 | the old visible prefix is kept and followed by `data` |
| GambierBuffer.Push | hotham/src/rendering/gambier_buffer.rs:87-96 | the element lands at slot `len` and is appended to the visible slice; nothing is returned |
| GambierBuffer.Clear | hotham/src/rendering/gambier_buffer.rs:111-114 | clearing empties the visible slice |
| GambierBuffer.ClearThenPushes | hotham/src/rendering/gambier_buffer.rs:183-194 | after a clear, a run of pushes rebuilds exactly the pushed sequence |
| GambierBuffer.PushAllExtends | hotham/src/rendering/gambier_buffer.rs:87-96 | a run of index-less pushes appends the pushed elements in order |
| MemoryTypes.FindMemoryTypeIndex | hotham/src/rendering/memory.rs:27-47 | the result is the least index below the type count whose type bit is set and whose flags contain the wanted flags; `None` (the panic) exactly when no index qualifies |
| MemoryTypes.FindMemoryTypeFrom | hotham/src/contexts/vulkan_context.rs:482-495 | searching from an index returns the first qualifying index at or after it, and an error exactly when none qualifies |
| MemoryTypes.FindMemoryType | hotham/src/contexts/vulkan_context.rs:482-495 | the first index whose bit is set and whose flags match, else an error exactly when there is none |
| MemoryTypes.ClearBitNeverChosen | hotham/src/rendering/memory.rs:34-36 | an index whose bit is clear in the type mask is never returned, whatever its flags |
| Vertex.New | hotham/src/rendering/vertex.rs:22-30 | the four fields are stored verbatim |
| Vertex.Pack | hotham/src/rendering/vertex.rs:43-46 | packing four bytes as `b0 + b1*256 + b2*256^2 + b3*256^3` always fits in a u32 |
| Vertex.UnpackPack | hotham/src/rendering/vertex.rs:42-46 | reading the packed word byte by byte recovers the four joint indices |
| Vertex.PackUnpack | hotham/src/rendering/vertex.rs:42-46 | every u32 is the packing of its own four bytes, so packing is a bijection |
| Vertex.FromZip | hotham/src/rendering/vertex.rs:35-53 | normal and texture coordinates pass through; the joint and weight words unpack to the given joint indices and rounded weights |
| Resources.New | hotham/src/rendering/resources.rs:82-118 | the materials buffer holds exactly the default material, at index `NO_MATERIAL` = 0; the skins buffer is empty; the texture count starts at 1 and the cube count at 2 |
| Resources.WriteTextureToArray | hotham/src/rendering/resources.rs:125-138 | the returned handle is the old texture count and the count grows by one, with nothing else changed; the checked u32 increment fails exactly at `u32::MAX` |
| Resources.WriteCubeTextureToArray | hotham/src/rendering/resources.rs:140-153 | the returned handle is the old cube count and that count grows by one, with nothing else changed; fails exactly at `u32::MAX` |
| Resources.HandlesAreFresh | hotham/src/rendering/resources.rs:131-137 | n successive registrations return the consecutive handles `count, count+1, ...`, none equal to `NO_TEXTURE`, and advance the count by n |
| Material.GltfDefault | hotham/src/rendering/material.rs:171-187 | all five texture slots are `NO_TEXTURE`; metallic-roughness workflow, white base colour, factors 1.0, no alpha mask |
| Material.UnlitWhite | hotham/src/rendering/material.rs:162-168 | the unlit material differs from the default in its workflow only |
| Material.AlphaSettings | hotham/src/rendering/material.rs:122-128 | `Mask` gives (1, 0.5), else an explicit cutoff c gives (1, c), else (0, 1); the mask flag is 1 exactly when one of the first two applies |
| Material.Workflow | hotham/src/rendering/material.rs:130-135 | the workflow is unlit exactly when the glTF material is unlit |
| MaterialImport.LoadSlot | hotham/src/rendering/material.rs:58-61 | an absent texture info gives `NO_TEXTURE` and changes nothing; a present one reserves the next handle |
| MaterialImport.Build | hotham/src/rendering/material.rs:53-151 | the factors, alpha settings and workflow come from the glTF material; the texture count advances by exactly the number of textures loaded |
| MaterialImport.BuildMatchesReference | hotham/src/rendering/material.rs:57-116 | every slot equals an independent reference assignment: absent slots `NO_TEXTURE`, shared occlusion the metallic-roughness handle, others the next handle in slot order |
| MaterialImport.BuildSlots | hotham/src/rendering/material.rs:88-116 | absent infos give `NO_TEXTURE`; loaded slots get fresh, strictly increasing handles in the reserved range; occlusion reuses the metallic-roughness handle when both name the same image |
| MaterialImport.OwnBeforeMonotone | hotham/src/rendering/material.rs:57-116 | the number of slots loading their own texture before a slot grows with the slot and strictly past a loading slot |
| MaterialImport.Load | hotham/src/rendering/material.rs:152-159 | a loaded material is appended to the materials buffer after the existing ones, with the texture count of its build; the load fails exactly when the build fails or the buffer is full |
| Texture.AddAlphaChannel | hotham/src/rendering/texture.rs:233-249 | the output has `width*height*4` bytes; each pixel's three bytes are copied in order followed by alpha byte 1, and the rest is zero; the source's overflow and slice panics are failures exactly when the input is not whole pixels or does not fit |
| Texture.CopyPixels | hotham/src/rendering/texture.rs:235-248 | the copy loop into a zero buffer of `area` pixels succeeds exactly when the input is whole pixels that fit, and then byte `4k+c` is input byte `3k+c` for `c < 3`, the alpha byte is 1 and bytes past the input are zero |
| Texture.ExpectedInPixel | hotham/src/rendering/texture.rs:240-242 | output byte c of pixel k is input byte 3k+c for c < 3 and 1 for the alpha byte |
| Texture.ExpectedPastInput | hotham/src/rendering/texture.rs:234-235 | bytes past the converted pixels keep their zero fill |
| Texture.StripAlphaOfExpansion | hotham/src/rendering/texture.rs:239-246 | dropping every fourth byte of the expansion gives back the input pixels |
| InstanceBatching.DrawWorld | examples/custom-rendering/src/custom_rendering.rs:230-424 | on a shader-grouped list the scan fails exactly when a visible result's primitive or instance is missing; otherwise the draws tile each shader's visible keys in list order, every draw is non-empty and starts where the previous draw of its shader ended, instance totals equal the visible counts, the draws read as (shader, primitive, count) are exactly the maximal runs of equal key that hold a visible result, one draw per run in list order, and each data buffer holds one record per visible result in order |
| InstanceBatching.BoundaryAccounts | examples/custom-rendering/src/custom_rendering.rs:258-310 | closing a run at a primitive change records a draw only when it has instances, advances the offset by the count, and restarts the offset at 0 on a shader change, keeping the accounting of the results seen |
| InstanceBatching.VisitAccounts | examples/custom-rendering/src/custom_rendering.rs:338-377 | a visible result pushes exactly one data record onto its shader's buffer and increments the open run's count; an invisible one changes nothing |
| InstanceBatching.VisitCounted | examples/custom-rendering/src/custom_rendering.rs:353-374 | the draw bookkeeping after one more result: the open run's count is the number of visible results of its key since the run started |
| InstanceBatching.VisitRecorded | examples/custom-rendering/src/custom_rendering.rs:338-377 | the data buffers after one more result are the visible records of the longer prefix |
| InstanceBatching.FlushAccounts | examples/custom-rendering/src/custom_rendering.rs:383-418 | the final flush records the last run exactly when it is non-empty |
| InstanceBatching.FinishInv | examples/custom-rendering/src/custom_rendering.rs:383-418 | after the last flush the draws and buffers account for exactly the visible instances |
| InstanceBatching.StepInv | examples/complex-scene/src/custom_rendering.rs:220-330 | one loop iteration keeps the scan invariant, with a boundary when the key or the shader changes |
| InstanceBatching.TilesIndexed | examples/custom-rendering/src/custom_rendering.rs:303-309 | the recursive tiling read draw by draw: draw i starts at the total of earlier draws of its shader |
| InstanceBatching.TilesGrow | examples/custom-rendering/src/custom_rendering.rs:303-304 | a tiling of shorter key lists stays valid when the lists grow |
| InstanceBatching.RunsAreMaximal | examples/custom-rendering/src/custom_rendering.rs:262-263 | neighbouring runs of the reference run list differ in key or shader, so a run is never split |
| InstanceBatching.RunsCountVisible | examples/custom-rendering/src/custom_rendering.rs:251-377 | the runs' visible counts add up to the number of visible results, so every visible result lies in exactly one run |
| InstanceBatching.OpenRunCloses | examples/custom-rendering/src/custom_rendering.rs:262-304 | closing the open run appends a draw exactly when the run is non-empty, and the draws stay the non-empty runs before the new open run |
| InstanceBatching.StepRuns | examples/custom-rendering/src/custom_rendering.rs:251-377 | one loop iteration closes a run exactly where the result's key or shader differs from the previous result's, and otherwise extends the open run |
| InstanceBatching.FinishRuns | examples/custom-rendering/src/custom_rendering.rs:383-418 | after the final flush the draws are exactly the non-empty runs of the whole list |
| InstanceBatching.OneRunOneDraw | examples/custom-rendering/src/custom_rendering.rs:262-304 | two visible instances of one primitive in a row are drawn by one draw of count 2 at offset 0, never by two draws |
| InstanceBatching.ScanOfInv | examples/custom-rendering/src/custom_rendering.rs:251-377 | every state the loop reaches keeps the accounting invariant |
| InstanceBatching.ScanProduces | examples/custom-rendering/src/custom_rendering.rs:230-424 | once every result resolves, the flushed final state is a frame with the draws, tiling and buffers `draw_world` promises |
| PrimitiveMap.Insert | examples/custom-rendering/src/custom_rendering.rs:124-140 | inserting a pair adds its key, leaves other keys alone, keeps an existing entry's material, and appends the instance |
| PrimitiveMap.CollectGroups | examples/custom-rendering/src/custom_rendering.rs:91-160 | collecting pairs into an empty map gives exactly the keys met, each holding that key's instances in the order met |
| PrimitiveMap.FlattenResolves | examples/custom-rendering/src/custom_rendering.rs:190-199 | each entry of a flattened map carries the map's shader, a visited key, and an instance index below that primitive's instance count |
| PrimitiveMap.FlattenCovers | examples/custom-rendering/src/custom_rendering.rs:192-199 | every instance of every visited primitive has its entry, numbered by its position in the instance list, invisible |
| PrimitiveMap.CullListPrepared | examples/custom-rendering/src/custom_rendering.rs:186-211 | the cull list holds all triangle entries before all quadric entries, covers every instance, and whatever visibility the GPU sets every visible entry resolves |
| CustomRendering.WithQuadricFlag | examples/custom-rendering/src/custom_rendering.rs:147 | `key OR (1 << 31)` keeps the low 31 bits and sets bit 31 |
| CustomRendering.ShaderOf | examples/custom-rendering/src/custom_rendering.rs:252-256 | the shader is Quadric exactly when bit 31 of the id is set |
| CustomRendering.CollectedKeys | examples/custom-rendering/src/custom_rendering.rs:124-160 | keys in a collected map are keys that were met, so range bounds on the pairs carry over to the map |
| CustomRendering.BeginPrepares | examples/custom-rendering/src/custom_rendering.rs:91-213 | the list `begin` builds is shader-grouped, its keys are u32 values other than `u32::MAX`, the flag bit of every key names its map, each entry holds that key's instances in order, and every instance is listed |
| CustomRendering.BeginKeys | examples/custom-rendering/src/custom_rendering.rs:147-213 | every entry of the list `begin` builds has a u32 key other than `u32::MAX` whose flag bit names the shader it is listed with, and the triangle entries come first |
| CustomRendering.BeginGroups | examples/custom-rendering/src/custom_rendering.rs:116-167 | each primitive map entry holds exactly the instances pushed under its key, in the order the entities were met |
| CustomRendering.RenderFrame | examples/custom-rendering/src/custom_rendering.rs:61-81 | begin, GPU culling and `draw_world` never panic on the list begin built, and the draws and data buffers account for exactly the visible instances |
| ComplexScene.CollectedInRange | examples/complex-scene/src/custom_rendering.rs:96-140 | only keys met while collecting are keys of the map |
| ComplexScene.RenderFrame | examples/complex-scene/src/custom_rendering.rs:37-55 | with `index_shader` carried explicitly, begin, culling and `draw_world` never panic and account for exactly the visible instances, with the primitive's material id in each record |
| ComplexScene.CulledReady | examples/complex-scene/src/custom_rendering.rs:163-186 | whatever visibility the GPU writes back, the list built from the two maps stays grouped by shader with triangles first and carries keys that are u32 values other than `u32::MAX`, which is what `draw_world` asks of its input |
| RenderContext.New | hotham/src/contexts/render_context.rs:112-125 | exactly `PIPELINE_DEPTH` = 2 frames are created, the k-th with the k-th command buffer, and the ring starts at frame 0 |
| RenderContext.EndFrame | hotham/src/contexts/render_context.rs:381-401 | the frame index moves to `(i + 1) % PIPELINE_DEPTH`, always a different in-range frame, and the frames are untouched |
| RenderContext.EndFramesIndex | hotham/src/contexts/render_context.rs:400 | after n frames the index has advanced by n modulo `PIPELINE_DEPTH` |
| RenderContext.CmdCycles | hotham/src/contexts/render_context.rs:79-81 | frame after frame `cmd` hands out the command buffers in creation order, cyclically |
| RenderContext.CullDispatch | hotham/src/contexts/render_context.rs:269-299 | `draw_calls` is the cull list length as u32; `len / 1024 + 1` work groups of 1024 cover the list with less than one spare group; the count passed to `cmd_dispatch` is that number as u32, equal to it for any list shorter than 2^32 |
| RenderContext.LowMask | hotham/src/contexts/render_context.rs:577 | `!(!0 << n)` on a u32 has exactly the low n bits set |
| RenderContext.ViewMask | hotham/src/contexts/render_context.rs:577-580 | the view and correlation masks have exactly one bit per eye, bits 0 and 1 |
| VulkanHelpers.AlignmentInfo | hotham/src/contexts/vulkan_context.rs:458-471 | the alignment is the larger of `align_of T` and the minimum alignment; the aligned size is the least multiple of the power-of-two minimum at or above the size; the first u64 addition `original_size + min_alignment` overflows, a failure, exactly when that sum exceeds `u64::MAX` |
| VulkanHelpers.ShrIsDiv | hotham/src/contexts/vulkan_context.rs:693-694 | shifting a level's extent right by `k` (halving `k` times, rounding down) is dividing it by `2^k`, so each mip level is half the one above |
| VulkanHelpers.SumPrefixMonotone | hotham/src/contexts/vulkan_context.rs:705 | the running offset never decreases from one level to the next |
| VulkanHelpers.CopyRegions | hotham/src/contexts/vulkan_context.rs:680-706 | one region per mip level: level k is mip k over all layers, with extent `(w >> k, h >> k)` and buffer offset the sum of the earlier increments times the layer count; failure exactly on a shift past 31 or a u64 overflow of the offset; at the first level that overflows, the panic is the multiply's when the increment itself overflows and the add's otherwise |
| VulkanHelpers.RegionsAbut | hotham/src/contexts/vulkan_context.rs:684-706 | level k+1 starts where level k's data ends and has half its extent |
| VulkanHelpers.IndexBound | hotham/src/resources/vulkan_context.rs:689-705 | the legacy index `layer * mip_count + mip` is within the `layer_count * mip_count` offsets |
| VulkanHelpers.LegacyCopyRegions | hotham/src/resources/vulkan_context.rs:689-711 | one region per (layer, mip) pair, layer-major, using `offsets[layer * mip_count + mip]`, a single layer and the extent shifted by the mip; failure exactly on a shift past 31, a u32 overflow or a missing offset |
| VulkanHelpers.ImageKindFor | hotham/src/contexts/vulkan_context.rs:337-349 | one layer gives a 2D view, six layers a cube-compatible cube view, any other count a 2D array |
| VulkanHelpers.SamplesFor | hotham/src/contexts/vulkan_context.rs:352-356 | images are multisampled exactly when their usage contains `TRANSIENT_ATTACHMENT` |
| VulkanHelpers.LegacySamplesFor | hotham/src/resources/vulkan_context.rs:292-298 | the legacy context uses 4 samples exactly for transient or depth-attachment usage |
| VulkanHelpers.LegacySamplesMore | hotham/src/resources/vulkan_context.rs:292-298 | every image the current rule multisamples the legacy rule multisamples too |
| VulkanHelpers.AspectFor | hotham/src/contexts/vulkan_context.rs:906-912 | the aspect is depth exactly for `DEPTH_FORMAT`, colour otherwise |
| ImageLayouts.EngineGetStage | hotham/src/contexts/vulkan_context.rs:1116-1151 | the engine's table defines exactly three transitions, each with a non-empty destination access, and fails (the panic) on every other pair |
| ImageLayouts.SimulatorGetStage | hotham-simulator/src/simulator.rs:2025-2097 | the simulator's table defines exactly six transitions and fails on every other pair |
| ImageLayouts.FromUndefinedWaitsOnNothing | hotham/src/resources/vulkan_context.rs:1299-1328 | leaving `UNDEFINED` waits on no earlier access in either table |
| ImageLayouts.TransitionsChain | hotham/src/contexts/vulkan_context.rs:1116-1151 | where two consecutive transitions are both defined, the second waits on what the first made available |
| ImageLayouts.TablesAgree | hotham-simulator/src/simulator.rs:2025-2097 | where the engine's and the simulator's tables both define a transition, they give the same barrier |
| SimulatorSession.Initial | hotham-simulator/src/simulator.rs:867-909 | the simulator starts in `UNKNOWN` with no event queued |
| SimulatorSession.PollEvent | hotham-simulator/src/simulator.rs:867-909 | a poll reports a state change exactly when an event is queued or the state is one the lifecycle advances from; the event carries the new state; otherwise `EVENT_UNAVAILABLE` and nothing changes; the queue is empty afterwards and `VISIBLE` is never entered |
| SimulatorSession.RequestExit | hotham-simulator/src/simulator.rs:1657-1662 | requesting exit (or ending the session, lines 1757-1763) sets `EXITING` and queues an event |
| SimulatorSession.PollMovesForward | hotham-simulator/src/simulator.rs:872-892 | against an independent ordering of the lifecycle, polling never moves the session backwards and strictly advances it from `UNKNOWN`, `IDLE`, `READY` and `SYNCHRONIZED` |
| SimulatorSession.SettledPolls | hotham-simulator/src/simulator.rs:894-909 | once settled with nothing queued, every further poll reports no event and changes nothing |
| SimulatorSession.StartupSequence | hotham-simulator/src/simulator.rs:872-892 | from start-up the application sees `IDLE`, `READY`, `SYNCHRONIZED`, `FOCUSED`, one per poll, then nothing; `VISIBLE` is skipped because the later check wins |
| SimulatorSession.RendersAfterStartup | hotham-simulator/src/simulator.rs:919-926 | `wait_frame` says to render exactly from the fourth poll on |
| SimulatorSession.ExitDeliveredOnce | hotham-simulator/src/simulator.rs:1657-1662 | an exit request is reported exactly once, from any state, and the session stays exiting |
| OpenXrArrays.SetArray | hotham-openxr-client/src/client.rs:793-807 | capacity 0 writes the count `COUNT` and nothing else; otherwise all items are copied to the front of the caller's array and the count is left untouched; copying past a shorter array is a failure |
| OpenXrArrays.TwoCall | hotham-simulator/src/simulator.rs:945-960 | the two-call idiom of section 2.11 of the OpenXR 1.0 specification: the count is always reported, items are written exactly when the capacity suffices, and an insufficient capacity is an error |
| OpenXrArrays.SetArrayAgreesOnContents | hotham-openxr-client/src/client.rs:799-806 | `set_array` agrees with the two-call idiom on the first call, and on the contents of a sufficient second call |
| OpenXrArrays.SetArrayLeavesStaleCount | hotham-openxr-client/src/client.rs:805-806 | a concrete second call where the count the caller reads back is not the number of items written |
| OpenXrArrays.EnumerateReferenceSpaces | hotham-simulator/src/simulator.rs:1700-1715 | the count is always 1; with non-zero capacity the first element becomes `STAGE` and the rest are untouched |
| OpenXrArrays.ReferenceSpacesFollowTwoCall | hotham-simulator/src/simulator.rs:1700-1715 | the simulator's outputs are exactly what the two-call idiom prescribes for the one-element list `[STAGE]` |
| OpenXrArrays.ClientEnumerateReferenceSpaces | hotham-openxr-client/src/client.rs:692-707 | the client fills in the same outputs but reports `XR_ERROR_FEATURE_UNSUPPORTED` on both calls |
| OpenXrArrays.AsI8 | hotham-simulator/src/simulator.rs:1857-1864 | `b as i8` lies in the signed byte range and agrees with b modulo 256 |
| OpenXrArrays.StrToFixedBytes | hotham-openxr-client/src/client.rs:784-791 | the array holds the first `min(len, 128)` bytes reinterpreted as i8 and zeros after them |
| OpenXrArrays.CString | hotham-simulator/src/simulator.rs:1857-1864 | the C string of a fixed array is its longest zero-free prefix |
| OpenXrArrays.FixedBytesRoundTrip | hotham-simulator/src/simulator.rs:1857-1864 | a zero-free name shorter than 128 bytes is read back intact |
| OpenXrArrays.CStringStopsAtZero | hotham-simulator/src/simulator.rs:1857-1864 | the C string ends at the first zero byte |
| OpenXrArrays.LongNamesUnterminated | hotham-openxr-client/src/client.rs:784-791 | a zero-free name of 128 or more bytes fills the array with no terminating zero |
| OpenXrClient.NewSpaceState | hotham-openxr-client/src/space_state.rs:11-19 | a new space has its name, the origin and no rotation |
| OpenXrClient.CreateReferenceSpace | hotham-openxr-client/src/client.rs:378-407 | a stage request with `orientation.w != 1` is named "Stage" under handle 0, every other request "View" under the random handle; the requested pose is stored and other spaces are untouched |
| OpenXrClient.StageIsASingleton | hotham-openxr-client/src/client.rs:387-403 | creating the stage twice leaves one stage entry, with the second pose |
| EditorProtocol.TypeOfCode | hotham-editor-protocol/src/lib.rs:5-10 | only the two declared discriminants 0 and 1 name a request type, and each names the type whose code it is |
| EditorProtocol.NativeRoundTrip | hotham-editor-protocol/src/lib.rs:200-206 | a `u32` copied out of memory and read back is the same `u32` |
| EditorProtocol.ReadExact | hotham-editor-protocol/src/lib.rs:81 | `read_exact` succeeds exactly when the stream holds `n` bytes, and then splits it into those bytes and the rest |
| EditorProtocol.WriteRequest | hotham-editor-protocol/src/lib.rs:65-75 | the request is written as an 8-byte header followed by the request's own image |
| EditorProtocol.ReadRequestHeader | hotham-editor-protocol/src/lib.rs:77-85 | a header is read from the first 8 bytes, whose image it is; it succeeds exactly when there are 8 bytes and the tag is a declared discriminant, and its length is the first native `u32` |
| EditorProtocol.ReadRequestPayload | hotham-editor-protocol/src/lib.rs:87-95 | the payload read succeeds exactly when the length fits the 1 MiB buffer and the stream and is at least the value's size; the value is the front of those bytes and the stream continues after the whole payload |
| EditorProtocol.GetRequest | hotham-editor-protocol/src/lib.rs:166-173 | a request read succeeds exactly when the stream holds a header with a declared tag and a length within the buffer, the stream and at least the value's size; the type is the header's, the value is the front of the payload and the stream continues after the payload |
| EditorProtocol.HeaderImage | hotham-editor-protocol/src/lib.rs:81-84 | eight bytes whose second word is a declared type code are exactly the image of the header read from them |
| EditorProtocol.HeaderRoundTrip | hotham-editor-protocol/src/lib.rs:77-85 | the image of a header reads back as that header, leaving the rest of the stream |
| EditorProtocol.RequestHeaderRoundTrip | hotham-editor-protocol/src/lib.rs:253-259 | the header the server reads after a client's write names the request's type and size |
| EditorProtocol.RequestRoundTrip | hotham-editor-protocol/src/lib.rs:253-264 | what the client sends is what the server reads, whatever follows it on the stream |
| EditorProtocol.SendResponse | hotham-editor-protocol/src/lib.rs:186-192 | a response is framed by its size as a big-endian `u32`, then its image |
| EditorProtocol.ReadMessage | hotham-editor-protocol/src/lib.rs:131-135 | the message read is exactly as long as its big-endian prefix says, fits the buffer, and the stream is prefix, message, rest |
| EditorProtocol.GetResponse | hotham-editor-protocol/src/lib.rs:127-137 | a response read succeeds exactly when the big-endian prefix is within the buffer, the stream and at least the value's size; the value is the front of the message and the stream continues after it |
| EditorProtocol.Chunks | hotham-editor-protocol/src/lib.rs:195-198 | the bytes split into `len / size` values of `size` bytes each |
| EditorProtocol.GetResponseVec | hotham-editor-protocol/src/lib.rs:139-149 | a zero-sized item type fails; otherwise the vector holds prefix / size values of the item's size |
| EditorProtocol.FlattenLength | hotham-editor-protocol/src/lib.rs:204-206 | the image of `n` values of `size` bytes is `n * size` bytes long |
| EditorProtocol.ChunksOfFlatten | hotham-editor-protocol/src/lib.rs:195-198 | splitting the image of equal-sized values gives back those values |
| EditorProtocol.MessageRoundTrip | hotham-editor-protocol/src/lib.rs:186-192 | a framed message that fits the buffer reads back as the same message and the rest of the stream |
| EditorProtocol.ResponseRoundTrip | hotham-editor-protocol/src/lib.rs:279-285 | a single response the server sends is the response the client reads |
| EditorProtocol.ResponseVecRoundTrip | hotham-editor-protocol/src/lib.rs:312-322 | an array of responses the server sends is the vector the client reads, item by item |
| AssetMessage.TypeOfTag | hotham-asset-client/src/message.rs:3-13 | exactly the seven declared discriminants name a message type, each the one whose tag it is |
| AssetMessage.SequenceLength | hotham-asset-client/src/message.rs:28-32 | a well-formed UTF-8 sequence at the front of the bytes is one to four bytes long and within them |
| AssetMessage.AsciiIsUtf8 | hotham-asset-client/src/message.rs:28-32 | every ASCII path is accepted by `from_utf8` |
| AssetMessage.ContinuationAloneIsInvalid | hotham-asset-client/src/message.rs:28-32 | a lone continuation byte is rejected by `from_utf8` |
| AssetMessage.GetType | hotham-asset-client/src/message.rs:68-77 | no message reports the invalid type |
| AssetMessage.Buf | hotham-asset-client/src/message.rs:87-96 | an `OK` message has no payload bytes |
| AssetMessage.Len | hotham-asset-client/src/message.rs:79-81 | the length is the number of payload bytes |
| AssetMessage.IsEmpty | hotham-asset-client/src/message.rs:83-85 | a message is empty exactly when its length is zero |
| AssetMessage.Parse | hotham-asset-client/src/message.rs:26-38 | parsing fails exactly for the invalid type or a text payload that is not UTF-8; a parsed message has the requested type and, unless `OK`, the given bytes |
| AssetMessage.ParseRoundTrip | hotham-asset-client/src/message.rs:26-38 | parsing a message's own type and payload gives the message back |
| AssetMessage.WriteAll | hotham-asset-client/src/message.rs:53-66 | the wire form is the tag byte, the length as a big-endian `u64`, then the payload |
| AssetMessage.Read | hotham-asset-client/src/message.rs:40-51 | a message read has the tag of byte 0, a length from bytes 1-8 that fits the buffer, the payload that follows, and leaves the rest of the stream |
| AssetMessage.WriteReadRoundTrip | hotham-asset-client/src/message.rs:40-66 | a valid message written and read back with a large enough buffer is the same message, and the rest of the stream is untouched |
| AssetServer.ShouldSendUpdateIffChanged | hotham-asset-server/src/server.rs:55-63 | an update is sent exactly when the new reading is a time and differs from the stored one |
| AssetServer.WatchPass | hotham-asset-server/src/server.rs:51-87 | a pass keeps the watched names, stores every new reading, and notifies exactly the names whose readable time changed |
| AssetServer.WatchPassSettles | hotham-asset-server/src/server.rs:51-66 | a second pass over unchanged files notifies nobody and changes nothing |
| AssetServer.HandleMessage | hotham-asset-server/src/server.rs:113-139 | an error message fails the request; a file request answers with the file or an error; a watch request answers `OK` and watches the file from the epoch; nothing else answers or changes the watch list |
| AssetServer.HandleRequest | hotham-asset-server/src/server.rs:105-140 | a handled request consumed at least its nine header bytes from the stream |
| AssetServer.HandleWrittenRequest | hotham-asset-server/src/server.rs:105-140 | a request written whole by a client is answered exactly as the message itself would be (file, error text, acknowledgement or nothing), and the bytes after it stay in the stream |
| AssetServer.WatchThenChange | hotham-asset-server/src/server.rs:121-128 | after a watch request, a file whose time is not the epoch is reported by the next pass and not again by the one after |
| AssetServer.UpdateAcknowledged | hotham-asset-server/src/server.rs:78-84 | the notice task succeeds exactly when the client replies `OK` |
| CrabSaber.MenuButtons | examples/crab-saber/src/systems/game.rs:76-86 | the menu offers exactly the songs of the iteration order whose beat is at least a millisecond long; a table iterates each title once, so no song gets two buttons |
| CrabSaber.GameOverText | examples/crab-saber/src/systems/game.rs:138-147 | the game-over panel praises a positive score and reports failure otherwise |
| CrabSaber.Transition | examples/crab-saber/src/systems/game.rs:46-157 | only the four listed moves succeed (a missing menu or game-over track fails); starting to play resets the score; entering the menu or game over sets that panel's text and buttons |
| CrabSaber.EnterMainMenu | examples/crab-saber/src/systems/game.rs:54-90 | entering the menu succeeds exactly when the menu track exists, and then titles the panel "CRAB SABER" and keeps the score |
| CrabSaber.Points | examples/crab-saber/src/systems/game.rs:241-293 | a touch is worth plus or minus one point, and plus one exactly when the blue saber touches a blue cube or the red saber a red one; the backstop always costs one |
| CrabSaber.Touch | examples/crab-saber/src/systems/game.rs:233-296 | a touch that does not count changes nothing; one that counts queues the cube, moves the score by its points, plays "Hit" exactly when the score went up, and pulses the saber's hand (not for the backstop) |
| CrabSaber.ScanHits | examples/crab-saber/src/systems/game.rs:235-255 | a scan fails on a collision with a missing entity; otherwise it only appends live cubes it collided with to the dispose list, one sound per cube, and (for a saber) one haptic pulse per cube |
| CrabSaber.CheckForHits | examples/crab-saber/src/systems/game.rs:225-301 | the score moves by at most one per disposed cube, and only live cubes are disposed of |
| CrabSaber.EffectsOf | examples/crab-saber/src/systems/game.rs:241-292 | the sounds of a pass are one per queued cube, in queue order |
| CrabSaber.ScanHitsScore | examples/crab-saber/src/systems/game.rs:235-296 | one pass moves the score by exactly the points of the cubes it queued, and its sounds are those cubes' hits and misses, in order |
| CrabSaber.NetIsPoints | examples/crab-saber/src/systems/game.rs:241-293 | each queued cube's sound is a hit exactly when it earned a point, so hits minus misses equal the points |
| CrabSaber.PassScore | examples/crab-saber/src/systems/game.rs:235-296 | one pass moves the score by the hits minus the misses it adds, and keeps one sound per queued cube |
| CrabSaber.CheckForHitsScore | examples/crab-saber/src/systems/game.rs:225-301 | over a frame the score moves by the hits minus the misses, with one sound per disposed cube, in dispose order |
| CrabSaber.ScanKeepsDistinct | examples/crab-saber/src/systems/game.rs:257-296 | the red saber and backstop scans never add a cube twice, and the blue scan does not when its own collisions are distinct |
| CrabSaber.DisposeOfCubes | examples/crab-saber/src/systems/game.rs:307-313 | disposing hides exactly the listed cubes, and fails if one is already hidden |
| CrabSaber.DisposeDistinct | examples/crab-saber/src/systems/game.rs:307-313 | a list of distinct visible cubes is disposed of without a panic |
| CrabSaber.HitsAreDisposable | examples/crab-saber/src/systems/game.rs:225-301 | with distinct blue collisions, every cube hit is disposed of exactly once and the frame does not panic |
| CrabSaber.DoubleHitScoredOnce | examples/crab-saber/src/systems/game.rs:261-264 | a cube both sabers and the backstop touch in one frame is scored once, by the blue saber |
| CrabSaber.FirstClicked | examples/crab-saber/src/systems/game.rs:169 | the button chosen is the first clicked one, and none means no button was clicked |
| CrabSaber.Run | examples/crab-saber/src/systems/game.rs:159-217 | `Init` always moves to the menu; the menu starts the song of the first clicked button; a round fails when a spawn is due and no hidden cube of the drawn colour is left, disposes of the cubes it scored, and ends exactly when the score falls below zero or the music stops; every proposed move is allowed; game over fails without its button |
| CrabSaber.PlayingStartsAtZero | examples/crab-saber/src/systems/game.rs:91-93 | picking a song from the menu starts a round with the score at zero |
| CrabSaber.FirstOfColour | examples/crab-saber/src/systems/game.rs:206-212 | the cube `spawn_cube` revives is the first hidden one of the drawn colour, and none is found only when no hidden cube has that colour |
| CrabSaber.ScanSucceeds | examples/crab-saber/src/systems/game.rs:235-238 | a pass whose collisions are all in the world does not panic |
| CrabSaber.PlayFrameSucceeds | examples/crab-saber/src/systems/game.rs:176-182 | a frame of play with collisions in the world, distinct blue collisions and a hidden cube for any due spawn does not panic |
| InputContext.EdgesExclusive | hotham/src/contexts/input_context.rs:53-58 | a control is never both just pressed and just released, and one that did not change has neither edge |
| InputContext.Update | hotham/src/contexts/input_context.rs:339-518 | every control's previous value becomes its old current value and its current value the new reading; grip and trigger are pressed exactly above the 0.1 threshold; poses and velocity change only when the space is valid |
| InputContext.UpdateEdges | hotham/src/contexts/input_context.rs:346-418 | after an update a control is just pressed exactly when it reads pressed and was not before, and just released in the opposite case |
| InputContext.HeldControlHasNoEdge | hotham/src/contexts/input_context.rs:346-418 | a second update with the same readings shows no edge on any control |
| InputContext.LegacyUpdate | hotham/src/resources/input_context.rs:83-118 | each of A, B, X and Y keeps its old value as previous and takes the new reading as current |
| InputContext.LegacyEdges | hotham/src/resources/input_context.rs:26-79 | the earlier context reports a press exactly when the button reads pressed and was not, and a release in the opposite case |
| InputContext.ContextsAgree | hotham/src/resources/input_context.rs:20-34 | the earlier context's A button evolves exactly as the current context's right-hand A button |
| EditorInput.ProcessEvents | hotham-editor/src/input_context.rs:31-42 | the queue fails exactly when an event has no key code; otherwise the state follows the last event, holding its key if it was a press and idle otherwise |
| EditorInput.UpdatePose | hotham-editor/src/input_context.rs:51-89 | keys other than the six movement keys leave the camera where it is, and Space and LShift move it only vertically |
| EditorInput.Update | hotham-editor/src/input_context.rs:24-48 | the keyboard state after the update is the one the event queue leads to; an idle keyboard leaves the camera in place, and a held key moves it by `update_pose` at `INPUT_SPEED * delta_time` |
| EditorInput.ForwardBackCancel | hotham-editor/src/input_context.rs:61-70 | a step forward followed by a step back returns the camera to where it was |
| EditorInput.PressWMovesForward | hotham-editor/src/input_context.rs:120-122 | pressing W for one second moves the camera ten units forward |
| EditorInput.HoldingWKeepsMoving | hotham-editor/src/input_context.rs:124-126 | holding W for another second moves it ten units further |
| EditorInput.ReleaseWStops | hotham-editor/src/input_context.rs:128-130 | releasing W leaves the camera where it is |
| SimulatorInputs.ProcessEvent | hotham-simulator/src/inputs.rs:11-18 | an event with no key changes nothing; a press adds its key to the held set and a release removes it |
| SimulatorInputs.ProcessEventsSnoc | hotham-simulator/src/inputs.rs:11-18 | processing one more event is processing it after the earlier ones |
| SimulatorInputs.PressedReflectsLastEvent | hotham-simulator/src/inputs.rs:11-18 | a key is held after a run of events exactly when the last event about it was a press, or there was none and it was held before |
| SimulatorInputs.PressIdempotent | hotham-simulator/src/inputs.rs:14 | pressing a held key again changes nothing |
| SimulatorInputs.GetBoolean | hotham-simulator/src/action_state.rs:13-18 | an action never set reads false, and a set action reads its stored value |
| SimulatorInputs.AddBinding | hotham-simulator/src/action_state.rs:20-22 | binding a path points it at the action and leaves the other paths and all values alone |
| SimulatorInputs.Clear | hotham-simulator/src/action_state.rs:24-28 | clearing keeps the known actions and bindings and makes every action read false |
| SimulatorInputs.SetBoolean | hotham-simulator/src/action_state.rs:30-33 | setting through a path succeeds exactly when the path is bound, then the bound action reads the value and every other action reads as before |
| SimulatorInputs.BindThenSet | hotham-simulator/src/action_state.rs:20-33 | binding a path and then setting it is read back from the action |
| Sound.New | hotham/src/components/sound_emitter.rs:41-47 | a new emitter holds its frames, has no playback and no intent, so it reads as stopped |
| Sound.Clone | hotham/src/components/sound_emitter.rs:18-26 | a clone shares the frames but is a fresh, stopped emitter |
| Sound.CurrentState | hotham/src/components/sound_emitter.rs:50-63 | an emitter with no playback is stopped; otherwise it reads its playback's control |
| Sound.SetIntent | hotham/src/components/sound_emitter.rs:66-83 | `play` and `resume` ask for playing, `pause` for paused, `stop` for stopped, and nothing else changes |
| Sound.DispatchTable | hotham/src/systems/audio.rs:66-87 | play starts only a stopped sound, resume only a paused one; pause and stop act on any sound that is not stopped; no intent gives no command |
| Sound.Apply | hotham/src/systems/audio.rs:67-84 | playing creates a playback at the given relative position and velocity; no command leaves the emitter alone; other commands keep whether it has playback |
| Sound.UpdateMotion | hotham/src/systems/audio.rs:92-97 | the playback, if any, moves to the new relative position and velocity and keeps its control |
| Sound.StepEmitter | hotham/src/systems/audio.rs:66-97 | after its turn an emitter has no pending intent and any playback sits at the given relative position and velocity |
| Sound.IntentHonoured | hotham/src/systems/audio.rs:66-90 | after its turn a sound is in the state it asked for, except that a stopped sound cannot be paused; with no intent its state is unchanged |
| Sound.AudioSystem | hotham/src/systems/audio.rs:24-99 | an invalid listener pose or velocity changes nothing; otherwise exactly the emitters with a body take a turn, relative to the listener |
| Sound.SecondPassKeepsStates | hotham/src/systems/audio.rs:89-90 | after one pass with a valid listener, a second pass changes no sound's state |
| Sound.PlayFreshEmitter | hotham/src/systems/audio.rs:67-73 | playing a fresh emitter starts it, at the source's position and velocity relative to the listener |
| Transforms.Compose | hotham/src/systems/update_global_transform.rs:48 | the product applies the right-hand transform first, then the left-hand one |
| Transforms.ComposeAssociative | hotham/src/systems/update_global_transform.rs:47-53 | grouping does not matter, so the bottom-up walk and a top-down product agree |
| Transforms.ComposeIdentity | hotham/src/systems/update_global_transform.rs:53 | the identity is neutral on both sides |
| Transforms.ComposeTranslations | hotham/src/systems/update_global_transform.rs:181-186 | two translations compose to the translation by their sum |
| Transforms.Climb | hotham/src/systems/update_global_transform.rs:45-50 | the walk up stops at an entity outside the view of parented entities with a local transform |
| Transforms.ClimbIsTopDown | hotham/src/systems/update_global_transform.rs:41-50 | the walk stops at the top of the chain holding the product of the local transforms from there down, followed by the starting transform |
| Transforms.UnitStepsCount | hotham/src/systems/update_global_transform.rs:180-186 | when every step is the same translation, the product down a chain is that translation times the chain's length |
| Transforms.RootGlobal | hotham/src/systems/update_global_transform.rs:15-21 | an entity is a root with a global transform exactly when it has one and no parent |
| Transforms.Resolve | hotham/src/systems/update_global_transform.rs:37-54 | a child's global transform exists exactly when its chain ends at a root with a global transform, and is that root's transform followed by the chain's product |
| Transforms.UpdateGlobalTransform | hotham/src/systems/update_global_transform.rs:14-55 | the system succeeds exactly when every child resolves; it changes only global transforms, roots take their local transform and entities without one keep theirs |
| Transforms.ChildFollowsParent | hotham/src/systems/update_global_transform.rs:37-54 | afterwards every child's global transform is its parent's new global transform followed by its own local one |
| Transforms.UnitTranslationsAccumulate | hotham/src/systems/update_global_transform.rs:151-186 | with unit translations everywhere, an entity's global transform is its root's followed by the unit times its depth |
| Transforms.ThreeLevelChain | hotham/src/systems/update_global_transform.rs:69-104 | three entities each translated by (1, 1, 100): the child ends at (2, 2, 200) and the grandchild at (3, 3, 300) |
| Transforms.Absolute | hotham/src/systems/update_global_transform_with_parent.rs:30-44 | a linked entity's transform exists exactly when its chain ends at a root with a global transform, and is that root's transform followed by the `from_child` links' product |
| Transforms.UpdateWithParent | hotham/src/systems/update_global_transform_with_parent.rs:15-45 | the system succeeds exactly when every linked entity resolves; it keeps the links and the set of entities and leaves roots alone |
| Transforms.LinkedChildFollowsParent | hotham/src/systems/update_global_transform_with_parent.rs:30-44 | afterwards every linked entity's transform is its parent's new transform followed by its `from_child` link |
| Transforms.LinkedThreeLevelChain | hotham/src/systems/update_global_transform_with_parent.rs:60-96 | the same three-level chain through `from_child` links ends at (2, 2, 200) and (3, 3, 300) |
| Grabbing.Closest | hotham/src/systems/grabbing.rs:48-66 | the search fails exactly when a grabbable collision has no local transform; it finds nothing exactly when no collision is grabbable; otherwise it picks a grabbable collision nearest the grip, the first of any ties |
| Grabbing.RunCommand | hotham/src/systems/grabbing.rs:102 | a queued command changes only its own entity and never adds or removes one |
| Grabbing.RunCommands | hotham/src/systems/grabbing.rs:102 | running the queue never adds or removes an entity |
| Grabbing.HandTurn | hotham/src/systems/grabbing.rs:39-99 | a hand still gripping from an earlier frame does nothing, and no hand adds or removes an entity |
| Grabbing.Hands | hotham/src/systems/grabbing.rs:35-100 | every hand takes a turn and the world keeps its entities |
| Grabbing.OneHand | hotham/src/systems/grabbing.rs:35-100 | with one hand the loop is exactly that hand's turn |
| Grabbing.ClearReleased | hotham/src/systems/grabbing.rs:20-31 | every `Released` marker from the previous frame is removed and nothing else changes |
| Grabbing.GrabbingSystem | hotham/src/systems/grabbing.rs:19-103 | the system keeps the world's entities and updates every hand |
| Grabbing.GrabTakesClosest | hotham/src/systems/grabbing.rs:67-85 | a hand that has just pressed its grip while touching something grabbable holds the nearest one, which is then `Grabbed`, has no parent and is not `Released` |
| Grabbing.ClosestIgnoresReleased | hotham/src/systems/grabbing.rs:20-66 | clearing the `Released` markers does not change which entity is nearest |
| Grabbing.ReleaseLetsGo | hotham/src/systems/grabbing.rs:86-98 | a hand that lets go holds nothing; the entity it held is `Released`, not `Grabbed`, and any rigid body it has becomes dynamic |
| Grabbing.NothingGrabbableNothingGrabbed | hotham/src/systems/grabbing.rs:48-67 | pressing the grip with nothing grabbable in reach changes nothing but the cleared markers |
| AssetImporter.ColliderMeshIds | hotham/src/asset_importer/mod.rs:206-219 | a mesh is collider geometry exactly when some node whose name contains the collider tag uses it |
| AssetImporter.MeshesToLoad | hotham/src/asset_importer/mod.rs:136-145 | exactly the meshes that are not collider geometry are loaded, in document order |
| AssetImporter.TagsExtendColliderTag | hotham/src/asset_importer/mod.rs:26-28 | a name ending with the wall or sensor tag contains the collider tag |
| AssetImporter.ColliderGeometryNotRendered | hotham/src/asset_importer/mod.rs:136-145 | the mesh of a wall or sensor collider node is never loaded as a render mesh |
| AssetImporter.ModelNames | hotham/src/asset_importer/mod.rs:159-179 | import fails exactly when a root that is not wall geometry has no name; otherwise the models are exactly the named roots that are not wall geometry |
| AssetImporter.FindWallCollider | hotham/src/asset_importer/mod.rs:359-374 | a wall collider is found exactly when some node is named after the node plus the wall tag and has a mesh, and the one found is the first such node in document order |
| AssetImporter.ColliderForNode | hotham/src/asset_importer/mod.rs:306-357 | an unnamed node has no collider; a sensor-tagged node has a collider exactly when it has a mesh, and it is a sensor in the sensor group that reacts to every collision type and uses that mesh; any other named node has a collider exactly when its wall node exists, and it is a non-sensor in the wall group, not reacting to every type, using the first wall node's mesh |
| AssetImporter.WallSuffixNotSensor | hotham/src/asset_importer/mod.rs:27-28 | no name ends with both tags, so a wall collider is never a sensor |
| AssetImporter.CopyEntity | hotham/src/asset_importer/mod.rs:458-551 | a copy keeps its verbatim components and root marker; a root given a parent takes that parent; any other parent moves to the copy of the source parent |
| AssetImporter.CopyModel | hotham/src/asset_importer/mod.rs:448-551 | the copies occupy exactly the reserved entities, each the copy of its source entity |
| AssetImporter.FirstRoot | hotham/src/asset_importer/mod.rs:554 | the root found is the first entity with the root marker, and none means the model has no root |
| AssetImporter.AddModelToWorld | hotham/src/asset_importer/mod.rs:438-562 | an unknown name gives `None`; a known model is copied exactly when its references stay inside it and it has a root; the destination keeps its own entities and gains exactly the reserved ones, the entity at `base + e` being source entity `e` copied with its references shifted by `base` and the parent applied, and the returned root is the copy of the model's first root entity |
| AssetImporter.CopyRoundTrip | hotham/src/asset_importer/mod.rs:452-517 | mapping a copied entity's references back gives the source entity, unless it is a root given a new parent |
| AssetImporter.CopyKeepsReferencesInside | hotham/src/asset_importer/mod.rs:486-532 | every parent, joint and animation target of a copied entity is one of the reserved entities |
| Engine.CreateTrackingEntities | hotham/src/engine.rs:116-129 | two new, distinct entities with identity transforms are added, the HMD parented to the stage and the stage a root; nothing else changes |
| Engine.HmdGlobalIsPoseInStage | hotham/src/engine.rs:244-251 | with the stage at the origin, the HMD's global transform after the transform system is its pose in the stage |
| Engine.End | hotham/src/engine.rs:178-189 | each frame's time is recorded in whole milliseconds; at least a second after the last report the timings are reported and cleared, and the report is the integer average of the recorded times |
| Engine.SumBounds | hotham/src/engine.rs:184 | the sum of the recorded times lies between their count times the shortest and their count times the longest |
| Engine.AverageBetweenExtremes | hotham/src/engine.rs:183-188 | the reported average lies between the shortest and the longest recorded frame time |
| Engine.QuotientBetween | hotham/src/engine.rs:184 | an integer quotient of a sum bounded by `lo * n` and `hi * n` lies between `lo` and `hi` |
| Engine.Pass1 | hotham/src/engine.rs:221-299 | the quit flag ends the loop at once with nothing done, and a failed `poll_xr_event` returns its error with nothing done; a frame is returned only when `wait_frame` says to render and neither polling nor `begin_frame` failed; an OpenXR error or the `begin_frame` panic only when some call failed |
| Engine.Update | hotham/src/engine.rs:220-300 | a frame is returned only if some pass said to render; an OpenXR error or the `begin_frame` panic only if some pass had a failing call; a quit flag on the first pass shuts down with nothing done, and otherwise a failed poll on it returns that error with nothing done |
| Engine.DispatchTable | hotham/src/engine.rs:233-298 | a failed poll returns its error; otherwise idle keeps polling, sleeping unless the session just stopped; exiting or loss pending shuts down; stopping ends the session and keeps polling exactly when `end_session` succeeds, returning its error otherwise; the session begins exactly on idle to ready, and a failed begin returns its error; in the other states `begin_frame` panics exactly when it fails, and a frame is returned exactly when it succeeds while rendering |
| Engine.TickCarriesStates | hotham/src/engine.rs:286-296 | a returned frame carries the states on either side of the polled event and the acquired image's index, and the context is rendering |
| Engine.Finish | hotham/src/engine.rs:303-312 | the render frame is ended exactly when rendering; with nothing to render no layer is submitted; with two views the image is released; the frame's time is recorded or the timings were just reported |
| XrContext.New | hotham/src/contexts/xr_context/mod.rs:116-139 | a new context is idle, not rendering, with no view flags and two default views |
| XrContext.PollXrEvent | hotham/src/contexts/xr_context/mod.rs:144-162 | only a state-change event changes the tracked state, and the tracked state is returned |
| XrContext.BeginFrame | hotham/src/contexts/xr_context/mod.rs:164-179 | the frame state is kept, and an image is acquired exactly when the frame is to be rendered |
| XrContext.UpdateViews | hotham/src/contexts/xr_context/mod.rs:181-197 | located views and flags replace the kept ones only when valid; otherwise nothing changes |
| XrContext.EndFrame | hotham/src/contexts/xr_context/mod.rs:199-248 | without rendering nothing is submitted and no image released; with rendering the image is released and one layer holds both eyes' views, each on its own array layer; fewer than two views fail |
| XrContext.BeginEndAgree | hotham/src/contexts/xr_context/mod.rs:164-206 | a frame begun without rendering ends with nothing submitted, one begun with rendering submits a layer and releases the image |
| XrContext.ViewCountKept | hotham/src/contexts/xr_context/mod.rs:181-197 | from the two views of a new context, an invalid location keeps both and a valid one keeps what was located; a rendered frame's end then panics exactly when a valid location reported fewer than two views |
| Navigation.ApplyCompose | examples/shared/src/navigation.rs:79-84 | applying a product of poses applies the right-hand one first |
| Navigation.Reanchor | examples/shared/src/navigation.rs:78-88 | the new stage puts the hand's grip exactly where the stored grip was, and stage then grip equals the stored grip then the scale |
| Navigation.UpdateGrips | examples/shared/src/navigation.rs:51-68 | a grip is stored exactly while its button is held and it was just pressed or already stored (the right grip also when the left is just released); a fresh grip is the stage followed by the hand; the scale survives only while the left grip is held |
| Navigation.Adjust | examples/shared/src/navigation.rs:70-121 | only two hands whose re-anchored grips coincide fail; with fewer than two grips the state is unchanged; with no grip the stage is unchanged |
| Navigation.NavigationSystem | examples/shared/src/navigation.rs:25-122 | a hand touching anything leaves the state and stage alone; with neither grip held the state is cleared and the stage kept |
| Navigation.GripStaysFixed | examples/shared/src/navigation.rs:70-88 | with one grip stored, the new stage keeps that hand's grip at its stored pose, scaled by any remembered scale |
| Navigation.GrabDoesNotJump | examples/shared/src/navigation.rs:52-54 | grabbing with the left hand alone stores the grip and leaves the stage where it was |
| Navigation.SwitchingHandsDoesNotJump | examples/shared/src/navigation.rs:58-61 | letting go with the left hand while the right grips re-anchors the right hand and leaves the stage where it was |
| Navigation.SpanUnderPose | examples/shared/src/navigation.rs:97-106 | a Euclidean distance between two points moved by a pose is the original distance times the pose's scale |
| Navigation.ReanchoredSpan | examples/shared/src/navigation.rs:78-106 | re-anchoring at one hand with scale factor `k` multiplies the hands' Euclidean distance by `abs(scale * k)` |
| Navigation.RatioRestores | examples/shared/src/navigation.rs:107 | dividing the stored span by the current one gives a non-negative ratio that restores the span |
| Navigation.ScaledSpan | examples/shared/src/navigation.rs:97-118 | re-anchoring with the computed scale makes the hands' distance the stored span |
| Navigation.TwoHandsKeepTheirSpan | examples/shared/src/navigation.rs:89-119 | with both grips stored, the scale is remembered, the left grip stays at its stored point, and the hands are as far apart as the stored grips |
| DrawGui.Paint | hotham/src/systems/draw_gui.rs:26-31 | painting a panel clicks a button exactly when it was already clicked or the user clicked it, and reports hovering exactly when some button is hovered |
| DrawGui.ResetClicks | hotham/src/systems/draw_gui.rs:22-24 | every button's click is cleared and nothing else changes |
| DrawGui.DrawPanels | hotham/src/systems/draw_gui.rs:19-32 | each panel is reset then painted, and hovering is reported when any button of any panel is hovered |
| DrawGui.DrawGuiSystem | hotham/src/systems/draw_gui.rs:7-41 | the context records this frame's hovering for the next frame, and a haptic pulse is requested exactly when hovering starts |
| DrawGui.ClicksLastOneFrame | hotham/src/systems/draw_gui.rs:22-31 | a button is clicked after drawing exactly when this frame's painting clicked it |
| DrawGui.OnePulsePerHover | hotham/src/systems/draw_gui.rs:34-40 | hovering over two consecutive frames asks for no pulse on the second |

## Left out

- Vulkan and OpenXR calls (device, swapchain, pipeline and descriptor creation, command recording, the OpenXR loader tables). These are foreign calls. Where a modelled operation depends on one, its outcome is a parameter; for `update` that includes whether `poll_event`, `session.begin`, `session.end` and the calls in `begin_frame` return an error.
- GPU frustum culling and camera, projection and plane math. The shader runs on the GPU and the math is floating point. The cull results the batching scan reads are a parameter.
- Floating point. Poses, analog values, thresholds, alpha cutoffs and timings are `real`, with no rounding.
- Quaternion rotation is left out. Transforms are uniform-scale affine maps (scale, translation) composed associatively, which covers the translation and scale chains the transform tests exercise.
- Physics (rapier), audio playback (oddio), egui painting and haptics hardware. Their results are parameters: collisions, rigid-body kinds, playback handles, GUI button responses.
- Threads, tokio, QUIC and websockets, file watching and sleeping. The asset server's file readings and file contents are parameters of one pass.
- Wall clocks. `Instant::now()` is a parameter, and `Instant` subtraction saturates at zero as Rust's does. Printing of the performance timers is omitted; only the average and the clearing are modelled.
- Hash-map and hecs query iteration order is a parameter (a sequence). Entities that `add_model_to_world` creates take dense fresh ids starting at a given base.
- Mesh, skin and animation decoding from glTF, and texture decoding (KTX2, PNG). Only the material fields, the collider tags and the entity remapping are modelled.
- Raw-memory payloads. Structs `transmute`d to and from bytes in the editor protocol are byte sequences of a given `size_of`. `RequestHeader` is not `repr(C)`, so Rust does not fix its field order; the model takes the declared order (length, then tag). `send_response` uses `write` rather than `write_all`, so a short write could send part of a frame; the model takes every write as complete.
- hotham/src/util.rs is not part of this model.
- AssetMessage.Read: an out-of-range tag byte is undefined behaviour in the source (a `transmute` to the enum). The model reports it as a failure.
- Resources.WriteTextureToArray: the `+= 1` on the texture count is modelled with debug-build overflow checks, so reaching `u32::MAX` is a failure. A release build wraps the count to 0 instead.
- Resources.WriteCubeTextureToArray: the same debug-build reading of the cube count's `+= 1`; a release build wraps it to 0.
- Resources.HandlesAreFresh: holds for debug builds, where the count cannot wrap. In a release build, handles repeat after 2^32 registrations.
- Texture.AddAlphaChannel: the u32 product `height * width * 4` is modelled with debug-build overflow checks (a failure). A release build wraps it and allocates the truncated size.
- GpuBuffer.PushAllIsAppend: stated only within the u32 index range. Past it, `push` writes at `len` modulo 2^32 (GpuBuffer.Push) and no longer appends.
- MaterialImport.Load: pushing onto a full materials buffer is a failure here. The source's unchecked `push` writes past the mapped memory.
- EditorProtocol.ReadRequestHeader: a tag other than 0 or 1 is undefined behaviour in the source (a `transmute` to the enum). The model reports it as a failure.
- EditorProtocol.ReadRequestPayload: a payload shorter than the value's size is a failure here. The source returns `Ok`, taking the rest of the value from whatever the 1 MiB buffer last held (zeros at first).
- EditorProtocol.GetRequest: inherits the two departures above, for an invalid tag and for a short payload.
- EditorProtocol.GetResponse: a message shorter than the value's size is a failure here. The source returns `Ok`, with the rest of the value taken from stale buffer bytes.
- CrabSaber.Run: the frame's `world` is the world as `check_for_hits` sees it, after any spawn. `revive_cube`'s placement and velocity, the score panel's text, sound playback and haptic requests are not modelled beyond the tally's records. A clicked flag past the panel's buttons is ignored.
- CrabSaber.HitsAreDisposable: requires the blue saber's hit list to be duplicate-free. The blue scan does not consult the dispose list the red scan and the backstop use, so with a repeated blue hit the source would dispose one entity twice.
- Navigation.Adjust: a zero span between the two grips is a failure. The source divides by it and continues with infinity or NaN. Distance is the Euclidean norm, taken as a parameter.
- Navigation.NavigationSystem: grips are translation plus uniform scale; the rotation part of the stage pose is not modelled.
- Grabbing.GrabbingSystem: the grip transform is translation only. On release a kinematic body becomes dynamic, kept as written although the source marks this as a known problem.
- Transforms.UpdateGlobalTransform: parent chains must be acyclic (given as a rank that strictly decreases along Parent). On a cycle the source loops forever.
- InstanceBatching.DrawWorld: requires primitive ids other than `u32::MAX`, which the scan uses as its "no group yet" marker (ids are index-buffer offsets, far below it). It also requires the cull list to hold every triangle result before every quadric result, which is how `begin` builds it (PrimitiveMap.CullListPrepared).
- CustomRendering.Begin: assumes triangle index-buffer offsets below 2^31 and quadric offsets below 2^31 - 1 (`OffsetsInRange`). The source checks neither. A triangle offset with bit 31 set would be read as a quadric key (custom_rendering.rs:252), and a quadric offset of 2^31 - 1 would flag to the scan's `u32::MAX` marker. Offsets index the shared index buffer, which is far smaller.
- CustomRendering.BeginPrepares: the same offset assumption as CustomRendering.Begin.
- CustomRendering.BeginKeys: the same offset assumption as CustomRendering.Begin.
- CustomRendering.RenderFrame: the same offset assumption as CustomRendering.Begin.
- ComplexScene.RenderFrame: assumes index-buffer offsets are u32 values other than `u32::MAX`, the scan's "no group yet" marker (`OffsetsInRange`). The source does not check this; its offsets index a far smaller buffer.
- Sound.AudioSystem: the listener is the successful result of the runtime's `relate` call. When that call fails the source panics on `unwrap`; that path is not modelled.
- Engine.Pass1: `check_for_worker_messages`, the input context's update and the HMD entity's transform write are not modelled here (InputContext.Update and Engine.HmdGlobalIsPoseInStage cover the last two). `update_views` panics on a `locate_views` error (`unwrap`); the model takes `locate_views` to succeed.
- Engine.Update: inherits Engine.Pass1's departures, the unmodelled `locate_views` panic among them.
- XrContext.BeginFrame: only the `NotRendering` outcome is an error here. The errors of `wait`, `begin`, `acquire_image`, `wait_image` and `sync_actions` are a flag of Engine.Pass1's pass, which turns them into the engine's panic.
- SimulatorSession.PollEvent: from SYNCHRONIZED the simulator moves straight to FOCUSED, skipping VISIBLE, as its code does.
- OpenXrArrays.SetArray: a non-zero capacity copies the items but leaves the output count untouched, as the client does.
- Legacy and stub crates that do not build against the current API, benches, build scripts and Blender scripts.

=== FILE: asset_importer.dfy ===
/** The parts of the glTF importer that decide what becomes what: which
    meshes are collider geometry rather than render meshes, which root
    nodes become models, which collider a node gets, and how a model's
    entities are copied into a destination world with every reference
    between them remapped. Mesh, material, skin and animation decoding
    is not part of this model. */
module AssetImporter {
  import opened Wrappers

  // Panic and error messages, as the source words them.
  const NODE_WITHOUT_NAME := "Node has no name!"
  const OUTSIDE_MODEL := "reference to an entity outside the model"
  const NO_ROOT := "model has no root"

  const COLLIDER_TAG: string := ".HOTHAM_COLLIDER"
  const WALL_COLLIDER_TAG: string := ".HOTHAM_COLLIDER_WALL"
  const SENSOR_COLLIDER_TAG: string := ".HOTHAM_COLLIDER_SENSOR"

  predicate EndsWith(s: string, suffix: string) {
    |suffix| <= |s| && s[|s| - |suffix|..] == suffix
  }

  predicate OccursAt(s: string, t: string, i: nat) {
    i + |t| <= |s| && s[i..i + |t|] == t
  }

  predicate ContainsStr(s: string, t: string) {
    exists i: nat | i <= |s| :: OccursAt(s, t, i)
  }

  /** A glTF node as the importer sees it: its optional name and the index
      of its optional mesh. */
  datatype Node = Node(name: Option<string>, mesh: Option<nat>)

  /** `name().unwrap_or_default()`. */
  function NameOrEmpty(n: Node): string {
    if n.name.Some? then n.name.value else ""
  }

  predicate IsColliderNode(n: Node) {
    ContainsStr(NameOrEmpty(n), COLLIDER_TAG)
  }

  /** `get_collider_mesh_ids`: the meshes of the nodes whose name contains
      the collider tag, in node order. */
  function ColliderMeshIds(nodes: seq<Node>): (ids: seq<nat>)
    ensures forall m :: m in ids <==> exists k :: 0 <= k < |nodes| && IsColliderNode(nodes[k]) && nodes[k].mesh == Some(m)
    decreases |nodes|
  {
    if |nodes| == 0 then []
    else
      var n := |nodes| - 1;
      var before := ColliderMeshIds(nodes[..n]);
      assert forall k :: 0 <= k < n ==> nodes[..n][k] == nodes[k];
      if IsColliderNode(nodes[n]) && nodes[n].mesh.Some? then before + [nodes[n].mesh.value] else before
  }

  /** The meshes loaded for rendering: every mesh of the document, in
      order, that is not collider geometry. */
  function MeshesToLoad(meshCount: nat, colliderIds: seq<nat>): (r: seq<nat>)
    ensures forall m: nat :: m in r <==> m < meshCount && m !in colliderIds
    ensures forall i, j :: 0 <= i < j < |r| ==> r[i] < r[j]
  {
    if meshCount == 0 then []
    else
      var before := MeshesToLoad(meshCount - 1, colliderIds);
      if meshCount - 1 in colliderIds then before
      else
        assert forall i :: 0 <= i < |before| ==> before[i] in before;
        before + [meshCount - 1]
  }

  /** Both collider tags extend the generic one. */
  lemma TagsExtendColliderTag(name: string)
    requires EndsWith(name, WALL_COLLIDER_TAG) || EndsWith(name, SENSOR_COLLIDER_TAG)
    ensures ContainsStr(name, COLLIDER_TAG)
  {
    var suffix := if EndsWith(name, WALL_COLLIDER_TAG) then WALL_COLLIDER_TAG else SENSOR_COLLIDER_TAG;
    var i: nat := |name| - |suffix|;
    assert name[i..i + |COLLIDER_TAG|] == suffix[..|COLLIDER_TAG|];
    assert OccursAt(name, COLLIDER_TAG, i);
  }

  /** The geometry of a wall or sensor collider node is never loaded as a
      render mesh. */
  lemma ColliderGeometryNotRendered(nodes: seq<Node>, meshCount: nat, k: nat)
    requires k < |nodes| && nodes[k].mesh.Some?
    requires EndsWith(NameOrEmpty(nodes[k]), WALL_COLLIDER_TAG) || EndsWith(NameOrEmpty(nodes[k]), SENSOR_COLLIDER_TAG)
    ensures nodes[k].mesh.value !in MeshesToLoad(meshCount, ColliderMeshIds(nodes))
  {
    TagsExtendColliderTag(NameOrEmpty(nodes[k]));
  }

  /** The scene's root nodes that become models, under their names. Wall
      collider geometry is skipped; any other root without a name panics
      on `expect`. */
  function ModelNames(roots: seq<Node>): (r: Result<seq<string>, string>)
    ensures r.Success? <==> forall k :: 0 <= k < |roots| && !EndsWith(NameOrEmpty(roots[k]), WALL_COLLIDER_TAG) ==> roots[k].name.Some?
    ensures r.Success? ==> forall s :: s in r.value <==>
      exists k :: 0 <= k < |roots| && roots[k].name == Some(s) && !EndsWith(s, WALL_COLLIDER_TAG)
    decreases |roots|
  {
    if |roots| == 0 then Success([])
    else
      var n := |roots| - 1;
      assert forall k :: 0 <= k < n ==> roots[..n][k] == roots[k];
      var before :- ModelNames(roots[..n]);
      if EndsWith(NameOrEmpty(roots[n]), WALL_COLLIDER_TAG) then Success(before)
      else if roots[n].name.None? then Failure(NODE_WITHOUT_NAME)
      else Success(before + [roots[n].name.value])
  }

  /** Collision groups of the two imported collider kinds. */
  datatype CollisionGroup = WallCollisionGroup | SensorCollisionGroup

  /** The collider fields the importer sets; `mesh` stands for the convex
      shape built from that mesh's geometry. */
  datatype Collider = Collider(sensor: bool, collisionGroups: CollisionGroup, allCollisionTypes: bool, mesh: nat)

  /** `find_wall_collider_for_node`: the first node, in document order,
      named `name` followed by the wall tag that also has a mesh. */
  function FindWallCollider(name: string, nodes: seq<Node>): (r: Option<(string, nat)>)
    ensures r.Some? ==> r.value.0 == name + WALL_COLLIDER_TAG
    ensures r.Some? <==> exists k :: 0 <= k < |nodes| && nodes[k].name == Some(name + WALL_COLLIDER_TAG) && nodes[k].mesh.Some?
    ensures r.Some? ==> exists k ::
      && 0 <= k < |nodes| && nodes[k] == Node(Some(name + WALL_COLLIDER_TAG), Some(r.value.1))
      && (forall j :: 0 <= j < k ==> !(nodes[j].name == Some(name + WALL_COLLIDER_TAG) && nodes[j].mesh.Some?))
  {
    if |nodes| == 0 then None
    else if nodes[0].name == Some(name + WALL_COLLIDER_TAG) && nodes[0].mesh.Some? then Some((nodes[0].name.value, nodes[0].mesh.value))
    else
      var r := FindWallCollider(name, nodes[1..]);
      assert forall k :: 1 <= k < |nodes| ==> nodes[k] == nodes[1..][k - 1];
      r
  }

  /** `get_collider_for_node`: a node named with the sensor tag is its own
      sensor collider; any other named node gets the wall collider named
      after it, if the document has one. */
  function ColliderForNode(node: Node, nodes: seq<Node>): (r: Option<Collider>)
    ensures node.name.None? ==> r.None?
    ensures r.Some? ==> (r.value.sensor <==> EndsWith(node.name.value, SENSOR_COLLIDER_TAG))
    ensures r.Some? ==> (r.value.sensor <==> r.value.collisionGroups == SensorCollisionGroup)
    ensures r.Some? && r.value.sensor ==> r.value.allCollisionTypes && Some(r.value.mesh) == node.mesh
    ensures node.name.Some? && !EndsWith(node.name.value, SENSOR_COLLIDER_TAG) ==>
      (r.Some? <==> FindWallCollider(node.name.value, nodes).Some?)
    ensures node.name.Some? && !EndsWith(node.name.value, SENSOR_COLLIDER_TAG) && r.Some? ==>
      && r.value.mesh == FindWallCollider(node.name.value, nodes).value.1
      && r.value.collisionGroups == WallCollisionGroup && !r.value.allCollisionTypes
    ensures node.name.Some? && EndsWith(node.name.value, SENSOR_COLLIDER_TAG) ==> (r.Some? <==> node.mesh.Some?)
  {
    if node.name.None? then None
    else
      var name := node.name.value;
      var found :=
        if EndsWith(name, SENSOR_COLLIDER_TAG) then
          (if node.mesh.Some? then Some((name, node.mesh.value)) else None)
        else FindWallCollider(name, nodes);
      match found
      case None => None
      case Some(pair) =>
        if EndsWith(pair.0, WALL_COLLIDER_TAG) then
          WallSuffixNotSensor(pair.0);
          Some(Collider(false, WallCollisionGroup, false, pair.1))
        else Some(Collider(true, SensorCollisionGroup, true, pair.1))
  }

  /** No name ends with both tags. */
  lemma WallSuffixNotSensor(s: string)
    requires EndsWith(s, WALL_COLLIDER_TAG)
    ensures !EndsWith(s, SENSOR_COLLIDER_TAG)
  {
    assert s[|s| - 1] == 'L';
  }

  // ---------------------------------------------------------------------
  // add_model_to_world

  /** An entity's components, as far as copying is concerned: the three
      that refer to other entities (`Parent`, the joints of a `Skin`, the
      targets of an `AnimationController`), the `Root` marker, and
      `cloned`, which stands for the components copied verbatim (local and
      global transforms, mesh, info, visibility, collider). */
  datatype Components = Components(
    parent: Option<nat>, joints: Option<seq<nat>>, targets: Option<seq<nat>>, root: bool, cloned: nat)

  /** A destination world. */
  type World = map<nat, Components>

  /** A model's own world: its entities are `0 .. |model|`, in iteration
      order. */
  type Model = seq<Components>

  predicate RefsBelow(c: Components, n: nat) {
    && (c.parent.Some? ==> c.parent.value < n)
    && (c.joints.Some? ==> forall i :: 0 <= i < |c.joints.value| ==> c.joints.value[i] < n)
    && (c.targets.Some? ==> forall i :: 0 <= i < |c.targets.value| ==> c.targets.value[i] < n)
  }

  /** Every reference in the model stays inside it; the copy's `unwrap`s on
      the entity map panic otherwise. */
  predicate Closed(model: Model) {
    forall e :: 0 <= e < |model| ==> RefsBelow(model[e], |model|)
  }

  function Shift(es: seq<nat>, base: nat): (r: seq<nat>)
    ensures |r| == |es| && forall i :: 0 <= i < |es| ==> r[i] == base + es[i]
  {
    seq(|es|, i requires 0 <= i < |es| => base + es[i])
  }

  /** One entity's copy, with every reference moved to the reserved
      entities. A root is given the requested parent instead of its own,
      when one is given. */
  function CopyEntity(c: Components, base: nat, parent: Option<nat>): (r: Components)
    ensures r.root == c.root && r.cloned == c.cloned
    ensures c.root && parent.Some? ==> r.parent == parent
    ensures !(c.root && parent.Some?) ==> (r.parent.Some? <==> c.parent.Some?)
    ensures !(c.root && parent.Some?) && c.parent.Some? ==> r.parent.value == base + c.parent.value
  {
    var p := if c.root && parent.Some? then parent
      else if c.parent.Some? then Some(base + c.parent.value) else None;
    Components(p,
      if c.joints.Some? then Some(Shift(c.joints.value, base)) else None,
      if c.targets.Some? then Some(Shift(c.targets.value, base)) else None,
      c.root, c.cloned)
  }

  /** The copies of the first `n` model entities, at `base .. base + n`. */
  function CopyModel(model: Model, base: nat, n: nat, parent: Option<nat>): (c: World)
    requires n <= |model|
    ensures forall e :: e in c <==> base <= e < base + n
    ensures forall e :: base <= e < base + n ==> c[e] == CopyEntity(model[e - base], base, parent)
  {
    if n == 0 then map[]
    else CopyModel(model, base, n - 1, parent)[base + n - 1 := CopyEntity(model[n - 1], base, parent)]
  }

  /** `query::<&Root>().iter().next()`: the first root entity. */
  function FirstRoot(model: Model): (r: Option<nat>)
    ensures r.Some? ==> r.value < |model| && model[r.value].root
    ensures r.Some? ==> forall k :: 0 <= k < r.value ==> !model[k].root
    ensures r.None? ==> forall k :: 0 <= k < |model| ==> !model[k].root
  {
    if |model| == 0 then None
    else if model[0].root then Some(0)
    else
      var r := FirstRoot(model[1..]);
      if r.None? then None else Some(r.value + 1)
  }

  /** `add_model_to_world`: `None` for an unknown model name; otherwise the
      destination world with the model's entities copied into the
      reserved entities `base ..` and the copy of the model's root.
      `Failure` stands for the panics: a reference outside the model, or a
      model without a root. */
  function AddModelToWorld(name: string, models: map<string, Model>, dest: World, base: nat, parent: Option<nat>)
    : (r: Result<Option<(World, nat)>, string>)
    requires forall e :: e in dest ==> e < base
    ensures name !in models <==> r == Success(None)
    ensures name in models ==>
      (r.Success? <==> Closed(models[name]) && exists k :: 0 <= k < |models[name]| && models[name][k].root)
    ensures r.Success? && r.value.Some? ==>
      name in models && Added(dest, models[name], base, parent, r.value.value.0, r.value.value.1)
  {
    if name !in models then Success(None)
    else
      var model := models[name];
      if !Closed(model) then Failure(OUTSIDE_MODEL)
      else
        var first := FirstRoot(model);
        if first.None? then Failure(NO_ROOT)
        else
          MergeCopies(dest, model, base, parent);
          Success(Some((dest + CopyModel(model, base, |model|, parent), base + first.value)))
  }

  /** `w` is `dest` with `model` added at `base`, and `root` is the copy
      of the model's first root entity: the destination keeps its own
      entities, gains exactly the reserved ones, each the remapped copy of
      its source entity. */
  ghost predicate Added(dest: World, model: Model, base: nat, parent: Option<nat>, w: World, root: nat) {
    && (forall e :: e in w <==> e in dest || base <= e < base + |model|)
    && (forall e :: e in dest ==> w[e] == dest[e])
    && (forall e :: 0 <= e < |model| ==> base + e in w && w[base + e] == CopyEntity(model[e], base, parent))
    && base <= root < base + |model| && model[root - base].root
    && (forall k :: 0 <= k < root - base ==> !model[k].root)
  }

  /** The destination world after the copy: its own entities unchanged,
      and entity `base + e` the copy of the model's entity `e`. */
  lemma MergeCopies(dest: World, model: Model, base: nat, parent: Option<nat>)
    requires forall e :: e in dest ==> e < base
    requires FirstRoot(model).Some?
    ensures Added(dest, model, base, parent, dest + CopyModel(model, base, |model|, parent), base + FirstRoot(model).value)
  {
    var copied := CopyModel(model, base, |model|, parent);
    forall e | 0 <= e < |model|
      ensures (dest + copied)[base + e] == CopyEntity(model[e], base, parent)
    {
      assert base + e in copied && base + e !in dest;
    }
  }

  /** The reference pulled back from the reserved entities. */
  function Unshift(es: seq<nat>, base: nat): (r: seq<nat>)
    ensures |r| == |es|
  {
    seq(|es|, i requires 0 <= i < |es| => if es[i] >= base then es[i] - base else es[i])
  }

  function Unmap(c: Components, base: nat): Components {
    Components(
      if c.parent.Some? && c.parent.value >= base then Some(c.parent.value - base) else c.parent,
      if c.joints.Some? then Some(Unshift(c.joints.value, base)) else None,
      if c.targets.Some? then Some(Unshift(c.targets.value, base)) else None,
      c.root, c.cloned)
  }

  /** The copy is faithful: pulling every reference of a copied entity back
      to the model's entities gives the model's entity, except that a root
      given an explicit parent has that parent. */
  lemma CopyRoundTrip(model: Model, base: nat, parent: Option<nat>, e: nat)
    requires e < |model| && !(model[e].root && parent.Some?)
    ensures Unmap(CopyModel(model, base, |model|, parent)[base + e], base) == model[e]
  {
    var c := model[e];
    var copy := CopyEntity(c, base, parent);
    if c.joints.Some? {
      assert Unshift(copy.joints.value, base) == c.joints.value;
    }
    if c.targets.Some? {
      assert Unshift(copy.targets.value, base) == c.targets.value;
    }
  }

  /** References keep their structure: a copied entity's parent is the
      copy of its parent, so the copy of a closed model is closed among the
      reserved entities. */
  lemma CopyKeepsReferencesInside(model: Model, base: nat, parent: Option<nat>, e: nat)
    requires Closed(model) && e < |model| && parent.None?
    ensures var c := CopyModel(model, base, |model|, parent);
      RefsInsideRange(c[base + e], base, base + |model|)
  {
    assert RefsBelow(model[e], |model|);
  }

  predicate RefsInsideRange(c: Components, lo: nat, hi: nat) {
    && (c.parent.Some? ==> lo <= c.parent.value < hi)
    && (c.joints.Some? ==> forall i :: 0 <= i < |c.joints.value| ==> lo <= c.joints.value[i] < hi)
    && (c.targets.Some? ==> forall i :: 0 <= i < |c.targets.value| ==> lo <= c.targets.value[i] < hi)
  }
}

=== FILE: asset_message.dfy ===
/** The asset server's wire messages: a one-byte tag, the payload length as
    a big-endian `u64`, then the payload. Names and error texts travel as
    UTF-8; asset contents as raw bytes. */
module AssetMessage {
  import opened Bytes
  import opened Wrappers

  // Panic and error messages, as the source words them.
  const INVALID_UTF8 := "invalid utf-8"
  const INVALID_MESSAGE_TYPE := "Invalid message type"
  const BUFFER_SHORTER_THAN_HEADER := "buffer shorter than the header"
  const EOF_IN_HEADER := "stream ended in the header"
  const LONGER_THAN_BUFFER := "message longer than the buffer"
  const EOF_IN_PAYLOAD := "stream ended in the payload"
  const INVALID_TAG := "invalid tag"

  /** `MessageType`; the discriminant is the tag byte. */
  datatype MessageType = GetAssetType | WatchAssetType | AssetUpdatedType | OkType | ErrorType | AssetType | InvalidType

  /** `Message`. The text variants carry the bytes of a Rust `str`, so those
      bytes are always valid UTF-8 (`Valid`). */
  datatype Message =
    | GetAsset(name: seq<u8>)
    | WatchAsset(name: seq<u8>)
    | AssetUpdated(name: seq<u8>)
    | Ok
    | Error(text: seq<u8>)
    | Asset(data: seq<u8>)

  function Tag(t: MessageType): (b: u8)
    ensures b < 7
  {
    match t
    case GetAssetType => 0
    case WatchAssetType => 1
    case AssetUpdatedType => 2
    case OkType => 3
    case ErrorType => 4
    case AssetType => 5
    case InvalidType => 6
  }

  /** Reading the tag byte as a `MessageType`: only the seven declared
      discriminants are values of the type. */
  function TypeOfTag(b: u8): (r: Option<MessageType>)
    ensures r.Some? <==> b < 7
    ensures r.Some? ==> Tag(r.value) == b
  {
    match b
    case 0 => Some(GetAssetType)
    case 1 => Some(WatchAssetType)
    case 2 => Some(AssetUpdatedType)
    case 3 => Some(OkType)
    case 4 => Some(ErrorType)
    case 5 => Some(AssetType)
    case 6 => Some(InvalidType)
    case _ => None
  }

  predicate InRange(b: u8, lo: int, hi: int) {
    lo <= b as int <= hi
  }

  /** The length of the well-formed UTF-8 sequence at the front of `s`, as
      table 3-7 of the Unicode Standard (and RFC 3629) lists them; `None`
      when the front is ill-formed. */
  function SequenceLength(s: seq<u8>): (r: Option<nat>)
    requires |s| > 0
    ensures r.Some? ==> 1 <= r.value <= 4 && r.value <= |s|
  {
    var b := s[0];
    if b < 0x80 then Some(1)
    else if InRange(b, 0xC2, 0xDF) then
      if |s| >= 2 && InRange(s[1], 0x80, 0xBF) then Some(2) else None
    else if InRange(b, 0xE0, 0xEF) then
      var lo := if b == 0xE0 then 0xA0 else 0x80;
      var hi := if b == 0xED then 0x9F else 0xBF;
      if |s| >= 3 && InRange(s[1], lo, hi) && InRange(s[2], 0x80, 0xBF) then Some(3) else None
    else if InRange(b, 0xF0, 0xF4) then
      var lo := if b == 0xF0 then 0x90 else 0x80;
      var hi := if b == 0xF4 then 0x8F else 0xBF;
      if |s| >= 4 && InRange(s[1], lo, hi) && InRange(s[2], 0x80, 0xBF) && InRange(s[3], 0x80, 0xBF) then Some(4)
      else None
    else None
  }

  /** What `std::str::from_utf8` accepts. */
  predicate Utf8(s: seq<u8>)
    decreases |s|
  {
    |s| == 0 || (SequenceLength(s).Some? && Utf8(s[SequenceLength(s).value..]))
  }

  /** Every ASCII string is valid UTF-8. */
  lemma {:induction false} AsciiIsUtf8(s: seq<u8>)
    requires forall i :: 0 <= i < |s| ==> s[i] < 0x80
    ensures Utf8(s)
    decreases |s|
  {
    if |s| > 0 {
      AsciiIsUtf8(s[1..]);
    }
  }

  /** A lone continuation byte is never valid UTF-8. */
  lemma ContinuationAloneIsInvalid(b: u8)
    requires InRange(b, 0x80, 0xBF)
    ensures !Utf8([b])
  {
  }

  /** The payloads of the text variants are `str`s. */
  predicate Valid(m: Message) {
    match m
    case GetAsset(s) => Utf8(s)
    case WatchAsset(s) => Utf8(s)
    case AssetUpdated(s) => Utf8(s)
    case Error(s) => Utf8(s)
    case _ => true
  }

  /** `get_type`. */
  function GetType(m: Message): (t: MessageType)
    ensures t != InvalidType
  {
    match m
    case GetAsset(_) => GetAssetType
    case WatchAsset(_) => WatchAssetType
    case AssetUpdated(_) => AssetUpdatedType
    case Ok => OkType
    case Error(_) => ErrorType
    case Asset(_) => AssetType
  }

  /** `buf`: the payload bytes; `Ok` has none. */
  function Buf(m: Message): (b: seq<u8>)
    ensures m.Ok? ==> b == []
  {
    match m
    case GetAsset(s) => s
    case WatchAsset(s) => s
    case AssetUpdated(s) => s
    case Ok => []
    case Error(s) => s
    case Asset(d) => d
  }

  /** `len` and `is_empty`. */
  function Len(m: Message): (n: nat)
    ensures n == |Buf(m)|
  {
    |Buf(m)|
  }

  function IsEmpty(m: Message): (e: bool)
    ensures e <==> Len(m) == 0
  {
    |Buf(m)| == 0
  }

  /** `parse`: a text payload that is not UTF-8 is an error, as is the
      `_Invalid` type. */
  function Parse(t: MessageType, buffer: seq<u8>): (r: Result<Message, string>)
    ensures r.Success? <==> t != InvalidType && (t in {GetAssetType, WatchAssetType, AssetUpdatedType, ErrorType} ==> Utf8(buffer))
    ensures r.Success? ==> GetType(r.value) == t && Valid(r.value)
    ensures r.Success? && t != OkType ==> Buf(r.value) == buffer
  {
    match t
    case GetAssetType => if Utf8(buffer) then Success(GetAsset(buffer)) else Failure(INVALID_UTF8)
    case WatchAssetType => if Utf8(buffer) then Success(WatchAsset(buffer)) else Failure(INVALID_UTF8)
    case AssetUpdatedType => if Utf8(buffer) then Success(AssetUpdated(buffer)) else Failure(INVALID_UTF8)
    case OkType => Success(Ok)
    case ErrorType => if Utf8(buffer) then Success(Error(buffer)) else Failure(INVALID_UTF8)
    case AssetType => Success(Asset(buffer))
    case InvalidType => Failure(INVALID_MESSAGE_TYPE)
  }

  /** Parsing a message's own type and payload gives the message back. */
  lemma ParseRoundTrip(m: Message)
    requires Valid(m)
    ensures Parse(GetType(m), Buf(m)) == Success(m)
  {
  }

  /** `write_all`: the tag, the length as a big-endian `u64`, the payload. */
  function WriteAll(m: Message): (wire: seq<u8>)
    requires IsU64(Len(m))
    ensures |wire| == 9 + Len(m)
    ensures wire[0] == Tag(GetType(m))
    ensures DecodeU64(wire[1..9]) == Len(m) && wire[9..] == Buf(m)
  {
    [Tag(GetType(m))] + EncodeU64(Len(m)) + Buf(m)
  }

  /** `read` into a buffer of `capacity` bytes: nine header bytes, then a
      payload of the length they name, read into the front of the same
      buffer. An `OK` message's payload is consumed and ignored. A buffer too small for either slice panics; a stream that ends
      early is an error; a tag that is no `MessageType` is reported (the
      source transmutes it unchecked). */
  function Read(stream: seq<u8>, capacity: nat): (r: Result<(Message, seq<u8>), string>)
    ensures r.Success? ==> |stream| >= 9 && capacity >= 9
    ensures r.Success? ==> var (m, rest) := r.value; var length := DecodeU64(stream[1..9]);
      && Valid(m) && stream[0] == Tag(GetType(m))
      && length <= capacity && 9 + length <= |stream| && rest == stream[9 + length..]
      && (!m.Ok? ==> Buf(m) == stream[9..9 + length])
  {
    if capacity < 9 then Failure(BUFFER_SHORTER_THAN_HEADER)
    else if |stream| < 9 then Failure(EOF_IN_HEADER)
    else
      var t := TypeOfTag(stream[0]);
      var length := DecodeU64(stream[1..9]);
      if length > capacity then Failure(LONGER_THAN_BUFFER)
      else if |stream| - 9 < length then Failure(EOF_IN_PAYLOAD)
      else if t.None? then Failure(INVALID_TAG)
      else
        var payload := stream[9..9 + length];
        var m :- Parse(t.value, payload);
        Success((m, stream[9 + length..]))
  }

  /** A valid message written to a stream is read back, with the rest of the
      stream untouched, whenever the reader's buffer can hold it. */
  lemma WriteReadRoundTrip(m: Message, rest: seq<u8>, capacity: nat)
    requires Valid(m) && 9 <= capacity && Len(m) <= capacity && IsU64(Len(m))
    ensures Read(WriteAll(m) + rest, capacity) == Success((m, rest))
  {
    var wire := WriteAll(m) + rest;
    assert wire[0] == Tag(GetType(m));
    assert wire[1..9] == WriteAll(m)[1..9];
    assert wire[9..9 + Len(m)] == Buf(m);
    assert wire[9 + Len(m)..] == rest;
    ParseRoundTrip(m);
  }
}

=== FILE: asset_server.dfy ===
/** The asset server's bookkeeping: which files a client watches, when to
    tell it a file changed, and how it answers each request. File-system
    reads are parameters: the modification time each watched file reports
    on a pass, and the contents (or the error text) of a requested file. */
module AssetServer {
  import opened Bytes
  import opened Wrappers
  import opened AssetMessage

  // Panic and error messages, as the source words them.
  const GOT_AN_ERROR := "Got an error"
  const INVALID_MESSAGE := "Invalid message"

  /** What `get_last_updated` returns: a modification time, or an error. */
  datatype Reading = Stamp(time: int) | Unreadable

  /** `SystemTime::UNIX_EPOCH`, the time a newly watched file starts with. */
  const UNIX_EPOCH: int := 0

  type Name = seq<u8>
  type WatchList = map<Name, Reading>

  /** The `should_send_update` match: a known time followed by an error
      stays quiet, two times are compared, an error followed by a time
      always reports, two errors stay quiet. */
  function ShouldSendUpdate(last: Reading, current: Reading): bool {
    match (last, current)
    case (Stamp(_), Unreadable) => false
    case (Stamp(l), Stamp(c)) => c != l
    case (Unreadable, Stamp(_)) => true
    case (Unreadable, Unreadable) => false
  }

  /** The decision in one sentence: report exactly when the file is readable
      now and its reading differs from the last one. */
  lemma ShouldSendUpdateIffChanged(last: Reading, current: Reading)
    ensures ShouldSendUpdate(last, current) <==> current.Stamp? && current != last
  {
  }

  /** One pass of `watch_files` over the watch list: every entry is replaced
      by its current reading, and the names to notify are those whose
      decision is true. `current` holds what each watched file reports. */
  function WatchPass(watch: WatchList, current: map<Name, Reading>): (r: (set<Name>, WatchList))
    requires watch.Keys <= current.Keys
    ensures r.1.Keys == watch.Keys
    ensures forall n :: n in watch ==> r.1[n] == current[n]
    ensures forall n :: n in r.0 <==> n in watch && current[n].Stamp? && current[n] != watch[n]
  {
    forall n | n in watch ensures ShouldSendUpdate(watch[n], current[n]) <==> current[n].Stamp? && current[n] != watch[n] {
      ShouldSendUpdateIffChanged(watch[n], current[n]);
    }
    (set n | n in watch && ShouldSendUpdate(watch[n], current[n]), map n | n in watch :: current[n])
  }

  /** Nothing is reported twice: a second pass that sees the same readings
      notifies nobody and changes nothing. */
  lemma WatchPassSettles(watch: WatchList, current: map<Name, Reading>)
    requires watch.Keys <= current.Keys
    ensures var (_, after) := WatchPass(watch, current);
      WatchPass(after, current) == ({}, after)
  {
    var (_, after) := WatchPass(watch, current);
    var (sent, again) := WatchPass(after, current);
    assert sent == {} by {
      forall n | n in after ensures !(current[n].Stamp? && current[n] != after[n]) {
      }
    }
    assert again == after;
  }

  /** `handle_request` after the message has been read: a file request is
      answered with the file or with the read error's text; a watch request
      adds the file with the epoch as its last time and is acknowledged; an
      acknowledgement gets no answer; an error from the client ends the
      connection's handler; anything else is ignored. */
  function HandleMessage(m: Message, watch: WatchList, disk: map<Name, seq<u8>>, readError: seq<u8>): (r: Result<(Option<Message>, WatchList), string>)
    requires Valid(m) && Utf8(readError)
    ensures r.Failure? <==> m.Error?
    ensures r.Success? ==> (r.value.0.Some? <==> m.GetAsset? || m.WatchAsset?)
    ensures r.Success? && r.value.0.Some? ==> Valid(r.value.0.value)
    ensures m.GetAsset? && m.name in disk ==> r == Success((Some(Asset(disk[m.name])), watch))
    ensures m.GetAsset? && m.name !in disk ==> r == Success((Some(Error(readError)), watch))
    ensures m.WatchAsset? ==> r == Success((Some(Ok), watch[m.name := Stamp(UNIX_EPOCH)]))
    ensures r.Success? && !m.WatchAsset? ==> r.value.1 == watch
  {
    match m
    case GetAsset(path) =>
      if path in disk then Success((Some(Asset(disk[path])), watch))
      else Success((Some(Error(readError)), watch))
    case WatchAsset(path) => Success((Some(Ok), watch[path := Stamp(UNIX_EPOCH)]))
    case Ok => Success((None, watch))
    case Error(_) => Failure(GOT_AN_ERROR)
    case _ => Success((None, watch))
  }

  /** The server's read buffer: 64 KiB. */
  const SERVER_BUFFER: nat := 1024 * 64

  /** `handle_request`: read one message from the stream into the 64 KiB
      buffer, then answer it. */
  function HandleRequest(stream: seq<u8>, watch: WatchList, disk: map<Name, seq<u8>>, readError: seq<u8>): (r: Result<(Option<Message>, WatchList, seq<u8>), string>)
    requires Utf8(readError)
    ensures r.Success? ==> |r.value.2| <= |stream| - 9
  {
    var (m, rest) :- Read(stream, SERVER_BUFFER);
    var (answer, after) :- HandleMessage(m, watch, disk, readError);
    Success((answer, after, rest))
  }

  /** A request the client wrote whole (and that fits the buffer) is
      answered exactly as the message itself, and the bytes after it are
      left in the stream for the next request. */
  lemma HandleWrittenRequest(m: Message, rest: seq<u8>, watch: WatchList, disk: map<Name, seq<u8>>, readError: seq<u8>)
    requires Valid(m) && Utf8(readError) && Len(m) <= SERVER_BUFFER
    ensures var r := HandleRequest(WriteAll(m) + rest, watch, disk, readError);
      match HandleMessage(m, watch, disk, readError)
      case Success((answer, after)) => r == Success((answer, after, rest))
      case Failure(e) => r == Failure(e)
  {
    WriteReadRoundTrip(m, rest, SERVER_BUFFER);
  }

  /** A client's watch request followed by a change to the file makes the
      next pass report it exactly once. */
  lemma WatchThenChange(name: Name, watch: WatchList, disk: map<Name, seq<u8>>, readError: seq<u8>, current: map<Name, Reading>, time: int)
    requires Utf8(name) && Utf8(readError)
    requires watch.Keys + {name} <= current.Keys && current[name] == Stamp(time) && time != UNIX_EPOCH
    ensures var r := HandleMessage(WatchAsset(name), watch, disk, readError);
      r.Success? && var (sent, after) := WatchPass(r.value.1, current);
      name in sent && WatchPass(after, current).0 == {}
  {
    var r := HandleMessage(WatchAsset(name), watch, disk, readError);
    WatchPassSettles(r.value.1, current);
  }

  /** The watcher's reading of the client's reply to an update notice: an
      acknowledgement succeeds, anything else is an error. */
  function UpdateAcknowledged(reply: Message): (r: Result<(), string>)
    ensures r.Success? <==> reply.Ok?
  {
    match reply
    case Ok => Success(())
    case Error(_) => Failure(GOT_AN_ERROR)
    case _ => Failure(INVALID_MESSAGE)
  }
}

=== FILE: bytes.dfy ===
/** Fixed-width unsigned integers and the big-endian byte codecs used by the
    wire formats (asset messages, editor protocol). */
module Bytes {

  newtype u8 = x: int | 0 <= x < 256

  const U32_LIMIT: int := 0x1_0000_0000
  const U64_LIMIT: int := 0x1_0000_0000_0000_0000
  /** `u32::MAX`, the sentinel used by several tables of the engine. */
  const U32_MAX: int := U32_LIMIT - 1

  /** Bit `i` of a 32-bit mask is set. */
  predicate BitSet(x: bv32, i: nat)
    requires i < 32
  {
    x & ((1 as bv32) << i) != 0
  }

  /** `Flags::contains`: every flag of `want` is in `have`. */
  predicate Contains(have: bv32, want: bv32) {
    have & want == want
  }

  predicate IsU32(n: int) {
    0 <= n < U32_LIMIT
  }

  predicate IsU64(n: int) {
    0 <= n < U64_LIMIT
  }

  /** 256 to the power `width`: the number of values `width` bytes can hold. */
  function Pow256(width: nat): (r: nat)
    ensures r > 0
  {
    if width == 0 then 1 else 256 * Pow256(width - 1)
  }

  /** The value of a big-endian byte string (most significant byte first). */
  function BeValue(s: seq<u8>): nat {
    if |s| == 0 then 0 else BeValue(s[..|s| - 1]) * 256 + s[|s| - 1] as int
  }

  /** The `width`-byte big-endian representation of `n`, as
      `u32::to_be_bytes` / `u64::to_be_bytes` produce it. */
  function BeBytes(n: nat, width: nat): (r: seq<u8>)
    requires n < Pow256(width)
    ensures |r| == width
    ensures BeValue(r) == n
  {
    if width == 0 then []
    else
      var init := BeBytes(n / 256, width - 1);
      assert init + [(n % 256) as u8] == (init + [(n % 256) as u8])[..width - 1] + [(n % 256) as u8];
      init + [(n % 256) as u8]
  }

  /** A byte string of length `k` holds values below 256^k. */
  lemma {:induction false} BeValueBound(s: seq<u8>)
    ensures BeValue(s) < Pow256(|s|)
  {
    if |s| > 0 {
      BeValueBound(s[..|s| - 1]);
    }
  }

  /** Decoding then re-encoding at the same width gives back the bytes. */
  lemma {:induction false} BeBytesOfValue(s: seq<u8>)
    ensures BeValue(s) < Pow256(|s|)
    ensures BeBytes(BeValue(s), |s|) == s
  {
    BeValueBound(s);
    if |s| > 0 {
      var init := s[..|s| - 1];
      BeBytesOfValue(init);
      assert BeValue(s) / 256 == BeValue(init);
      assert BeValue(s) % 256 == s[|s| - 1] as int;
      assert s == init + [s[|s| - 1]];
    }
  }

  /** Two equal-width encodings are equal exactly when the numbers are. */
  lemma BeBytesInjective(m: nat, n: nat, width: nat)
    requires m < Pow256(width) && n < Pow256(width)
    ensures BeBytes(m, width) == BeBytes(n, width) <==> m == n
  {
  }

  function EncodeU32(n: int): (r: seq<u8>)
    requires IsU32(n)
    ensures |r| == 4 && BeValue(r) == n
  {
    assert Pow256(4) == U32_LIMIT;
    BeBytes(n, 4)
  }

  function EncodeU64(n: int): (r: seq<u8>)
    requires IsU64(n)
    ensures |r| == 8 && BeValue(r) == n
  {
    assert Pow256(8) == U64_LIMIT;
    BeBytes(n, 8)
  }

  /** `u32::from_be_bytes`. */
  function DecodeU32(s: seq<u8>): (r: int)
    requires |s| == 4
    ensures IsU32(r)
    ensures EncodeU32(r) == s
  {
    BeBytesOfValue(s);
    assert Pow256(4) == U32_LIMIT;
    BeValue(s)
  }

  /** `u64::from_be_bytes`. */
  function DecodeU64(s: seq<u8>): (r: int)
    requires |s| == 8
    ensures IsU64(r)
    ensures EncodeU64(r) == s
  {
    BeBytesOfValue(s);
    assert Pow256(8) == U64_LIMIT;
    BeValue(s)
  }

  lemma DecodeEncodeU32(n: int)
    requires IsU32(n)
    ensures DecodeU32(EncodeU32(n)) == n
  {
  }

  lemma DecodeEncodeU64(n: int)
    requires IsU64(n)
    ensures DecodeU64(EncodeU64(n)) == n
  {
  }

  /** Euclidean division is unique: `q * d + r` with `0 <= r < d` divides
      back to `q` remainder `r`. */
  lemma DivModOf(q: nat, r: nat, d: nat)
    requires 0 <= r < d
    ensures (q * d + r) / d == q && (q * d + r) % d == r
  {
    var x := q * d + r;
    var q' := x / d;
    var r' := x % d;
    assert x == q' * d + r';
    assert (q - q') * d == r' - r;
    ZeroMultiple(q - q', d);
  }

  lemma ZeroMultiple(k: int, d: int)
    requires d > 0 && -d < k * d < d
    ensures k == 0
  {
  }

  lemma MulMonotone(a: nat, b: nat, c: nat)
    requires a <= b
    ensures a * c <= b * c
  {
  }

  lemma MulRegroup(q: int, b: int, r: int, a: int)
    ensures (q * b + r) * a == q * (a * b) + r * a
  {
  }

  /** Dividing by `a` and then by `b` is dividing by `a * b`. */
  lemma DivDiv(x: nat, a: nat, b: nat)
    requires a > 0 && b > 0
    ensures x / (a * b) == x / a / b
  {
    var y := x / a;
    var q := y / b;
    var r1 := x % a;
    var r2 := y % b;
    assert x == y * a + r1;
    assert y == q * b + r2;
    MulRegroup(q, b, r2, a);
    assert x == q * (a * b) + (r2 * a + r1);
    MulMonotone(r2, b - 1, a);
    MulRegroup(1, b, -1, a);
    DivModOf(q, r2 * a + r1, a * b);
  }
}

=== FILE: complex_scene.dfy ===
/** The complex-scene example's renderer: both primitive maps are keyed by
    the plain index-buffer offset and every cull entry carries its shader
    explicitly (`index_shader`), so a triangle and a quadric primitive may
    share a key. Each data record carries the primitive's material id. */
module ComplexScene {
  import opened Bytes
  import opened InstanceBatching
  import opened PrimitiveMap
  import opened Wrappers

  /** Index-buffer offsets are u32 values other than the scan's `u32::MAX`
      marker. */
  predicate OffsetsInRange<T, Q>(triPending: seq<Pending<T>>, quadPending: seq<Pending<Q>>) {
    && (forall i :: 0 <= i < |triPending| ==> IsU32(triPending[i].key) && triPending[i].key != U32_MAX)
    && (forall i :: 0 <= i < |quadPending| ==> IsU32(quadPending[i].key) && quadPending[i].key != U32_MAX)
  }

  /** A frame's cull list built by `begin` from the two maps. */
  function BeginList<T, Q>(triPending: seq<Pending<T>>, quadPending: seq<Pending<Q>>, triOrder: seq<int>, quadOrder: seq<int>): seq<CullResult>
    requires Enumerates(triOrder, Collect(map[], triPending).Keys)
    requires Enumerates(quadOrder, Collect(map[], quadPending).Keys)
  {
    CullList(Collect(map[], triPending), Collect(map[], quadPending), triOrder, quadOrder)
  }

  /** Keys met while collecting are the only keys of the map. */
  lemma CollectedInRange<X>(pending: seq<Pending<X>>)
    requires forall i :: 0 <= i < |pending| ==> IsU32(pending[i].key) && pending[i].key != U32_MAX
    ensures forall k :: k in Collect(map[], pending) ==> IsU32(k) && k != U32_MAX
  {
    forall k | k in Collect(map[], pending)
      ensures IsU32(k) && k != U32_MAX
    {
      CollectGroups(pending, k);
    }
  }

  /** Whatever the GPU decides, the culled list keeps the cull list's
      shader grouping and its in-range keys. */
  lemma CulledReady<T, Q>(tri: map<int, Instanced<T>>, quad: map<int, Instanced<Q>>, triOrder: seq<int>, quadOrder: seq<int>, flags: seq<bool>)
    requires Enumerates(triOrder, tri.Keys) && Enumerates(quadOrder, quad.Keys)
    requires forall k :: k in tri ==> IsU32(k) && k != U32_MAX
    requires forall k :: k in quad ==> IsU32(k) && k != U32_MAX
    requires |flags| == |CullList(tri, quad, triOrder, quadOrder)|
    ensures ShaderSorted(Cull(CullList(tri, quad, triOrder, quadOrder), flags))
    ensures KeysInRange(Cull(CullList(tri, quad, triOrder, quadOrder), flags))
  {
    var list := CullList(tri, quad, triOrder, quadOrder);
    var culled := Cull(list, flags);
    CullListPrepared(tri, quad, triOrder, quadOrder, flags);
    assert forall i :: 0 <= i < |culled| ==> culled[i].shader == list[i].shader;
    var ft := Flatten(tri, triOrder, Triangle);
    var fq := Flatten(quad, quadOrder, Quadric);
    FlattenResolves(tri, triOrder, Triangle);
    FlattenResolves(quad, quadOrder, Quadric);
    forall i | 0 <= i < |culled|
      ensures IsU32(culled[i].id) && culled[i].id != U32_MAX
    {
      if i < |ft| {
        assert list[i] == ft[i] && list[i].id in tri;
      } else {
        assert list[i] == fq[i - |ft|] && list[i].id in quad;
      }
    }
  }

  /** One frame: `begin`, the GPU's visibility decision, and `draw_world`.
      A list `begin` built never makes the scan panic, and the scan's draws
      and data buffers account for exactly the visible instances. */
  method RenderFrame<T, Q>(triPending: seq<Pending<T>>, quadPending: seq<Pending<Q>>, triOrder: seq<int>, quadOrder: seq<int>, flags: seq<bool>)
    returns (culled: seq<CullResult>, frame: Frame<T, Q>)
    requires OffsetsInRange(triPending, quadPending)
    requires Enumerates(triOrder, Collect(map[], triPending).Keys)
    requires Enumerates(quadOrder, Collect(map[], quadPending).Keys)
    requires |flags| == |BeginList(triPending, quadPending, triOrder, quadOrder)|
    ensures |culled| == |flags|
    ensures forall i :: 0 <= i < |culled| ==> culled[i].visible == flags[i]
    ensures Produces(frame, culled, Collect(map[], triPending), Collect(map[], quadPending))
  {
    var tri := Collect(map[], triPending);
    var quad := Collect(map[], quadPending);
    var list := BeginList(triPending, quadPending, triOrder, quadOrder);
    CullListPrepared(tri, quad, triOrder, quadOrder, flags);
    CollectedInRange(triPending);
    CollectedInRange(quadPending);
    culled := Cull(list, flags);
    CulledReady(tri, quad, triOrder, quadOrder, flags);
    var r := DrawWorld(culled, tri, quad);
    frame := r.value;
  }
}

=== FILE: crab_saber.dfy ===
/** The crab-saber example game: a four-state game loop (start-up, main
    menu, playing a song, game over) and the per-frame scoring of saber and
    backstop collisions. Entities are opaque numbers; the world is a map
    from entity to the components the game inspects; the clock is a
    parameter in nanoseconds. */
module CrabSaber {
  import opened Wrappers

  // Panic and error messages, as the source words them.
  const NO_GAME_OVER_SONG := "no Game Over song"
  const INVALID_TRANSITION := "Invalid state transition"
  const NO_MAIN_MENU_SONG := "no Main Menu song"
  const NO_SUCH_ENTITY := "no such entity"
  const CUBE_NOT_VISIBLE := "cube is not visible"
  const NO_SUCH_SONG := "no such song"
  const NO_BUTTON := "no button"
  const NO_HIDDEN_CUBE := "no hidden cube of that colour"

  type Entity = nat

  /** `Song`: a music track and the time between beats, in nanoseconds. */
  datatype Song = Song(track: nat, beatLength: nat)

  datatype GameState = Init | MainMenu | Playing(song: Song) | GameOver

  datatype Colour = Red | Blue

  /** The game's fixed entities whose visibility the transitions switch. */
  datatype Part = Pointer | MainMenuPanel | ScorePanel | BlueSaber | RedSaber

  /** The parts of `GameContext` and of the world the game loop uses.
      `visibleCubes` are the cubes currently in play. */
  datatype Game = Game(
    state: GameState,
    score: int,
    lastSpawnTime: int,
    panelText: string,
    buttons: seq<string>,
    visible: set<Part>,
    music: Option<nat>,
    visibleCubes: set<Entity>)

  const NANOS_PER_MILLI: nat := 1_000_000
  const SPAWN_RESET: nat := 100_000_000_000

  /** The transitions `transition` has an arm for. */
  predicate Allowed(current: GameState, next: GameState) {
    || ((current.Init? || current.GameOver?) && next.MainMenu?)
    || (current.MainMenu? && next.Playing?)
    || (current.Playing? && next.GameOver?)
  }

  /** No element of `s` occurs twice. */
  predicate Distinct<T(==)>(s: seq<T>) {
    forall i, j :: 0 <= i < j < |s| ==> s[i] != s[j]
  }

  /** The main-menu buttons: the titles, in the songs table's iteration order
      `order`, of the songs with a beat of at least one millisecond. A table
      iterates each title once, so the buttons are distinct. */
  function MenuButtons(songs: map<string, Song>, order: seq<string>): (buttons: seq<string>)
    requires forall i :: 0 <= i < |order| ==> order[i] in songs
    ensures forall b :: b in buttons ==> b in order && songs[b].beatLength / NANOS_PER_MILLI > 0
    ensures forall i :: 0 <= i < |order| && songs[order[i]].beatLength / NANOS_PER_MILLI > 0 ==> order[i] in buttons
    ensures Distinct(order) ==> Distinct(buttons)
    ensures |buttons| <= |order|
  {
    if |order| == 0 then []
    else
      var rest := MenuButtons(songs, order[1..]);
      assert forall i :: 1 <= i < |order| ==> order[i] == order[1..][i - 1];
      if songs[order[0]].beatLength / NANOS_PER_MILLI > 0 then
        assert Distinct(order) ==> order[0] !in order[1..];
        [order[0]] + rest
      else rest
  }

  /** The game-over panel text. */
  function GameOverText(score: int): (text: string)
    ensures text == "Game Over\nYou did adequately!" <==> score > 0
    ensures text == "Game Over\nYOU FAILED!" <==> score <= 0
  {
    "Game Over\n" + (if score > 0 then "You did adequately!" else "YOU FAILED!")
  }

  /** `transition`: switch visibility, music and panel for the new state,
      then record it. An unlisted pair panics; so does a missing "Main Menu"
      or "Game Over" song. */
  function Transition(g: Game, songs: map<string, Song>, order: seq<string>, next: GameState): (r: Result<Game, string>)
    requires forall i :: 0 <= i < |order| ==> order[i] in songs
    ensures r.Success? ==> Allowed(g.state, next) && r.value.state == next
    ensures Allowed(g.state, next) && !next.MainMenu? && !next.GameOver? ==> r.Success?
    ensures Allowed(g.state, next) && next.MainMenu? ==> (r.Success? <==> "Main Menu" in songs)
    ensures Allowed(g.state, next) && next.GameOver? ==> (r.Success? <==> "Game Over" in songs)
    ensures r.Success? && next.Playing? ==>
      && r.value.score == 0 && r.value.music == Some(next.song.track)
      && r.value.visible == g.visible + {ScorePanel, BlueSaber, RedSaber} - {Pointer, MainMenuPanel}
    ensures r.Success? && next.MainMenu? ==>
      && r.value.buttons == MenuButtons(songs, order)
      && r.value.visible == g.visible + {Pointer, MainMenuPanel} - {ScorePanel, BlueSaber, RedSaber}
      && r.value.lastSpawnTime == g.lastSpawnTime - SPAWN_RESET
    ensures r.Success? && next.GameOver? ==>
      && r.value.visibleCubes == {}
      && r.value.panelText == GameOverText(g.score) && r.value.buttons == ["Back to main menu"]
    ensures r.Success? ==> r.value.score == (if next.Playing? then 0 else g.score)
  {
    match (g.state, next)
    case (Init, MainMenu) => EnterMainMenu(g, songs, order)
    case (GameOver, MainMenu) => EnterMainMenu(g, songs, order)
    case (MainMenu, Playing(song)) =>
      Success(g.(state := next, score := 0, music := Some(song.track),
        visible := g.visible + {ScorePanel, BlueSaber, RedSaber} - {Pointer, MainMenuPanel}))
    case (Playing(_), GameOver) =>
      if "Game Over" !in songs then Failure(NO_GAME_OVER_SONG)
      else
        Success(g.(state := GameOver, visibleCubes := {}, music := Some(songs["Game Over"].track),
          visible := g.visible + {Pointer, MainMenuPanel} - {ScorePanel, BlueSaber, RedSaber},
          panelText := GameOverText(g.score), buttons := ["Back to main menu"]))
    case _ => Failure(INVALID_TRANSITION)
  }

  function EnterMainMenu(g: Game, songs: map<string, Song>, order: seq<string>): (r: Result<Game, string>)
    requires forall i :: 0 <= i < |order| ==> order[i] in songs
    ensures r.Success? <==> "Main Menu" in songs
    ensures r.Success? ==> r.value.state == MainMenu && r.value.score == g.score && r.value.panelText == "CRAB SABER"
  {
    if "Main Menu" !in songs then Failure(NO_MAIN_MENU_SONG)
    else
      Success(g.(state := MainMenu, music := Some(songs["Main Menu"].track),
        visible := g.visible + {Pointer, MainMenuPanel} - {ScorePanel, BlueSaber, RedSaber},
        panelText := "CRAB SABER", buttons := MenuButtons(songs, order),
        lastSpawnTime := g.lastSpawnTime - SPAWN_RESET))
  }

  /** `should_spawn_cube`: more than a beat has passed since the last
      spawn. */
  function ShouldSpawnCube(lastSpawnTime: int, beatLength: nat, now: int): bool {
    now - lastSpawnTime > beatLength
  }

  /** What the game sees of an entity a collider touched: whether it is a
      cube in play (`is_cube`: cube, visible, collider and rigid body) and
      its colour, if it has one. */
  datatype Thing = Thing(isCube: bool, colour: Option<Colour>)

  datatype Collider = BlueSaberCollider | RedSaberCollider | Backstop
  datatype Effect = Hit | Miss
  datatype Hand = LeftHand | RightHand

  /** The running state of `check_for_hits`. */
  datatype Tally = Tally(score: int, dispose: seq<Entity>, effects: seq<(Entity, Effect)>, haptics: seq<Hand>)

  /** Points for a cube of `colour` touching `collider`: a saber scores its
      own colour and loses on the other; the backstop always loses. */
  function Points(collider: Collider, colour: Colour): (p: int)
    ensures p == 1 || p == -1
    ensures p == 1 <==> (collider == BlueSaberCollider && colour == Blue) || (collider == RedSaberCollider && colour == Red)
  {
    match collider
    case BlueSaberCollider => if colour == Blue then 1 else -1
    case RedSaberCollider => if colour == Red then 1 else -1
    case Backstop => -1
  }

  function HandOf(collider: Collider): Hand {
    if collider == BlueSaberCollider then RightHand else LeftHand
  }

  /** Whether a touch by `c` counts: it must be a cube in play with a colour
      (the backstop asks only for the cube), and, except for the blue
      saber's pass, not already disposed of this frame. */
  predicate Scores(collider: Collider, thing: Thing, c: Entity, t: Tally) {
    && thing.isCube
    && (collider == BlueSaberCollider || c !in t.dispose)
    && (collider == Backstop || thing.colour.Some?)
  }

  /** The points a counting touch earns: the backstop counts a cube as red,
      so it always loses one; a saber scores the cube's colour. */
  function TouchPoints(collider: Collider, thing: Thing): int
    requires collider == Backstop || thing.colour.Some?
  {
    Points(collider, if collider == Backstop then Red else thing.colour.value)
  }

  /** The sound a touch plays: "Hit" when it gained a point. */
  function EffectOf(p: int): Effect {
    if p > 0 then Hit else Miss
  }

  /** One collision: a scoring touch moves the score by its points, records
      a hit or miss sound for the cube and, for a saber, a haptic pulse in
      that saber's hand, and queues the cube for disposal. */
  function Touch(collider: Collider, thing: Thing, c: Entity, t: Tally): (r: Tally)
    ensures !Scores(collider, thing, c, t) ==> r == t
    ensures Scores(collider, thing, c, t) ==> r.dispose == t.dispose + [c] && |r.effects| == |t.effects| + 1
    ensures Scores(collider, thing, c, t) ==>
      && r.score == t.score + TouchPoints(collider, thing)
      && r.effects == t.effects + [(c, EffectOf(TouchPoints(collider, thing)))]
      && (r.effects[|t.effects|].1 == Hit <==> r.score > t.score)
      && r.haptics == (if collider == Backstop then t.haptics else t.haptics + [HandOf(collider)])
  {
    if !Scores(collider, thing, c, t) then t
    else
      var p := Points(collider, if collider == Backstop then Red else thing.colour.value);
      Tally(t.score + p, t.dispose + [c], t.effects + [(c, if p > 0 then Hit else Miss)],
        if collider == Backstop then t.haptics else t.haptics + [HandOf(collider)])
  }

  /** One pass of `check_for_hits` over a collider's collisions. An entity
      missing from the world panics. Each scoring touch moves the score by
      one point, records a sound effect and (for a saber) a haptic pulse, and
      queues the cube for disposal. */
  function ScanHits(world: map<Entity, Thing>, collider: Collider, hits: seq<Entity>, t: Tally): (r: Result<Tally, string>)
    ensures r.Success? ==> forall i :: 0 <= i < |hits| ==> hits[i] in world
    ensures r.Success? ==> var added := |r.value.dispose| - |t.dispose|;
      && added >= 0 && r.value.dispose[..|t.dispose|] == t.dispose
      && -added <= r.value.score - t.score <= added
      && |r.value.effects| - |t.effects| == added
      && |r.value.haptics| - |t.haptics| == (if collider == Backstop then 0 else added)
      && (collider == Backstop ==> r.value.score - t.score == -added)
    ensures r.Success? ==> forall i :: |t.dispose| <= i < |r.value.dispose| ==>
      r.value.dispose[i] in hits && r.value.dispose[i] in world && world[r.value.dispose[i]].isCube
      && (collider == Backstop || world[r.value.dispose[i]].colour.Some?)
    decreases |hits|
  {
    if |hits| == 0 then Success(t)
    else
      var c := hits[0];
      if c !in world then Failure(NO_SUCH_ENTITY)
      else
        var t1 := Touch(collider, world[c], c, t);
        var r :- ScanHits(world, collider, hits[1..], t1);
        assert forall i :: 1 <= i < |hits| ==> hits[i] == hits[1..][i - 1];
        assert r.dispose[..|t.dispose|] == r.dispose[..|t1.dispose|][..|t.dispose|];
        Success(r)
  }

  /** Every cube of `cubes` is in the world and, unless the collider is the
      backstop, has a colour: the cubes a pass can queue. */
  predicate Countable(world: map<Entity, Thing>, collider: Collider, cubes: seq<Entity>) {
    forall i :: 0 <= i < |cubes| ==> cubes[i] in world && (collider == Backstop || world[cubes[i]].colour.Some?)
  }

  /** The points `collider` earns for queueing `cubes`. */
  function PointsOf(world: map<Entity, Thing>, collider: Collider, cubes: seq<Entity>): int
    requires Countable(world, collider, cubes)
    decreases |cubes|
  {
    if |cubes| == 0 then 0
    else TouchPoints(collider, world[cubes[0]]) + PointsOf(world, collider, cubes[1..])
  }

  /** The sound effects `collider` queues with `cubes`, one per cube. */
  function EffectsOf(world: map<Entity, Thing>, collider: Collider, cubes: seq<Entity>): (effects: seq<(Entity, Effect)>)
    requires Countable(world, collider, cubes)
    ensures |effects| == |cubes|
    ensures forall i :: 0 <= i < |cubes| ==> effects[i].0 == cubes[i]
    decreases |cubes|
  {
    if |cubes| == 0 then []
    else [(cubes[0], EffectOf(TouchPoints(collider, world[cubes[0]])))] + EffectsOf(world, collider, cubes[1..])
  }

  /** One pass moves the score by exactly the points of the cubes it queued,
      and its sound effects are those cubes' hits and misses, in order. */
  lemma {:induction false} ScanHitsScore(world: map<Entity, Thing>, collider: Collider, hits: seq<Entity>, t: Tally)
    requires ScanHits(world, collider, hits, t).Success?
    ensures var r := ScanHits(world, collider, hits, t).value;
      PassOutcome(world, collider, t, r)
    decreases |hits|
  {
    if |hits| == 0 {
      assert t.dispose[|t.dispose|..] == [];
    } else {
      var c := hits[0];
      var t1 := Touch(collider, world[c], c, t);
      assert ScanHits(world, collider, hits, t) == ScanHits(world, collider, hits[1..], t1);
      ScanHitsScore(world, collider, hits[1..], t1);
      if Scores(collider, world[c], c, t) {
        TouchOutcome(world, collider, c, t, ScanHits(world, collider, hits, t).value);
      }
    }
  }

  /** `r` extends `t` by the cubes `collider` queued: the score by their
      points and the sounds by theirs. */
  predicate PassOutcome(world: map<Entity, Thing>, collider: Collider, t: Tally, r: Tally) {
    && |t.dispose| <= |r.dispose|
    && var added := r.dispose[|t.dispose|..];
      && r.dispose == t.dispose + added
      && Countable(world, collider, added)
      && r.score == t.score + PointsOf(world, collider, added)
      && r.effects == t.effects + EffectsOf(world, collider, added)
  }

  /** A scoring touch followed by a pass is a pass. */
  lemma TouchOutcome(world: map<Entity, Thing>, collider: Collider, c: Entity, t: Tally, r: Tally)
    requires c in world && Scores(collider, world[c], c, t)
    requires PassOutcome(world, collider, Touch(collider, world[c], c, t), r)
    ensures PassOutcome(world, collider, t, r)
  {
    var t1 := Touch(collider, world[c], c, t);
    var rest := r.dispose[|t1.dispose|..];
    assert r.dispose == t.dispose + ([c] + rest) by {
      assert r.dispose == (t.dispose + [c]) + rest;
    }
    assert r.dispose[|t.dispose|..] == [c] + rest;
    ConsCountable(world, collider, c, rest);
    var x := (c, EffectOf(TouchPoints(collider, world[c])));
    assert r.effects == (t.effects + [x]) + EffectsOf(world, collider, rest);
    Associative(t.effects, [x], EffectsOf(world, collider, rest));
  }

  lemma Associative<T>(a: seq<T>, b: seq<T>, c: seq<T>)
    ensures (a + b) + c == a + (b + c)
  {
  }

  /** Queueing one more cube in front adds its points and its sound. */
  lemma ConsCountable(world: map<Entity, Thing>, collider: Collider, c: Entity, rest: seq<Entity>)
    requires c in world && (collider == Backstop || world[c].colour.Some?)
    requires Countable(world, collider, rest)
    ensures Countable(world, collider, [c] + rest)
    ensures PointsOf(world, collider, [c] + rest) == TouchPoints(collider, world[c]) + PointsOf(world, collider, rest)
    ensures EffectsOf(world, collider, [c] + rest) == [(c, EffectOf(TouchPoints(collider, world[c])))] + EffectsOf(world, collider, rest)
  {
    assert ([c] + rest)[0] == c;
    assert ([c] + rest)[1..] == rest;
  }

  /** Hits minus misses. */
  function Net(effects: seq<(Entity, Effect)>): int
    decreases |effects|
  {
    if |effects| == 0 then 0
    else (if effects[0].1 == Hit then 1 else -1) + Net(effects[1..])
  }

  lemma {:induction false} NetAppend(a: seq<(Entity, Effect)>, b: seq<(Entity, Effect)>)
    ensures Net(a + b) == Net(a) + Net(b)
    decreases |a|
  {
    if |a| == 0 {
      assert a + b == b;
    } else {
      assert (a + b)[1..] == a[1..] + b;
      NetAppend(a[1..], b);
    }
  }

  /** Each queued cube's sound is a hit exactly when it earned a point, so
      the hits minus the misses are the points. */
  lemma {:induction false} NetIsPoints(world: map<Entity, Thing>, collider: Collider, cubes: seq<Entity>)
    requires Countable(world, collider, cubes)
    ensures Net(EffectsOf(world, collider, cubes)) == PointsOf(world, collider, cubes)
    decreases |cubes|
  {
    if |cubes| > 0 {
      var e := EffectsOf(world, collider, cubes);
      assert e[1..] == EffectsOf(world, collider, cubes[1..]);
      NetIsPoints(world, collider, cubes[1..]);
    }
  }

  /** A pass that only appends cubes of the world keeps "every queued entity
      is a cube of the world". */
  lemma AppendedCubes(world: map<Entity, Thing>, before: seq<Entity>, after: seq<Entity>)
    requires |before| <= |after| && after[..|before|] == before
    requires forall e :: e in before ==> e in world && world[e].isCube
    requires forall i :: |before| <= i < |after| ==> after[i] in world && world[after[i]].isCube
    ensures forall e :: e in after ==> e in world && world[e].isCube
  {
    forall e | e in after ensures e in world && world[e].isCube {
      var i :| 0 <= i < |after| && after[i] == e;
      if i < |before| {
        assert after[i] == before[i];
      }
    }
  }

  /** `check_for_hits`: the blue saber's collisions, then the red saber's,
      then the backstop's. */
  function CheckForHits(world: map<Entity, Thing>, blue: seq<Entity>, red: seq<Entity>, back: seq<Entity>, score: int): (r: Result<Tally, string>)
    ensures r.Success? ==> -|r.value.dispose| <= r.value.score - score <= |r.value.dispose|
    ensures r.Success? ==> forall e :: e in r.value.dispose ==> e in world && world[e].isCube
  {
    var t0 := Tally(score, [], [], []);
    var t1 :- ScanHits(world, BlueSaberCollider, blue, t0);
    var t2 :- ScanHits(world, RedSaberCollider, red, t1);
    var t3 :- ScanHits(world, Backstop, back, t2);
    AppendedCubes(world, t0.dispose, t1.dispose);
    AppendedCubes(world, t1.dispose, t2.dispose);
    AppendedCubes(world, t2.dispose, t3.dispose);
    Success(t3)
  }

  /** The red saber's and the backstop's passes never queue a cube twice;
      the blue saber's pass does not either when its own collisions are
      distinct. */
  lemma {:induction false} ScanKeepsDistinct(world: map<Entity, Thing>, collider: Collider, hits: seq<Entity>, t: Tally)
    requires Distinct(t.dispose)
    requires collider == BlueSaberCollider ==> Distinct(hits) && forall i :: 0 <= i < |hits| ==> hits[i] !in t.dispose
    requires ScanHits(world, collider, hits, t).Success?
    ensures Distinct(ScanHits(world, collider, hits, t).value.dispose)
    decreases |hits|
  {
    if |hits| > 0 {
      var c := hits[0];
      var t1 := Touch(collider, world[c], c, t);
      assert ScanHits(world, collider, hits, t) == ScanHits(world, collider, hits[1..], t1);
      assert Distinct(t1.dispose) by {
        if t1 != t {
          assert c !in t.dispose;
        }
      }
      if collider == BlueSaberCollider {
        forall i | 0 <= i < |hits[1..]| ensures hits[1..][i] !in t1.dispose {
          assert hits[1..][i] == hits[i + 1];
        }
      }
      ScanKeepsDistinct(world, collider, hits[1..], t1);
    }
  }

  /** The sounds of `effects` belong, in order, to the cubes of `dispose`. */
  predicate SoundPerCube(effects: seq<(Entity, Effect)>, dispose: seq<Entity>) {
    |effects| == |dispose| && forall i :: 0 <= i < |dispose| ==> effects[i].0 == dispose[i]
  }

  lemma SoundPerCubeAppend(world: map<Entity, Thing>, collider: Collider, effects: seq<(Entity, Effect)>, dispose: seq<Entity>, added: seq<Entity>)
    requires SoundPerCube(effects, dispose) && Countable(world, collider, added)
    ensures SoundPerCube(effects + EffectsOf(world, collider, added), dispose + added)
  {
  }

  /** One pass's score change, its sounds and their agreement with its queue. */
  lemma {:induction false} PassScore(world: map<Entity, Thing>, collider: Collider, hits: seq<Entity>, t: Tally)
    requires ScanHits(world, collider, hits, t).Success? && SoundPerCube(t.effects, t.dispose)
    ensures var r := ScanHits(world, collider, hits, t).value;
      r.score - t.score == Net(r.effects) - Net(t.effects) && SoundPerCube(r.effects, r.dispose)
  {
    var r := ScanHits(world, collider, hits, t).value;
    ScanHitsScore(world, collider, hits, t);
    var added := r.dispose[|t.dispose|..];
    assert r.effects == t.effects + EffectsOf(world, collider, added);
    NetAppend(t.effects, EffectsOf(world, collider, added));
    NetIsPoints(world, collider, added);
    SoundPerCubeAppend(world, collider, t.effects, t.dispose, added);
  }

  /** Over a whole frame the score moves by the hits minus the misses, with
      one sound for each queued cube, in queue order. */
  lemma CheckForHitsScore(world: map<Entity, Thing>, blue: seq<Entity>, red: seq<Entity>, back: seq<Entity>, score: int)
    requires CheckForHits(world, blue, red, back, score).Success?
    ensures var t := CheckForHits(world, blue, red, back, score).value;
      t.score == score + Net(t.effects) && SoundPerCube(t.effects, t.dispose)
  {
    var t0 := Tally(score, [], [], []);
    var t1 := ScanHits(world, BlueSaberCollider, blue, t0).value;
    PassScore(world, BlueSaberCollider, blue, t0);
    var t2 := ScanHits(world, RedSaberCollider, red, t1).value;
    PassScore(world, RedSaberCollider, red, t1);
    PassScore(world, Backstop, back, t2);
  }

  /** `dispose_of_cubes`: each queued cube loses its visibility; removing it
      from a cube that is no longer visible panics. */
  function DisposeOfCubes(visible: set<Entity>, dispose: seq<Entity>): (r: Result<set<Entity>, string>)
    ensures r.Success? ==> r.value == visible - set e | e in dispose
    ensures r.Success? ==> forall e :: e in dispose ==> e in visible
    decreases |dispose|
  {
    if |dispose| == 0 then Success(visible)
    else if dispose[0] !in visible then Failure(CUBE_NOT_VISIBLE)
    else
      var rest :- DisposeOfCubes(visible - {dispose[0]}, dispose[1..]);
      assert forall e :: e in dispose <==> e == dispose[0] || e in dispose[1..];
      Success(rest)
  }

  lemma {:induction false} DisposeDistinct(visible: set<Entity>, dispose: seq<Entity>)
    requires Distinct(dispose) && forall e :: e in dispose ==> e in visible
    ensures DisposeOfCubes(visible, dispose).Success?
    decreases |dispose|
  {
    if |dispose| > 0 {
      assert forall e :: e in dispose[1..] ==> e in visible - {dispose[0]} by {
        forall e | e in dispose[1..] ensures e != dispose[0] {
          var k :| 0 <= k < |dispose[1..]| && dispose[1..][k] == e;
          assert dispose[k + 1] == e;
        }
      }
      DisposeDistinct(visible - {dispose[0]}, dispose[1..]);
    }
  }

  /** The cubes in play. */
  function InPlay(world: map<Entity, Thing>): set<Entity> {
    set e | e in world && world[e].isCube
  }

  /** When the blue saber's collisions this frame are distinct, every cube
      scored is disposed of exactly once and the frame does not panic. */
  lemma HitsAreDisposable(world: map<Entity, Thing>, blue: seq<Entity>, red: seq<Entity>, back: seq<Entity>, score: int)
    requires Distinct(blue)
    requires CheckForHits(world, blue, red, back, score).Success?
    ensures var t := CheckForHits(world, blue, red, back, score).value;
      Distinct(t.dispose) && DisposeOfCubes(InPlay(world), t.dispose).Success?
  {
    var t0 := Tally(score, [], [], []);
    var t1 := ScanHits(world, BlueSaberCollider, blue, t0).value;
    ScanKeepsDistinct(world, BlueSaberCollider, blue, t0);
    var t2 := ScanHits(world, RedSaberCollider, red, t1).value;
    ScanKeepsDistinct(world, RedSaberCollider, red, t1);
    ScanKeepsDistinct(world, Backstop, back, t2);
    var t := CheckForHits(world, blue, red, back, score).value;
    DisposeDistinct(InPlay(world), t.dispose);
  }

  /** A cube both sabers touch in one frame is scored once, by the blue
      saber. */
  lemma DoubleHitScoredOnce(c: Entity)
    ensures var world := map[c := Thing(true, Some(Blue))];
      CheckForHits(world, [c], [c], [c], 0) == Success(Tally(1, [c], [(c, Hit)], [RightHand]))
  {
    var world := map[c := Thing(true, Some(Blue))];
    var t0 := Tally(0, [], [], []);
    var t1 := Tally(1, [c], [(c, Hit)], [RightHand]);
    assert [c][1..] == [];
    assert Touch(BlueSaberCollider, world[c], c, t0) == t1;
    assert ScanHits(world, BlueSaberCollider, [c], t0) == ScanHits(world, BlueSaberCollider, [], t1);
    assert Touch(RedSaberCollider, world[c], c, t1) == t1;
    assert ScanHits(world, RedSaberCollider, [c], t1) == ScanHits(world, RedSaberCollider, [], t1);
    assert Touch(Backstop, world[c], c, t1) == t1;
    assert ScanHits(world, Backstop, [c], t1) == ScanHits(world, Backstop, [], t1);
  }

  /** What the player did this frame, as `run` reads it. `hidden` lists the
      cubes that are out of play, with their colours, in query order;
      `spawnColour` is the colour `spawn_cube` draws at random; `world` is
      the world as `check_for_hits` sees it, after any spawn. */
  datatype Frame = Frame(clicked: seq<bool>, musicStopped: bool, now: int,
    hidden: seq<(Entity, Colour)>, spawnColour: Colour,
    world: map<Entity, Thing>, blue: seq<Entity>, red: seq<Entity>, back: seq<Entity>)

  /** The index of the first hidden cube of `colour`, if any. */
  function FirstOfColour(hidden: seq<(Entity, Colour)>, colour: Colour): (r: Option<nat>)
    ensures r.Some? ==>
      && r.value < |hidden| && hidden[r.value].1 == colour
      && forall j :: 0 <= j < r.value ==> hidden[j].1 != colour
    ensures r.None? ==> forall j :: 0 <= j < |hidden| ==> hidden[j].1 != colour
  {
    if |hidden| == 0 then None
    else if hidden[0].1 == colour then Some(0)
    else match FirstOfColour(hidden[1..], colour)
      case None => None
      case Some(k) => Some(k + 1)
  }

  /** The index of the first clicked button, if any. */
  function FirstClicked(clicked: seq<bool>): (r: Option<nat>)
    ensures r.Some? ==> r.value < |clicked| && clicked[r.value] && forall j :: 0 <= j < r.value ==> !clicked[j]
    ensures r.None? ==> forall j :: 0 <= j < |clicked| ==> !clicked[j]
  {
    if |clicked| == 0 then None
    else if clicked[0] then Some(0)
    else match FirstClicked(clicked[1..])
      case None => None
      case Some(k) => Some(k + 1)
  }

  /** `run`: the state to move to, if any, and the game after this frame's
      play. Start-up moves straight to the menu; the menu starts the first
      clicked button's song; a song in play spawns a cube on the beat (which
      panics when no hidden cube of the drawn colour is left), scores hits,
      disposes of the scored cubes, and ends when the score goes negative or
      the music stops; game over waits for its only button, whose absence
      panics. */
  function Run(g: Game, songs: map<string, Song>, f: Frame): (r: Result<(Option<GameState>, Game), string>)
    ensures g.state.Init? ==> r == Success((Some(MainMenu), g))
    ensures r.Success? && g.state.Playing? ==> (r.value.0.Some? <==> r.value.1.score < 0 || f.musicStopped)
    ensures r.Success? && r.value.0.Some? ==> Allowed(g.state, r.value.0.value)
    ensures r.Success? && g.state.MainMenu? && r.value.0.Some? ==> var k := FirstClicked(f.clicked);
      k.Some? && k.value < |g.buttons| && g.buttons[k.value] in songs && r.value.0 == Some(Playing(songs[g.buttons[k.value]]))
    ensures g.state.MainMenu? && r.Success? && r.value.0.None? ==> forall i :: 0 <= i < |g.buttons| && i < |f.clicked| ==> !f.clicked[i]
    ensures g.state.Playing? ==>
      (ShouldSpawnCube(g.lastSpawnTime, g.state.song.beatLength, f.now) && FirstOfColour(f.hidden, f.spawnColour).None? ==> r.Failure?)
    ensures r.Success? && g.state.Playing? ==> var t := CheckForHits(f.world, f.blue, f.red, f.back, g.score);
      && t.Success? && r.value.1.score == t.value.score
      && r.value.1.visibleCubes == InPlay(f.world) - (set e | e in t.value.dispose)
    ensures g.state.GameOver? ==> (r.Success? <==> |g.buttons| > 0)
  {
    match g.state
    case Init => Success((Some(MainMenu), g))
    case MainMenu =>
      var k := FirstClicked(f.clicked);
      if k.None? || k.value >= |g.buttons| then Success((None, g))
      else if g.buttons[k.value] !in songs then Failure(NO_SUCH_SONG)
      else Success((Some(Playing(songs[g.buttons[k.value]])), g))
    case Playing(song) =>
      var due := ShouldSpawnCube(g.lastSpawnTime, song.beatLength, f.now);
      if due && FirstOfColour(f.hidden, f.spawnColour).None? then Failure(NO_HIDDEN_CUBE)
      else
        var t :- CheckForHits(f.world, f.blue, f.red, f.back, g.score);
        var left :- DisposeOfCubes(InPlay(f.world), t.dispose);
        var g1 := g.(lastSpawnTime := if due then f.now else g.lastSpawnTime, score := t.score, visibleCubes := left);
        if t.score < 0 || f.musicStopped then Success((Some(GameOver), g1)) else Success((None, g1))
    case GameOver =>
      if |g.buttons| == 0 then Failure(NO_BUTTON)
      else if 0 < |f.clicked| && f.clicked[0] then Success((Some(MainMenu), g))
      else Success((None, g))
  }

  /** A round from the menu: picking a song starts it with the score at
      zero, and however play goes, a score that falls below zero ends it. */
  lemma PlayingStartsAtZero(g: Game, songs: map<string, Song>, order: seq<string>, f: Frame)
    requires forall i :: 0 <= i < |order| ==> order[i] in songs
    requires g.state == MainMenu
    requires Run(g, songs, f).Success? && Run(g, songs, f).value.0.Some?
    ensures var next := Run(g, songs, f).value.0.value;
      Transition(g, songs, order, next).Success? && Transition(g, songs, order, next).value.score == 0
  {
  }

  /** A pass over collisions that are all in the world does not panic. */
  lemma {:induction false} ScanSucceeds(world: map<Entity, Thing>, collider: Collider, hits: seq<Entity>, t: Tally)
    requires forall i :: 0 <= i < |hits| ==> hits[i] in world
    ensures ScanHits(world, collider, hits, t).Success?
    decreases |hits|
  {
    if |hits| > 0 {
      var t1 := Touch(collider, world[hits[0]], hits[0], t);
      ScanSucceeds(world, collider, hits[1..], t1);
    }
  }

  /** A frame of play whose collisions are all in the world, whose blue
      saber touched no cube twice, and whose spawn (if one is due) finds a
      hidden cube of the drawn colour, does not panic. */
  lemma PlayFrameSucceeds(g: Game, songs: map<string, Song>, f: Frame)
    requires g.state.Playing?
    requires forall i :: 0 <= i < |f.blue| ==> f.blue[i] in f.world
    requires forall i :: 0 <= i < |f.red| ==> f.red[i] in f.world
    requires forall i :: 0 <= i < |f.back| ==> f.back[i] in f.world
    requires Distinct(f.blue)
    requires ShouldSpawnCube(g.lastSpawnTime, g.state.song.beatLength, f.now) ==> FirstOfColour(f.hidden, f.spawnColour).Some?
    ensures Run(g, songs, f).Success?
  {
    var t0 := Tally(g.score, [], [], []);
    ScanSucceeds(f.world, BlueSaberCollider, f.blue, t0);
    var t1 := ScanHits(f.world, BlueSaberCollider, f.blue, t0).value;
    ScanSucceeds(f.world, RedSaberCollider, f.red, t1);
    var t2 := ScanHits(f.world, RedSaberCollider, f.red, t1).value;
    ScanSucceeds(f.world, Backstop, f.back, t2);
    HitsAreDisposable(f.world, f.blue, f.red, f.back, g.score);
  }
}

=== FILE: custom_rendering.dfy ===
/** The custom-rendering example's renderer: triangle primitives are keyed by
    their index-buffer offset, quadric (hologram) primitives by the offset with
    bit 31 set, and `draw_world` tells the two shaders apart by that bit. */
module CustomRendering {
  import opened Bytes
  import opened InstanceBatching
  import opened PrimitiveMap
  import opened Wrappers

  const QUADRIC_FLAG: int := 0x8000_0000

  /** `key | QUADRIC_FLAG` on a u32: the low 31 bits are kept and bit 31 is
      set. */
  function WithQuadricFlag(key: int): (r: int)
    requires IsU32(key)
    ensures IsU32(r) && QUADRIC_FLAG <= r
    ensures r % QUADRIC_FLAG == key % QUADRIC_FLAG
  {
    if key < QUADRIC_FLAG then key + QUADRIC_FLAG else key
  }

  /** `if id & QUADRIC_FLAG == 0 { Triangle } else { Quadric }` on a u32. */
  function ShaderOf(id: int): (s: Shader)
    requires IsU32(id)
    ensures s == Quadric <==> (id / QUADRIC_FLAG) % 2 == 1
  {
    if id < QUADRIC_FLAG then Triangle else Quadric
  }

  function FlagKeys<Q>(pending: seq<Pending<Q>>): (r: seq<Pending<Q>>)
    requires forall i :: 0 <= i < |pending| ==> IsU32(pending[i].key)
    ensures |r| == |pending|
    ensures forall i :: 0 <= i < |r| ==> r[i] == pending[i].(key := WithQuadricFlag(pending[i].key))
  {
    seq(|pending|, i requires 0 <= i < |pending| => pending[i].(key := WithQuadricFlag(pending[i].key)))
  }

  /** What `begin` leaves behind: the two primitive maps and the cull list. */
  datatype Begun<T, Q> = Begun(tri: map<int, Instanced<T>>, quad: map<int, Instanced<Q>>, cull: seq<CullResult>)

  /** Index-buffer offsets fit in 31 bits and no flagged key is `u32::MAX`
      (the scan's "no primitive yet" marker). */
  predicate OffsetsInRange<T, Q>(triPending: seq<Pending<T>>, quadPending: seq<Pending<Q>>) {
    && (forall i :: 0 <= i < |triPending| ==> 0 <= triPending[i].key < QUADRIC_FLAG)
    && (forall i :: 0 <= i < |quadPending| ==> 0 <= quadPending[i].key < QUADRIC_FLAG - 1)
  }

  /** `begin`: collect the instances of each primitive (the maps start empty
      because `end` cleared them), then list them, triangles first, in the
      maps' iteration orders. */
  function Begin<T, Q>(triPending: seq<Pending<T>>, quadPending: seq<Pending<Q>>, triOrder: seq<int>, quadOrder: seq<int>): Begun<T, Q>
    requires OffsetsInRange(triPending, quadPending)
    requires Enumerates(triOrder, Collect(map[], triPending).Keys)
    requires Enumerates(quadOrder, Collect(map[], FlagKeys(quadPending)).Keys)
  {
    var tri := Collect(map[], triPending);
    var quad := Collect(map[], FlagKeys(quadPending));
    Begun(tri, quad, CullList(tri, quad, triOrder, quadOrder))
  }

  /** A key's entry lies in the map of the shader its bit 31 names. */
  lemma {:induction false} CollectedKeys<X>(pending: seq<Pending<X>>, lo: int, hi: int)
    requires forall i :: 0 <= i < |pending| ==> lo <= pending[i].key < hi
    ensures forall k :: k in Collect(map[], pending) ==> lo <= k < hi
  {
    forall k | k in Collect(map[], pending)
      ensures lo <= k < hi
    {
      CollectGroups(pending, k);
    }
  }

  /** The list `begin` builds is what `draw_world` needs: grouped by shader
      with triangles first, every key a u32 other than `u32::MAX`, the
      shader bit of each key naming the map its primitive lives in, each
      key's entry holding that key's instances in the order met, and every
      instance listed. */
  lemma BeginPrepares<T, Q>(triPending: seq<Pending<T>>, quadPending: seq<Pending<Q>>, triOrder: seq<int>, quadOrder: seq<int>)
    requires OffsetsInRange(triPending, quadPending)
    requires Enumerates(triOrder, Collect(map[], triPending).Keys)
    requires Enumerates(quadOrder, Collect(map[], FlagKeys(quadPending)).Keys)
    ensures var b := Begin(triPending, quadPending, triOrder, quadOrder);
      && ShaderSorted(b.cull)
      && KeysInRange(b.cull)
      && (forall i :: 0 <= i < |b.cull| ==> ShaderOf(b.cull[i].id) == b.cull[i].shader)
      && (forall k :: k in b.tri ==> b.tri[k].instances == InstancesOf(triPending, k))
      && (forall k :: k in b.quad ==> b.quad[k].instances == InstancesOf(FlagKeys(quadPending), k))
      && (forall k, i :: k in b.tri && 0 <= i < |b.tri[k].instances| ==> CullResult(k, Triangle, i, false) in b.cull)
      && (forall k, i :: k in b.quad && 0 <= i < |b.quad[k].instances| ==> CullResult(k, Quadric, i, false) in b.cull)
  {
    BeginKeys(triPending, quadPending, triOrder, quadOrder);
    BeginGroups(triPending, quadPending);
    var b := Begin(triPending, quadPending, triOrder, quadOrder);
    CullListPrepared(b.tri, b.quad, triOrder, quadOrder, seq(|b.cull|, _ => false));
  }

  /** The keys of the list `begin` builds: grouped by shader, u32 values
      other than `u32::MAX`, and flagged for the map they live in. */
  lemma BeginKeys<T, Q>(triPending: seq<Pending<T>>, quadPending: seq<Pending<Q>>, triOrder: seq<int>, quadOrder: seq<int>)
    requires OffsetsInRange(triPending, quadPending)
    requires Enumerates(triOrder, Collect(map[], triPending).Keys)
    requires Enumerates(quadOrder, Collect(map[], FlagKeys(quadPending)).Keys)
    ensures var b := Begin(triPending, quadPending, triOrder, quadOrder);
      && ShaderSorted(b.cull)
      && KeysInRange(b.cull)
      && (forall i :: 0 <= i < |b.cull| ==> ShaderOf(b.cull[i].id) == b.cull[i].shader)
  {
    var b := Begin(triPending, quadPending, triOrder, quadOrder);
    CullListPrepared(b.tri, b.quad, triOrder, quadOrder, seq(|b.cull|, _ => false));
    CollectedKeys(triPending, 0, QUADRIC_FLAG);
    CollectedKeys(FlagKeys(quadPending), QUADRIC_FLAG, U32_MAX);
    var ft := Flatten(b.tri, triOrder, Triangle);
    var fq := Flatten(b.quad, quadOrder, Quadric);
    FlatKeysIn(b.tri, triOrder, Triangle, 0, QUADRIC_FLAG);
    FlatKeysIn(b.quad, quadOrder, Quadric, QUADRIC_FLAG, U32_MAX);
    assert b.cull == ft + fq;
    forall i | 0 <= i < |b.cull|
      ensures IsU32(b.cull[i].id) && b.cull[i].id != U32_MAX && ShaderOf(b.cull[i].id) == b.cull[i].shader
    {
      if i < |ft| {
        assert b.cull[i] == ft[i];
      } else {
        assert b.cull[i] == fq[i - |ft|];
      }
    }
  }

  /** The entries of a flattened map carry its shader and keys from its
      key range. */
  lemma FlatKeysIn<X>(m: map<int, Instanced<X>>, order: seq<int>, s: Shader, lo: int, hi: int)
    requires forall j :: 0 <= j < |order| ==> order[j] in m
    requires forall k :: k in m ==> lo <= k < hi
    ensures forall i :: 0 <= i < |Flatten(m, order, s)| ==>
      lo <= Flatten(m, order, s)[i].id < hi && Flatten(m, order, s)[i].shader == s
  {
    FlattenResolves(m, order, s);
    var f := Flatten(m, order, s);
    forall i | 0 <= i < |f|
      ensures lo <= f[i].id < hi && f[i].shader == s
    {
      var j :| 0 <= j < |order| && order[j] == f[i].id;
    }
  }

  /** Each entry of the maps `begin` builds holds its key's instances in
      the order they were pending. */
  lemma BeginGroups<T, Q>(triPending: seq<Pending<T>>, quadPending: seq<Pending<Q>>)
    requires forall i :: 0 <= i < |quadPending| ==> IsU32(quadPending[i].key)
    ensures var tri := Collect(map[], triPending);
      forall k :: k in tri ==> tri[k].instances == InstancesOf(triPending, k)
    ensures var quad := Collect(map[], FlagKeys(quadPending));
      forall k :: k in quad ==> quad[k].instances == InstancesOf(FlagKeys(quadPending), k)
  {
    var tri := Collect(map[], triPending);
    var flagged := FlagKeys(quadPending);
    var quad := Collect(map[], flagged);
    forall k | k in tri
      ensures tri[k].instances == InstancesOf(triPending, k)
    {
      CollectGroups(triPending, k);
    }
    forall k | k in quad
      ensures quad[k].instances == InstancesOf(flagged, k)
    {
      CollectGroups(flagged, k);
    }
  }

  /** One frame: `begin`, the GPU's visibility decision (`flags`), and
      `draw_world`. The scan never panics on a list `begin` built, and its
      draws and data buffers account for exactly the visible instances. */
  method RenderFrame<T, Q>(triPending: seq<Pending<T>>, quadPending: seq<Pending<Q>>, triOrder: seq<int>, quadOrder: seq<int>, flags: seq<bool>)
    returns (culled: seq<CullResult>, frame: Frame<T, Q>)
    requires OffsetsInRange(triPending, quadPending)
    requires Enumerates(triOrder, Collect(map[], triPending).Keys)
    requires Enumerates(quadOrder, Collect(map[], FlagKeys(quadPending)).Keys)
    requires |flags| == |Begin(triPending, quadPending, triOrder, quadOrder).cull|
    ensures |culled| == |flags|
    ensures forall i :: 0 <= i < |culled| ==> culled[i].visible == flags[i]
    ensures Produces(frame, culled, Collect(map[], triPending), Collect(map[], FlagKeys(quadPending)))
  {
    var b := Begin(triPending, quadPending, triOrder, quadOrder);
    BeginPrepares(triPending, quadPending, triOrder, quadOrder);
    CullListPrepared(b.tri, b.quad, triOrder, quadOrder, flags);
    culled := Cull(b.cull, flags);
    assert ShaderSorted(culled) && KeysInRange(culled) by {
      assert forall i :: 0 <= i < |culled| ==> culled[i].id == b.cull[i].id && culled[i].shader == b.cull[i].shader;
    }
    var r := DrawWorld(culled, b.tri, b.quad);
    frame := r.value;
  }
}

=== FILE: draw_gui.dfy ===
/** The GUI drawing system: every panel's buttons forget last frame's
    clicks, the panels are painted (the GUI library reports, per button,
    whether the pointer hovers it and whether it was clicked), and a
    haptic pulse is requested when the pointer has just come to hover a
    button. */
module DrawGui {
  /** What painting a button reports. */
  datatype Response = Response(hovered: bool, clicked: bool)

  datatype Button = Button(text: string, clickedThisFrame: bool)

  datatype Panel = Panel(buttons: seq<Button>)

  datatype GuiContext = GuiContext(hoveredThisFrame: bool, hoveredLastFrame: bool)

  /** `paint_gui` for one panel whose clicks were reset: each button is
      clicked exactly when the library says so; the panel reports whether
      any button is hovered. */
  function Paint(p: Panel, responses: seq<Response>): (r: (Panel, bool))
    requires |responses| == |p.buttons|
    ensures |r.0.buttons| == |p.buttons|
    ensures forall i :: 0 <= i < |p.buttons| ==>
      r.0.buttons[i] == Button(p.buttons[i].text, p.buttons[i].clickedThisFrame || responses[i].clicked)
    ensures r.1 <==> exists i :: 0 <= i < |responses| && responses[i].hovered
  {
    var buttons := seq(|p.buttons|, i requires 0 <= i < |p.buttons| =>
      if responses[i].clicked then p.buttons[i].(clickedThisFrame := true) else p.buttons[i]);
    (Panel(buttons), exists i :: 0 <= i < |responses| && responses[i].hovered)
  }

  function ResetClicks(p: Panel): (r: Panel)
    ensures |r.buttons| == |p.buttons|
    ensures forall i :: 0 <= i < |p.buttons| ==> r.buttons[i] == p.buttons[i].(clickedThisFrame := false)
  {
    Panel(seq(|p.buttons|, i requires 0 <= i < |p.buttons| => p.buttons[i].(clickedThisFrame := false)))
  }

  predicate Fits(panels: seq<Panel>, responses: seq<seq<Response>>) {
    |responses| == |panels| && forall k :: 0 <= k < |panels| ==> |responses[k]| == |panels[k].buttons|
  }

  /** Some button of some panel is hovered. */
  predicate AnyHovered(responses: seq<seq<Response>>) {
    exists k, i :: 0 <= k < |responses| && 0 <= i < |responses[k]| && responses[k][i].hovered
  }

  /** Hovering in a list of panels is hovering in the first one or in the
      rest. */
  lemma AnyHoveredCons(responses: seq<seq<Response>>)
    requires |responses| > 0
    ensures AnyHovered(responses) <==>
      (exists i :: 0 <= i < |responses[0]| && responses[0][i].hovered) || AnyHovered(responses[1..])
  {
    if AnyHovered(responses) {
      var k, i :| 0 <= k < |responses| && 0 <= i < |responses[k]| && responses[k][i].hovered;
      if k > 0 {
        assert responses[1..][k - 1] == responses[k];
      }
    }
    if AnyHovered(responses[1..]) {
      var k, i :| 0 <= k < |responses[1..]| && 0 <= i < |responses[1..][k]| && responses[1..][k][i].hovered;
      assert responses[k + 1] == responses[1..][k];
    }
  }

  /** The loop over the panels: reset, then paint; the context's hover
      flag becomes set when any button of any panel is hovered. */
  function DrawPanels(panels: seq<Panel>, responses: seq<seq<Response>>, hovered: bool): (r: (seq<Panel>, bool))
    requires Fits(panels, responses)
    ensures |r.0| == |panels|
    ensures forall k :: 0 <= k < |panels| ==> r.0[k] == Paint(ResetClicks(panels[k]), responses[k]).0
    ensures r.1 <==> hovered || AnyHovered(responses)
    decreases |panels|
  {
    if |panels| == 0 then ([], hovered)
    else
      var (first, h) := Paint(ResetClicks(panels[0]), responses[0]);
      var (rest, h') := DrawPanels(panels[1..], responses[1..], hovered || h);
      assert forall k :: 1 <= k < |panels| ==> panels[1..][k - 1] == panels[k] && responses[1..][k - 1] == responses[k];
      AnyHoveredCons(responses);
      ([first] + rest, h')
  }

  /** `draw_gui_system`: the new panels, the context, and whether a haptic
      pulse was requested. */
  function DrawGuiSystem(g: GuiContext, panels: seq<Panel>, responses: seq<seq<Response>>): (r: (seq<Panel>, GuiContext, bool))
    requires Fits(panels, responses)
    ensures r.1.hoveredLastFrame == r.1.hoveredThisFrame
    ensures r.1.hoveredThisFrame <==> AnyHovered(responses)
    ensures r.2 <==> !g.hoveredLastFrame && r.1.hoveredThisFrame
  {
    var (painted, hovered) := DrawPanels(panels, responses, false);
    var haptic := !g.hoveredLastFrame && hovered;
    (painted, GuiContext(hovered, hovered), haptic)
  }

  /** A click is reported for exactly one frame: a button is clicked after
      drawing exactly when this frame's painting clicked it. */
  lemma ClicksLastOneFrame(g: GuiContext, panels: seq<Panel>, responses: seq<seq<Response>>, k: nat, i: nat)
    requires Fits(panels, responses) && k < |panels| && i < |panels[k].buttons|
    ensures DrawGuiSystem(g, panels, responses).0[k].buttons[i].clickedThisFrame <==> responses[k][i].clicked
  {
  }

  /** Hovering the same button over consecutive frames asks for one
      pulse, on the first of them. */
  lemma OnePulsePerHover(g: GuiContext, panels: seq<Panel>, responses: seq<seq<Response>>)
    requires Fits(panels, responses)
    ensures var (p1, g1, pulse1) := DrawGuiSystem(g, panels, responses);
      Fits(p1, responses) &&
      var (_, _, pulse2) := DrawGuiSystem(g1, p1, responses);
      !pulse2
  {
  }
}

=== FILE: editor_input.dfy ===
/** The editor's fly-through camera control: a keyboard state machine fed
    with the frame's key events, and a pose that moves while a key is held.
    The camera's forward and right directions depend on its orientation
    (a quaternion rotation, floating point) and are parameters here. */
module EditorInput {
  import opened Wrappers

  // Panic and error messages, as the source words them.
  const NO_KEY_CODE := "event without a key code"

  /** `INPUT_SPEED`, in units per second. */
  const INPUT_SPEED: real := 10.0

  datatype Key = W | A | S | D | Space | LShift | OtherKey(code: nat)

  datatype ElementState = Pressed | Released

  /** A `KeyboardInput`: the key may be missing. */
  datatype KeyEvent = KeyEvent(state: ElementState, key: Option<Key>)

  datatype KeyboardState = Idle | HoldingKey(key: Key)

  datatype Vec3 = Vec3(x: real, y: real, z: real)

  function Add(a: Vec3, b: Vec3): Vec3 {
    Vec3(a.x + b.x, a.y + b.y, a.z + b.z)
  }

  function Scale(k: real, v: Vec3): Vec3 {
    Vec3(k * v.x, k * v.y, k * v.z)
  }

  /** The state after processing a batch of events: each event with a
      press holds its key, any other event returns to idle, so the last
      event decides. An event without a key code panics on `unwrap`. */
  function ProcessEvents(state: KeyboardState, events: seq<KeyEvent>): (r: Result<KeyboardState, string>)
    ensures r.Success? <==> forall i :: 0 <= i < |events| ==> events[i].key.Some?
    ensures r.Success? && |events| == 0 ==> r.value == state
    ensures r.Success? && |events| > 0 ==>
      r.value == (if events[|events| - 1].state == Pressed then HoldingKey(events[|events| - 1].key.value) else Idle)
    decreases |events|
  {
    if |events| == 0 then Success(state)
    else if events[0].key.None? then Failure(NO_KEY_CODE)
    else
      var next := if events[0].state == Pressed then HoldingKey(events[0].key.value) else Idle;
      assert forall i :: 1 <= i < |events| ==> events[i] == events[1..][i - 1];
      ProcessEvents(next, events[1..])
  }

  /** `update_pose`: W and S move along the camera's forward direction, D
      and A along its right direction, Space and left Shift straight up and
      down; any other key leaves the position alone. */
  function UpdatePose(key: Key, speed: real, forward: Vec3, right: Vec3, position: Vec3): (p: Vec3)
    ensures key.OtherKey? ==> p == position
    ensures key == Space || key == LShift ==> p.x == position.x && p.z == position.z
  {
    match key
    case W => Add(position, Scale(speed, forward))
    case S => Add(position, Scale(-speed, forward))
    case D => Add(position, Scale(speed, right))
    case A => Add(position, Scale(-speed, right))
    case Space => Vec3(position.x, position.y + speed, position.z)
    case LShift => Vec3(position.x, position.y - speed, position.z)
    case OtherKey(_) => position
  }

  /** `InputContext::update`: process the events, then move the pose while a
      key is held, by `INPUT_SPEED * delta_time`. */
  function Update(state: KeyboardState, deltaTime: real, events: seq<KeyEvent>, forward: Vec3, right: Vec3, position: Vec3): (r: Result<(KeyboardState, Vec3), string>)
    ensures r.Success? && r.value.0 == Idle ==> r.value.1 == position
    ensures r.Success? && r.value.0.HoldingKey? ==>
      r.value.1 == UpdatePose(r.value.0.key, INPUT_SPEED * deltaTime, forward, right, position)
    ensures r.Success? <==> ProcessEvents(state, events).Success?
    ensures r.Success? ==> r.value.0 == ProcessEvents(state, events).value
  {
    var next :- ProcessEvents(state, events);
    match next
    case HoldingKey(key) => Success((next, UpdatePose(key, INPUT_SPEED * deltaTime, forward, right, position)))
    case Idle => Success((next, position))
  }

  /** Moving forward and back by the same amount cancels out. */
  lemma ForwardBackCancel(speed: real, forward: Vec3, right: Vec3, position: Vec3)
    ensures UpdatePose(S, speed, forward, right, UpdatePose(W, speed, forward, right, position)) == position
  {
  }

  const FORWARD: Vec3 := Vec3(0.0, 0.0, -1.0)
  const RIGHT: Vec3 := Vec3(1.0, 0.0, 0.0)
  const ORIGIN: Vec3 := Vec3(0.0, 0.0, 0.0)

  /** With the default orientation (forward is -z), at one second per
      frame: pressing W moves the camera 10 units along -z. */
  lemma PressWMovesForward()
    ensures Update(Idle, 1.0, [KeyEvent(Pressed, Some(W))], FORWARD, RIGHT, ORIGIN)
      == Success((HoldingKey(W), Vec3(0.0, 0.0, -10.0)))
  {
    assert ProcessEvents(Idle, [KeyEvent(Pressed, Some(W))]) == Success(HoldingKey(W));
  }

  /** Holding W for another frame, with no new event, moves it 10 more. */
  lemma HoldingWKeepsMoving()
    ensures Update(HoldingKey(W), 1.0, [], FORWARD, RIGHT, Vec3(0.0, 0.0, -10.0))
      == Success((HoldingKey(W), Vec3(0.0, 0.0, -20.0)))
  {
  }

  /** Releasing W stops the camera where it is. */
  lemma ReleaseWStops()
    ensures Update(HoldingKey(W), 1.0, [KeyEvent(Released, Some(W))], FORWARD, RIGHT, Vec3(0.0, 0.0, -20.0))
      == Success((Idle, Vec3(0.0, 0.0, -20.0)))
  {
    assert ProcessEvents(HoldingKey(W), [KeyEvent(Released, Some(W))]) == Success(Idle);
  }
}

=== FILE: editor_protocol.dfy ===
/** The framing the editor and the OpenXR client runtime use over their
    socket. A request is a fixed header (payload length and request type)
    followed by the request value's memory image; a response is its length as
    a big-endian `u32` followed by the value's memory image (or the images of
    several values of one type, back to back).

    Values are copied to and from the wire as raw memory (`transmute`), so a
    value of a type `T` is modelled as its in-memory image: a byte sequence of
    length `size_of::<T>()`. The socket is a byte stream that `read_exact`
    consumes from the front. */
module EditorProtocol {
  import opened Bytes
  import opened Wrappers

  // Panic and error messages, as the source words them.
  const UNEXPECTED_EOF := "unexpected end of file"
  const INVALID_REQUEST_TYPE := "invalid request type"
  const PAYLOAD_LONGER_THAN_BUFFER := "payload longer than the buffer"
  const PAYLOAD_SHORTER_THAN_VALUE := "payload shorter than the value"
  const LONGER_THAN_BUFFER := "message longer than the buffer"
  const MESSAGE_SHORTER_THAN_VALUE := "message shorter than the value"
  const DIVISION_BY_ZERO := "division by zero"

  /** The client's and the server's scratch buffer: 1 MiB. */
  const BUFFER_SIZE: nat := 1024 * 1024

  /** `size_of::<RequestHeader>()`: a `u32` length and a `u32` enum tag. */
  const HEADER_SIZE: nat := 8

  datatype RequestType = GetViewConfiguration | GetViewCount

  datatype RequestHeader = RequestHeader(payloadLength: int, requestType: RequestType)

  type Stream = seq<u8>

  /** The `#[repr(u32)]` discriminant. */
  function TypeCode(t: RequestType): (code: nat)
    ensures code < 2
  {
    match t
    case GetViewConfiguration => 0
    case GetViewCount => 1
  }

  /** Reinterpreting a `u32` as the enum: only the two declared
      discriminants are valid. */
  function TypeOfCode(code: int): (r: Option<RequestType>)
    ensures r.Some? <==> code == 0 || code == 1
    ensures r.Some? ==> TypeCode(r.value) == code
  {
    if code == 0 then Some(GetViewConfiguration)
    else if code == 1 then Some(GetViewCount)
    else None
  }

  function Reverse(s: seq<u8>): (r: seq<u8>)
    ensures |r| == |s| && forall i :: 0 <= i < |s| ==> r[i] == s[|s| - 1 - i]
  {
    if |s| == 0 then [] else Reverse(s[1..]) + [s[0]]
  }

  lemma ReverseTwice(s: seq<u8>)
    ensures Reverse(Reverse(s)) == s
  {
  }

  /** A `u32` as it sits in memory on the little-endian targets the engine
      runs on. */
  function NativeU32(n: int): (r: seq<u8>)
    requires IsU32(n)
    ensures |r| == 4
  {
    Reverse(EncodeU32(n))
  }

  function ReadNativeU32(s: seq<u8>): (n: int)
    requires |s| == 4
    ensures IsU32(n) && NativeU32(n) == s
  {
    ReverseTwice(s);
    DecodeU32(Reverse(s))
  }

  lemma NativeRoundTrip(n: int)
    requires IsU32(n)
    ensures ReadNativeU32(NativeU32(n)) == n
  {
    ReverseTwice(EncodeU32(n));
    DecodeEncodeU32(n);
  }

  /** The memory image of a header: the length, then the tag. */
  function HeaderBytes(h: RequestHeader): (r: seq<u8>)
    requires IsU32(h.payloadLength)
    ensures |r| == HEADER_SIZE
  {
    NativeU32(h.payloadLength) + NativeU32(TypeCode(h.requestType))
  }

  /** `read_exact`: exactly `n` bytes from the front of the stream, or an
      end-of-file error. */
  function ReadExact(s: Stream, n: nat): (r: Result<(seq<u8>, Stream), string>)
    ensures r.Success? <==> n <= |s|
    ensures r.Success? ==> r.value.0 + r.value.1 == s && |r.value.0| == n
  {
    if n > |s| then Failure(UNEXPECTED_EOF) else Success((s[..n], s[n..]))
  }

  /** `write_request`: the header, whose length field is
      `size_of::<R>() as u32`, then the request's image. */
  function WriteRequest(kind: RequestType, request: seq<u8>): (wire: seq<u8>)
    ensures |wire| == HEADER_SIZE + |request| && wire[HEADER_SIZE..] == request
  {
    HeaderBytes(RequestHeader(|request| % U32_LIMIT, kind)) + request
  }

  /** `read_request_header`. A tag outside the declared discriminants is
      not a valid `RequestType`; the source's transmute does not check it, the
      model reports it. */
  function ReadRequestHeader(s: Stream): (r: Result<(RequestHeader, Stream), string>)
    ensures r.Success? <==> |s| >= HEADER_SIZE && TypeOfCode(ReadNativeU32(s[4..8])).Some?
    ensures r.Success? ==> |s| >= HEADER_SIZE && r.value.1 == s[HEADER_SIZE..]
    ensures r.Success? ==> r.value.0.payloadLength == ReadNativeU32(s[..4])
    ensures r.Success? ==> IsU32(r.value.0.payloadLength) && HeaderBytes(r.value.0) == s[..HEADER_SIZE]
    ensures |s| < HEADER_SIZE ==> r.Failure?
  {
    var (bytes, rest) :- ReadExact(s, HEADER_SIZE);
    assert bytes == s[..HEADER_SIZE] && bytes[4..8] == s[4..8] && bytes[..4] == s[..4];
    var kind := TypeOfCode(ReadNativeU32(bytes[4..8]));
    if kind.None? then Failure(INVALID_REQUEST_TYPE)
    else
      HeaderImage(bytes, kind.value);
      Success((RequestHeader(ReadNativeU32(bytes[..4]), kind.value), rest))
  }

  /** Eight bytes whose second word is a type's code are the image of the
      header they read as. */
  lemma HeaderImage(bytes: seq<u8>, kind: RequestType)
    requires |bytes| == HEADER_SIZE && ReadNativeU32(bytes[4..8]) == TypeCode(kind)
    ensures HeaderBytes(RequestHeader(ReadNativeU32(bytes[..4]), kind)) == bytes
  {
    assert bytes == bytes[..4] + bytes[4..8];
  }

  /** `read_request_payload`: reads `payload_length` bytes into the buffer
      and takes the value from its first `size_of::<R>()` bytes. A length
      over the buffer size panics on the slice; a payload shorter than the
      type would leave part of the value to stale buffer bytes, which the
      model reports as an error. */
  function ReadRequestPayload(s: Stream, payloadLength: nat, size: nat): (r: Result<(seq<u8>, Stream), string>)
    ensures r.Success? <==> payloadLength <= BUFFER_SIZE && payloadLength <= |s| && size <= payloadLength
    ensures r.Success? ==> r.value.0 == s[..size] && r.value.1 == s[payloadLength..]
  {
    if payloadLength > BUFFER_SIZE then Failure(PAYLOAD_LONGER_THAN_BUFFER)
    else
      var (payload, rest) :- ReadExact(s, payloadLength);
      if payloadLength < size then Failure(PAYLOAD_SHORTER_THAN_VALUE)
      else Success((payload[..size], rest))
  }

  /** `get_request`: the header, then a payload of the length it names. */
  function GetRequest(s: Stream, size: nat): (r: Result<(RequestType, seq<u8>, Stream), string>)
    ensures r.Success? ==> |r.value.1| == size
    ensures r.Success? <==>
      && |s| >= HEADER_SIZE && TypeOfCode(ReadNativeU32(s[4..8])).Some?
      && var len := ReadNativeU32(s[..4]);
        len <= BUFFER_SIZE && HEADER_SIZE + len <= |s| && size <= len
    ensures r.Success? ==> var len := ReadNativeU32(s[..4]);
      && TypeCode(r.value.0) == ReadNativeU32(s[4..8])
      && r.value.1 == s[HEADER_SIZE..HEADER_SIZE + size]
      && r.value.2 == s[HEADER_SIZE + len..]
  {
    var (header, rest) :- ReadRequestHeader(s);
    var (value, after) :- ReadRequestPayload(rest, header.payloadLength, size);
    Success((header.requestType, value, after))
  }

  /** A header image reads back as the header. */
  lemma HeaderRoundTrip(h: RequestHeader, rest: Stream)
    requires IsU32(h.payloadLength)
    ensures ReadRequestHeader(HeaderBytes(h) + rest) == Success((h, rest))
  {
    var wire := HeaderBytes(h) + rest;
    var bytes := wire[..HEADER_SIZE];
    assert bytes == HeaderBytes(h);
    assert wire[HEADER_SIZE..] == rest;
    assert bytes[..4] == NativeU32(h.payloadLength);
    assert bytes[4..8] == NativeU32(TypeCode(h.requestType));
    NativeRoundTrip(h.payloadLength);
    NativeRoundTrip(TypeCode(h.requestType));
  }

  /** The header the server reads first names the request's type and its
      exact length. */
  lemma RequestHeaderRoundTrip(kind: RequestType, request: seq<u8>, rest: Stream)
    requires |request| <= BUFFER_SIZE
    ensures ReadRequestHeader(WriteRequest(kind, request) + rest)
      == Success((RequestHeader(|request|, kind), request + rest))
  {
    var h := RequestHeader(|request|, kind);
    assert |request| % U32_LIMIT == |request|;
    var header := HeaderBytes(h);
    assert WriteRequest(kind, request) == header + request;
    assert (header + request) + rest == header + (request + rest);
    HeaderRoundTrip(h, request + rest);
  }

  /** The payload the server reads after the header is the request itself
      when the header names the request's own length. */
  lemma PayloadRoundTrip(request: seq<u8>, rest: Stream)
    requires |request| <= BUFFER_SIZE
    ensures ReadRequestPayload(request + rest, |request|, |request|) == Success((request, rest))
  {
    var body := request + rest;
    assert body[..|request|] == request;
    assert body[|request|..] == rest;
  }

  /** A request the client sends is the request the server reads, however
      the stream continues. */
  lemma RequestRoundTrip(kind: RequestType, request: seq<u8>, rest: Stream)
    requires |request| <= BUFFER_SIZE
    ensures GetRequest(WriteRequest(kind, request) + rest, |request|) == Success((kind, request, rest))
  {
    RequestHeaderRoundTrip(kind, request, rest);
    PayloadRoundTrip(request, rest);
  }

  /** `send_response`: `size_of::<T>() as u32` big-endian, then the image.
      A response of several values is the concatenation of their images. */
  function SendResponse(response: seq<u8>): (wire: seq<u8>)
    ensures |wire| == 4 + |response| && wire[4..] == response
    ensures DecodeU32(wire[..4]) == |response| % U32_LIMIT
  {
    EncodeU32(|response| % U32_LIMIT) + response
  }

  /** The length prefix and the message after it, as both `get_response`
      and `get_response_vec` read them. */
  function ReadMessage(s: Stream): (r: Result<(seq<u8>, Stream), string>)
    ensures r.Success? ==> |s| >= 4 && |r.value.0| == DecodeU32(s[..4]) <= BUFFER_SIZE
    ensures r.Success? ==> s == s[..4] + r.value.0 + r.value.1
  {
    var (prefix, rest) :- ReadExact(s, 4);
    var size := DecodeU32(prefix);
    if size > BUFFER_SIZE then Failure(LONGER_THAN_BUFFER)
    else
      var (message, after) :- ReadExact(rest, size);
      assert s == prefix + rest;
      Success((message, after))
  }

  /** `get_response`: the value is read from the first `size_of::<R>()`
      bytes of the message. */
  function GetResponse(s: Stream, size: nat): (r: Result<(seq<u8>, Stream), string>)
    ensures r.Success? ==> |r.value.0| == size
    ensures r.Success? <==>
      && |s| >= 4
      && var n := DecodeU32(s[..4]);
        n <= BUFFER_SIZE && 4 + n <= |s| && size <= n
    ensures r.Success? ==> var n := DecodeU32(s[..4]);
      r.value.0 == s[4..4 + size] && r.value.1 == s[4 + n..]
  {
    var (message, rest) :- ReadMessage(s);
    if |message| < size then Failure(MESSAGE_SHORTER_THAN_VALUE)
    else Success((message[..size], rest))
  }

  /** The message split into consecutive `size`-byte images. */
  function Chunks(data: seq<u8>, size: nat): (items: seq<seq<u8>>)
    requires size > 0
    ensures |items| == |data| / size
    ensures forall i :: 0 <= i < |items| ==> |items[i]| == size
    decreases |data|
  {
    if |data| < size then
      assert |data| == 0 * size + |data|;
      DivModOf(0, |data|, size);
      []
    else
      assert |data| == ((|data| - size) / size + 1) * size + (|data| - size) % size;
      DivModOf((|data| - size) / size + 1, (|data| - size) % size, size);
      [data[..size]] + Chunks(data[size..], size)
  }

  function Flatten(items: seq<seq<u8>>): (data: seq<u8>)
  {
    if |items| == 0 then [] else items[0] + Flatten(items[1..])
  }

  /** `vec_from_bytes` after `get_response_vec`'s read: `message_size /
      size_of::<T>()` values, taken from the front of the message. A
      zero-sized `T` divides by zero. */
  function GetResponseVec(s: Stream, size: nat): (r: Result<(seq<seq<u8>>, Stream), string>)
    ensures size == 0 ==> r.Failure?
    ensures r.Success? ==> |s| >= 4 && |r.value.0| == DecodeU32(s[..4]) / size
    ensures r.Success? ==> forall i :: 0 <= i < |r.value.0| ==> |r.value.0[i]| == size
  {
    var (message, rest) :- ReadMessage(s);
    if size == 0 then Failure(DIVISION_BY_ZERO)
    else Success((Chunks(message, size), rest))
  }

  lemma {:induction false} FlattenLength(items: seq<seq<u8>>, size: nat)
    requires forall i :: 0 <= i < |items| ==> |items[i]| == size
    ensures |Flatten(items)| == |items| * size
  {
    if |items| > 0 {
      FlattenLength(items[1..], size);
    }
  }

  /** Splitting the concatenation of equal-sized images gives the images
      back. */
  lemma {:induction false} ChunksOfFlatten(items: seq<seq<u8>>, size: nat)
    requires size > 0
    requires forall i :: 0 <= i < |items| ==> |items[i]| == size
    ensures Chunks(Flatten(items), size) == items
  {
    FlattenLength(items, size);
    if |items| > 0 {
      var data := Flatten(items);
      assert data[..size] == items[0];
      assert data[size..] == Flatten(items[1..]);
      ChunksOfFlatten(items[1..], size);
    }
  }

  /** The message `send_response` framed is the message read back. */
  lemma MessageRoundTrip(message: seq<u8>, rest: Stream)
    requires |message| <= BUFFER_SIZE
    ensures ReadMessage(SendResponse(message) + rest) == Success((message, rest))
  {
    var wire := SendResponse(message) + rest;
    assert wire[..4] == SendResponse(message)[..4];
    assert DecodeU32(wire[..4]) == |message|;
    assert wire[4..] == message + rest;
    assert (message + rest)[..|message|] == message;
    assert (message + rest)[|message|..] == rest;
  }

  /** A single response round-trips. */
  lemma ResponseRoundTrip(response: seq<u8>, rest: Stream)
    requires |response| <= BUFFER_SIZE
    ensures GetResponse(SendResponse(response) + rest, |response|) == Success((response, rest))
  {
    MessageRoundTrip(response, rest);
    assert response[..|response|] == response;
  }

  /** A response of several equal-sized values round-trips to the same
      number of values, each unchanged. */
  lemma ResponseVecRoundTrip(items: seq<seq<u8>>, size: nat, rest: Stream)
    requires size > 0
    requires forall i :: 0 <= i < |items| ==> |items[i]| == size
    requires |items| * size <= BUFFER_SIZE
    ensures GetResponseVec(SendResponse(Flatten(items)) + rest, size) == Success((items, rest))
  {
    FlattenLength(items, size);
    MessageRoundTrip(Flatten(items), rest);
    ChunksOfFlatten(items, size);
  }
}

=== FILE: engine.dfy ===
/** The engine's tick: `update` polls the OpenXR session until there is a
    frame to render (or the application must shut down), `finish` ends
    that frame, and the performance timers report an average frame time
    at most once a second. The engine creates the stage and HMD tracking
    entities, the HMD parented to the stage. */
module Engine {
  import opened Wrappers
  import opened SimulatorSession
  import Bytes
  import XrContext
  import Transforms

  // ---------------------------------------------------------------------
  // Tracking entities

  /** `create_tracking_entities`: a stage entity and an HMD entity, both
      with identity local and global transforms, the HMD parented to the
      stage. `next` is the first free entity of the world. */
  function CreateTrackingEntities(w: Transforms.World, next: nat): (r: (Transforms.World, nat, nat))
    requires forall e :: e in w.local || e in w.global || e in w.parent ==> e < next
    ensures var (w', stage, hmd) := r;
      && stage != hmd && stage !in w.global && hmd !in w.global
      && w'.parent == w.parent[hmd := stage] && stage !in w'.parent
      && w'.local == w.local[stage := Transforms.IDENTITY][hmd := Transforms.IDENTITY]
      && w'.global == w.global[stage := Transforms.IDENTITY][hmd := Transforms.IDENTITY]
  {
    var stage := next;
    var hmd := next + 1;
    (Transforms.World(
      w.local[stage := Transforms.IDENTITY][hmd := Transforms.IDENTITY],
      w.global[stage := Transforms.IDENTITY][hmd := Transforms.IDENTITY],
      w.parent[hmd := stage]), stage, hmd)
  }

  /** With the stage left at the origin, the HMD's global transform is its
      local transform, which the engine sets to the HMD's pose in the
      stage: the reason the HMD is parented to the stage. */
  lemma HmdGlobalIsPoseInStage(hmdInStage: Transforms.Affine)
    ensures var (w, stage, hmd) := CreateTrackingEntities(Transforms.World(map[], map[], map[]), 0);
      var posed := w.(local := w.local[hmd := hmdInStage]);
      var r := Transforms.UpdateGlobalTransform(posed, map[hmd := 1]);
      r.Success? && r.value.global[hmd] == hmdInStage
  {
    var (w, stage, hmd) := CreateTrackingEntities(Transforms.World(map[], map[], map[]), 0);
    var posed := w.(local := w.local[hmd := hmdInStage]);
    var rank := map[hmd := 1];
    assert Transforms.Resolve(posed, rank, hmd).Some?;
    forall e | Transforms.IsChild(posed, e) ensures Transforms.Resolve(posed, rank, e).Some? {
      assert e == hmd;
    }
    var r := Transforms.UpdateGlobalTransform(posed, rank);
    Transforms.ChildFollowsParent(posed, rank, hmd);
    assert r.value.global[stage] == Transforms.IDENTITY;
    Transforms.ComposeIdentity(hmdInStage);
  }

  // ---------------------------------------------------------------------
  // PerformanceTimers

  const NANOS_PER_MILLI: nat := 1_000_000
  const NANOS_PER_SECOND: nat := 1_000_000_000

  /** Instants are nanoseconds on a clock; `timings` holds frame times in
      whole milliseconds. */
  datatype Timers = Timers(frameStart: nat, timings: seq<nat>, lastUpdate: nat)

  /** `Instant - Instant`, which saturates at zero. */
  function Elapsed(later: nat, earlier: nat): nat {
    if later >= earlier then later - earlier else 0
  }

  function Sum(s: seq<nat>): nat {
    if |s| == 0 then 0 else Sum(s[..|s| - 1]) + s[|s| - 1]
  }

  /** `PerformanceTimers::end` at instant `now`: record this frame's time;
      once at least a second has passed since the last report, report the
      truncated average of the recorded times and start over. */
  function End(t: Timers, now: nat): (r: (Timers, Option<nat>))
    ensures r.1.None? ==> r.0 == t.(timings := t.timings + [Elapsed(now, t.frameStart) / NANOS_PER_MILLI])
    ensures r.1.Some? <==> Elapsed(now, t.lastUpdate) >= NANOS_PER_SECOND
    ensures r.1.Some? ==> r.0.timings == [] && r.0.lastUpdate == now && r.0.frameStart == t.frameStart
    ensures r.1.Some? ==>
      var all := t.timings + [Elapsed(now, t.frameStart) / NANOS_PER_MILLI];
      r.1.value * |all| <= Sum(all) < (r.1.value + 1) * |all|
  {
    var tic := Elapsed(now, t.frameStart) / NANOS_PER_MILLI;
    var timings := t.timings + [tic];
    if Elapsed(now, t.lastUpdate) >= NANOS_PER_SECOND then
      var average := Sum(timings) / |timings|;
      (Timers(t.frameStart, [], now), Some(average))
    else (t.(timings := timings), None)
  }

  function Min(s: seq<nat>): nat
    requires |s| > 0
  {
    if |s| == 1 then s[0] else var m := Min(s[..|s| - 1]); if s[|s| - 1] < m then s[|s| - 1] else m
  }

  function Max(s: seq<nat>): nat
    requires |s| > 0
  {
    if |s| == 1 then s[0] else var m := Max(s[..|s| - 1]); if s[|s| - 1] > m then s[|s| - 1] else m
  }

  lemma {:induction false} SumBounds(s: seq<nat>)
    requires |s| > 0
    ensures Min(s) * |s| <= Sum(s) <= Max(s) * |s|
  {
    SumAboveMin(s);
    SumBelowMax(s);
  }

  lemma MulSucc(a: nat, n: nat)
    ensures a * (n + 1) == a * n + a
  {
  }

  lemma {:induction false} SumAboveMin(s: seq<nat>)
    requires |s| > 0
    ensures Min(s) * |s| <= Sum(s)
  {
    if |s| > 1 {
      var init := s[..|s| - 1];
      SumAboveMin(init);
      var lo := Min(s);
      Bytes.MulMonotone(lo, Min(init), |init|);
      MulSucc(lo, |init|);
    }
  }

  lemma {:induction false} SumBelowMax(s: seq<nat>)
    requires |s| > 0
    ensures Sum(s) <= Max(s) * |s|
  {
    if |s| > 1 {
      var init := s[..|s| - 1];
      SumBelowMax(init);
      var hi := Max(s);
      Bytes.MulMonotone(Max(init), hi, |init|);
      MulSucc(hi, |init|);
    }
  }

  /** The reported average lies between the shortest and the longest
      recorded frame time. */
  lemma AverageBetweenExtremes(t: Timers, now: nat)
    requires End(t, now).1.Some?
    ensures var all := t.timings + [Elapsed(now, t.frameStart) / NANOS_PER_MILLI];
      Min(all) <= End(t, now).1.value <= Max(all)
  {
    var all := t.timings + [Elapsed(now, t.frameStart) / NANOS_PER_MILLI];
    var avg := End(t, now).1.value;
    var n := |all|;
    SumBounds(all);
    assert avg * n <= Sum(all) < (avg + 1) * n;
    QuotientBetween(Sum(all), n, avg, Min(all), Max(all));
  }

  lemma QuotientBetween(sum: nat, n: nat, q: nat, lo: nat, hi: nat)
    requires n > 0 && lo * n <= sum <= hi * n && q * n <= sum < (q + 1) * n
    ensures lo <= q <= hi
  {
    if q < lo {
      Bytes.MulMonotone(q + 1, lo, n);
    }
    if q > hi {
      Bytes.MulMonotone(hi + 1, q, n);
    }
  }

  // ---------------------------------------------------------------------
  // Engine::update and Engine::finish

  /** What one pass of `update`'s loop sees from the outside: whether the
      quit flag is set, the polled event, the HMD pose and located views
      (used when focused), and `wait_frame`'s outcome with the acquired
      image's index. The four flags say whether an OpenXR call the pass
      makes returns an error: `poll_event`, `session.begin`,
      `session.end`, and the calls inside `begin_frame` (`wait`, `begin`,
      `acquire_image`, `wait_image`, `sync_actions`). A flag for a call the
      pass does not make has no effect. */
  datatype Pass = Pass(
    shouldQuit: bool, event: Option<XrContext.XrEvent>,
    hmdInStage: Transforms.Affine, viewsValid: bool, viewFlags: nat, located: seq<XrContext.View>,
    shouldRender: bool, imageIndex: nat,
    pollFails: bool, beginFails: bool, endFails: bool, frameFails: bool)

  /** The OpenXR calls whose error `update` returns with `?`. */
  datatype XrCall = PollEventCall | SessionBeginCall | EndSessionCall

  /** Some OpenXR call of the pass returns an error. */
  predicate XrFails(p: Pass) {
    p.pollFails || p.beginFails || p.endFails || p.frameFails
  }

  /** Calls the loop makes into the session and the renderer. */
  datatype Action = BeginSession | EndSession | SleepBriefly | BeginRender

  datatype TickData = TickData(previousState: SessionState, currentState: SessionState, swapchainImageIndex: nat)

  /** How `update` ends: `Err(ShuttingDown)`, `Ok(tick)`, still in the
      loop when the passes run out, `Err` of a failed OpenXR call, or the
      panic on a `begin_frame` error other than `NotRendering`. */
  datatype Outcome = ShuttingDown | Tick(data: TickData) | StillWaiting | XrFailed(call: XrCall) | FramePanic

  datatype EngineState = EngineState(xr: XrContext.Xr, hmdLocal: Transforms.Affine, frameStart: nat)

  datatype Step = Continue(state: EngineState, actions: seq<Action>) | Return(outcome: Outcome, state: EngineState, actions: seq<Action>)

  /** One pass of the loop. */
  function Pass1(s: EngineState, p: Pass, now: nat): (r: Step)
    ensures p.shouldQuit ==> r == Return(ShuttingDown, s, [])
    ensures !p.shouldQuit && p.pollFails ==> r == Return(XrFailed(PollEventCall), s, [])
    ensures r.Return? && r.outcome.Tick? ==> p.shouldRender && !p.shouldQuit && !p.pollFails && !p.frameFails
    ensures r.Return? && (r.outcome.XrFailed? || r.outcome.FramePanic?) ==> !p.shouldQuit && XrFails(p)
  {
    if p.shouldQuit then Return(ShuttingDown, s, [])
    else if p.pollFails then Return(XrFailed(PollEventCall), s, [])
    else
      var previous := s.xr.sessionState;
      var (xr, current) := XrContext.PollXrEvent(s.xr, p.event);
      var focused := if current == Focused
        then EngineState(XrContext.UpdateViews(xr, p.viewsValid, p.viewFlags, p.located), p.hmdInStage, s.frameStart)
        else s.(xr := xr);
      if previous == Stopping && current == Idle then Continue(focused, [])
      else if current == Idle then Continue(focused, [SleepBriefly])
      else
        var begun := if previous == Idle && current == Ready then [BeginSession] else [];
        if begun != [] && p.beginFails then Return(XrFailed(SessionBeginCall), focused, begun)
        else if current == Exiting || current == LossPending then Return(ShuttingDown, focused, begun)
        else if current == Stopping then
          if p.endFails then Return(XrFailed(EndSessionCall), focused, [EndSession])
          else Continue(focused, [EndSession])
        else if p.frameFails then Return(FramePanic, focused, begun)
        else
          var (xr', frame) := XrContext.BeginFrame(focused.xr, p.shouldRender, p.imageIndex);
          var framed := focused.(xr := xr');
          if frame.Failure? then Continue(framed, begun)
          else Return(Tick(TickData(previous, current, frame.value)), framed.(frameStart := now), begun + [BeginRender])
  }

  /** `Engine::update` over the passes the outside world offers, the k-th
      at instant `times[k]`; `StillWaiting` when they run out before the
      loop returns. */
  function Update(s: EngineState, passes: seq<Pass>, times: seq<nat>): (r: (Outcome, EngineState, seq<Action>))
    requires |times| == |passes|
    ensures r.0.Tick? ==> exists k :: 0 <= k < |passes| && passes[k].shouldRender
    ensures |passes| > 0 && passes[0].shouldQuit ==> r == (ShuttingDown, s, [])
    ensures r.0.XrFailed? || r.0.FramePanic? ==> exists k :: 0 <= k < |passes| && XrFails(passes[k])
    ensures |passes| > 0 && !passes[0].shouldQuit && passes[0].pollFails ==> r == (XrFailed(PollEventCall), s, [])
    decreases |passes|
  {
    if |passes| == 0 then (StillWaiting, s, [])
    else
      match Pass1(s, passes[0], times[0])
      case Return(outcome, s', actions) => (outcome, s', actions)
      case Continue(s', actions) =>
        var (outcome, s'', more) := Update(s', passes[1..], times[1..]);
        assert outcome.Tick? ==> exists k :: 1 <= k < |passes| && passes[k].shouldRender by {
          if outcome.Tick? {
            var k :| 0 <= k < |passes[1..]| && passes[1..][k].shouldRender;
            assert passes[k + 1].shouldRender;
          }
        }
        assert outcome.XrFailed? || outcome.FramePanic? ==> exists k :: 1 <= k < |passes| && XrFails(passes[k]) by {
          if outcome.XrFailed? || outcome.FramePanic? {
            var k :| 0 <= k < |passes[1..]| && XrFails(passes[1..][k]);
            assert XrFails(passes[k + 1]);
          }
        }
        (outcome, s'', actions + more)
  }

  /** The session-state dispatch read as a table: which states end the
      loop, which keep it polling, when the session begins, and which
      OpenXR errors end `update`. */
  lemma DispatchTable(s: EngineState, p: Pass, now: nat)
    requires !p.shouldQuit
    ensures p.pollFails ==> Pass1(s, p, now) == Return(XrFailed(PollEventCall), s, [])
    ensures !p.pollFails ==>
      var current := XrContext.PollXrEvent(s.xr, p.event).1;
      var previous := s.xr.sessionState;
      var r := Pass1(s, p, now);
      var begins := previous == Idle && current == Ready;
      var framing := current !in {Idle, Exiting, LossPending, Stopping} && !(begins && p.beginFails);
      && (current == Idle ==> r.Continue? && (SleepBriefly in r.actions <==> previous != Stopping))
      && (current == Exiting || current == LossPending ==> r.Return? && r.outcome == ShuttingDown)
      && (current == Stopping ==> EndSession in r.actions && (r.Continue? <==> !p.endFails))
      && (current == Stopping && p.endFails ==> r.Return? && r.outcome == XrFailed(EndSessionCall))
      && (BeginSession in r.actions <==> begins)
      && (begins && p.beginFails ==> r.Return? && r.outcome == XrFailed(SessionBeginCall))
      && (r.Return? && r.outcome.FramePanic? <==> framing && p.frameFails)
      && (r.Return? && r.outcome.Tick? <==> framing && !p.frameFails && p.shouldRender)
  {
  }

  /** A frame is returned exactly when `wait_frame` says to render; its
      data carries the states on either side of the polled event. */
  lemma TickCarriesStates(s: EngineState, p: Pass, now: nat)
    requires Pass1(s, p, now).Return? && Pass1(s, p, now).outcome.Tick?
    ensures var d := Pass1(s, p, now).outcome.data;
      && d.previousState == s.xr.sessionState
      && d.currentState == XrContext.PollXrEvent(s.xr, p.event).1
      && d.swapchainImageIndex == p.imageIndex
      && Pass1(s, p, now).state.xr.shouldRender
  {
  }

  /** `Engine::finish` at instant `now`: end the timers, end the render
      frame only when rendering, then end the OpenXR frame. */
  function Finish(s: EngineState, t: Timers, now: nat): (r: (Timers, bool, Result<XrContext.Submission, string>))
    ensures r.1 <==> s.xr.shouldRender
    ensures !s.xr.shouldRender ==> r.2 == Success(XrContext.Submission([], false))
    ensures s.xr.shouldRender && |s.xr.views| >= XrContext.VIEW_COUNT ==> r.2.Success? && r.2.value.releasedImage
    ensures r.0.timings == [] || r.0.timings == t.timings + [Elapsed(now, t.frameStart) / NANOS_PER_MILLI]
    ensures r.0.frameStart == t.frameStart
  {
    (End(t, now).0, s.xr.shouldRender, XrContext.EndFrame(s.xr))
  }
}

=== FILE: gambier_buffer.dfy ===
/** `GambierBuffer<T>`: the legacy renderer's copy of the bounded GPU buffer.
    It shares the memory model of `GpuBuffer`; the one difference in
    behaviour is that `push` writes at the untruncated `len` and returns
    nothing. */
module GambierBuffer {
  import G = GpuBuffer

  type Buffer<T> = G.Buffer<T>

  /** `overwrite`: the caller guarantees `data.len() <= max_len`. */
  function Overwrite<T>(b: Buffer<T>, data: seq<T>): (r: Buffer<T>)
    requires b.Valid() && |data| <= b.MaxLen()
    ensures r.Valid() && r.MaxLen() == b.MaxLen()
    ensures G.AsSlice(r) == data
  {
    G.Overwrite(b, data)
  }

  /** `append`: the caller guarantees `len + data.len() <= max_len`. */
  function Append<T>(b: Buffer<T>, data: seq<T>): (r: Buffer<T>)
    requires b.Valid() && b.len + |data| <= b.MaxLen()
    ensures r.Valid() && r.MaxLen() == b.MaxLen()
    ensures G.AsSlice(r) == G.AsSlice(b) + data
  {
    G.Append(b, data)
  }

  /** `push` writes `x` at slot `len` and returns no index. */
  function Push<T>(b: Buffer<T>, x: T): (r: Buffer<T>)
    requires b.Valid() && b.len + 1 <= b.MaxLen()
    ensures r.Valid() && r.MaxLen() == b.MaxLen()
    ensures r.len == b.len + 1 && r.memory[b.len] == x
    ensures G.AsSlice(r) == G.AsSlice(b) + [x]
  {
    var m := b.memory[b.len := x];
    assert m[..b.len + 1] == b.memory[..b.len] + [x];
    G.Buffer(m, b.len + 1)
  }

  /** `clear`. */
  function Clear<T>(b: Buffer<T>): (r: Buffer<T>)
    requires b.Valid()
    ensures r.Valid() && r.MaxLen() == b.MaxLen()
    ensures G.AsSlice(r) == []
  {
    G.Clear(b)
  }

  /** Pushing each element of `xs` with the index-less `push`. */
  function PushAll<T>(b: Buffer<T>, xs: seq<T>): (r: Buffer<T>)
    requires b.Valid() && b.len + |xs| <= b.MaxLen()
    ensures r.Valid() && r.MaxLen() == b.MaxLen()
    decreases |xs|
  {
    if |xs| == 0 then b else PushAll(Push(b, xs[0]), xs[1..])
  }

  /** After `clear`, a run of pushes rebuilds exactly the pushed sequence. */
  lemma {:induction false} ClearThenPushes<T>(b: Buffer<T>, xs: seq<T>)
    requires b.Valid() && |xs| <= b.MaxLen()
    ensures G.AsSlice(PushAll(Clear(b), xs)) == xs
  {
    PushAllExtends(Clear(b), xs);
  }

  lemma {:induction false} PushAllExtends<T>(b: Buffer<T>, xs: seq<T>)
    requires b.Valid() && b.len + |xs| <= b.MaxLen()
    ensures G.AsSlice(PushAll(b, xs)) == G.AsSlice(b) + xs
    decreases |xs|
  {
    if |xs| > 0 {
      PushAllExtends(Push(b, xs[0]), xs[1..]);
      assert [xs[0]] + xs[1..] == xs;
    }
  }
}

=== FILE: gpu_buffer.dfy ===
/** `Buffer<T>`: a host-visible GPU allocation of `max_len` elements with a
    running length `len`. The mapped memory is modelled as a sequence of
    exactly `max_len` slots; slots at or beyond `len` keep whatever was last
    written there, and only the first `len` slots are visible. */
module GpuBuffer {
  import opened Bytes

  datatype Buffer<T> = Buffer(memory: seq<T>, len: nat) {

    /** `len` never exceeds `max_len`. */
    predicate Valid() {
      len <= |memory|
    }

    function MaxLen(): nat {
      |memory|
    }
  }

  /** `Buffer::new`: an empty buffer over freshly mapped memory, whose
      initial contents are unspecified (`initial`). */
  function New<T>(initial: seq<T>): (b: Buffer<T>)
    ensures b.Valid() && b.MaxLen() == |initial|
    ensures AsSlice(b) == []
  {
    Buffer(initial, 0)
  }

  /** Copy `data` into memory starting at slot `at` (`copy_nonoverlapping`). */
  function WriteAt<T>(memory: seq<T>, at: nat, data: seq<T>): (m: seq<T>)
    requires at + |data| <= |memory|
    ensures |m| == |memory|
    ensures m[..at] == memory[..at]
    ensures m[at..at + |data|] == data
    ensures m[at + |data|..] == memory[at + |data|..]
  {
    memory[..at] + data + memory[at + |data|..]
  }

  /** `as_slice`: the first `len` elements. */
  function AsSlice<T>(b: Buffer<T>): (s: seq<T>)
    requires b.Valid()
    ensures |s| == b.len
  {
    b.memory[..b.len]
  }

  /** `overwrite`: the caller guarantees `data.len() <= max_len`. */
  function Overwrite<T>(b: Buffer<T>, data: seq<T>): (r: Buffer<T>)
    requires b.Valid() && |data| <= b.MaxLen()
    ensures r.Valid() && r.MaxLen() == b.MaxLen()
    ensures r.len == |data|
    ensures AsSlice(r) == data
  {
    Buffer(WriteAt(b.memory, 0, data), |data|)
  }

  /** `append`: the caller guarantees `len + data.len() <= max_len`. */
  function Append<T>(b: Buffer<T>, data: seq<T>): (r: Buffer<T>)
    requires b.Valid() && b.len + |data| <= b.MaxLen()
    ensures r.Valid() && r.MaxLen() == b.MaxLen()
    ensures r.len == b.len + |data|
    ensures AsSlice(r) == AsSlice(b) + data
  {
    var m := WriteAt(b.memory, b.len, data);
    assert m[..b.len + |data|] == m[..b.len] + m[b.len..b.len + |data|];
    Buffer(m, b.len + |data|)
  }

  datatype PushResult<T> = PushResult(buffer: Buffer<T>, index: int)

  /** `push`: the caller guarantees `len + 1 <= max_len`. The slot written,
      and the index returned, is `len as u32`, which truncates modulo 2^32;
      below 2^32 elements that is `len` itself, so the push appends. */
  function Push<T>(b: Buffer<T>, x: T): (r: PushResult<T>)
    requires b.Valid() && b.len + 1 <= b.MaxLen()
    ensures r.buffer.Valid() && r.buffer.MaxLen() == b.MaxLen()
    ensures r.buffer.len == b.len + 1
    ensures IsU32(r.index) && r.index == b.len % U32_LIMIT
    ensures r.buffer.memory[r.index] == x
    ensures forall i :: 0 <= i < |b.memory| && i != r.index ==> r.buffer.memory[i] == b.memory[i]
    ensures b.len < U32_LIMIT ==> AsSlice(r.buffer) == AsSlice(b) + [x]
  {
    var slot := b.len % U32_LIMIT;
    var m := b.memory[slot := x];
    assert b.len < U32_LIMIT ==> m[..b.len + 1] == b.memory[..b.len] + [x];
    PushResult(Buffer(m, b.len + 1), slot)
  }

  /** For buffers that fit in the u32 index space the index is the slot the
      element now occupies. */
  lemma PushIndexIsSlot<T>(b: Buffer<T>, x: T)
    requires b.Valid() && b.len + 1 <= b.MaxLen() <= U32_LIMIT
    ensures Push(b, x).index == b.len
    ensures AsSlice(Push(b, x).buffer)[Push(b, x).index] == x
  {
  }

  /** `clear`: only the length is reset; memory is left as it was. */
  function Clear<T>(b: Buffer<T>): (r: Buffer<T>)
    requires b.Valid()
    ensures r.Valid() && r.MaxLen() == b.MaxLen()
    ensures AsSlice(r) == []
    ensures r.memory == b.memory
  {
    Buffer(b.memory, 0)
  }

  /** `is_empty`. */
  function IsEmpty<T>(b: Buffer<T>): (e: bool)
    requires b.Valid()
    ensures e <==> AsSlice(b) == []
  {
    b.len == 0
  }

  /** Pushing each element of `xs` in order. */
  function PushAll<T>(b: Buffer<T>, xs: seq<T>): (r: Buffer<T>)
    requires b.Valid() && b.len + |xs| <= b.MaxLen()
    ensures r.Valid() && r.MaxLen() == b.MaxLen()
    decreases |xs|
  {
    if |xs| == 0 then b else PushAll(Push(b, xs[0]).buffer, xs[1..])
  }

  /** A run of pushes has the same visible effect as one `append`. */
  lemma {:induction false} PushAllIsAppend<T>(b: Buffer<T>, xs: seq<T>)
    requires b.Valid() && b.len + |xs| <= b.MaxLen() && b.len + |xs| <= U32_LIMIT
    ensures AsSlice(PushAll(b, xs)) == AsSlice(b) + xs
    decreases |xs|
  {
    if |xs| > 0 {
      PushAllIsAppend(Push(b, xs[0]).buffer, xs[1..]);
      assert [xs[0]] + xs[1..] == xs;
    }
  }

  /** The buffer smoke test: overwrite, overwrite, append, pushes, clear,
      pushes, for any contents and any capacity large enough. */
  lemma {:induction false} SmokeScenario<T>(b: Buffer<T>, d1: seq<T>, d2: seq<T>, d3: seq<T>, p1: seq<T>, p2: seq<T>)
    requires b.Valid() && |d1| <= b.MaxLen() && |d2| + |d3| + |p1| <= b.MaxLen() && |p2| <= b.MaxLen()
    requires b.MaxLen() <= U32_LIMIT
    ensures AsSlice(Overwrite(b, d1)) == d1
    ensures var b2 := Overwrite(Overwrite(b, d1), d2);
            var b3 := PushAll(Append(b2, d3), p1);
            AsSlice(b3) == d2 + d3 + p1 && AsSlice(PushAll(Clear(b3), p2)) == p2
  {
    var b2 := Overwrite(Overwrite(b, d1), d2);
    PushAllIsAppend(Append(b2, d3), p1);
    PushAllIsAppend(Clear(PushAll(Append(b2, d3), p1)), p2);
  }
}

=== FILE: grabbing.dfy ===
/** The grabbing system: a hand whose grip has just been pressed grabs
    the closest grabbable entity it is touching; a hand whose grip is let
    go releases what it holds. Structural changes to grabbed entities go
    through a command buffer that is run after all hands have been seen;
    the change of a released body to dynamic happens at once. */
module Grabbing {
  import opened Wrappers

  // Panic and error messages, as the source words them.
  const NO_LOCAL_TRANSFORM := "grabbable entity without a local transform"

  type Entity = nat

  datatype Vec3 = Vec3(x: real, y: real, z: real)

  function Sub(a: Vec3, b: Vec3): Vec3 {
    Vec3(a.x - b.x, a.y - b.y, a.z - b.z)
  }

  function LengthSquared(v: Vec3): real {
    v.x * v.x + v.y * v.y + v.z * v.z
  }

  /** A grip counts as gripping above this value. */
  const GRIP_THRESHOLD: real := 0.1

  datatype BodyType = Dynamic | Kinematic | KinematicPositionBased | Fixed

  /** The components of an entity the system reads or writes: the
      `Grabbable`, `Grabbed` and `Released` markers, `Parent` (its entity),
      the translation of `LocalTransform` if there is one, and the type of
      its `RigidBody` if there is one. */
  datatype Components = Components(
    grabbable: bool, parent: Option<Entity>, grabbed: bool, released: bool,
    position: Option<Vec3>, body: Option<BodyType>)

  type World = map<Entity, Components>

  /** What a hand holds: the entity, and where it sits relative to the grip
      (rotation and scale are not part of this model). */
  datatype GrabbedEntity = GrabbedEntity(entity: Entity, gripFromLocal: Vec3)

  datatype Hand = Hand(gripValue: real, gripButtonJustPressed: bool, grabbedEntity: Option<GrabbedEntity>)

  /** A hand entity: its `Hand`, its collider's collisions this frame and
      the translation of its `LocalTransform`. */
  datatype HandEntity = HandEntity(hand: Hand, collisions: seq<Entity>, grip: Vec3)

  predicate Grabbable(w: World, e: Entity) {
    e in w && w[e].grabbable
  }

  /** The distance the search compares, given that the entity has a
      local transform. */
  function DistanceSquared(w: World, e: Entity, grip: Vec3): real
    requires e in w && w[e].position.Some?
  {
    LengthSquared(Sub(w[e].position.value, grip))
  }

  /** The search for the closest grabbable entity among the collisions, in
      collision order with a strict comparison, so the first of equally
      close candidates wins. The result is an index into `collisions`;
      a grabbable entity without a local transform panics on `unwrap`. */
  function Closest(w: World, collisions: seq<Entity>, grip: Vec3): (r: Result<Option<nat>, string>)
    ensures r.Success? <==> forall k :: 0 <= k < |collisions| && Grabbable(w, collisions[k]) ==> w[collisions[k]].position.Some?
    ensures r.Success? && r.value.None? <==> r.Success? && forall k :: 0 <= k < |collisions| ==> !Grabbable(w, collisions[k])
    ensures r.Success? && r.value.Some? ==>
      var i := r.value.value;
      && i < |collisions| && Grabbable(w, collisions[i])
      && (forall k :: 0 <= k < |collisions| && Grabbable(w, collisions[k]) ==>
            DistanceSquared(w, collisions[i], grip) <= DistanceSquared(w, collisions[k], grip))
      && (forall k :: 0 <= k < i && Grabbable(w, collisions[k]) ==>
            DistanceSquared(w, collisions[i], grip) < DistanceSquared(w, collisions[k], grip))
    decreases |collisions|
  {
    if |collisions| == 0 then Success(None)
    else
      var n: nat := |collisions| - 1;
      var c := collisions[n];
      assert forall k :: 0 <= k < n ==> collisions[..n][k] == collisions[k];
      var before :- Closest(w, collisions[..n], grip);
      if !Grabbable(w, c) then Success(before)
      else if w[c].position.None? then Failure(NO_LOCAL_TRANSFORM)
      else match before
        case None => Success(Some(n))
        case Some(b) =>
          if DistanceSquared(w, c, grip) < DistanceSquared(w, collisions[b], grip) then Success(Some(n))
          else Success(Some(b))
  }

  /** Structural changes the hands ask for, run after the loop. */
  datatype Command = RemoveParent(e: Entity) | InsertGrabbed(e: Entity) | RemoveGrabbed(e: Entity) | InsertReleased(e: Entity)

  /** One command; one on an entity that no longer exists does nothing. */
  function RunCommand(w: World, c: Command): (r: World)
    ensures r.Keys == w.Keys
    ensures forall e :: e in w && e != c.e ==> r[e] == w[e]
  {
    if c.e !in w then w
    else
      var cur := w[c.e];
      match c
      case RemoveParent(e) => w[e := cur.(parent := None)]
      case InsertGrabbed(e) => w[e := cur.(grabbed := true)]
      case RemoveGrabbed(e) => w[e := cur.(grabbed := false)]
      case InsertReleased(e) => w[e := cur.(released := true)]
  }

  function RunCommands(w: World, cs: seq<Command>): (r: World)
    ensures r.Keys == w.Keys
    decreases |cs|
  {
    if |cs| == 0 then w else RunCommands(RunCommand(w, cs[0]), cs[1..])
  }

  lemma RunOneCommand(w: World, a: Command)
    ensures RunCommands(w, [a]) == RunCommand(w, a)
  {
    assert [a][1..] == [];
  }

  lemma RunTwoCommands(w: World, a: Command, b: Command)
    ensures RunCommands(w, [a, b]) == RunCommand(RunCommand(w, a), b)
  {
    assert [a, b][1..] == [b];
    RunOneCommand(RunCommand(w, a), b);
  }

  /** What one hand does this frame: its new state, the world after any
      immediate change, and the commands it queues. */
  datatype HandOutcome = HandOutcome(hand: Hand, world: World, commands: seq<Command>)

  function HandTurn(w: World, h: HandEntity): (r: Result<HandOutcome, string>)
    ensures h.hand.gripValue > GRIP_THRESHOLD && !h.hand.gripButtonJustPressed ==>
      r == Success(HandOutcome(h.hand, w, []))
    ensures r.Success? ==> r.value.world.Keys == w.Keys
  {
    var hand := h.hand;
    if hand.gripValue > GRIP_THRESHOLD then
      if !hand.gripButtonJustPressed then Success(HandOutcome(hand, w, []))
      else
        var closest :- Closest(w, h.collisions, h.grip);
        match closest
        case None => Success(HandOutcome(hand, w, []))
        case Some(i) =>
          var e := h.collisions[i];
          var unparent := if w[e].parent.Some? then [RemoveParent(e)] else [];
          var held := GrabbedEntity(e, Sub(w[e].position.value, h.grip));
          Success(HandOutcome(hand.(grabbedEntity := Some(held)), w, unparent + [InsertGrabbed(e)]))
    else
      match hand.grabbedEntity
      case None => Success(HandOutcome(hand, w, []))
      case Some(g) =>
        var e := g.entity;
        var w' := if e in w && w[e].body.Some? then w[e := w[e].(body := Some(Dynamic))] else w;
        Success(HandOutcome(hand.(grabbedEntity := None), w', [RemoveGrabbed(e), InsertReleased(e)]))
  }

  /** The loop over the hands, in query order. */
  function Hands(w: World, hands: seq<HandEntity>): (r: Result<(World, seq<Hand>, seq<Command>), string>)
    ensures r.Success? ==> |r.value.1| == |hands| && r.value.0.Keys == w.Keys
    decreases |hands|
  {
    if |hands| == 0 then Success((w, [], []))
    else
      var first :- HandTurn(w, hands[0]);
      var rest :- Hands(first.world, hands[1..]);
      Success((rest.0, [first.hand] + rest.1, first.commands + rest.2))
  }

  lemma OneHand(w: World, h: HandEntity)
    requires HandTurn(w, h).Success?
    ensures var out := HandTurn(w, h).value;
      Hands(w, [h]) == Success((out.world, [out.hand], out.commands))
  {
    var out := HandTurn(w, h).value;
    assert [h][1..] == [];
    assert [out.hand] + [] == [out.hand];
    assert out.commands + [] == out.commands;
  }

  /** The first phase: every `Released` marker from the last frame goes. */
  function ClearReleased(w: World): (r: World)
    ensures r.Keys == w.Keys
    ensures forall e :: e in w ==> !r[e].released && r[e] == w[e].(released := false)
  {
    map e | e in w :: w[e].(released := false)
  }

  /** `grabbing_system_inner`: clear the markers, let every hand take its
      turn, then run the queued commands. */
  function GrabbingSystem(w: World, hands: seq<HandEntity>): (r: Result<(World, seq<Hand>), string>)
    ensures r.Success? ==> r.value.0.Keys == w.Keys && |r.value.1| == |hands|
  {
    var (w', hs, cs) :- Hands(ClearReleased(w), hands);
    Success((RunCommands(w', cs), hs))
  }

  /** A single hand that has just pressed its grip while touching a
      grabbable entity holds the closest one afterwards; that entity is
      `Grabbed` and has no parent any more. */
  lemma GrabTakesClosest(w: World, h: HandEntity)
    requires h.hand.gripValue > GRIP_THRESHOLD && h.hand.gripButtonJustPressed
    requires Closest(w, h.collisions, h.grip).Success? && Closest(w, h.collisions, h.grip).value.Some?
    ensures var r := GrabbingSystem(w, [h]);
      var e := h.collisions[Closest(w, h.collisions, h.grip).value.value];
      && r.Success?
      && r.value.1[0].grabbedEntity.Some? && r.value.1[0].grabbedEntity.value.entity == e
      && r.value.0[e].grabbed && r.value.0[e].parent.None? && !r.value.0[e].released
  {
    var c := ClearReleased(w);
    var e := h.collisions[Closest(w, h.collisions, h.grip).value.value];
    ClosestIgnoresReleased(w, h.collisions, h.grip);
    OneHand(c, h);
    var unparent := if c[e].parent.Some? then [RemoveParent(e)] else [];
    assert HandTurn(c, h).value.world == c;
    assert HandTurn(c, h).value.commands == unparent + [InsertGrabbed(e)];
    if c[e].parent.Some? {
      assert unparent + [InsertGrabbed(e)] == [RemoveParent(e), InsertGrabbed(e)];
      RunTwoCommands(c, RemoveParent(e), InsertGrabbed(e));
    } else {
      assert unparent + [InsertGrabbed(e)] == [InsertGrabbed(e)];
      RunOneCommand(c, InsertGrabbed(e));
    }
  }

  /** Clearing the `Released` markers does not change the search. */
  lemma {:induction false} ClosestIgnoresReleased(w: World, collisions: seq<Entity>, grip: Vec3)
    ensures Closest(ClearReleased(w), collisions, grip) == Closest(w, collisions, grip)
    decreases |collisions|
  {
    if |collisions| > 0 {
      var n := |collisions| - 1;
      ClosestIgnoresReleased(w, collisions[..n], grip);
      ClearKeepsEntity(w, collisions[n], grip);
      var before := Closest(w, collisions[..n], grip);
      if before.Success? && before.value.Some? {
        ClearKeepsEntity(w, collisions[..n][before.value.value], grip);
      }
    }
  }

  /** Clearing the markers leaves what the search reads of an entity:
      whether it is grabbable, its position and its distance. */
  lemma ClearKeepsEntity(w: World, e: Entity, grip: Vec3)
    ensures Grabbable(ClearReleased(w), e) == Grabbable(w, e)
    ensures e in w ==> ClearReleased(w)[e].position == w[e].position
    ensures e in w && w[e].position.Some? ==> DistanceSquared(ClearReleased(w), e, grip) == DistanceSquared(w, e, grip)
  {
  }

  /** A single hand that lets go of its grip releases what it held: the
      hand is empty, the entity is `Released` and no longer `Grabbed`, and
      a rigid body on it is dynamic. */
  lemma ReleaseLetsGo(w: World, h: HandEntity, g: GrabbedEntity)
    requires h.hand.gripValue <= GRIP_THRESHOLD && h.hand.grabbedEntity == Some(g) && g.entity in w
    ensures var r := GrabbingSystem(w, [h]);
      && r.Success?
      && r.value.1[0].grabbedEntity.None?
      && r.value.0[g.entity].released && !r.value.0[g.entity].grabbed
      && (w[g.entity].body.Some? ==> r.value.0[g.entity].body == Some(Dynamic))
  {
    var c := ClearReleased(w);
    var out := HandTurn(c, h).value;
    OneHand(c, h);
    assert out.commands == [RemoveGrabbed(g.entity), InsertReleased(g.entity)];
    RunTwoCommands(out.world, RemoveGrabbed(g.entity), InsertReleased(g.entity));
  }

  /** A hand touching nothing grabbable grabs nothing, and the only change
      to the world is the clearing of the `Released` markers. */
  lemma NothingGrabbableNothingGrabbed(w: World, h: HandEntity)
    requires h.hand.gripValue > GRIP_THRESHOLD && h.hand.gripButtonJustPressed
    requires forall k :: 0 <= k < |h.collisions| ==> !Grabbable(w, h.collisions[k])
    ensures GrabbingSystem(w, [h]) == Success((ClearReleased(w), [h.hand]))
  {
    ClosestIgnoresReleased(w, h.collisions, h.grip);
    OneHand(ClearReleased(w), h);
  }
}

=== FILE: image_layouts.dfy ===
/** Image layout transitions: the access masks and pipeline stages the
    engine's `get_stage` (the current and the legacy Vulkan context share
    one table) and the simulator's `get_stage` put on a layout-transition
    barrier. Any other pair of layouts panics. */
module ImageLayouts {
  import opened Wrappers

  // Panic and error messages, as the source words them.
  const INVALID_LAYOUT_TRANSITION := "Invalid layout transition!"

  datatype Layout =
    | Undefined
    | TransferDstOptimal
    | TransferSrcOptimal
    | ShaderReadOnlyOptimal
    | ColorAttachmentOptimal
    | PresentSrc
    | OtherLayout(code: int)

  datatype Access = TransferWrite | TransferRead | ShaderRead | ColorAttachmentWrite | ColorAttachmentRead

  datatype Stage = TopOfPipe | BottomOfPipe | Transfer | FragmentShader | ColorAttachmentOutput

  /** `(src access, dst access, src stage, dst stage)` of a barrier. */
  datatype Barrier = Barrier(srcAccess: set<Access>, dstAccess: set<Access>, srcStage: Stage, dstStage: Stage)

  /** The transitions the engine's table defines. */
  predicate EngineTransition(from: Layout, to: Layout) {
    || (from == Undefined && to == TransferDstOptimal)
    || (from == TransferDstOptimal && to == ShaderReadOnlyOptimal)
    || (from == ColorAttachmentOptimal && to == TransferSrcOptimal)
  }

  /** The transitions the simulator's table defines. */
  predicate SimulatorTransition(from: Layout, to: Layout) {
    || (from == Undefined && to == TransferDstOptimal)
    || (from == TransferDstOptimal && to == ShaderReadOnlyOptimal)
    || (from == Undefined && to == ColorAttachmentOptimal)
    || (from == ColorAttachmentOptimal && to == PresentSrc)
    || (from == ColorAttachmentOptimal && to == ShaderReadOnlyOptimal)
    || (from == ShaderReadOnlyOptimal && to == ColorAttachmentOptimal)
  }

  function EngineGetStage(from: Layout, to: Layout): (r: Result<Barrier, string>)
    ensures r.Success? <==> EngineTransition(from, to)
    ensures r.Success? ==> r.value.dstAccess != {}
  {
    if from == Undefined && to == TransferDstOptimal then
      Success(Barrier({}, {TransferWrite}, TopOfPipe, Transfer))
    else if from == TransferDstOptimal && to == ShaderReadOnlyOptimal then
      Success(Barrier({TransferWrite}, {ShaderRead}, Transfer, FragmentShader))
    else if from == ColorAttachmentOptimal && to == TransferSrcOptimal then
      Success(Barrier({}, {TransferRead}, BottomOfPipe, Transfer))
    else Failure(INVALID_LAYOUT_TRANSITION)
  }

  function SimulatorGetStage(from: Layout, to: Layout): (r: Result<Barrier, string>)
    ensures r.Success? <==> SimulatorTransition(from, to)
    ensures r.Success? ==> r.value.dstAccess != {}
  {
    if from == Undefined && to == TransferDstOptimal then
      Success(Barrier({}, {TransferWrite}, TopOfPipe, Transfer))
    else if from == TransferDstOptimal && to == ShaderReadOnlyOptimal then
      Success(Barrier({TransferWrite}, {ShaderRead}, Transfer, FragmentShader))
    else if from == Undefined && to == ColorAttachmentOptimal then
      Success(Barrier({}, {ColorAttachmentWrite}, ColorAttachmentOutput, ColorAttachmentOutput))
    else if from == ColorAttachmentOptimal && to == PresentSrc then
      Success(Barrier({ColorAttachmentWrite}, {ColorAttachmentRead}, ColorAttachmentOutput, ColorAttachmentOutput))
    else if from == ColorAttachmentOptimal && to == ShaderReadOnlyOptimal then
      Success(Barrier({ColorAttachmentWrite}, {ShaderRead}, ColorAttachmentOutput, FragmentShader))
    else if from == ShaderReadOnlyOptimal && to == ColorAttachmentOptimal then
      Success(Barrier({ShaderRead}, {ColorAttachmentWrite}, FragmentShader, ColorAttachmentOutput))
    else Failure(INVALID_LAYOUT_TRANSITION)
  }

  /** Leaving `Undefined` waits on no earlier access: the old contents are
      discarded. */
  lemma FromUndefinedWaitsOnNothing(to: Layout)
    ensures EngineGetStage(Undefined, to).Success? ==> EngineGetStage(Undefined, to).value.srcAccess == {}
    ensures SimulatorGetStage(Undefined, to).Success? ==> SimulatorGetStage(Undefined, to).value.srcAccess == {}
  {
  }

  /** Consecutive transitions chain: when `a -> b` and `b -> c` are both in a
      table, the second barrier waits on exactly the access and stage the
      first one made available. */
  lemma TransitionsChain(a: Layout, b: Layout, c: Layout)
    ensures EngineTransition(a, b) && EngineTransition(b, c) ==>
      EngineGetStage(a, b).value.dstAccess == EngineGetStage(b, c).value.srcAccess
      && EngineGetStage(a, b).value.dstStage == EngineGetStage(b, c).value.srcStage
    ensures SimulatorTransition(a, b) && SimulatorTransition(b, c) ==>
      SimulatorGetStage(a, b).value.dstAccess == SimulatorGetStage(b, c).value.srcAccess
      && SimulatorGetStage(a, b).value.dstStage == SimulatorGetStage(b, c).value.srcStage
  {
  }

  /** Where both tables define a transition, they agree. */
  lemma TablesAgree(a: Layout, b: Layout)
    ensures EngineTransition(a, b) && SimulatorTransition(a, b) ==> EngineGetStage(a, b) == SimulatorGetStage(a, b)
  {
  }
}

=== FILE: input_context.dfy ===
/** Controller input as the engine presents it to games: for every button
    and touch sensor the value this frame and the value last frame, from
    which "just pressed" and "just released" are derived; analog grip and
    trigger values, with their button form being "pressed past 0.1"; and
    controller poses, which are replaced only when the runtime reports the
    location as valid. The runtime's action reads are parameters. */
module InputContext {

  /** The boolean controls of the Oculus Touch controllers. `Face1` and
      `Face2` are X and Y on the left controller, A and B on the right; only
      the left one has a menu button. */
  datatype Control =
    | Face1 | Face2 | Menu | GripButton | TriggerButton | ThumbstickClick
    | Face1Touch | Face2Touch | TriggerTouch | ThumbstickTouch | ThumbrestTouch

  datatype Side = Left | Right

  /** The controls each hand's context has: all but the menu button, which
      only the left hand has. */
  predicate HasControl(side: Side, c: Control) {
    side == Left || c != Menu
  }

  /** Grip and trigger buttons are derived from analog values; every other
      control is read directly. */
  predicate Derived(c: Control) {
    c == GripButton || c == TriggerButton
  }

  /** A boolean input and its value in the previous frame. */
  datatype Edge = Edge(current: bool, prev: bool)

  predicate JustPressed(e: Edge) {
    e.current && !e.prev
  }

  predicate JustReleased(e: Edge) {
    !e.current && e.prev
  }

  /** A control cannot be pressed and released in the same frame, and an
      unchanged control has no edge. */
  lemma EdgesExclusive(e: Edge)
    ensures !(JustPressed(e) && JustReleased(e))
    ensures e.current == e.prev ==> !JustPressed(e) && !JustReleased(e)
  {
  }

  /** The analog threshold above which grip and trigger count as pressed. */
  const ANALOG_THRESHOLD: real := 0.1

  /** A tracked location: `valid` is what `is_space_valid` reports
      (util.rs is not part of this model). */
  datatype Location<P> = Location(valid: bool, pose: P)

  /** One hand's input context; `P` is a pose and `V` a velocity. */
  datatype Hand<P, V> = Hand(
    buttons: map<Control, Edge>,
    gripAnalog: real, gripAnalogPrev: real,
    triggerAnalog: real, triggerAnalogPrev: real,
    thumbstick: (real, real),
    linearVelocity: V, angularVelocity: V,
    stageFromGrip: P, stageFromAim: P)

  /** What the runtime reports for one hand this frame. `digital` holds the
      values of the controls that are read directly (all but grip and
      trigger). */
  datatype Readings<P, V> = Readings(
    digital: map<Control, bool>,
    grip: real, trigger: real, thumbstick: (real, real),
    grip_location: Location<P>, linear: V, angular: V,
    aim_location: Location<P>)

  predicate WellFormed<P, V>(side: Side, h: Hand<P, V>, r: Readings<P, V>) {
    && (forall c :: c in h.buttons <==> HasControl(side, c))
    && (forall c :: c in r.digital <==> HasControl(side, c) && !Derived(c))
  }

  /** The value `update` gives a control this frame. */
  function Reading<P, V>(r: Readings<P, V>, c: Control): bool
    requires c in r.digital || Derived(c)
  {
    if c == GripButton then r.grip > ANALOG_THRESHOLD
    else if c == TriggerButton then r.trigger > ANALOG_THRESHOLD
    else r.digital[c]
  }

  /** `InputContext::update` for one hand: every control's current value
      first moves into its previous value, then the new readings are stored;
      the grip and trigger buttons are the analog values past the threshold;
      the grip pose and velocities change only with a valid grip location,
      the aim pose only with a valid aim location. */
  function Update<P, V>(side: Side, h: Hand<P, V>, r: Readings<P, V>): (u: Hand<P, V>)
    requires WellFormed(side, h, r)
    ensures u.buttons.Keys == h.buttons.Keys
    ensures forall c :: c in u.buttons ==> u.buttons[c].prev == h.buttons[c].current
    ensures forall c :: c in u.buttons ==> u.buttons[c].current == Reading(r, c)
    ensures forall c :: c in r.digital ==> u.buttons[c].current == r.digital[c]
    ensures u.buttons[GripButton].current <==> r.grip > ANALOG_THRESHOLD
    ensures u.buttons[TriggerButton].current <==> r.trigger > ANALOG_THRESHOLD
    ensures u.gripAnalogPrev == h.gripAnalog && u.gripAnalog == r.grip
    ensures u.triggerAnalogPrev == h.triggerAnalog && u.triggerAnalog == r.trigger
    ensures u.stageFromGrip == (if r.grip_location.valid then r.grip_location.pose else h.stageFromGrip)
    ensures u.linearVelocity == (if r.grip_location.valid then r.linear else h.linearVelocity)
    ensures u.stageFromAim == (if r.aim_location.valid then r.aim_location.pose else h.stageFromAim)
  {
    var buttons := map c | c in h.buttons :: Edge(Reading(r, c), h.buttons[c].current);
    var valid := r.grip_location.valid;
    Hand(buttons,
      r.grip, h.gripAnalog, r.trigger, h.triggerAnalog, r.thumbstick,
      if valid then r.linear else h.linearVelocity,
      if valid then r.angular else h.angularVelocity,
      if valid then r.grip_location.pose else h.stageFromGrip,
      if r.aim_location.valid then r.aim_location.pose else h.stageFromAim)
  }

  /** After an update a control was just pressed exactly when it reads
      pressed now and was not pressed before the update, and just released
      in the opposite case. */
  lemma UpdateEdges<P, V>(side: Side, h: Hand<P, V>, r: Readings<P, V>, c: Control)
    requires WellFormed(side, h, r) && HasControl(side, c)
    ensures var u := Update(side, h, r);
      && (JustPressed(u.buttons[c]) <==> Reading(r, c) && !h.buttons[c].current)
      && (JustReleased(u.buttons[c]) <==> !Reading(r, c) && h.buttons[c].current)
  {
  }

  /** Holding a control for two frames reports the press once: the second
      update with the same readings shows no edge at all. */
  lemma HeldControlHasNoEdge<P, V>(side: Side, h: Hand<P, V>, r: Readings<P, V>, c: Control)
    requires WellFormed(side, h, r) && HasControl(side, c)
    ensures var once := Update(side, h, r);
      WellFormed(side, once, r) &&
      var twice := Update(side, once, r);
      !JustPressed(twice.buttons[c]) && !JustReleased(twice.buttons[c])
  {
  }

  /** The earlier, simpler context (`resources::InputContext`): A and B on
      the right hand, X and Y on the left, with the same edge rules. */
  datatype LegacyButton = A | B | X | Y

  datatype LegacyContext = LegacyContext(buttons: map<LegacyButton, Edge>)

  function LegacyUpdate(ctx: LegacyContext, readings: map<LegacyButton, bool>): (u: LegacyContext)
    requires ctx.buttons.Keys == {A, B, X, Y} && readings.Keys == {A, B, X, Y}
    ensures u.buttons.Keys == {A, B, X, Y}
    ensures forall b :: b in u.buttons ==> u.buttons[b] == Edge(readings[b], ctx.buttons[b].current)
  {
    LegacyContext(map b | b in ctx.buttons :: Edge(readings[b], ctx.buttons[b].current))
  }

  /** The queries are pure reads: without an update they answer the same
      every time, and an update shifts each button by one frame. */
  lemma LegacyEdges(ctx: LegacyContext, readings: map<LegacyButton, bool>, b: LegacyButton)
    requires ctx.buttons.Keys == {A, B, X, Y} && readings.Keys == {A, B, X, Y}
    ensures JustPressed(LegacyUpdate(ctx, readings).buttons[b]) <==> readings[b] && !ctx.buttons[b].current
    ensures JustReleased(LegacyUpdate(ctx, readings).buttons[b]) <==> !readings[b] && ctx.buttons[b].current
  {
  }

  /** Both contexts derive their edges from the same rule: the engine's hand
      context restricted to the face buttons agrees with the legacy one. */
  lemma ContextsAgree<P, V>(h: Hand<P, V>, r: Readings<P, V>, ctx: LegacyContext, readings: map<LegacyButton, bool>)
    requires WellFormed(Right, h, r)
    requires ctx.buttons.Keys == {A, B, X, Y} && readings.Keys == {A, B, X, Y}
    requires ctx.buttons[A] == h.buttons[Face1] && readings[A] == r.digital[Face1]
    ensures LegacyUpdate(ctx, readings).buttons[A] == Update(Right, h, r).buttons[Face1]
  {
  }
}

=== FILE: instance_batching.dfy ===
/** The indirect-draw batching scan shared by the two custom renderers
    (`draw_world` in the custom-rendering and complex-scene examples).

    The cull buffer lists one result per instance, grouped by shader and then
    by primitive; the GPU culling pass only sets each result's `visible` flag.
    The scan walks the list once, pushes one data record per visible result
    into the buffer of that result's shader, and emits one instanced draw per
    run of results of the same primitive that has at least one visible
    instance. `instance_offset` is where the run's records start in its
    shader's data buffer; it restarts at 0 when the shader changes because
    each shader has a buffer of its own. */
module InstanceBatching {
  import opened Bytes
  import opened Wrappers

  // Panic and error messages, as the source words them.
  const MISSING_TRIANGLE_INSTANCE := "primitive or instance missing from the triangle map"
  const MISSING_QUADRIC_INSTANCE := "primitive or instance missing from the quadric map"

  datatype Shader = Triangle | Quadric

  /** One cull result: the primitive key (`primitive_id` / `index_offset`), the
      shader, the instance's position within its primitive's instance list, and
      the visibility decided by the GPU. */
  datatype CullResult = CullResult(id: int, shader: Shader, indexInstance: int, visible: bool)

  /** `cmd_draw_indexed` for primitive `primitiveId`: `instanceCount` instances
      starting at `instanceOffset` in the data buffer of `shader`. The
      primitive's index and vertex ranges are read from its map entry. */
  datatype Draw = Draw(shader: Shader, primitiveId: int, instanceCount: nat, instanceOffset: nat)

  /** A primitive's map entry: its material and its instances in insertion order. */
  datatype Instanced<X> = Instanced(materialId: int, instances: seq<X>)

  /** What a visible result contributes to its shader's data buffer: the
      primitive's material and the instance (from which the renderer derives
      the transforms it uploads). */
  datatype Record<X> = Record(materialId: int, instance: X)

  datatype Frame<T, Q> = Frame(draws: seq<Draw>, triangleData: seq<Record<T>>, quadricData: seq<Record<Q>>)

  /** Every result with the quadric shader comes after every triangle result. */
  predicate ShaderSorted(results: seq<CullResult>) {
    forall i, j :: 0 <= i < j < |results| && results[i].shader == Quadric ==> results[j].shader == Quadric
  }

  /** Primitive keys are u32 values other than the `u32::MAX` "unset" marker. */
  predicate KeysInRange(results: seq<CullResult>) {
    forall i :: 0 <= i < |results| ==> IsU32(results[i].id) && results[i].id != U32_MAX
  }

  /** A visible result names an existing instance of an existing primitive
      (otherwise the source's `unwrap` or slice index panics). */
  predicate Resolves<X>(c: CullResult, m: map<int, Instanced<X>>) {
    c.visible ==> c.id in m && 0 <= c.indexInstance < |m[c.id].instances|
  }

  /** `c` resolves in the map of its own shader. */
  predicate ResolvesFor<T, Q>(c: CullResult, tri: map<int, Instanced<T>>, quad: map<int, Instanced<Q>>) {
    (c.shader == Triangle ==> Resolves(c, tri)) && (c.shader == Quadric ==> Resolves(c, quad))
  }

  predicate AllResolve<T, Q>(results: seq<CullResult>, tri: map<int, Instanced<T>>, quad: map<int, Instanced<Q>>) {
    forall i :: 0 <= i < |results| ==> ResolvesFor(results[i], tri, quad)
  }

  /** The keys of the visible results of shader `s`, in list order. */
  function VisibleIds(results: seq<CullResult>, s: Shader): (ids: seq<int>)
    ensures |ids| <= |results|
  {
    if |results| == 0 then []
    else
      var last := results[|results| - 1];
      VisibleIds(results[..|results| - 1], s) + (if last.visible && last.shader == s then [last.id] else [])
  }

  /** The data records of the visible results of shader `s`, in list order. */
  function VisibleData<X>(results: seq<CullResult>, s: Shader, m: map<int, Instanced<X>>): (data: seq<Record<X>>)
    requires forall i :: 0 <= i < |results| && results[i].shader == s ==> Resolves(results[i], m)
    ensures |data| == |VisibleIds(results, s)|
  {
    if |results| == 0 then []
    else
      var last := results[|results| - 1];
      assert last.shader == s ==> Resolves(last, m);
      VisibleData(results[..|results| - 1], s, m)
      + (if last.visible && last.shader == s
         then [Record(m[last.id].materialId, m[last.id].instances[last.indexInstance])]
         else [])
  }

  /** Total instances drawn with shader `s`. */
  function SumCounts(draws: seq<Draw>, s: Shader): nat {
    if |draws| == 0 then 0
    else
      var last := draws[|draws| - 1];
      SumCounts(draws[..|draws| - 1], s) + (if last.shader == s then last.instanceCount else 0)
  }

  function Pick(s: Shader, triIds: seq<int>, quadIds: seq<int>): seq<int> {
    if s == Triangle then triIds else quadIds
  }

  /** Draw `d` is non-empty, starts at `start`, and covers only entries of
      its own primitive in `ids`. */
  predicate Covers(d: Draw, start: nat, ids: seq<int>) {
    && d.instanceCount > 0
    && d.instanceOffset == start
    && d.instanceOffset + d.instanceCount <= |ids|
    && forall k :: d.instanceOffset <= k < d.instanceOffset + d.instanceCount ==> ids[k] == d.primitiveId
  }

  /** The draws tile the visible keys of each shader: each draw starts where
      the previous draw of its shader ended and covers only its own primitive. */
  predicate Tiles(draws: seq<Draw>, triIds: seq<int>, quadIds: seq<int>) {
    if |draws| == 0 then true
    else
      var d := draws[|draws| - 1];
      Tiles(draws[..|draws| - 1], triIds, quadIds)
      && Covers(d, SumCounts(draws[..|draws| - 1], d.shader), Pick(d.shader, triIds, quadIds))
  }

  predicate TilesVisible(draws: seq<Draw>, results: seq<CullResult>) {
    Tiles(draws, VisibleIds(results, Triangle), VisibleIds(results, Quadric))
  }

  /** The tiling, read draw by draw. */
  lemma {:induction false} TilesIndexed(draws: seq<Draw>, triIds: seq<int>, quadIds: seq<int>)
    requires Tiles(draws, triIds, quadIds)
    ensures forall i :: 0 <= i < |draws| ==>
      Covers(draws[i], SumCounts(draws[..i], draws[i].shader), Pick(draws[i].shader, triIds, quadIds))
  {
    if |draws| > 0 {
      var init := draws[..|draws| - 1];
      TilesIndexed(init, triIds, quadIds);
      forall i | 0 <= i < |draws|
        ensures Covers(draws[i], SumCounts(draws[..i], draws[i].shader), Pick(draws[i].shader, triIds, quadIds))
      {
        if i < |init| {
          assert draws[i] == init[i] && draws[..i] == init[..i];
        }
      }
    }
  }

  /** Appending a draw that covers the next entries keeps the tiling. */
  lemma TilesSnoc(draws: seq<Draw>, d: Draw, triIds: seq<int>, quadIds: seq<int>)
    requires Tiles(draws, triIds, quadIds)
    requires Covers(d, SumCounts(draws, d.shader), Pick(d.shader, triIds, quadIds))
    ensures Tiles(draws + [d], triIds, quadIds)
  {
    assert (draws + [d])[..|draws|] == draws;
  }

  /** Extending the key lists keeps a tiling of their prefixes valid. */
  lemma {:induction false} TilesGrow(draws: seq<Draw>, triIds: seq<int>, quadIds: seq<int>, grownTri: seq<int>, grownQuad: seq<int>)
    requires Tiles(draws, triIds, quadIds)
    requires triIds <= grownTri && quadIds <= grownQuad
    ensures Tiles(draws, grownTri, grownQuad)
  {
    if |draws| > 0 {
      var d := draws[|draws| - 1];
      TilesGrow(draws[..|draws| - 1], triIds, quadIds, grownTri, grownQuad);
      var ids := Pick(d.shader, triIds, quadIds);
      var ids' := Pick(d.shader, grownTri, grownQuad);
      forall k | d.instanceOffset <= k < d.instanceOffset + d.instanceCount
        ensures ids'[k] == d.primitiveId
      {
        assert ids'[k] == ids[k];
      }
    }
  }

  lemma VisibleIdsSnoc(results: seq<CullResult>, n: nat, s: Shader)
    requires n < |results|
    ensures VisibleIds(results[..n + 1], s)
      == VisibleIds(results[..n], s) + (if results[n].visible && results[n].shader == s then [results[n].id] else [])
  {
    assert results[..n + 1][..n] == results[..n];
  }

  lemma SumCountsSnoc(draws: seq<Draw>, d: Draw, s: Shader)
    ensures SumCounts(draws + [d], s) == SumCounts(draws, s) + (if d.shader == s then d.instanceCount else 0)
  {
    assert (draws + [d])[..|draws|] == draws;
  }

  /** Reading one more result keeps a tiling of the shorter list valid. */
  lemma TilesExtend(draws: seq<Draw>, results: seq<CullResult>, n: nat)
    requires n < |results|
    requires TilesVisible(draws, results[..n])
    ensures TilesVisible(draws, results[..n + 1])
  {
    VisibleIdsSnoc(results, n, Triangle);
    VisibleIdsSnoc(results, n, Quadric);
    TilesGrow(draws, VisibleIds(results[..n], Triangle), VisibleIds(results[..n], Quadric),
      VisibleIds(results[..n + 1], Triangle), VisibleIds(results[..n + 1], Quadric));
  }

  lemma VisibleDataSnoc<X>(results: seq<CullResult>, n: nat, s: Shader, m: map<int, Instanced<X>>)
    requires n < |results|
    requires forall i :: 0 <= i < n + 1 && results[i].shader == s ==> Resolves(results[i], m)
    ensures VisibleData(results[..n + 1], s, m)
      == VisibleData(results[..n], s, m)
         + (if results[n].visible && results[n].shader == s
            then [Record(m[results[n].id].materialId, m[results[n].id].instances[results[n].indexInstance])]
            else [])
  {
    assert results[..n + 1][..n] == results[..n];
  }

  /** `id` is a key of the map that holds primitives of shader `s`. */
  predicate Known<T, Q>(id: int, s: Shader, tri: map<int, Instanced<T>>, quad: map<int, Instanced<Q>>) {
    if s == Triangle then id in tri else id in quad
  }

  /** Every draw's primitive is found in its shader's map (the source looks it
      up with `unwrap` before recording the draw). */
  predicate DrawsKnown<T, Q>(draws: seq<Draw>, tri: map<int, Instanced<T>>, quad: map<int, Instanced<Q>>) {
    forall i :: 0 <= i < |draws| ==> Known(draws[i].primitiveId, draws[i].shader, tri, quad)
  }

  function Other(s: Shader): Shader {
    if s == Triangle then Quadric else Triangle
  }

  /** A maximal stretch of consecutive results with the same shader and
      key, and how many of its results are visible. */
  datatype Run = Run(shader: Shader, id: int, visible: nat)

  /** The runs of the list, in list order: a result of the same shader and
      key as the one before it extends that result's run, any other result
      opens a new one. */
  function Runs(results: seq<CullResult>): (rs: seq<Run>)
    ensures |rs| <= |results|
    ensures |rs| == 0 <==> |results| == 0
    ensures |results| > 0 ==>
      rs[|rs| - 1].shader == results[|results| - 1].shader && rs[|rs| - 1].id == results[|results| - 1].id
  {
    if |results| == 0 then []
    else
      var init := results[..|results| - 1];
      var c := results[|results| - 1];
      var prev := Runs(init);
      var v := if c.visible then 1 else 0;
      if |init| > 0 && init[|init| - 1].id == c.id && init[|init| - 1].shader == c.shader
      then prev[..|prev| - 1] + [prev[|prev| - 1].(visible := prev[|prev| - 1].visible + v)]
      else prev + [Run(c.shader, c.id, v)]
  }

  /** The runs that hold at least one visible result. */
  function NonEmptyRuns(rs: seq<Run>): (ne: seq<Run>)
    ensures |ne| <= |rs|
  {
    if |rs| == 0 then []
    else NonEmptyRuns(rs[..|rs| - 1]) + (if rs[|rs| - 1].visible > 0 then [rs[|rs| - 1]] else [])
  }

  /** The draws read as runs: shader, primitive and instance count. */
  function RunsOf(draws: seq<Draw>): (rs: seq<Run>)
    ensures |rs| == |draws|
  {
    if |draws| == 0 then []
    else
      var d := draws[|draws| - 1];
      RunsOf(draws[..|draws| - 1]) + [Run(d.shader, d.primitiveId, d.instanceCount)]
  }

  /** `Runs` of a prefix one result longer: the result extends the last run
      when it has the shader and key of the result before it, and opens a
      run otherwise. */
  lemma RunsSnoc(results: seq<CullResult>, n: nat)
    requires n < |results|
    ensures var rs, rs' := Runs(results[..n]), Runs(results[..n + 1]);
      var c := results[n];
      var v := if c.visible then 1 else 0;
      if n > 0 && results[n - 1].id == c.id && results[n - 1].shader == c.shader
      then |rs| > 0 && |rs'| == |rs| && rs'[..|rs| - 1] == rs[..|rs| - 1]
        && rs'[|rs| - 1] == rs[|rs| - 1].(visible := rs[|rs| - 1].visible + v)
      else rs' == rs + [Run(c.shader, c.id, v)]
  {
    var seen := results[..n + 1];
    assert seen[..n] == results[..n];
    if n > 0 {
      assert results[..n][n - 1] == results[n - 1];
    }
    var rs := Runs(results[..n]);
    if n > 0 && results[n - 1].id == results[n].id && results[n - 1].shader == results[n].shader {
      var x := rs[|rs| - 1];
      var v := if results[n].visible then 1 else 0;
      assert (rs[..|rs| - 1] + [x.(visible := x.visible + v)])[..|rs| - 1] == rs[..|rs| - 1];
    }
  }

  /** Neighbouring runs differ in shader or key, so no run can be
      lengthened. */
  lemma {:induction false} RunsAreMaximal(results: seq<CullResult>)
    ensures var rs := Runs(results);
      forall i :: 0 <= i < |rs| - 1 ==> rs[i].shader != rs[i + 1].shader || rs[i].id != rs[i + 1].id
  {
    if |results| > 0 {
      var n := |results| - 1;
      assert results[..n + 1] == results;
      RunsAreMaximal(results[..n]);
      RunsSnoc(results, n);
      var rs, rs' := Runs(results[..n]), Runs(results);
      forall i | 0 <= i < |rs'| - 1
        ensures rs'[i].shader != rs'[i + 1].shader || rs'[i].id != rs'[i + 1].id
      {
        if i + 1 < |rs| - 1 {
          assert rs'[i] == rs'[..|rs| - 1][i] && rs'[i + 1] == rs'[..|rs| - 1][i + 1];
        } else if i + 1 == |rs| - 1 {
          assert rs'[i] == rs'[..|rs| - 1][i];
        } else {
          assert results[..n][n - 1] == results[n - 1];
        }
      }
    }
  }

  /** Every visible result is counted in exactly one run. */
  lemma {:induction false} RunsCountVisible(results: seq<CullResult>)
    ensures SumVisible(Runs(results)) == |VisibleIds(results, Triangle)| + |VisibleIds(results, Quadric)|
  {
    if |results| > 0 {
      var n := |results| - 1;
      assert results[..n + 1] == results;
      RunsCountVisible(results[..n]);
      RunsSnoc(results, n);
      VisibleIdsSnoc(results, n, Triangle);
      VisibleIdsSnoc(results, n, Quadric);
      var rs, rs' := Runs(results[..n]), Runs(results);
      if |rs'| == |rs| {
        assert SumVisible(rs') == SumVisible(rs'[..|rs| - 1]) + rs'[|rs| - 1].visible;
      } else {
        assert rs'[..|rs|] == rs;
      }
    }
  }

  function SumVisible(rs: seq<Run>): nat {
    if |rs| == 0 then 0 else SumVisible(rs[..|rs| - 1]) + rs[|rs| - 1].visible
  }

  /** The scan's local variables: draws recorded so far, the two data
      buffers, the current shader, `instance_offset`, `current_primitive_id`
      and `instance_count`. */
  datatype Scan<T, Q> = Scan(draws: seq<Draw>, triData: seq<Record<T>>, quadData: seq<Record<Q>>,
                             shader: Shader, offset: nat, current: int, count: nat)

  /** The scan before the first result: nothing recorded, no open run. */
  function Start<T, Q>(): Scan<T, Q> {
    Scan([], [], [], Triangle, 0, U32_MAX, 0)
  }

  /** What the scan knows after reading the prefix `seen`: the recorded draws
      plus the open run (`count` instances of `current` at `offset`) account
      for every visible result of `seen`, and the data buffers hold exactly
      the records of those results. */
  ghost predicate Accounts<T, Q>(st: Scan<T, Q>, seen: seq<CullResult>, tri: map<int, Instanced<T>>, quad: map<int, Instanced<Q>>) {
    Counted(st, seen, tri, quad) && Recorded(st, seen, tri, quad)
  }

  /** The draw bookkeeping half of `Accounts`. */
  ghost predicate Counted<T, Q>(st: Scan<T, Q>, seen: seq<CullResult>, tri: map<int, Instanced<T>>, quad: map<int, Instanced<Q>>) {
    && st.offset == SumCounts(st.draws, st.shader)
    && SumCounts(st.draws, st.shader) + st.count == |VisibleIds(seen, st.shader)|
    && SumCounts(st.draws, Other(st.shader)) == |VisibleIds(seen, Other(st.shader))|
    && (st.shader == Triangle ==> SumCounts(st.draws, Quadric) == 0)
    && (forall k :: |VisibleIds(seen, st.shader)| - st.count <= k < |VisibleIds(seen, st.shader)| ==>
          VisibleIds(seen, st.shader)[k] == st.current)
    && TilesVisible(st.draws, seen)
    && DrawsKnown(st.draws, tri, quad)
    && (st.count > 0 ==> Known(st.current, st.shader, tri, quad))
  }

  /** The data buffer half of `Accounts`. */
  ghost predicate Recorded<T, Q>(st: Scan<T, Q>, seen: seq<CullResult>, tri: map<int, Instanced<T>>, quad: map<int, Instanced<Q>>) {
    && AllResolve(seen, tri, quad)
    && st.triData == VisibleData(seen, Triangle, tri)
    && st.quadData == VisibleData(seen, Quadric, quad)
  }

  /** The draws recorded so far are the non-empty runs before the last run
      of `rs`, which is the open run (`shader`, `current`, `count`). */
  predicate OpenRun(draws: seq<Draw>, shader: Shader, current: int, count: nat, rs: seq<Run>) {
    |rs| > 0 && rs[|rs| - 1] == Run(shader, current, count) && RunsOf(draws) == NonEmptyRuns(rs[..|rs| - 1])
  }

  /** The run half of the scan invariant: the open run is the last run of
      the prefix, and the draws recorded so far are the non-empty runs
      before it. */
  ghost predicate RunsSoFar<T, Q>(st: Scan<T, Q>, seen: seq<CullResult>) {
    if |seen| == 0 then RunsOf(st.draws) == []
    else OpenRun(st.draws, st.shader, st.current, st.count, Runs(seen))
  }

  /** Counting one more result of the open run. */
  lemma OpenRunGrows(draws: seq<Draw>, shader: Shader, current: int, count: nat, rs: seq<Run>, v: nat)
    requires OpenRun(draws, shader, current, count, rs)
    ensures OpenRun(draws, shader, current, count + v,
      rs[..|rs| - 1] + [rs[|rs| - 1].(visible := rs[|rs| - 1].visible + v)])
  {
    var rs' := rs[..|rs| - 1] + [rs[|rs| - 1].(visible := rs[|rs| - 1].visible + v)];
    assert rs'[..|rs'| - 1] == rs[..|rs| - 1];
  }

  /** Closing the open run, recording it when non-empty, and opening `r`. */
  lemma OpenRunCloses(draws: seq<Draw>, shader: Shader, current: int, count: nat, offset: nat, rs: seq<Run>, r: Run)
    requires OpenRun(draws, shader, current, count, rs)
    ensures OpenRun(if count > 0 then draws + [Draw(shader, current, count, offset)] else draws,
      r.shader, r.id, r.visible, rs + [r])
  {
    assert (rs + [r])[..|rs|] == rs;
    assert rs[..|rs| - 1] + [rs[|rs| - 1]] == rs;
    if count > 0 {
      var d := Draw(shader, current, count, offset);
      assert (draws + [d])[..|draws|] == draws;
    }
  }

  /** What the first half of the loop body does to the open run. */
  lemma BoundaryRuns<T, Q>(st: Scan<T, Q>, results: seq<CullResult>, n: nat)
    requires n < |results| && KeysInRange(results)
    requires n == 0 ==> st.current == U32_MAX && st.shader == Triangle && st.count == 0 && st.draws == []
    requires n > 0 ==> st.current == results[n - 1].id && st.shader == results[n - 1].shader
    ensures var c, b := results[n], Boundary(st, results[n]);
      && b.current == c.id && b.shader == c.shader
      && (if n > 0 && results[n - 1].id == c.id && results[n - 1].shader == c.shader
          then b.draws == st.draws && b.count == st.count
          else b.draws == Flush(st).draws && b.count == 0)
  {
  }

  /** The second half of the loop body counts a visible result in the open
      run and leaves the draws alone. */
  lemma VisitRuns<T, Q>(b: Scan<T, Q>, c: CullResult, tri: map<int, Instanced<T>>, quad: map<int, Instanced<Q>>)
    requires ResolvesFor(c, tri, quad)
    ensures var v := Visit(b, c, tri, quad);
      v.draws == b.draws && v.shader == b.shader && v.current == b.current
      && v.count == b.count + (if c.visible then 1 else 0)
  {
  }

  /** One iteration of the loop body closes a run exactly where `Runs`
      starts a new one. */
  lemma StepRuns<T, Q>(st: Scan<T, Q>, results: seq<CullResult>, n: nat, tri: map<int, Instanced<T>>, quad: map<int, Instanced<Q>>)
    requires n < |results| && KeysInRange(results)
    requires RunsSoFar(st, results[..n])
    requires n == 0 ==> st.current == U32_MAX && st.shader == Triangle && st.count == 0 && st.draws == []
    requires n > 0 ==> st.current == results[n - 1].id && st.shader == results[n - 1].shader
    requires ResolvesFor(results[n], tri, quad)
    ensures RunsSoFar(Visit(Boundary(st, results[n]), results[n], tri, quad), results[..n + 1])
  {
    var c := results[n];
    var b := Boundary(st, c);
    BoundaryRuns(st, results, n);
    VisitRuns(b, c, tri, quad);
    StepOpenRun(st.draws, st.shader, st.current, st.count, st.offset, results, n, b.draws, b.count + (if c.visible then 1 else 0));
  }

  /** `StepRuns` on the run list alone: `nextDraws` and `nextCount` are what the
      loop body leaves for the run of `results[n]`. */
  lemma StepOpenRun(draws: seq<Draw>, shader: Shader, current: int, count: nat, offset: nat,
                    results: seq<CullResult>, n: nat, nextDraws: seq<Draw>, nextCount: nat)
    requires n < |results|
    requires n == 0 ==> RunsOf(draws) == [] && count == 0 && nextDraws == draws && nextCount == (if results[n].visible then 1 else 0)
    requires n > 0 ==> OpenRun(draws, shader, current, count, Runs(results[..n]))
    requires n > 0 ==> current == results[n - 1].id && shader == results[n - 1].shader
    requires n > 0 && current == results[n].id && shader == results[n].shader ==>
      nextDraws == draws && nextCount == count + (if results[n].visible then 1 else 0)
    requires n > 0 && (current != results[n].id || shader != results[n].shader) ==>
      nextDraws == (if count > 0 then draws + [Draw(shader, current, count, offset)] else draws)
      && nextCount == (if results[n].visible then 1 else 0)
    ensures OpenRun(nextDraws, results[n].shader, results[n].id, nextCount, Runs(results[..n + 1]))
  {
    var c := results[n];
    var k := if c.visible then 1 else 0;
    RunsSnoc(results, n);
    var rs, rs' := Runs(results[..n]), Runs(results[..n + 1]);
    if n == 0 {
      assert rs' == [Run(c.shader, c.id, k)] && rs'[..0] == [];
    } else if current == c.id && shader == c.shader {
      OpenRunGrows(draws, shader, current, count, rs, k);
    } else {
      OpenRunCloses(draws, shader, current, count, offset, rs, Run(c.shader, c.id, k));
    }
  }

  /** The final flush records the open run when it is non-empty, so the
      draws are all the non-empty runs. */
  lemma FinishRuns<T, Q>(st: Scan<T, Q>, results: seq<CullResult>)
    requires RunsSoFar(st, results)
    requires |results| == 0 ==> st.count == 0
    ensures RunsOf(Flush(st).draws) == NonEmptyRuns(Runs(results))
  {
  }

  /** The loop invariant of the scan after `n` results. */
  ghost predicate Inv<T, Q>(st: Scan<T, Q>, results: seq<CullResult>, n: nat, tri: map<int, Instanced<T>>, quad: map<int, Instanced<Q>>)
    requires n <= |results|
  {
    Accounts(st, results[..n], tri, quad) && AtResult(st, results, n)
  }

  /** Before the first result nothing is open; after it, the open run is
      that of the last result read. */
  predicate AtResult<T, Q>(st: Scan<T, Q>, results: seq<CullResult>, n: nat)
    requires n <= |results|
  {
    && (n == 0 ==> st.current == U32_MAX && st.shader == Triangle && st.count == 0 && st.draws == [])
    && (n > 0 ==> st.current == results[n - 1].id && st.shader == results[n - 1].shader)
  }

  /** Closes the open run: records its draw when it has visible instances. */
  function Flush<T, Q>(st: Scan<T, Q>): Scan<T, Q> {
    if st.count > 0 then st.(draws := st.draws + [Draw(st.shader, st.current, st.count, st.offset)]) else st
  }

  /** The start of the loop body: adopt the first key, close the run at a
      change of key or shader, and restart the offset at a change of shader. */
  function Boundary<T, Q>(st: Scan<T, Q>, c: CullResult): Scan<T, Q> {
    Switch(Close(Adopt(st, c), c), c)
  }

  /** `if current_primitive_id == u32::MAX`: the first result's key opens
      the run. */
  function Adopt<T, Q>(st: Scan<T, Q>, c: CullResult): Scan<T, Q> {
    if st.current == U32_MAX then st.(current := c.id) else st
  }

  /** A change of key or shader closes the run and opens one for `c`. */
  function Close<T, Q>(st: Scan<T, Q>, c: CullResult): Scan<T, Q> {
    if c.id != st.current || c.shader != st.shader
    then Flush(st).(current := c.id, offset := st.offset + st.count, count := 0)
    else st
  }

  /** A change of shader restarts the instance offset. */
  function Switch<T, Q>(st: Scan<T, Q>, c: CullResult): Scan<T, Q> {
    if c.shader != st.shader then st.(shader := c.shader, offset := 0) else st
  }

  /** The rest of the loop body for a result that resolves: push its record
      and count it when visible. */
  function Visit<T, Q>(st: Scan<T, Q>, c: CullResult, tri: map<int, Instanced<T>>, quad: map<int, Instanced<Q>>): Scan<T, Q>
    requires c.shader == Triangle ==> Resolves(c, tri)
    requires c.shader == Quadric ==> Resolves(c, quad)
  {
    if !c.visible then st
    else if c.shader == Triangle
    then st.(triData := st.triData + [Record(tri[c.id].materialId, tri[c.id].instances[c.indexInstance])], count := st.count + 1)
    else st.(quadData := st.quadData + [Record(quad[c.id].materialId, quad[c.id].instances[c.indexInstance])], count := st.count + 1)
  }

  /** Closing the run keeps the accounting, with an empty open run. */
  lemma FlushAccounts<T, Q>(st: Scan<T, Q>, seen: seq<CullResult>, tri: map<int, Instanced<T>>, quad: map<int, Instanced<Q>>)
    requires Accounts(st, seen, tri, quad)
    ensures var f := Flush(st).(offset := st.offset + st.count, count := 0);
      Accounts(f, seen, tri, quad) && f.shader == st.shader
  {
    if st.count > 0 {
      var d := Draw(st.shader, st.current, st.count, st.offset);
      var f := Flush(st).(offset := st.offset + st.count, count := 0);
      assert f.draws == st.draws + [d];
      TilesSnoc(st.draws, d, VisibleIds(seen, Triangle), VisibleIds(seen, Quadric));
      SumCountsSnoc(st.draws, d, Triangle);
      SumCountsSnoc(st.draws, d, Quadric);
      assert SumCounts(f.draws, f.shader) == SumCounts(st.draws, st.shader) + st.count;
      assert SumCounts(f.draws, Other(f.shader)) == SumCounts(st.draws, Other(st.shader));
      assert DrawsKnown(f.draws, tri, quad) by {
        forall i | 0 <= i < |f.draws|
          ensures Known(f.draws[i].primitiveId, f.draws[i].shader, tri, quad)
        {
          if i < |st.draws| {
            assert f.draws[i] == st.draws[i];
          }
        }
      }
    }
  }

  /** Adopting the first key keeps the accounting: nothing is open yet. */
  lemma AdoptAccounts<T, Q>(st: Scan<T, Q>, results: seq<CullResult>, n: nat, tri: map<int, Instanced<T>>, quad: map<int, Instanced<Q>>)
    requires n < |results| && KeysInRange(results)
    requires Inv(st, results, n, tri, quad)
    ensures var a := Adopt(st, results[n]);
      Accounts(a, results[..n], tri, quad) && a.shader == st.shader && a.count == st.count
      && (n > 0 ==> a.current == results[n - 1].id)
  {
    if st.current == U32_MAX {
      assert n == 0;
      assert Recorded(Adopt(st, results[n]), results[..n], tri, quad);
    }
  }

  /** Closing the run at a change keeps the accounting, with an empty run
      for the new result's key. */
  lemma CloseAccounts<T, Q>(st: Scan<T, Q>, seen: seq<CullResult>, c: CullResult, tri: map<int, Instanced<T>>, quad: map<int, Instanced<Q>>)
    requires Accounts(st, seen, tri, quad)
    ensures var b := Close(st, c);
      Accounts(b, seen, tri, quad) && b.current == c.id && b.shader == st.shader
      && (c.shader != st.shader ==> b.count == 0)
  {
    if c.id != st.current || c.shader != st.shader {
      FlushAccounts(st, seen, tri, quad);
      var f := Flush(st).(offset := st.offset + st.count, count := 0);
      assert Recorded(f.(current := c.id), seen, tri, quad);
    }
  }

  /** Moving on to the quadric shader keeps the accounting: the run is
      empty and no quadric has been seen. */
  lemma SwitchAccounts<T, Q>(st: Scan<T, Q>, seen: seq<CullResult>, c: CullResult, tri: map<int, Instanced<T>>, quad: map<int, Instanced<Q>>)
    requires Accounts(st, seen, tri, quad)
    requires c.shader != st.shader ==> st.count == 0 && st.shader == Triangle
    ensures var b := Switch(st, c);
      Accounts(b, seen, tri, quad) && b.current == st.current && b.shader == c.shader
  {
    if c.shader != st.shader {
      assert Recorded(Switch(st, c), seen, tri, quad);
    }
  }

  /** The first half of the loop body leaves the accounting of the prefix
      intact and points the open run at the new result. */
  lemma BoundaryAccounts<T, Q>(st: Scan<T, Q>, results: seq<CullResult>, n: nat, tri: map<int, Instanced<T>>, quad: map<int, Instanced<Q>>)
    requires n < |results| && ShaderSorted(results) && KeysInRange(results)
    requires Inv(st, results, n, tri, quad)
    ensures var b := Boundary(st, results[n]);
      Accounts(b, results[..n], tri, quad) && b.current == results[n].id && b.shader == results[n].shader
  {
    var c := results[n];
    AdoptAccounts(st, results, n, tri, quad);
    var a := Adopt(st, c);
    CloseAccounts(a, results[..n], c, tri, quad);
    var b := Close(a, c);
    if c.shader != b.shader {
      assert n == 0 || results[n - 1].shader == Triangle;
    }
    SwitchAccounts(b, results[..n], c, tri, quad);
  }

  /** The second half of the loop body extends the accounting to the next
      result. */
  lemma VisitAccounts<T, Q>(st: Scan<T, Q>, results: seq<CullResult>, n: nat, tri: map<int, Instanced<T>>, quad: map<int, Instanced<Q>>)
    requires n < |results|
    requires Accounts(st, results[..n], tri, quad) && st.current == results[n].id && st.shader == results[n].shader
    requires ResolvesFor(results[n], tri, quad)
    ensures Accounts(Visit(st, results[n], tri, quad), results[..n + 1], tri, quad)
  {
    VisitCounted(st, results, n, tri, quad);
    VisitRecorded(st, results, n, tri, quad);
  }

  lemma VisitCounted<T, Q>(st: Scan<T, Q>, results: seq<CullResult>, n: nat, tri: map<int, Instanced<T>>, quad: map<int, Instanced<Q>>)
    requires n < |results|
    requires Counted(st, results[..n], tri, quad) && st.current == results[n].id && st.shader == results[n].shader
    requires ResolvesFor(results[n], tri, quad)
    ensures Counted(Visit(st, results[n], tri, quad), results[..n + 1], tri, quad)
  {
    var seen := results[..n + 1];
    var c := results[n];
    var v := Visit(st, c, tri, quad);
    TilesExtend(st.draws, results, n);
    VisibleIdsSnoc(results, n, Triangle);
    VisibleIdsSnoc(results, n, Quadric);
    assert v.draws == st.draws && v.shader == st.shader && v.offset == st.offset && v.current == st.current;
    var old_ids := VisibleIds(results[..n], st.shader);
    var ids := VisibleIds(seen, st.shader);
    if c.visible {
      assert ids == old_ids + [c.id] && v.count == st.count + 1;
      forall k | |ids| - v.count <= k < |ids|
        ensures ids[k] == v.current
      {
        if k < |old_ids| {
          assert ids[k] == old_ids[k];
        }
      }
    } else {
      assert ids == old_ids && v.count == st.count;
    }
    assert VisibleIds(seen, Other(st.shader)) == VisibleIds(results[..n], Other(st.shader));
  }

  lemma VisitRecorded<T, Q>(st: Scan<T, Q>, results: seq<CullResult>, n: nat, tri: map<int, Instanced<T>>, quad: map<int, Instanced<Q>>)
    requires n < |results|
    requires Recorded(st, results[..n], tri, quad) && st.shader == results[n].shader
    requires ResolvesFor(results[n], tri, quad)
    ensures Recorded(Visit(st, results[n], tri, quad), results[..n + 1], tri, quad)
  {
    AllResolveSnoc(results, n, tri, quad);
    forall i | 0 <= i < n + 1
      ensures ResolvesFor(results[i], tri, quad)
    {
      assert results[i] == results[..n + 1][i];
    }
    VisibleDataSnoc(results, n, Triangle, tri);
    VisibleDataSnoc(results, n, Quadric, quad);
  }

  lemma AllResolveSnoc<T, Q>(results: seq<CullResult>, n: nat, tri: map<int, Instanced<T>>, quad: map<int, Instanced<Q>>)
    requires n < |results|
    requires AllResolve(results[..n], tri, quad)
    requires ResolvesFor(results[n], tri, quad)
    ensures AllResolve(results[..n + 1], tri, quad)
  {
    var seen := results[..n + 1];
    forall i | 0 <= i < n + 1
      ensures ResolvesFor(seen[i], tri, quad)
    {
      if i < n {
        assert seen[i] == results[..n][i];
      }
    }
  }

  lemma StartInv<T, Q>(results: seq<CullResult>, tri: map<int, Instanced<T>>, quad: map<int, Instanced<Q>>)
    ensures Inv(Start(), results, 0, tri, quad)
  {
    assert results[..0] == [];
  }

  /** One pass of the loop body over a result that resolves. */
  lemma StepInv<T, Q>(st: Scan<T, Q>, results: seq<CullResult>, n: nat, tri: map<int, Instanced<T>>, quad: map<int, Instanced<Q>>)
    requires n < |results| && ShaderSorted(results) && KeysInRange(results)
    requires Inv(st, results, n, tri, quad)
    requires ResolvesFor(results[n], tri, quad)
    ensures Inv(Visit(Boundary(st, results[n]), results[n], tri, quad), results, n + 1, tri, quad)
  {
    BoundaryAccounts(st, results, n, tri, quad);
    VisitAccounts(Boundary(st, results[n]), results, n, tri, quad);
  }

  /** The draws and data buffers the scan ends with: the draws tile the
      visible keys of each shader, one draw per run with a visible result, and
      the buffers hold the visible records. */
  ghost predicate Produces<T, Q>(f: Frame<T, Q>, results: seq<CullResult>, tri: map<int, Instanced<T>>, quad: map<int, Instanced<Q>>) {
    && AllResolve(results, tri, quad)
    && TilesVisible(f.draws, results)
    && DrawsKnown(f.draws, tri, quad)
    && SumCounts(f.draws, Triangle) == |VisibleIds(results, Triangle)|
    && SumCounts(f.draws, Quadric) == |VisibleIds(results, Quadric)|
    && f.triangleData == VisibleData(results, Triangle, tri)
    && f.quadricData == VisibleData(results, Quadric, quad)
    && RunsOf(f.draws) == NonEmptyRuns(Runs(results))
  }

  /** Two visible instances of one primitive in a row are drawn by one draw
      of both, never by two draws of one each. */
  lemma OneRunOneDraw<T, Q>(f: Frame<T, Q>, tri: map<int, Instanced<T>>, quad: map<int, Instanced<Q>>)
    requires Produces(f, [CullResult(0, Triangle, 0, true), CullResult(0, Triangle, 1, true)], tri, quad)
    ensures f.draws == [Draw(Triangle, 0, 2, 0)]
  {
    var results := [CullResult(0, Triangle, 0, true), CullResult(0, Triangle, 1, true)];
    assert results[..1][..0] == [];
    assert Runs(results[..1]) == [Run(Triangle, 0, 1)];
    assert results[..|results| - 1] == results[..1];
    assert Runs(results) == [Run(Triangle, 0, 2)];
    assert NonEmptyRuns([Run(Triangle, 0, 2)]) == [Run(Triangle, 0, 2)];
    assert |f.draws| == 1;
    assert RunsOf(f.draws) == RunsOf(f.draws[..0]) + [Run(f.draws[0].shader, f.draws[0].primitiveId, f.draws[0].instanceCount)];
    assert f.draws[..0] == [];
    assert Covers(f.draws[0], SumCounts(f.draws[..0], Triangle), VisibleIds(results, Triangle));
  }

  /** A scan with no open run that accounts for the whole list has
      produced its frame. */
  lemma ClosedProduces<T, Q>(g: Scan<T, Q>, results: seq<CullResult>, tri: map<int, Instanced<T>>, quad: map<int, Instanced<Q>>)
    requires Accounts(g, results, tri, quad) && g.count == 0
    requires RunsOf(g.draws) == NonEmptyRuns(Runs(results))
    ensures Produces(Frame(g.draws, g.triData, g.quadData), results, tri, quad)
  {
    assert SumCounts(g.draws, g.shader) == |VisibleIds(results, g.shader)|;
    assert SumCounts(g.draws, Other(g.shader)) == |VisibleIds(results, Other(g.shader))|;
  }

  /** The final flush after the loop completes the tiling. */
  lemma FinishInv<T, Q>(st: Scan<T, Q>, results: seq<CullResult>, tri: map<int, Instanced<T>>, quad: map<int, Instanced<Q>>)
    requires Inv(st, results, |results|, tri, quad)
    requires RunsSoFar(st, results[..|results|])
    ensures var f := Flush(st); Produces(Frame(f.draws, f.triData, f.quadData), results, tri, quad)
  {
    assert Accounts(st, results, tri, quad) by {
      assert results[..|results|] == results;
    }
    assert results[..|results|] == results;
    FinishRuns(st, results);
    FlushAccounts(st, results, tri, quad);
    ClosedProduces(Flush(st).(offset := st.offset + st.count, count := 0), results, tri, quad);
  }

  /** The scan state after the loop body has run on the first `n` results. */
  function ScanOf<T, Q>(results: seq<CullResult>, n: nat, tri: map<int, Instanced<T>>, quad: map<int, Instanced<Q>>): Scan<T, Q>
    requires n <= |results|
    requires forall i :: 0 <= i < n ==> ResolvesFor(results[i], tri, quad)
  {
    if n == 0 then Start()
    else
      var c := results[n - 1];
      assert ResolvesFor(c, tri, quad);
      Visit(Boundary(ScanOf(results, n - 1, tri, quad), c), c, tri, quad)
  }

  /** The accounting invariant holds of every state the loop reaches. */
  lemma {:induction false} ScanOfInv<T, Q>(results: seq<CullResult>, n: nat, tri: map<int, Instanced<T>>, quad: map<int, Instanced<Q>>)
    requires n <= |results| && ShaderSorted(results) && KeysInRange(results)
    requires forall i :: 0 <= i < n ==> ResolvesFor(results[i], tri, quad)
    ensures Inv(ScanOf(results, n, tri, quad), results, n, tri, quad)
  {
    if n == 0 {
      StartInv(results, tri, quad);
    } else {
      ScanOfInv(results, n - 1, tri, quad);
      StepInv(ScanOf(results, n - 1, tri, quad), results, n - 1, tri, quad);
    }
  }

  /** Every state the loop reaches has the open run of the last result read. */
  lemma {:induction false} ScanOfAt<T, Q>(results: seq<CullResult>, n: nat, tri: map<int, Instanced<T>>, quad: map<int, Instanced<Q>>)
    requires n <= |results| && KeysInRange(results)
    requires forall i :: 0 <= i < n ==> ResolvesFor(results[i], tri, quad)
    ensures AtResult(ScanOf(results, n, tri, quad), results, n)
  {
    if n > 0 {
      var st := ScanOf(results, n - 1, tri, quad);
      ScanOfAt(results, n - 1, tri, quad);
      BoundaryRuns(st, results, n - 1);
      VisitRuns(Boundary(st, results[n - 1]), results[n - 1], tri, quad);
    }
  }

  /** The run invariant holds of every state the loop reaches. */
  lemma {:induction false} ScanOfRuns<T, Q>(results: seq<CullResult>, n: nat, tri: map<int, Instanced<T>>, quad: map<int, Instanced<Q>>)
    requires n <= |results| && KeysInRange(results)
    requires forall i :: 0 <= i < n ==> ResolvesFor(results[i], tri, quad)
    ensures RunsSoFar(ScanOf(results, n, tri, quad), results[..n])
  {
    if n > 0 {
      ScanOfRuns(results, n - 1, tri, quad);
      ScanOfAt(results, n - 1, tri, quad);
      StepRuns(ScanOf(results, n - 1, tri, quad), results, n - 1, tri, quad);
    }
  }

  /** The frame the scan produces once every result resolves. */
  lemma ScanProduces<T, Q>(results: seq<CullResult>, tri: map<int, Instanced<T>>, quad: map<int, Instanced<Q>>)
    requires ShaderSorted(results) && KeysInRange(results) && AllResolve(results, tri, quad)
    ensures var f := Flush(ScanOf(results, |results|, tri, quad));
      Produces(Frame(f.draws, f.triData, f.quadData), results, tri, quad)
  {
    ScanOfInv(results, |results|, tri, quad);
    ScanOfRuns(results, |results|, tri, quad);
    FinishInv(ScanOf(results, |results|, tri, quad), results, tri, quad);
  }

  /** The scan of `draw_world`. The cull list must be grouped by shader with
      triangles first and keys other than the `u32::MAX` marker, which is what
      `begin` produces. A visible result whose primitive or instance is missing
      is the source's panic. On success the draws tile, shader by shader, the
      keys of the visible results in list order, every draw's primitive is in
      its map, each draw is one whole run of results with the same key that
      holds a visible result, and each data buffer holds one record per
      visible result of its shader, in list order. */
  method DrawWorld<T, Q>(results: seq<CullResult>, tri: map<int, Instanced<T>>, quad: map<int, Instanced<Q>>)
    returns (r: Result<Frame<T, Q>, string>)
    requires ShaderSorted(results) && KeysInRange(results)
    ensures r.Success? <==> AllResolve(results, tri, quad)
    ensures r.Success? ==> Produces(r.value, results, tri, quad)
  {
    var st: Scan<T, Q> := Start();
    var n := 0;
    while n < |results|
      invariant 0 <= n <= |results|
      invariant forall i :: 0 <= i < n ==> ResolvesFor(results[i], tri, quad)
      invariant st == ScanOf(results, n, tri, quad)
    {
      var c := results[n];
      if c.shader == Triangle && !Resolves(c, tri) {
        return Failure(MISSING_TRIANGLE_INSTANCE);
      }
      if c.shader == Quadric && !Resolves(c, quad) {
        return Failure(MISSING_QUADRIC_INSTANCE);
      }
      st := Visit(Boundary(st, c), c, tri, quad);
      n := n + 1;
    }
    ScanProduces(results, tri, quad);
    st := Flush(st);
    return Success(Frame(st.draws, st.triData, st.quadData));
  }
}

=== FILE: material.dfy ===
/** `Material`: the per-material record the fragment shader indexes by
    `material_id`, with the two workflow codes and the default material. */
module Material {
  import Texture
  import opened Wrappers

  /** Fragment shader workflow codes. */
  const METALLIC_ROUGHNESS_WORKFLOW: int := 0
  const UNLIT_WORKFLOW: int := 1

  /** Index of the default material in the materials buffer. */
  const NO_MATERIAL: nat := 0

  datatype Vec4 = Vec4(x: real, y: real, z: real, w: real)

  datatype Material = Material(
    baseColorFactor: Vec4,
    workflow: int,
    baseColorTextureSet: int,
    metallicRoughnessTextureId: int,
    normalTextureSet: int,
    occlusionTextureSet: int,
    emissiveTextureSet: int,
    metallicFactor: real,
    roughnessFactor: real,
    alphaMask: real,
    alphaMaskCutoff: real)

  /** The five texture slots of a material, in declaration order. */
  function TextureSlots(m: Material): (s: seq<int>)
    ensures |s| == 5
  {
    [m.baseColorTextureSet, m.metallicRoughnessTextureId, m.normalTextureSet,
     m.occlusionTextureSet, m.emissiveTextureSet]
  }

  /** `Material::gltf_default`, which is also `Material::default`: opaque
      white, metallic-roughness workflow, factors 1.0 and no textures. */
  function GltfDefault(): (m: Material)
    ensures forall i :: 0 <= i < 5 ==> TextureSlots(m)[i] == Texture.NO_TEXTURE
    ensures m.workflow == METALLIC_ROUGHNESS_WORKFLOW
    ensures m.baseColorFactor == Vec4(1.0, 1.0, 1.0, 1.0)
    ensures m.metallicFactor == 1.0 && m.roughnessFactor == 1.0
    ensures m.alphaMask == 0.0 && m.alphaMaskCutoff == 0.0
  {
    Material(Vec4(1.0, 1.0, 1.0, 1.0), METALLIC_ROUGHNESS_WORKFLOW,
      Texture.NO_TEXTURE, Texture.NO_TEXTURE, Texture.NO_TEXTURE, Texture.NO_TEXTURE, Texture.NO_TEXTURE,
      1.0, 1.0, 0.0, 0.0)
  }

  /** `Material::unlit_white`: the default material in the unlit workflow. */
  function UnlitWhite(): (m: Material)
    ensures m.workflow == UNLIT_WORKFLOW
    ensures m.(workflow := METALLIC_ROUGHNESS_WORKFLOW) == GltfDefault()
  {
    GltfDefault().(workflow := UNLIT_WORKFLOW)
  }

  /** glTF `alphaMode`. */
  datatype AlphaMode = Opaque | Mask | Blend

  /** The `(alpha_mask, alpha_mask_cutoff)` pair chosen by `Material::load`:
      `Mask` wins over an explicit cutoff, which wins over the default. */
  function AlphaSettings(mode: AlphaMode, cutoff: Option<real>): (r: (real, real))
    ensures r.0 == 1.0 <==> mode == Mask || cutoff.Some?
    ensures r.0 == 0.0 <==> !(mode == Mask || cutoff.Some?)
    ensures mode == Mask ==> r.1 == 0.5
    ensures mode != Mask && cutoff.Some? ==> r.1 == cutoff.value
    ensures mode != Mask && cutoff.None? ==> r.1 == 1.0
  {
    match (mode, cutoff)
    case (Mask, _) => (1.0, 0.5)
    case (_, Some(c)) => (1.0, c)
    case _ => (0.0, 1.0)
  }

  /** The workflow code for a material with or without `KHR_materials_unlit`. */
  function Workflow(unlit: bool): (w: int)
    ensures w == UNLIT_WORKFLOW <==> unlit
    ensures w == METALLIC_ROUGHNESS_WORKFLOW <==> !unlit
  {
    if unlit then UNLIT_WORKFLOW else METALLIC_ROUGHNESS_WORKFLOW
  }
}

=== FILE: material_import.dfy ===
/** `Material::load` and the texture registration it triggers
    (`Texture::load`, `RenderContext::create_texture_image`). Decoding and
    uploading the image itself is not modelled: each texture load reserves
    the next texture handle. */
module MaterialImport {
  import opened Wrappers
  import opened Bytes
  import G = GpuBuffer
  import M = Material
  import R = Resources
  import Texture

  // Error message for a push onto a full materials buffer.
  const MATERIALS_FULL := "materials buffer is full"

  /** A glTF texture reference, identified by the index of its source image. */
  datatype TextureInfo = TextureInfo(sourceImage: nat)

  /** The parts of a glTF material that `Material::load` reads. */
  datatype GltfMaterial = GltfMaterial(
    baseColorTexture: Option<TextureInfo>,
    baseColorFactor: M.Vec4,
    metallicRoughnessTexture: Option<TextureInfo>,
    normalTexture: Option<TextureInfo>,
    occlusionTexture: Option<TextureInfo>,
    emissiveTexture: Option<TextureInfo>,
    metallicFactor: real,
    roughnessFactor: real,
    alphaMode: M.AlphaMode,
    alphaCutoff: Option<real>,
    unlit: bool)

  /** Occlusion is read from the metallic-roughness texture when both name the
      same source image. */
  predicate SharesOcclusion(m: GltfMaterial) {
    m.occlusionTexture.Some? && m.metallicRoughnessTexture.Some?
    && m.occlusionTexture.value.sourceImage == m.metallicRoughnessTexture.value.sourceImage
  }

  /** The texture infos of `m`, in the order of `Material.TextureSlots`. */
  function Infos(m: GltfMaterial): (s: seq<Option<TextureInfo>>)
    ensures |s| == 5
  {
    [m.baseColorTexture, m.metallicRoughnessTexture, m.normalTexture, m.occlusionTexture, m.emissiveTexture]
  }

  /** Slot `i` gets a texture of its own. */
  predicate LoadsOwnTexture(m: GltfMaterial, i: nat)
    requires i < 5
  {
    Infos(m)[i].Some? && !(i == 3 && SharesOcclusion(m))
  }

  /** How many textures a material load registers. */
  function TexturesNeeded(m: GltfMaterial): (n: nat)
    ensures n <= 5
  {
    (if m.baseColorTexture.Some? then 1 else 0)
    + (if m.metallicRoughnessTexture.Some? then 1 else 0)
    + (if m.normalTexture.Some? then 1 else 0)
    + (if m.occlusionTexture.Some? && !SharesOcclusion(m) then 1 else 0)
    + (if m.emissiveTexture.Some? then 1 else 0)
  }

  /** `Texture::load` for an optional texture info: `NO_TEXTURE` when absent. */
  function LoadSlot(r: R.Resources, info: Option<TextureInfo>): (res: Result<(R.Resources, int), string>)
    requires r.Valid()
    ensures res.Success? ==> res.value.0.Valid()
    ensures res.Success? ==> res.value.0 == r.(textureCount := res.value.0.textureCount)
    ensures info.None? ==> res == Success((r, Texture.NO_TEXTURE))
    ensures info.Some? ==> (res.Success? <==> r.textureCount < U32_MAX)
    ensures info.Some? && res.Success? ==>
      res.value.1 == r.textureCount && res.value.0.textureCount == r.textureCount + 1
  {
    match info
    case None => Success((r, Texture.NO_TEXTURE))
    case Some(_) => R.WriteTextureToArray(r)
  }

  /** The material `Material::load` assembles, with the resources after its
      texture registrations: base colour, metallic-roughness, normal,
      occlusion (unless shared) and emissive textures are loaded in that
      order. */
  function Build(r: R.Resources, m: GltfMaterial): (res: Result<(R.Resources, M.Material), string>)
    requires r.Valid()
    ensures res.Success? <==> r.textureCount + TexturesNeeded(m) <= U32_MAX
    ensures res.Success? ==>
      res.value.0.Valid() && res.value.0 == r.(textureCount := r.textureCount + TexturesNeeded(m))
    ensures res.Success? ==> var mat := res.value.1;
      mat.baseColorFactor == m.baseColorFactor
      && mat.metallicFactor == m.metallicFactor && mat.roughnessFactor == m.roughnessFactor
      && (mat.alphaMask, mat.alphaMaskCutoff) == M.AlphaSettings(m.alphaMode, m.alphaCutoff)
      && mat.workflow == M.Workflow(m.unlit)
  {
    var s1 := LoadSlot(r, m.baseColorTexture);
    if s1.Failure? then Failure(s1.error) else
    var s2 := LoadSlot(s1.value.0, m.metallicRoughnessTexture);
    if s2.Failure? then Failure(s2.error) else
    var s3 := LoadSlot(s2.value.0, m.normalTexture);
    if s3.Failure? then Failure(s3.error) else
    var s4 := if SharesOcclusion(m) then Success((s3.value.0, s2.value.1))
              else LoadSlot(s3.value.0, m.occlusionTexture);
    if s4.Failure? then Failure(s4.error) else
    var s5 := LoadSlot(s4.value.0, m.emissiveTexture);
    if s5.Failure? then Failure(s5.error) else
    var alpha := M.AlphaSettings(m.alphaMode, m.alphaCutoff);
    Success((s5.value.0, M.Material(m.baseColorFactor, M.Workflow(m.unlit), s1.value.1, s2.value.1,
      s3.value.1, s4.value.1, s5.value.1, m.metallicFactor, m.roughnessFactor, alpha.0, alpha.1)))
  }

  /** How many of the slots before `i` load a texture of their own. */
  function OwnBefore(m: GltfMaterial, i: nat): (n: nat)
    requires i <= 5
    ensures n <= i
  {
    if i == 0 then 0 else OwnBefore(m, i - 1) + (if LoadsOwnTexture(m, i - 1) then 1 else 0)
  }

  /** Reference assignment of texture handles when loading starts at handle
      `first`: an absent slot is `NO_TEXTURE`, a shared occlusion slot takes the
      metallic-roughness handle, and every other slot takes the next handle in
      slot order. */
  function ReferenceSlot(m: GltfMaterial, first: int, i: nat): int
    requires i < 5
  {
    if Infos(m)[i].None? then Texture.NO_TEXTURE
    else if i == 3 && SharesOcclusion(m) then first + OwnBefore(m, 1)
    else first + OwnBefore(m, i)
  }

  /** The handles `Build` assigns are the reference assignment. */
  lemma BuildMatchesReference(r: R.Resources, m: GltfMaterial)
    requires r.Valid() && Build(r, m).Success?
    ensures forall i :: 0 <= i < 5 ==>
      M.TextureSlots(Build(r, m).value.1)[i] == ReferenceSlot(m, r.textureCount, i)
  {
    var c := r.textureCount;
    var s1 := LoadSlot(r, m.baseColorTexture);
    var s2 := LoadSlot(s1.value.0, m.metallicRoughnessTexture);
    var s3 := LoadSlot(s2.value.0, m.normalTexture);
    var s4 := if SharesOcclusion(m) then Success((s3.value.0, s2.value.1))
              else LoadSlot(s3.value.0, m.occlusionTexture);
    var s5 := LoadSlot(s4.value.0, m.emissiveTexture);
    var mat := Build(r, m).value.1;
    assert M.TextureSlots(mat) == [s1.value.1, s2.value.1, s3.value.1, s4.value.1, s5.value.1];
    assert s1.value.0.textureCount == c + OwnBefore(m, 1);
    assert s2.value.0.textureCount == c + OwnBefore(m, 2);
    assert s3.value.0.textureCount == c + OwnBefore(m, 3);
    assert s4.value.0.textureCount == c + OwnBefore(m, 4);
    assert s1.value.1 == ReferenceSlot(m, c, 0);
    assert s2.value.1 == ReferenceSlot(m, c, 1);
    assert s3.value.1 == ReferenceSlot(m, c, 2);
    assert s4.value.1 == ReferenceSlot(m, c, 3);
    assert s5.value.1 == ReferenceSlot(m, c, 4);
  }

  /** Texture slots of a loaded material: an absent texture info gives
      `NO_TEXTURE`; every texture loaded gets a fresh handle from the range the
      load reserved, in load order; occlusion reuses the metallic-roughness
      handle when both name the same source image. */
  lemma BuildSlots(r: R.Resources, m: GltfMaterial)
    requires r.Valid() && Build(r, m).Success?
    ensures var (r', mat) := Build(r, m).value;
      (forall i :: 0 <= i < 5 && Infos(m)[i].None? ==> M.TextureSlots(mat)[i] == Texture.NO_TEXTURE)
      && (forall i :: 0 <= i < 5 && LoadsOwnTexture(m, i) ==>
            r.textureCount <= M.TextureSlots(mat)[i] < r'.textureCount)
      && (forall i, j :: 0 <= i < j < 5 && LoadsOwnTexture(m, i) && LoadsOwnTexture(m, j) ==>
            M.TextureSlots(mat)[i] < M.TextureSlots(mat)[j])
      && (SharesOcclusion(m) ==> mat.occlusionTextureSet == mat.metallicRoughnessTextureId)
  {
    BuildMatchesReference(r, m);
    var c := r.textureCount;
    var (r', mat) := Build(r, m).value;
    var slots := M.TextureSlots(mat);
    assert r'.textureCount == c + OwnBefore(m, 5) by {
      assert OwnBefore(m, 2) == OwnBefore(m, 1) + (if LoadsOwnTexture(m, 1) then 1 else 0);
      assert OwnBefore(m, 4) == OwnBefore(m, 3) + (if LoadsOwnTexture(m, 3) then 1 else 0);
      assert OwnBefore(m, 5) == TexturesNeeded(m);
    }
    forall i | 0 <= i < 5 && LoadsOwnTexture(m, i)
      ensures c <= slots[i] < r'.textureCount
    {
      assert slots[i] == ReferenceSlot(m, c, i);
      OwnBeforeMonotone(m, i, 5);
    }
    forall i, j | 0 <= i < j < 5 && LoadsOwnTexture(m, i) && LoadsOwnTexture(m, j)
      ensures slots[i] < slots[j]
    {
      assert slots[i] == ReferenceSlot(m, c, i) && slots[j] == ReferenceSlot(m, c, j);
      OwnBeforeMonotone(m, i, j);
    }
    assert SharesOcclusion(m) ==> slots[3] == slots[1] by {
      assert slots[3] == ReferenceSlot(m, c, 3) && slots[1] == ReferenceSlot(m, c, 1);
    }
  }

  lemma {:induction false} OwnBeforeMonotone(m: GltfMaterial, i: nat, j: nat)
    requires i < j <= 5
    ensures OwnBefore(m, i) <= OwnBefore(m, j)
    ensures LoadsOwnTexture(m, i) ==> OwnBefore(m, i) < OwnBefore(m, j)
    decreases j
  {
    if j > i + 1 {
      OwnBeforeMonotone(m, i, j - 1);
    }
  }

  /** `Material::load`: build the material, then push it onto the materials
      buffer. `push` leaves room to its caller; pushing onto a full buffer
      writes past the mapped memory, which is a failure here. */
  function Load(r: R.Resources, m: GltfMaterial): (res: Result<R.Resources, string>)
    requires r.Valid()
    ensures res.Success? <==> Build(r, m).Success? && r.materials.len < r.materials.MaxLen()
    ensures res.Success? ==>
      res.value.Valid()
      && G.AsSlice(res.value.materials) == G.AsSlice(r.materials) + [Build(r, m).value.1]
      && res.value.textureCount == Build(r, m).value.0.textureCount
  {
    var (r', mat) :- Build(r, m);
    if r'.materials.len == r'.materials.MaxLen() then Failure(MATERIALS_FULL)
    else Success(r'.(materials := G.Push(r'.materials, mat).buffer))
  }
}

=== FILE: memory_types.dfy ===
/** Choosing a Vulkan memory type: the first index `i` below
    `memory_type_count` whose bit is set in the resource's `memory_type_bits`
    and whose property flags contain every requested flag. Vulkan allows at
    most 32 memory types, so every index fits the 32-bit mask. */
module MemoryTypes {
  import opened Wrappers
  import opened Bytes

  // Panic and error messages, as the source words them.
  const NO_MEMORY_TYPE := "Could not find a valid memory type"

  type Flags = bv32

  const MAX_MEMORY_TYPES: nat := 32

  /** The `property_flags` of `memory_types[0..memory_type_count]`. */
  type MemoryTypeTable = s: seq<Flags> | |s| <= MAX_MEMORY_TYPES

  predicate Qualifies(table: MemoryTypeTable, typeBits: bv32, want: Flags, i: nat)
    requires i < |table|
  {
    BitSet(typeBits, i) && Contains(table[i], want)
  }

  /** `find_memory_type_index` of the renderer's allocator: the loop skips
      indices whose type bit is clear, stops at the first one whose flags
      qualify, and panics (`None` here) if the loop runs out. */
  method FindMemoryTypeIndex(table: MemoryTypeTable, typeBits: bv32, want: Flags) returns (r: Option<nat>)
    ensures r.Some? ==> r.value < |table| && Qualifies(table, typeBits, want, r.value)
    ensures r.Some? ==> forall j :: 0 <= j < r.value ==> !Qualifies(table, typeBits, want, j)
    ensures r.None? <==> forall j :: 0 <= j < |table| ==> !Qualifies(table, typeBits, want, j)
  {
    var i := 0;
    while i < |table|
      invariant i <= |table|
      invariant forall j :: 0 <= j < i ==> !Qualifies(table, typeBits, want, j)
    {
      if typeBits & ((1 as bv32) << i) == 0 {
        i := i + 1;
        continue;
      }
      if Contains(table[i], want) {
        assert Qualifies(table, typeBits, want, i);
        return Some(i);
      }
      i := i + 1;
    }
    return None;
  }

  /** `VulkanContext::find_memory_type` (and the simulator's copy): the same
      first-match search, returning an error (or panicking) when nothing
      qualifies. The search starts at index `from`. */
  function FindMemoryTypeFrom(table: MemoryTypeTable, typeBits: bv32, want: Flags, from: nat): (r: Result<nat, string>)
    requires from <= |table|
    ensures r.Success? ==> from <= r.value < |table| && Qualifies(table, typeBits, want, r.value)
    ensures r.Success? ==> forall j :: from <= j < r.value ==> !Qualifies(table, typeBits, want, j)
    ensures r.Failure? <==> forall j :: from <= j < |table| ==> !Qualifies(table, typeBits, want, j)
    decreases |table| - from
  {
    if from == |table| then Failure(NO_MEMORY_TYPE)
    else if Qualifies(table, typeBits, want, from) then Success(from)
    else FindMemoryTypeFrom(table, typeBits, want, from + 1)
  }

  function FindMemoryType(table: MemoryTypeTable, typeBits: bv32, want: Flags): (r: Result<nat, string>)
    ensures r.Success? ==> r.value < |table| && Qualifies(table, typeBits, want, r.value)
    ensures r.Success? ==> forall j :: 0 <= j < r.value ==> !Qualifies(table, typeBits, want, j)
    ensures r.Failure? <==> forall j :: 0 <= j < |table| ==> !Qualifies(table, typeBits, want, j)
  {
    FindMemoryTypeFrom(table, typeBits, want, 0)
  }

  /** An index whose bit is clear in `memory_type_bits` is never chosen, even
      if its flags match. */
  lemma ClearBitNeverChosen(table: MemoryTypeTable, typeBits: bv32, want: Flags, i: nat)
    requires i < |table| && !BitSet(typeBits, i)
    ensures FindMemoryType(table, typeBits, want) != Success(i)
  {
  }
}

=== FILE: navigation.dfy ===
/** The example navigation system: the player moves (and, with both
    hands, scales) the stage by gripping empty space. Poses are uniform
    scalings followed by a translation; hand poses in the stage are
    translations (the rotation of a grip is not modelled). */
module Navigation {
  import opened Wrappers

  // Panic and error messages, as the source words them.
  const ZERO_GRIP_DISTANCE := "zero distance between the grips"

  datatype Vec3 = Vec3(x: real, y: real, z: real)

  const ZERO := Vec3(0.0, 0.0, 0.0)

  function Add(a: Vec3, b: Vec3): Vec3 { Vec3(a.x + b.x, a.y + b.y, a.z + b.z) }
  function Scale(k: real, v: Vec3): Vec3 { Vec3(k * v.x, k * v.y, k * v.z) }
  function Neg(v: Vec3): Vec3 { Vec3(-v.x, -v.y, -v.z) }

  /** p |-> scale * p + translation */
  datatype Affine = Affine(scale: real, translation: Vec3)

  function Apply(a: Affine, p: Vec3): Vec3 { Add(Scale(a.scale, p), a.translation) }

  function Translation(p: Vec3): Affine { Affine(1.0, p) }

  function FromScale(k: real): Affine { Affine(k, ZERO) }

  /** `a * b`: apply `b` first, then `a`. */
  function Compose(a: Affine, b: Affine): Affine {
    Affine(a.scale * b.scale, Add(Scale(a.scale, b.translation), a.translation))
  }

  lemma ApplyCompose(a: Affine, b: Affine, p: Vec3)
    ensures Apply(Compose(a, b), p) == Apply(a, Apply(b, p))
  {
  }

  /** The grips stored when each hand started gripping, and the scale
      remembered from the last two-handed frame. */
  datatype State = State(leftGrip: Option<Affine>, rightGrip: Option<Affine>, scale: Option<real>)

  const INITIAL := State(None, None, None)

  /** One hand's controller input this frame. */
  datatype HandInput = HandInput(grip: bool, justPressed: bool, justReleased: bool, gripInStage: Vec3)

  /** The stage pose that puts the grip at `p` (in the stage) onto the
      stored global grip, through an extra uniform scale `k`. */
  function Reanchor(stored: Affine, k: real, p: Vec3): (stage: Affine)
    ensures stage.scale == stored.scale * k
    ensures Apply(stage, p) == stored.translation
    ensures Compose(stage, Translation(p)) == Compose(stored, FromScale(k))
  {
    var sk := stored.scale * k;
    var t := stored.translation;
    var stage := Compose(Compose(stored, FromScale(k)), Translation(Neg(p)));
    assert Compose(stored, FromScale(k)) == Affine(sk, t);
    assert stage == Affine(sk, Add(Scale(sk, Neg(p)), t));
    stage
  }

  /** The grip-state updates, in the order the system applies them. */
  function UpdateGrips(s: State, stage: Affine, left: HandInput, right: HandInput): (r: State)
    ensures r.leftGrip.Some? <==> left.grip && (left.justPressed || s.leftGrip.Some?)
    ensures r.rightGrip.Some? <==> right.grip && (right.justPressed || left.justReleased || s.rightGrip.Some?)
    ensures left.grip && left.justPressed ==> r.leftGrip == Some(Compose(stage, Translation(left.gripInStage)))
    ensures right.grip && (right.justPressed || left.justReleased) ==>
      r.rightGrip == Some(Compose(stage, Translation(right.gripInStage)))
    ensures left.grip && !left.justPressed ==> r.leftGrip == s.leftGrip
    ensures right.grip && !right.justPressed && !left.justReleased ==> r.rightGrip == s.rightGrip
    ensures r.scale == if left.grip then s.scale else None
  {
    var s1 := if left.justPressed then s.(leftGrip := Some(Compose(stage, Translation(left.gripInStage)))) else s;
    var s2 := if right.justPressed then s1.(rightGrip := Some(Compose(stage, Translation(right.gripInStage)))) else s1;
    var s3 := if right.grip && left.justReleased
      then s2.(rightGrip := Some(Compose(stage, Translation(right.gripInStage)))) else s2;
    var s4 := if !left.grip then s3.(leftGrip := None, scale := None) else s3;
    if !right.grip then s4.(rightGrip := None) else s4
  }

  /** Moves the stage so that the stored grips stay put. With both hands
      the left hand anchors and the ratio of the stored hand span to the
      current one scales the scene; `distance` is the Euclidean distance,
      whose square root the model does not compute. The source divides by
      that span without a check: a zero span is reported as a failure. */
  function Adjust(s: State, stage: Affine, left: HandInput, right: HandInput, distance: (Vec3, Vec3) -> real)
    : (r: Result<(State, Affine), string>)
    ensures r.Failure? <==> (s.leftGrip.Some? && s.rightGrip.Some? &&
      distance(Apply(Reanchor(s.leftGrip.value, 1.0, left.gripInStage), left.gripInStage),
               Apply(Reanchor(s.leftGrip.value, 1.0, left.gripInStage), right.gripInStage)) == 0.0)
    ensures r.Success? && !(s.leftGrip.Some? && s.rightGrip.Some?) ==> r.value.0 == s
    ensures r.Success? && s.leftGrip.None? && s.rightGrip.None? ==> r.value.1 == stage
  {
    match (s.leftGrip, s.rightGrip, s.scale)
    case (Some(l), None, None) => Success((s, Reanchor(l, 1.0, left.gripInStage)))
    case (Some(l), None, Some(k)) => Success((s, Reanchor(l, k, left.gripInStage)))
    case (None, Some(g), _) => Success((s, Reanchor(g, 1.0, right.gripInStage)))
    case (Some(l), Some(g), _) =>
      var unscaled := Reanchor(l, 1.0, left.gripInStage);
      var current := distance(Apply(unscaled, left.gripInStage), Apply(unscaled, right.gripInStage));
      if current == 0.0 then Failure(ZERO_GRIP_DISTANCE)
      else
        var k := distance(l.translation, g.translation) / current;
        Success((s.(scale := Some(k)), Reanchor(l, k, left.gripInStage)))
    case (None, None, _) => Success((s, stage))
  }

  /** `navigation_system_inner`: the new state and stage pose. A hand
      touching anything freezes navigation for the frame. */
  function NavigationSystem(anyCollision: bool, s: State, stage: Affine, left: HandInput, right: HandInput,
                            distance: (Vec3, Vec3) -> real): (r: Result<(State, Affine), string>)
    ensures anyCollision ==> r == Success((s, stage))
    ensures !anyCollision && !left.grip && !right.grip ==> r == Success((INITIAL, stage))
  {
    if anyCollision then Success((s, stage))
    else Adjust(UpdateGrips(s, stage, left, right), stage, left, right, distance)
  }

  /** With one hand gripping, the moved stage keeps that grip exactly
      where it was stored (through the scale remembered from a two-handed
      frame, when the left hand remains). */
  lemma GripStaysFixed(s: State, stage: Affine, left: HandInput, right: HandInput, distance: (Vec3, Vec3) -> real)
    requires NavigationSystem(false, s, stage, left, right, distance).Success?
    ensures var (s', stage') := NavigationSystem(false, s, stage, left, right, distance).value;
      (s'.leftGrip.Some? && s'.rightGrip.None? ==>
        Compose(stage', Translation(left.gripInStage)) ==
        Compose(s'.leftGrip.value, FromScale(if s'.scale.Some? then s'.scale.value else 1.0))) &&
      (s'.leftGrip.None? && s'.rightGrip.Some? ==>
        Compose(stage', Translation(right.gripInStage)) == s'.rightGrip.value)
  {
    var s' := UpdateGrips(s, stage, left, right);
    if s'.leftGrip.None? && s'.rightGrip.Some? {
      var g := s'.rightGrip.value;
      assert Compose(g, FromScale(1.0)) == g;
    } else if s'.leftGrip.Some? && s'.rightGrip.None? && s'.scale.None? {
      var l := s'.leftGrip.value;
      assert Compose(l, FromScale(1.0)) == l;
    }
  }

  /** Pressing the grip does not move the stage in that frame. */
  lemma GrabDoesNotJump(s: State, stage: Affine, left: HandInput, right: HandInput, distance: (Vec3, Vec3) -> real)
    requires left.grip && left.justPressed && !right.grip && s.scale.None?
    ensures NavigationSystem(false, s, stage, left, right, distance) ==
      Success((State(Some(Compose(stage, Translation(left.gripInStage))), None, None), stage))
  {
    var p := left.gripInStage;
    var l := Compose(stage, Translation(p));
    var t := Reanchor(l, 1.0, p);
    assert t.scale == stage.scale;
    assert t.translation == stage.translation;
  }

  /** Letting go with the left hand while the right keeps gripping
      re-anchors the right hand, so the stage does not jump either. */
  lemma SwitchingHandsDoesNotJump(s: State, stage: Affine, left: HandInput, right: HandInput, distance: (Vec3, Vec3) -> real)
    requires !left.grip && left.justReleased && right.grip
    ensures NavigationSystem(false, s, stage, left, right, distance) ==
      Success((State(None, Some(Compose(stage, Translation(right.gripInStage))), None), stage))
  {
    var p := right.gripInStage;
    var g := Compose(stage, Translation(p));
    var t := Reanchor(g, 1.0, p);
    assert t.scale == stage.scale;
    assert t.translation == stage.translation;
  }

  function Abs(x: real): real { if x < 0.0 then -x else x }

  /** What the Euclidean distance has that the scaling argument uses: it
      is never negative, and a pose multiplies it by its absolute scale. */
  ghost predicate Euclidean(distance: (Vec3, Vec3) -> real) {
    (forall a, b :: distance(a, b) >= 0.0) &&
    (forall t: Affine, a, b {:trigger distance(Apply(t, a), Apply(t, b))} :: distance(Apply(t, a), Apply(t, b)) == Abs(t.scale) * distance(a, b))
  }

  /** A pose scales the distance between two points by its absolute
      scale, also when it is a composition. */
  lemma SpanUnderPose(t: Affine, shift: Affine, p: Vec3, q: Vec3, distance: (Vec3, Vec3) -> real)
    requires Euclidean(distance)
    ensures distance(Apply(Compose(t, shift), p), Apply(Compose(t, shift), q)) ==
      Abs(t.scale) * distance(Apply(shift, p), Apply(shift, q))
  {
    ApplyCompose(t, shift, p);
    ApplyCompose(t, shift, q);
  }

  lemma RatioRestores(a: real, d: real, k: real, span: real)
    requires a * d != 0.0 && a >= 0.0 && d >= 0.0 && span >= 0.0 && k * (a * d) == span
    ensures k >= 0.0 && a * k * d == span
  {
  }

  /** Re-anchoring with scale `k` multiplies the span of two points by the
      stage's absolute scale times `k`. */
  lemma ReanchoredSpan(l: Affine, k: real, pl: Vec3, pr: Vec3, distance: (Vec3, Vec3) -> real)
    requires Euclidean(distance)
    ensures distance(Apply(Reanchor(l, k, pl), pl), Apply(Reanchor(l, k, pl), pr)) ==
      Abs(l.scale * k) * distance(pl, pr)
  {
    var stage := Reanchor(l, k, pl);
    assert stage.scale == l.scale * k;
    assert distance(Apply(stage, pl), Apply(stage, pr)) == Abs(stage.scale) * distance(pl, pr);
  }

  /** The arithmetic of the rescale: dividing the wanted span by the
      current one gives the factor that restores it. */
  lemma RescaleRestores(a: real, d: real, current: real, span: real)
    requires current == Abs(a * 1.0) * d && current != 0.0 && d >= 0.0 && span >= 0.0
    ensures Abs(a * (span / current)) * d == span
  {
    var k := span / current;
    assert a * 1.0 == a;
    assert k * (Abs(a) * d) == span;
    RatioRestores(Abs(a), d, k, span);
    assert Abs(a * k) == Abs(a) * k;
  }

  /** A scale `k = span / current` applied about the left grip turns a
      current span of `current` into `span`. */
  lemma ScaledSpan(l: Affine, pl: Vec3, pr: Vec3, span: real, distance: (Vec3, Vec3) -> real)
    requires Euclidean(distance) && span >= 0.0
    requires distance(Apply(Reanchor(l, 1.0, pl), pl), Apply(Reanchor(l, 1.0, pl), pr)) != 0.0
    ensures var current := distance(Apply(Reanchor(l, 1.0, pl), pl), Apply(Reanchor(l, 1.0, pl), pr));
      var stage := Reanchor(l, span / current, pl);
      distance(Apply(stage, pl), Apply(stage, pr)) == span
  {
    var d := distance(pl, pr);
    var current := distance(Apply(Reanchor(l, 1.0, pl), pl), Apply(Reanchor(l, 1.0, pl), pr));
    ReanchoredSpan(l, 1.0, pl, pr, distance);
    ReanchoredSpan(l, span / current, pl, pr, distance);
    RescaleRestores(l.scale, d, current, span);
  }

  /** With both hands gripping, the left hand stays where it was stored
      and the hands end up as far apart in the world as they were when
      their grips were stored: the scene is scaled by the ratio of the two
      spans, and that ratio is remembered. */
  lemma TwoHandsKeepTheirSpan(s: State, stage: Affine, left: HandInput, right: HandInput, distance: (Vec3, Vec3) -> real)
    requires Euclidean(distance)
    requires NavigationSystem(false, s, stage, left, right, distance).Success?
    ensures var (s', stage') := NavigationSystem(false, s, stage, left, right, distance).value;
      s'.leftGrip.Some? && s'.rightGrip.Some? ==>
        s'.scale.Some? &&
        Apply(stage', left.gripInStage) == s'.leftGrip.value.translation &&
        distance(Apply(stage', left.gripInStage), Apply(stage', right.gripInStage)) ==
        distance(s'.leftGrip.value.translation, s'.rightGrip.value.translation)
  {
    var u := UpdateGrips(s, stage, left, right);
    if u.leftGrip.Some? && u.rightGrip.Some? {
      var l, g := u.leftGrip.value, u.rightGrip.value;
      ScaledSpan(l, left.gripInStage, right.gripInStage, distance(l.translation, g.translation), distance);
    }
  }
}

=== FILE: openxr_arrays.dfy ===
/** Array outputs of the OpenXR entry points the simulator and the client
    runtime implement, and the fixed-size name strings they fill in.

    Section 2.11 ("Buffer Size Parameters") of the OpenXR 1.0 specification
    describes the two-call idiom: called with capacity 0, a function reports
    the number of elements it would write; called with a sufficient capacity,
    it writes the elements and reports how many it wrote; with an
    insufficient non-zero capacity it fails with `XR_ERROR_SIZE_INSUFFICIENT`
    and reports the required count. The runtimes here follow the first half
    but leave the count untouched on the second call and never check the
    capacity. */
module OpenXrArrays {
  import opened Bytes
  import opened Wrappers

  // Panic and error messages, as the source words them.
  const COPY_PAST_END := "copy past the end of the caller's array"

  /** The caller-visible outputs: `*count_output` and the caller's array
      (whose length is the capacity it passed). */
  datatype Outputs<T> = Outputs(count: nat, buffer: seq<T>)

  datatype XrCode = XrSuccess | ErrorSizeInsufficient | ErrorFeatureUnsupported

  /** `set_array` (the client) and the simulator's enumerate functions as
      written: capacity 0 writes the count; otherwise all items are copied to
      the front of the caller's array and the count is left as it was.
      Copying past the end of a shorter array is undefined behaviour, a
      `Failure` here. */
  function SetArray<T>(capacity: nat, data: seq<T>, out: Outputs<T>): (r: Result<Outputs<T>, string>)
    requires IsU32(capacity) && |out.buffer| == capacity
    ensures capacity == 0 ==> r == Success(Outputs(|data|, out.buffer))
    ensures capacity > 0 ==> (r.Success? <==> |data| <= capacity)
    ensures capacity > 0 && r.Success? ==>
      && r.value.count == out.count
      && |r.value.buffer| == capacity
      && r.value.buffer[..|data|] == data
      && r.value.buffer[|data|..] == out.buffer[|data|..]
  {
    if capacity == 0 then Success(Outputs(|data|, out.buffer))
    else if |data| > capacity then Failure(COPY_PAST_END)
    else Success(Outputs(out.count, data + out.buffer[|data|..]))
  }

  /** The two-call idiom as section 2.11 of the OpenXR 1.0 specification
      states it. */
  function TwoCall<T>(capacity: nat, data: seq<T>, out: Outputs<T>): (r: (XrCode, Outputs<T>))
    requires IsU32(capacity) && |out.buffer| == capacity
    ensures r.1.count == |data| && |r.1.buffer| == capacity
    ensures r.0 == XrSuccess <==> capacity == 0 || |data| <= capacity
    ensures r.0 == XrSuccess && capacity > 0 ==> r.1.buffer[..|data|] == data
    ensures r.0 == ErrorSizeInsufficient || capacity == 0 ==> r.1.buffer == out.buffer
  {
    if capacity == 0 then (XrSuccess, Outputs(|data|, out.buffer))
    else if |data| > capacity then (ErrorSizeInsufficient, Outputs(|data|, out.buffer))
    else (XrSuccess, Outputs(|data|, data + out.buffer[|data|..]))
  }

  /** The first call agrees with the specification, and on the second call
      the array contents agree too. */
  lemma SetArrayAgreesOnContents<T>(capacity: nat, data: seq<T>, out: Outputs<T>)
    requires IsU32(capacity) && |out.buffer| == capacity
    ensures capacity == 0 ==> SetArray(capacity, data, out).value == TwoCall(capacity, data, out).1
    ensures 0 < capacity && |data| <= capacity ==> SetArray(capacity, data, out).value.buffer == TwoCall(capacity, data, out).1.buffer
  {
  }

  /** On a successful second call the count the caller reads back is
      whatever it held before, not the number of elements written. */
  lemma SetArrayLeavesStaleCount()
    ensures var out := Outputs(0, [0, 0]);
      SetArray(2, [7, 9], out) == Success(Outputs(0, [7, 9]))
      && TwoCall(2, [7, 9], out) == (XrSuccess, Outputs(2, [7, 9]))
  {
    var out := Outputs(0, [0, 0]);
    assert [7, 9] + out.buffer[2..] == [7, 9];
  }

  /** `enumerate_reference_spaces`, in both runtimes: the count is always 1,
      and `STAGE` is written when the caller passed room for it. */
  datatype ReferenceSpaceType = View | Local | Stage

  function EnumerateReferenceSpaces(capacity: nat, out: Outputs<ReferenceSpaceType>): (r: Outputs<ReferenceSpaceType>)
    requires IsU32(capacity) && |out.buffer| == capacity
    ensures r.count == 1 && |r.buffer| == capacity
    ensures capacity > 0 ==> r.buffer[0] == Stage && r.buffer[1..] == out.buffer[1..]
    ensures capacity == 0 ==> r.buffer == out.buffer
  {
    if capacity == 0 then Outputs(1, out.buffer) else Outputs(1, [Stage] + out.buffer[1..])
  }

  /** The outputs are those the two-call idiom prescribes for the one-element
      list `[STAGE]`. */
  lemma ReferenceSpacesFollowTwoCall(capacity: nat, out: Outputs<ReferenceSpaceType>)
    requires IsU32(capacity) && |out.buffer| == capacity
    ensures TwoCall(capacity, [Stage], out) == (XrSuccess, EnumerateReferenceSpaces(capacity, out))
  {
  }

  /** The client runtime's version reports `XR_ERROR_FEATURE_UNSUPPORTED`
      on both calls, although it fills in the same outputs; the simulator's
      reports `XR_SUCCESS`. */
  function ClientEnumerateReferenceSpaces(capacity: nat, out: Outputs<ReferenceSpaceType>): (r: (XrCode, Outputs<ReferenceSpaceType>))
    requires IsU32(capacity) && |out.buffer| == capacity
    ensures r.0 == ErrorFeatureUnsupported && r.1.count == 1 && |r.1.buffer| == capacity
    ensures capacity > 0 ==> r.1.buffer[0] == Stage
  {
    (ErrorFeatureUnsupported, EnumerateReferenceSpaces(capacity, out))
  }

  /** The size of the fixed name arrays (`XR_MAX_EXTENSION_NAME_SIZE`). */
  const NAME_SIZE: nat := 128

  /** `b as i8`. */
  function AsI8(b: u8): (c: int)
    ensures -128 <= c < 128
    ensures c % 256 == b as int % 256
  {
    if b < 128 then b as int else b as int - 256
  }

  /** `str_to_fixed_bytes`: the string's first 128 bytes, each reinterpreted
      as `i8`, then zeros. */
  function StrToFixedBytes(s: seq<u8>): (name: seq<int>)
    ensures |name| == NAME_SIZE
    ensures forall i :: 0 <= i < NAME_SIZE && i < |s| ==> name[i] == AsI8(s[i])
    ensures forall i :: |s| <= i < NAME_SIZE ==> name[i] == 0
  {
    seq(NAME_SIZE, i requires 0 <= i < NAME_SIZE => if i < |s| then AsI8(s[i]) else 0)
  }

  /** The C string a fixed array holds: everything before the first zero. */
  function CString(name: seq<int>): (s: seq<int>)
    ensures |s| <= |name| && s == name[..|s|]
    ensures forall i :: 0 <= i < |s| ==> s[i] != 0
  {
    if |name| == 0 || name[0] == 0 then [] else [name[0]] + CString(name[1..])
  }

  /** A name shorter than the array, with no zero byte, is read back intact
      (as `i8`s) by a C reader. */
  lemma {:induction false} FixedBytesRoundTrip(s: seq<u8>)
    requires |s| < NAME_SIZE && forall i :: 0 <= i < |s| ==> s[i] != 0
    ensures var name := StrToFixedBytes(s);
      |CString(name)| == |s| && forall i :: 0 <= i < |s| ==> CString(name)[i] == AsI8(s[i])
  {
    var name := StrToFixedBytes(s);
    CStringStopsAtZero(name, |s|);
  }

  lemma {:induction false} CStringStopsAtZero(name: seq<int>, n: nat)
    requires n < |name| && name[n] == 0 && forall i :: 0 <= i < n ==> name[i] != 0
    ensures CString(name) == name[..n]
  {
    if n > 0 {
      CStringStopsAtZero(name[1..], n - 1);
      assert [name[0]] + name[1..][..n - 1] == name[..n];
    }
  }

  /** A name of 128 or more bytes, none zero, fills the array with no
      terminator. */
  lemma LongNamesUnterminated(s: seq<u8>)
    requires |s| >= NAME_SIZE && forall i :: 0 <= i < |s| ==> s[i] != 0
    ensures forall i :: 0 <= i < NAME_SIZE ==> StrToFixedBytes(s)[i] != 0
  {
  }
}

=== FILE: openxr_client.dfy ===
/** Reference-space creation in the OpenXR client runtime, which forwards a
    headset's tracking to the editor: the single stage space the engine
    asks for is given the fixed handle 0; any other space gets a handle the
    runtime draws at random. */
module OpenXrClient {

  datatype Vector3 = Vector3(x: real, y: real, z: real)
  datatype Quaternion = Quaternion(x: real, y: real, z: real, w: real)
  datatype Pose = Pose(orientation: Quaternion, position: Vector3)

  datatype ReferenceSpaceType = ViewSpace | LocalSpace | StageSpace

  /** What the runtime records about a space. */
  datatype SpaceState = SpaceState(name: string, position: Vector3, orientation: Quaternion)

  const IDENTITY: Quaternion := Quaternion(0.0, 0.0, 0.0, 1.0)
  const ORIGIN: Vector3 := Vector3(0.0, 0.0, 0.0)

  /** `SpaceState::new`: a named space at the origin with no rotation. */
  function NewSpaceState(name: string): (s: SpaceState)
    ensures s.name == name && s.position == ORIGIN && s.orientation == IDENTITY
  {
    SpaceState(name, ORIGIN, IDENTITY)
  }

  /** The handle the runtime reserves for the stage space. */
  const STAGE_HANDLE: nat := 0

  /** The runtime's table of spaces, keyed by raw handle. */
  type Spaces = map<nat, SpaceState>

  /** `create_reference_space`: `random` is the value `rand::random()` would
      return. A stage space whose pose is rotated (`w != 1`) is named "Stage"
      and given handle 0; every other request is named "View" under the random
      handle. The requested pose is stored, replacing any space already
      registered under the handle. */
  function CreateReferenceSpace(spaces: Spaces, kind: ReferenceSpaceType, pose: Pose, random: nat): (r: (nat, Spaces))
    ensures var (handle, after) := r;
      && handle in after
      && after[handle].position == pose.position
      && after[handle].orientation == pose.orientation
      && (after[handle].name == "Stage" <==> kind == StageSpace && pose.orientation.w != 1.0)
      && (kind == StageSpace && pose.orientation.w != 1.0 ==> handle == STAGE_HANDLE)
      && (kind != StageSpace || pose.orientation.w == 1.0 ==> handle == random && after[handle].name == "View")
      && after.Keys == spaces.Keys + {handle}
      && forall h :: h in spaces && h != handle ==> after[h] == spaces[h]
  {
    var (handle, created) :=
      if kind == StageSpace && pose.orientation.w != 1.0 then (STAGE_HANDLE, NewSpaceState("Stage"))
      else (random, NewSpaceState("View"));
    var placed := created.(position := pose.position, orientation := pose.orientation);
    (handle, spaces[handle := placed])
  }

  /** Creating the stage space twice leaves one stage entry, holding the
      second pose. */
  lemma StageIsASingleton(spaces: Spaces, first: Pose, second: Pose, r1: nat, r2: nat)
    requires first.orientation.w != 1.0 && second.orientation.w != 1.0
    ensures var (h1, s1) := CreateReferenceSpace(spaces, StageSpace, first, r1);
      var (h2, s2) := CreateReferenceSpace(s1, StageSpace, second, r2);
      && h1 == h2 == STAGE_HANDLE
      && s2.Keys == spaces.Keys + {STAGE_HANDLE}
      && s2[STAGE_HANDLE] == SpaceState("Stage", second.position, second.orientation)
  {
  }
}

=== FILE: primitive_map.dfy ===
/** The primitive maps the custom renderers' `begin` builds: every visible
    entity contributes one instance per primitive of its mesh, grouped under
    the primitive's key (`entry(key).or_insert(..).instances.push(..)`), and
    the maps are then flattened, primitive by primitive, into the cull list
    the GPU culling pass reads. `HashMap::values` visits the keys in an
    unspecified order, so the order is a parameter. */
module PrimitiveMap {
  import opened InstanceBatching

  /** One (primitive, instance) pair met while walking the world: the key,
      the primitive's material, and the instance. */
  datatype Pending<X> = Pending(key: int, materialId: int, instance: X)

  /** `entry(key).or_insert(primitive).instances.push(instance)`: the first
      pair of a key fixes the entry's material. */
  function Insert<X>(m: map<int, Instanced<X>>, p: Pending<X>): (r: map<int, Instanced<X>>)
    ensures r.Keys == m.Keys + {p.key}
    ensures forall k :: k in m && k != p.key ==> r[k] == m[k]
    ensures r[p.key].materialId == (if p.key in m then m[p.key].materialId else p.materialId)
    ensures r[p.key].instances == (if p.key in m then m[p.key].instances else []) + [p.instance]
  {
    var e := if p.key in m then m[p.key] else Instanced(p.materialId, []);
    m[p.key := e.(instances := e.instances + [p.instance])]
  }

  function Collect<X>(m: map<int, Instanced<X>>, pending: seq<Pending<X>>): map<int, Instanced<X>> {
    if |pending| == 0 then m
    else Insert(Collect(m, pending[..|pending| - 1]), pending[|pending| - 1])
  }

  /** The instances of key `k` among the pairs, in order (a reference
      definition of what a key's entry collects). */
  function InstancesOf<X>(pending: seq<Pending<X>>, k: int): seq<X> {
    if |pending| == 0 then []
    else InstancesOf(pending[..|pending| - 1], k)
         + (if pending[|pending| - 1].key == k then [pending[|pending| - 1].instance] else [])
  }

  /** Collecting pairs into an empty map gives one entry per key met, whose
      instances are that key's instances in the order they were met. */
  lemma {:induction false} CollectGroups<X>(pending: seq<Pending<X>>, k: int)
    ensures k in Collect(map[], pending) <==> exists i :: 0 <= i < |pending| && pending[i].key == k
    ensures k in Collect(map[], pending) ==> Collect(map[], pending)[k].instances == InstancesOf(pending, k)
    ensures k !in Collect(map[], pending) ==> InstancesOf(pending, k) == []
  {
    if |pending| > 0 {
      var init := pending[..|pending| - 1];
      CollectGroups(init, k);
      assert Collect(map[], pending) == Insert(Collect(map[], init), pending[|pending| - 1]);
      if exists i :: 0 <= i < |init| && init[i].key == k {
        var i :| 0 <= i < |init| && init[i].key == k;
        assert pending[i].key == k;
      }
      if exists i :: 0 <= i < |pending| && pending[i].key == k {
        var i :| 0 <= i < |pending| && pending[i].key == k;
        if i < |init| {
          assert init[i].key == k;
        }
      }
    }
  }

  /** The cull entries of one primitive: one per instance, numbered from 0,
      with `visible` still false. */
  function Entries(key: int, s: Shader, count: nat): (r: seq<CullResult>)
    ensures |r| == count
    ensures forall i :: 0 <= i < count ==> r[i] == CullResult(key, s, i, false)
  {
    if count == 0 then [] else Entries(key, s, count - 1) + [CullResult(key, s, count - 1, false)]
  }

  /** The cull list of one map, visited in `order`. */
  function Flatten<X>(m: map<int, Instanced<X>>, order: seq<int>, s: Shader): seq<CullResult>
    requires forall j :: 0 <= j < |order| ==> order[j] in m
  {
    if |order| == 0 then []
    else Flatten(m, order[..|order| - 1], s) + Entries(order[|order| - 1], s, |m[order[|order| - 1]].instances|)
  }

  /** Every entry of a flattened map has the map's shader, a key visited by
      `order`, and an instance index inside its primitive's instance list. */
  lemma {:induction false} FlattenResolves<X>(m: map<int, Instanced<X>>, order: seq<int>, s: Shader)
    requires forall j :: 0 <= j < |order| ==> order[j] in m
    ensures forall i :: 0 <= i < |Flatten(m, order, s)| ==>
      var c := Flatten(m, order, s)[i];
      c.shader == s && !c.visible && c.id in order && Resolves(c.(visible := true), m)
  {
    if |order| > 0 {
      var init := order[..|order| - 1];
      FlattenResolves(m, init, s);
      var f := Flatten(m, order, s);
      var head := Flatten(m, init, s);
      forall i | 0 <= i < |f|
        ensures f[i].shader == s && !f[i].visible && f[i].id in order && Resolves(f[i].(visible := true), m)
      {
        if i < |head| {
          assert f[i] == head[i];
          assert f[i].id in init;
        } else {
          assert f[i] == CullResult(order[|order| - 1], s, i - |head|, false);
        }
      }
    }
  }

  /** Every instance of every visited primitive gets a cull entry. */
  lemma {:induction false} FlattenCovers<X>(m: map<int, Instanced<X>>, order: seq<int>, s: Shader, j: nat, i: nat)
    requires forall j :: 0 <= j < |order| ==> order[j] in m
    requires j < |order| && i < |m[order[j]].instances|
    ensures CullResult(order[j], s, i, false) in Flatten(m, order, s)
  {
    var last := |order| - 1;
    var e := Entries(order[last], s, |m[order[last]].instances|);
    if j == last {
      assert e[i] == CullResult(order[j], s, i, false);
    } else {
      FlattenCovers(m, order[..last], s, j, i);
    }
  }

  /** The GPU culling pass: it sets each entry's visibility and changes
      nothing else. */
  function Cull(results: seq<CullResult>, flags: seq<bool>): (r: seq<CullResult>)
    requires |flags| == |results|
    ensures |r| == |results|
    ensures forall i :: 0 <= i < |r| ==> r[i] == results[i].(visible := flags[i])
  {
    seq(|results|, i requires 0 <= i < |results| => results[i].(visible := flags[i]))
  }

  /** `order` lists each key of `keys` exactly once (what `HashMap::values`
      visits). */
  predicate Enumerates(order: seq<int>, keys: set<int>) {
    && (forall j :: 0 <= j < |order| ==> order[j] in keys)
    && (forall k :: k in keys ==> k in order)
    && (forall i, j :: 0 <= i < j < |order| ==> order[i] != order[j])
  }

  /** The cull list `begin` writes: every triangle primitive's entries, then
      every quadric primitive's entries. */
  function CullList<T, Q>(tri: map<int, Instanced<T>>, quad: map<int, Instanced<Q>>, triOrder: seq<int>, quadOrder: seq<int>): seq<CullResult>
    requires Enumerates(triOrder, tri.Keys) && Enumerates(quadOrder, quad.Keys)
  {
    Flatten(tri, triOrder, Triangle) + Flatten(quad, quadOrder, Quadric)
  }

  /** The cull list is grouped by shader with triangles first, lists every
      instance of every primitive once per instance index, and whatever
      visibility the GPU then decides, every visible entry resolves. */
  lemma CullListPrepared<T, Q>(tri: map<int, Instanced<T>>, quad: map<int, Instanced<Q>>, triOrder: seq<int>, quadOrder: seq<int>, flags: seq<bool>)
    requires Enumerates(triOrder, tri.Keys) && Enumerates(quadOrder, quad.Keys)
    requires |flags| == |CullList(tri, quad, triOrder, quadOrder)|
    ensures ShaderSorted(CullList(tri, quad, triOrder, quadOrder))
    ensures AllResolve(Cull(CullList(tri, quad, triOrder, quadOrder), flags), tri, quad)
    ensures forall k, i :: k in tri && 0 <= i < |tri[k].instances| ==>
      CullResult(k, Triangle, i, false) in CullList(tri, quad, triOrder, quadOrder)
    ensures forall k, i :: k in quad && 0 <= i < |quad[k].instances| ==>
      CullResult(k, Quadric, i, false) in CullList(tri, quad, triOrder, quadOrder)
  {
    var ft := Flatten(tri, triOrder, Triangle);
    var fq := Flatten(quad, quadOrder, Quadric);
    var all := ft + fq;
    FlattenResolves(tri, triOrder, Triangle);
    FlattenResolves(quad, quadOrder, Quadric);
    assert forall i :: 0 <= i < |all| ==> all[i].shader == (if i < |ft| then Triangle else Quadric) by {
      forall i | 0 <= i < |all|
        ensures all[i].shader == (if i < |ft| then Triangle else Quadric)
      {
        if i < |ft| { assert all[i] == ft[i]; } else { assert all[i] == fq[i - |ft|]; }
      }
    }
    var culled := Cull(all, flags);
    forall i | 0 <= i < |culled|
      ensures ResolvesFor(culled[i], tri, quad)
    {
      if i < |ft| {
        assert all[i] == ft[i];
      } else {
        assert all[i] == fq[i - |ft|];
      }
    }
    forall k, i | k in tri && 0 <= i < |tri[k].instances|
      ensures CullResult(k, Triangle, i, false) in all
    {
      var j :| 0 <= j < |triOrder| && triOrder[j] == k;
      FlattenCovers(tri, triOrder, Triangle, j, i);
    }
    forall k, i | k in quad && 0 <= i < |quad[k].instances|
      ensures CullResult(k, Quadric, i, false) in all
    {
      var j :| 0 <= j < |quadOrder| && quadOrder[j] == k;
      FlattenCovers(quad, quadOrder, Quadric, j, i);
    }
  }
}

=== FILE: render_context.dfy ===
/** The integer bookkeeping of `RenderContext`: the ring of frames in flight,
    the command buffer of the current frame, the size of the culling
    dispatch, and the multiview mask of the render pass. */
module RenderContext {
  import opened Bytes

  const PIPELINE_DEPTH: nat := 2
  /** Both eyes are rendered in one multiview pass. */
  const VIEW_COUNT: nat := 2
  /** Local work-group size of the culling compute shader. */
  const CULL_GROUP_SIZE: nat := 1024

  /** A frame in flight: the creation index it was built with and its
      command buffer handle. */
  datatype Frame = Frame(index: nat, commandBuffer: int)

  datatype Context = Context(frames: seq<Frame>, frameIndex: nat) {
    predicate Valid() {
      |frames| == PIPELINE_DEPTH && frameIndex < PIPELINE_DEPTH
    }
  }

  /** `new_from_swapchain_info`: `PIPELINE_DEPTH` frames, the k-th built
      with index k, and frame 0 current. `buffers` are the command buffers
      the device hands out. */
  function New(buffers: seq<int>): (c: Context)
    requires |buffers| == PIPELINE_DEPTH
    ensures c.Valid() && c.frameIndex == 0
    ensures forall k :: 0 <= k < PIPELINE_DEPTH ==> c.frames[k].index == k && c.frames[k].commandBuffer == buffers[k]
  {
    Context(seq(PIPELINE_DEPTH, k requires 0 <= k < PIPELINE_DEPTH => Frame(k, buffers[k])), 0)
  }

  /** `cmd`: the command buffer of the current frame. The index is always in
      bounds for a context built by `New` and advanced by `EndFrame`. */
  function Cmd(c: Context): int
    requires c.Valid()
  {
    c.frames[c.frameIndex].commandBuffer
  }

  /** The last step of `end_frame`: move to the next frame of the ring. */
  function EndFrame(c: Context): (r: Context)
    requires c.Valid()
    ensures r.Valid() && r.frames == c.frames
    ensures r.frameIndex != c.frameIndex
    ensures r.frameIndex == (if c.frameIndex + 1 == PIPELINE_DEPTH then 0 else c.frameIndex + 1)
  {
    c.(frameIndex := (c.frameIndex + 1) % PIPELINE_DEPTH)
  }

  function EndFrames(c: Context, n: nat): (r: Context)
    requires c.Valid()
    ensures r.Valid() && r.frames == c.frames
  {
    if n == 0 then c else EndFrame(EndFrames(c, n - 1))
  }

  /** After `n` frames the ring has advanced `n` slots; every
      `PIPELINE_DEPTH` frames it is back where it started. */
  lemma {:induction false} EndFramesIndex(c: Context, n: nat)
    requires c.Valid()
    ensures EndFrames(c, n).frameIndex == (c.frameIndex + n) % PIPELINE_DEPTH
  {
    if n > 0 {
      EndFramesIndex(c, n - 1);
    }
  }

  /** Frame after frame, `cmd` hands out the command buffers in creation
      order, round and round. */
  lemma CmdCycles(buffers: seq<int>, n: nat)
    requires |buffers| == PIPELINE_DEPTH
    ensures Cmd(EndFrames(New(buffers), n)) == buffers[n % PIPELINE_DEPTH]
  {
    var c0 := New(buffers);
    EndFramesIndex(c0, n);
    var c := EndFrames(c0, n);
    var k := n % PIPELINE_DEPTH;
    assert c.frameIndex == k && c.frames == c0.frames;
    assert c0.frames[k].commandBuffer == buffers[k];
  }

  /** The culling dispatch for a cull list of `len` entries: `draw_calls`
      is the length cast to u32, `group_count_x` is `len / 1024 + 1` as a
      usize, and `cmd_dispatch` receives `group_count_x as u32`. Both casts
      keep the low 32 bits. */
  datatype Dispatch = Dispatch(drawCalls: int, groupCountX: int, dispatchedX: int)

  function CullDispatch(len: nat): (d: Dispatch)
    requires IsU64(len)
    ensures IsU32(d.drawCalls) && (len < U32_LIMIT ==> d.drawCalls == len)
    ensures d.groupCountX * CULL_GROUP_SIZE > len
    ensures (d.groupCountX - 1) * CULL_GROUP_SIZE <= len
    ensures IsU32(d.dispatchedX) && d.dispatchedX % U32_LIMIT == d.groupCountX % U32_LIMIT
    ensures len < U32_LIMIT ==> d.dispatchedX == d.groupCountX && d.dispatchedX * CULL_GROUP_SIZE > len
  {
    var groups := len / CULL_GROUP_SIZE + 1;
    Dispatch(len % U32_LIMIT, groups, groups % U32_LIMIT)
  }

  /** `!(!0 << n)` on a u32: the mask of the low `n` bits. */
  function LowMask(n: nat): (m: bv32)
    requires n < 32
    ensures forall i :: 0 <= i < 32 ==> (BitSet(m, i) <==> i < n)
  {
    !((!(0 as bv32)) << n)
  }

  /** The multiview view mask and correlation mask: one bit per eye. */
  function ViewMask(): (m: bv32)
    ensures forall i :: 0 <= i < 32 ==> (BitSet(m, i) <==> i < VIEW_COUNT)
  {
    LowMask(VIEW_COUNT)
  }
}

=== FILE: resources.dfy ===
/** `Resources`: the renderer's host-side tables. Texture handles are
    allocated from two monotonic counters; the materials buffer reserves
    slot 0 for the default material; a skin occupies one slot of
    `MAX_JOINTS` joint matrices. */
module Resources {
  import opened Bytes
  import opened Wrappers
  import G = GpuBuffer
  import M = Material
  import Texture

  // Panic and error messages, as the source words them.
  const ADD_OVERFLOW := "attempt to add with overflow"

  const VERTEX_BUFFER_SIZE: nat := 2000000
  const SKINS_BUFFER_SIZE: nat := 4
  const MATERIALS_BUFFER_SIZE: nat := 10000
  const MAX_JOINTS: nat := 64

  /** A column-major 4x4 matrix. */
  type Mat4 = m: seq<real> | |m| == 16 witness IDENTITY_WITNESS

  const IDENTITY_WITNESS: seq<real> := seq(16, i => if i % 5 == 0 then 1.0 else 0.0)
  const IDENTITY: Mat4 := IDENTITY_WITNESS

  /** One skin slot, `[Mat4; MAX_JOINTS]`. */
  type SkinSlot = s: seq<Mat4> | |s| == MAX_JOINTS witness seq(MAX_JOINTS, _ => IDENTITY)

  datatype Resources = Resources(
    materials: G.Buffer<M.Material>,
    skins: G.Buffer<SkinSlot>,
    textureCount: int,
    cubeTextureCount: int)
  {
    predicate Valid() {
      materials.Valid() && skins.Valid()
      && materials.MaxLen() == MATERIALS_BUFFER_SIZE && skins.MaxLen() == SKINS_BUFFER_SIZE
      && IsU32(textureCount) && IsU32(cubeTextureCount)
    }
  }

  /** `Resources::new`. The memory behind the two buffers starts with
      unspecified contents. The default material is pushed so that it sits at
      `NO_MATERIAL`; texture slot 0 already holds the BRDF lookup table and
      cube slots 0 and 1 the image-based-lighting maps. */
  function New(materialMemory: seq<M.Material>, skinMemory: seq<SkinSlot>): (r: Resources)
    requires |materialMemory| == MATERIALS_BUFFER_SIZE && |skinMemory| == SKINS_BUFFER_SIZE
    ensures r.Valid()
    ensures G.AsSlice(r.materials) == [M.GltfDefault()]
    ensures G.AsSlice(r.materials)[M.NO_MATERIAL] == M.GltfDefault()
    ensures G.AsSlice(r.skins) == []
    ensures r.textureCount == 1 && r.cubeTextureCount == 2
  {
    var materials := G.Push(G.New(materialMemory), M.GltfDefault()).buffer;
    Resources(materials, G.New(skinMemory), 1, 2)
  }

  /** `write_texture_to_array`: returns the current count as the new
      texture's index and increments the count. The increment is read with
      debug-build overflow checks: at `u32::MAX` it panics, which is
      `Failure` here (a release build would wrap the count to 0). */
  function WriteTextureToArray(r: Resources): (res: Result<(Resources, int), string>)
    requires r.Valid()
    ensures res.Success? <==> r.textureCount < U32_MAX
    ensures res.Success? ==> var (r', index) := res.value;
      r'.Valid() && index == r.textureCount && r'.textureCount == index + 1
      && r' == r.(textureCount := r'.textureCount)
  {
    if r.textureCount == U32_MAX then Failure(ADD_OVERFLOW)
    else Success((r.(textureCount := r.textureCount + 1), r.textureCount))
  }

  /** `write_cube_texture_to_array`: the same allocation on the cube counter. */
  function WriteCubeTextureToArray(r: Resources): (res: Result<(Resources, int), string>)
    requires r.Valid()
    ensures res.Success? <==> r.cubeTextureCount < U32_MAX
    ensures res.Success? ==> var (r', index) := res.value;
      r'.Valid() && index == r.cubeTextureCount && r'.cubeTextureCount == index + 1
      && r' == r.(cubeTextureCount := r'.cubeTextureCount)
  {
    if r.cubeTextureCount == U32_MAX then Failure(ADD_OVERFLOW)
    else Success((r.(cubeTextureCount := r.cubeTextureCount + 1), r.cubeTextureCount))
  }

  /** Registers `n` textures in turn and collects their handles. */
  function WriteTextures(r: Resources, n: nat): (res: Result<(Resources, seq<int>), string>)
    requires r.Valid()
    ensures res.Success? ==> res.value.0.Valid() && |res.value.1| == n
    decreases n
  {
    if n == 0 then Success((r, []))
    else
      var (r1, index) :- WriteTextureToArray(r);
      var (r2, rest) :- WriteTextures(r1, n - 1);
      Success((r2, [index] + rest))
  }

  /** Successive registrations hand out consecutive, hence distinct and
      increasing, handles, none of which is the `NO_TEXTURE` sentinel. */
  lemma {:induction false} HandlesAreFresh(r: Resources, n: nat)
    requires r.Valid()
    ensures var res := WriteTextures(r, n);
      res.Success? ==>
        res.value.0.textureCount == r.textureCount + n
        && (forall i :: 0 <= i < n ==> res.value.1[i] == r.textureCount + i)
        && (forall i :: 0 <= i < n ==> res.value.1[i] != Texture.NO_TEXTURE)
    decreases n
  {
    if n > 0 {
      var first := WriteTextureToArray(r);
      if first.Success? {
        HandlesAreFresh(first.value.0, n - 1);
      }
    }
  }
}

=== FILE: simulator_inputs.dfy ===
/** The simulator's input bookkeeping: the set of keyboard keys held down,
    and the boolean OpenXR actions it feeds to the application through
    path bindings. */
module SimulatorInputs {
  import opened Wrappers
  import EditorInput

  // Panic and error messages, as the source words them.
  const NO_BINDING := "no binding for path"

  type Key = EditorInput.Key
  type KeyEvent = EditorInput.KeyEvent

  /** `Inputs::process_event`: a press adds the key, a release removes it,
      and an event without a key code changes nothing. */
  function ProcessEvent(pressed: set<Key>, e: KeyEvent): (r: set<Key>)
    ensures e.key.None? ==> r == pressed
    ensures e.key.Some? && e.state == EditorInput.Pressed ==> r == pressed + {e.key.value}
    ensures e.key.Some? && e.state == EditorInput.Released ==> r == pressed - {e.key.value}
  {
    match e.key
    case None => pressed
    case Some(k) => if e.state == EditorInput.Pressed then pressed + {k} else pressed - {k}
  }

  function ProcessEvents(pressed: set<Key>, events: seq<KeyEvent>): set<Key>
    decreases |events|
  {
    if |events| == 0 then pressed else ProcessEvents(ProcessEvent(pressed, events[0]), events[1..])
  }

  /** The last event about `k` in `events`, if there is one. */
  function LastAbout(k: Key, events: seq<KeyEvent>): (r: Option<EditorInput.ElementState>)
  {
    if |events| == 0 then None
    else
      var e := events[|events| - 1];
      if e.key == Some(k) then Some(e.state) else LastAbout(k, events[..|events| - 1])
  }

  lemma {:induction false} ProcessEventsSnoc(pressed: set<Key>, events: seq<KeyEvent>, e: KeyEvent)
    ensures ProcessEvents(pressed, events + [e]) == ProcessEvent(ProcessEvents(pressed, events), e)
    decreases |events|
  {
    if |events| > 0 {
      assert (events + [e])[1..] == events[1..] + [e];
      ProcessEventsSnoc(ProcessEvent(pressed, events[0]), events[1..], e);
    }
  }

  /** The set reflects the last event seen for each key: a key is held
      exactly when its last event was a press, or, with no event about it,
      when it was held before. */
  lemma {:induction false} PressedReflectsLastEvent(pressed: set<Key>, events: seq<KeyEvent>, k: Key)
    ensures k in ProcessEvents(pressed, events) <==>
      match LastAbout(k, events)
      case Some(state) => state == EditorInput.Pressed
      case None => k in pressed
    decreases |events|
  {
    if |events| > 0 {
      var init := events[..|events| - 1];
      var e := events[|events| - 1];
      assert events == init + [e];
      ProcessEventsSnoc(pressed, init, e);
      PressedReflectsLastEvent(pressed, init, k);
    }
  }

  /** Pressing a key that is already held changes nothing. */
  lemma PressIdempotent(pressed: set<Key>, k: Key)
    ensures var e := EditorInput.KeyEvent(EditorInput.Pressed, Some(k));
      ProcessEvent(ProcessEvent(pressed, e), e) == ProcessEvent(pressed, e)
  {
  }

  /** `ActionState`: boolean action values keyed by raw action handle, and
      the action each input path is bound to. */
  datatype ActionState = ActionState(booleanActions: map<nat, bool>, bindings: map<nat, nat>)

  /** `get_boolean`: an action never set reads false. */
  function GetBoolean(s: ActionState, action: nat): (b: bool)
    ensures action !in s.booleanActions ==> !b
    ensures action in s.booleanActions ==> b == s.booleanActions[action]
  {
    if action in s.booleanActions then s.booleanActions[action] else false
  }

  /** `add_binding`: the path now names the action, replacing any earlier
      binding. */
  function AddBinding(s: ActionState, path: nat, action: nat): (r: ActionState)
    ensures r.bindings.Keys == s.bindings.Keys + {path} && r.bindings[path] == action
    ensures forall p :: p in s.bindings && p != path ==> r.bindings[p] == s.bindings[p]
    ensures r.booleanActions == s.booleanActions
  {
    s.(bindings := s.bindings[path := action])
  }

  /** `clear`: every known action becomes false; none is added or removed. */
  function Clear(s: ActionState): (r: ActionState)
    ensures r.booleanActions.Keys == s.booleanActions.Keys && r.bindings == s.bindings
    ensures forall a :: !GetBoolean(r, a)
  {
    s.(booleanActions := map a | a in s.booleanActions :: false)
  }

  /** `set_boolean`: the value goes to the action the path is bound to; an
      unbound path panics on `unwrap`. */
  function SetBoolean(s: ActionState, path: nat, value: bool): (r: Result<ActionState, string>)
    ensures r.Success? <==> path in s.bindings
    ensures r.Success? ==> GetBoolean(r.value, s.bindings[path]) == value && r.value.bindings == s.bindings
    ensures r.Success? ==> forall a :: a != s.bindings[path] ==> GetBoolean(r.value, a) == GetBoolean(s, a)
  {
    if path !in s.bindings then Failure(NO_BINDING)
    else Success(s.(booleanActions := s.booleanActions[s.bindings[path] := value]))
  }

  /** Binding a path and then setting it through the path is read back from
      the action. */
  lemma BindThenSet(s: ActionState, path: nat, action: nat, value: bool)
    ensures var r := SetBoolean(AddBinding(s, path, action), path, value);
      r.Success? && GetBoolean(r.value, action) == value
  {
  }
}

=== FILE: simulator_session.dfy ===
/** The OpenXR session lifecycle as the desktop simulator runtime drives it:
    `poll_event` advances the session one state per call until it is
    focused, `wait_frame` tells the application whether to render, and an
    exit request queues one final `EXITING` event. */
module SimulatorSession {

  /** `XrSessionState`, section 9.3 of the OpenXR 1.0 specification. */
  datatype SessionState =
    | Unknown | Idle | Ready | Synchronized | Visible | Focused
    | Stopping | LossPending | Exiting

  /** The part of the simulator's shared state the lifecycle reads and
      writes. */
  datatype Sim = Sim(state: SessionState, hasEvent: bool)

  /** What `poll_event` hands back: `XR_SUCCESS` with an
      `XrEventDataSessionStateChanged` carrying the new state, or
      `XR_EVENT_UNAVAILABLE`. */
  datatype Event = StateChanged(next: SessionState) | EventUnavailable

  /** The simulator's state when it starts. */
  function Initial(): (s: Sim)
    ensures s.state == Unknown && !s.hasEvent
  {
    Sim(Unknown, false)
  }

  /** The states from which polling moves the session on by itself. */
  predicate Advancing(st: SessionState) {
    st == Unknown || st == Idle || st == Ready || st == Synchronized
  }

  /** One of `poll_event`'s guarded assignments: when the state read at the
      start of the call is `when`, the pending next state becomes `to` and an
      event is raised; otherwise the pending values carry through. */
  function Check(current: SessionState, when: SessionState, to: SessionState, pending: (SessionState, bool)): (SessionState, bool)
  {
    if current == when then (to, true) else pending
  }

  /** `poll_event`: five guards are tested in sequence, all against the state
      the call started in, so a single call moves at most one step and from
      `Synchronized` the later guard (to `Focused`) overrides the earlier one
      (to `Visible`). A raised or pending event is delivered and clears the
      flag; otherwise nothing changes. */
  function PollEvent(s: Sim): (r: (Event, Sim))
    ensures !r.1.hasEvent
    ensures r.0.StateChanged? <==> s.hasEvent || Advancing(s.state)
    ensures r.0.StateChanged? ==> r.0.next == r.1.state
    ensures r.0 == EventUnavailable ==> r.1 == s
    ensures !Advancing(s.state) ==> r.1.state == s.state
    ensures r.1.state != Visible || s.state == Visible
  {
    var p0 := (s.state, s.hasEvent);
    var p1 := Check(s.state, Unknown, Idle, p0);
    var p2 := Check(s.state, Idle, Ready, p1);
    var p3 := Check(s.state, Ready, Synchronized, p2);
    var p4 := Check(s.state, Synchronized, Visible, p3);
    var p5 := Check(s.state, Synchronized, Focused, p4);
    if p5.1 then (StateChanged(p5.0), Sim(p5.0, false)) else (EventUnavailable, s)
  }

  /** `wait_frame`'s `should_render`. */
  function ShouldRender(s: Sim): bool {
    s.state == Visible || s.state == Focused
  }

  /** `request_exit_session` and `end_session`: the session is marked as
      exiting and an event is queued. */
  function RequestExit(s: Sim): (r: Sim)
    ensures r.state == Exiting && r.hasEvent
  {
    Sim(Exiting, true)
  }

  /** A reference order on the lifecycle: the position of each state in the
      startup sequence of section 9.3 of the OpenXR 1.0 specification. */
  function Rank(st: SessionState): nat {
    match st
    case Unknown => 0
    case Idle => 1
    case Ready => 2
    case Synchronized => 3
    case Visible => 4
    case Focused => 5
    case Stopping => 6
    case LossPending => 7
    case Exiting => 8
  }

  /** Polling never moves the session backwards, and an advancing state
      always moves forwards. */
  lemma PollMovesForward(s: Sim)
    ensures Rank(PollEvent(s).1.state) >= Rank(s.state)
    ensures Advancing(s.state) ==> Rank(PollEvent(s).1.state) > Rank(s.state)
  {
  }

  /** `n` successive calls of `poll_event`: the events returned, in order,
      and the final state. */
  function Polls(s: Sim, n: nat): (r: (seq<Event>, Sim))
    ensures |r.0| == n
    decreases n
  {
    if n == 0 then ([], s)
    else
      var (e, s1) := PollEvent(s);
      var (rest, last) := Polls(s1, n - 1);
      ([e] + rest, last)
  }

  function Unavailable(n: nat): (es: seq<Event>)
    ensures |es| == n && forall i :: 0 <= i < n ==> es[i] == EventUnavailable
  {
    seq(n, _ => EventUnavailable)
  }

  /** Once settled with nothing queued, every further poll reports that no
      event is available and changes nothing. */
  lemma {:induction false} SettledPolls(s: Sim, n: nat)
    requires !Advancing(s.state) && !s.hasEvent
    ensures Polls(s, n) == (Unavailable(n), s)
    decreases n
  {
    if n > 0 {
      SettledPolls(s, n - 1);
      assert [EventUnavailable] + Unavailable(n - 1) == Unavailable(n);
    }
  }

  /** From start-up the application sees IDLE, READY, SYNCHRONIZED and
      FOCUSED, one per poll, and then nothing more; VISIBLE is never
      reported. */
  lemma StartupSequence(k: nat)
    ensures Polls(Initial(), 4 + k) ==
      ([StateChanged(Idle), StateChanged(Ready), StateChanged(Synchronized), StateChanged(Focused)] + Unavailable(k),
       Sim(Focused, false))
  {
    var focused := Sim(Focused, false);
    var tail := Unavailable(k);
    SettledPolls(focused, k);
    assert Polls(Sim(Synchronized, false), 1 + k) == ([StateChanged(Focused)] + tail, focused);
    assert [StateChanged(Synchronized)] + ([StateChanged(Focused)] + tail)
      == [StateChanged(Synchronized), StateChanged(Focused)] + tail;
    assert Polls(Sim(Ready, false), 2 + k) == ([StateChanged(Synchronized), StateChanged(Focused)] + tail, focused);
    assert [StateChanged(Ready)] + ([StateChanged(Synchronized), StateChanged(Focused)] + tail)
      == [StateChanged(Ready), StateChanged(Synchronized), StateChanged(Focused)] + tail;
    assert Polls(Sim(Idle, false), 3 + k) == ([StateChanged(Ready), StateChanged(Synchronized), StateChanged(Focused)] + tail, focused);
    assert [StateChanged(Idle)] + ([StateChanged(Ready), StateChanged(Synchronized), StateChanged(Focused)] + tail)
      == [StateChanged(Idle), StateChanged(Ready), StateChanged(Synchronized), StateChanged(Focused)] + tail;
  }

  /** The application is told to render only after the fourth poll. */
  lemma RendersAfterStartup(n: nat)
    ensures ShouldRender(Polls(Initial(), n).1) <==> n >= 4
  {
    if n >= 4 {
      StartupSequence(n - 4);
    } else {
      assert n == 0 || n == 1 || n == 2 || n == 3;
    }
  }

  /** An exit request is reported exactly once, whatever state the session
      was in, and the session then stays exiting. */
  lemma {:induction false} ExitDeliveredOnce(s: Sim, k: nat)
    ensures Polls(RequestExit(s), 1 + k) == ([StateChanged(Exiting)] + Unavailable(k), Sim(Exiting, false))
  {
    SettledPolls(Sim(Exiting, false), k);
  }
}

=== FILE: sound.dfy ===
/** Sound emitters and the audio system that carries out their intents.
    An emitter owns its sound data, an optional handle into the audio
    mixer, and an optional intent (`next_state`) set by the game. Each
    frame the audio system compares the handle's state with the intent,
    issues at most one mixer command, clears the intent and moves the
    sound to where its entity is, relative to the listener. The mixer
    itself (oddio) is not part of this model: a handle is represented by
    the play/pause/stop state of its stop control and its last motion. */
module Sound {
  import opened Wrappers

  datatype SoundState = Stopped | Playing | Paused

  datatype Vec3 = Vec3(x: real, y: real, z: real)

  function Sub(a: Vec3, b: Vec3): Vec3 {
    Vec3(a.x - b.x, a.y - b.y, a.z - b.z)
  }

  /** A mixer handle: the state of its stop control and the motion last
      given to it, relative to the listener. */
  datatype Handle = Handle(control: SoundState, position: Vec3, velocity: Vec3)

  /** `frames` stands for the shared sound data. */
  datatype SoundEmitter = SoundEmitter(frames: nat, handle: Option<Handle>, nextState: Option<SoundState>)

  /** `SoundEmitter::new`: nothing playing and nothing wanted yet. */
  function New(frames: nat): (e: SoundEmitter)
    ensures e.frames == frames && e.handle.None? && e.nextState.None?
    ensures CurrentState(e) == Stopped
  {
    SoundEmitter(frames, None, None)
  }

  /** The `Clone` implementation: a clone shares the sound data but
      neither the handle nor the intent, so it is a fresh emitter. */
  function Clone(e: SoundEmitter): (c: SoundEmitter)
    ensures c == New(e.frames)
    ensures c.frames == e.frames && CurrentState(c) == Stopped
  {
    SoundEmitter(e.frames, None, None)
  }

  /** `current_state`: an emitter that has never been played is stopped;
      otherwise the handle's stop control says (pause is checked first). */
  function CurrentState(e: SoundEmitter): (s: SoundState)
    ensures e.handle.None? ==> s == Stopped
    ensures e.handle.Some? ==> s == e.handle.value.control
  {
    match e.handle
    case None => Stopped
    case Some(h) =>
      if h.control == Paused then Paused
      else if h.control == Stopped then Stopped
      else assert h.control.Playing?; Playing
  }

  datatype Intent = Play | Pause | Stop | Resume

  /** The intent setters: `play` and `resume` both ask for `Playing`,
      `pause` for `Paused`, `stop` for `Stopped`; only the intent changes. */
  function SetIntent(e: SoundEmitter, i: Intent): (r: SoundEmitter)
    ensures r.frames == e.frames && r.handle == e.handle
    ensures r.nextState == Some(match i
      case Play => Playing
      case Resume => Playing
      case Pause => Paused
      case Stop => Stopped)
  {
    match i
    case Play => e.(nextState := Some(Playing))
    case Resume => e.(nextState := Some(Playing))
    case Pause => e.(nextState := Some(Paused))
    case Stop => e.(nextState := Some(Stopped))
  }

  /** The mixer command the audio system issues. */
  datatype Command = PlayAudio | ResumeAudio | PauseAudio | StopAudio | NoCommand

  /** The dispatch on (current state, intent), arms in source order. */
  function Dispatch(current: SoundState, next: Option<SoundState>): (c: Command)
  {
    match (current, next)
    case (Stopped, Some(Playing)) => PlayAudio
    case (Paused, Some(Playing)) => ResumeAudio
    case (Playing, Some(Paused)) => PauseAudio
    case (Paused, Some(Paused)) => PauseAudio
    case (Stopped, Some(Stopped)) => NoCommand
    case (_, Some(Stopped)) => StopAudio
    case _ => NoCommand
  }

  /** The dispatch table read row by row: each command is issued in
      exactly the situations listed, and nothing happens without an intent
      or when the sound is already where the intent wants it, except that
      pausing a paused sound pauses it again. */
  lemma DispatchTable(current: SoundState, next: Option<SoundState>)
    ensures Dispatch(current, next) == PlayAudio <==> current == Stopped && next == Some(Playing)
    ensures Dispatch(current, next) == ResumeAudio <==> current == Paused && next == Some(Playing)
    ensures Dispatch(current, next) == PauseAudio <==> current != Stopped && next == Some(Paused)
    ensures Dispatch(current, next) == StopAudio <==> current != Stopped && next == Some(Stopped)
    ensures next.None? ==> Dispatch(current, next) == NoCommand
  {
  }

  /** Carry out one command on an emitter. Play starts a new handle at the
      given relative motion; the others act on the handle if there is one. */
  function Apply(e: SoundEmitter, c: Command, position: Vec3, velocity: Vec3): (r: SoundEmitter)
    ensures r.frames == e.frames && r.nextState == e.nextState
    ensures c == PlayAudio ==> r.handle == Some(Handle(Playing, position, velocity))
    ensures c == NoCommand ==> r == e
    ensures c != PlayAudio ==> (r.handle.Some? <==> e.handle.Some?)
  {
    match c
    case PlayAudio => e.(handle := Some(Handle(Playing, position, velocity)))
    case ResumeAudio => SetControl(e, Playing)
    case PauseAudio => SetControl(e, Paused)
    case StopAudio => SetControl(e, Stopped)
    case NoCommand => e
  }

  function SetControl(e: SoundEmitter, s: SoundState): SoundEmitter {
    match e.handle
    case None => e
    case Some(h) => e.(handle := Some(h.(control := s)))
  }

  /** `update_motion`: move the handle, if any. */
  function UpdateMotion(e: SoundEmitter, position: Vec3, velocity: Vec3): (r: SoundEmitter)
    ensures r.frames == e.frames && r.nextState == e.nextState
    ensures r.handle.Some? <==> e.handle.Some?
    ensures r.handle.Some? ==> r.handle.value == Handle(e.handle.value.control, position, velocity)
  {
    match e.handle
    case None => e
    case Some(h) => e.(handle := Some(Handle(h.control, position, velocity)))
  }

  /** One emitter's turn in the audio system's loop: dispatch, clear the
      intent, update the motion. */
  function StepEmitter(e: SoundEmitter, position: Vec3, velocity: Vec3): (r: SoundEmitter)
    ensures r.frames == e.frames && r.nextState.None?
    ensures r.handle.Some? ==> r.handle.value.position == position && r.handle.value.velocity == velocity
  {
    var commanded := Apply(e, Dispatch(CurrentState(e), e.nextState), position, velocity);
    UpdateMotion(commanded.(nextState := None), position, velocity)
  }

  /** The intent is honoured: after the emitter's turn its state is the one
      it asked for, except that a stopped sound cannot be paused; with no
      intent its state is unchanged. */
  lemma {:induction false} IntentHonoured(e: SoundEmitter, position: Vec3, velocity: Vec3)
    ensures var after := CurrentState(StepEmitter(e, position, velocity));
      match e.nextState
      case None => after == CurrentState(e)
      case Some(want) => after == (if CurrentState(e) == Stopped && want == Paused then Stopped else want)
  {
    var c := Dispatch(CurrentState(e), e.nextState);
    DispatchTable(CurrentState(e), e.nextState);
    var commanded := Apply(e, c, position, velocity);
    assert CurrentState(commanded.(nextState := None)) == CurrentState(UpdateMotion(commanded.(nextState := None), position, velocity));
  }

  /** An entity in the audio system's query: its emitter, and, when the
      entity also has a rigid body and a global transform, the source's
      position and linear velocity in the stage. */
  datatype Entity = Entity(emitter: SoundEmitter, body: Option<(Vec3, Vec3)>)

  /** The listener, as the view space related to the stage space. The
      `relate` call that produces it is an OpenXR runtime call whose error
      the source unwraps (a panic); the model takes its successful result
      as this parameter and does not model that panic. */
  datatype Listener = Listener(poseValid: bool, linearValid: bool, position: Vec3, velocity: Vec3)

  /** `audio_system_inner`: with an invalid listener pose or velocity
      nothing is touched; otherwise every emitter with a body takes its
      turn at its position and velocity relative to the listener. */
  function AudioSystem(listener: Listener, world: seq<Entity>): (r: seq<Entity>)
    ensures |r| == |world|
    ensures !listener.poseValid || !listener.linearValid ==> r == world
    ensures forall k :: 0 <= k < |world| ==> r[k].body == world[k].body
    ensures forall k :: 0 <= k < |world| && world[k].body.None? ==> r[k] == world[k]
    ensures listener.poseValid && listener.linearValid ==>
      forall k :: 0 <= k < |world| && world[k].body.Some? ==>
        r[k].emitter == StepEmitter(world[k].emitter,
          Sub(world[k].body.value.0, listener.position), Sub(world[k].body.value.1, listener.velocity))
  {
    if !listener.poseValid || !listener.linearValid then world
    else seq(|world|, k requires 0 <= k < |world| => Turn(listener, world[k]))
  }

  function Turn(listener: Listener, en: Entity): Entity {
    match en.body
    case None => en
    case Some(b) => en.(emitter := StepEmitter(en.emitter, Sub(b.0, listener.position), Sub(b.1, listener.velocity)))
  }

  /** After a pass with a valid listener no intent is left pending, so a
      second pass changes no sound's state. */
  lemma SecondPassKeepsStates(listener: Listener, world: seq<Entity>)
    requires listener.poseValid && listener.linearValid
    ensures var once := AudioSystem(listener, world);
      var twice := AudioSystem(listener, once);
      forall k :: 0 <= k < |world| ==> CurrentState(twice[k].emitter) == CurrentState(once[k].emitter)
  {
    var once := AudioSystem(listener, world);
    forall k | 0 <= k < |world|
      ensures CurrentState(AudioSystem(listener, once)[k].emitter) == CurrentState(once[k].emitter)
    {
      if once[k].body.Some? {
        IntentHonoured(once[k].emitter, Sub(once[k].body.value.0, listener.position), Sub(once[k].body.value.1, listener.velocity));
      }
    }
  }

  /** Playing a fresh emitter: the first pass starts the sound, at the
      source's position relative to the listener. */
  lemma PlayFreshEmitter(frames: nat, listener: Listener, source: Vec3, speed: Vec3)
    requires listener.poseValid && listener.linearValid
    ensures var world := [Entity(SetIntent(New(frames), Play), Some((source, speed)))];
      AudioSystem(listener, world)[0].emitter
        == SoundEmitter(frames, Some(Handle(Playing, Sub(source, listener.position), Sub(speed, listener.velocity))), None)
  {
  }
}

=== FILE: texture.dfy ===
/** Texture constants and the RGB to RGBA pixel expansion used when a glTF
    image is not already in `R8G8B8A8` form. */
module Texture {
  import opened Bytes
  import opened Wrappers

  // Panic and error messages, as the source words them.
  const MUL_OVERFLOW := "attempt to multiply with overflow"
  const SLICE_END_OUT_OF_RANGE := "range end index out of range for slice"

  /** Texture index telling the shader that a material has no texture of a
      given kind: `u32::MAX`. */
  const NO_TEXTURE: int := U32_MAX

  /** The byte `add_alpha_channel` leaves at output position `i` for an input of
      `pixels`: RGB bytes are copied, the fourth byte of each converted pixel is
      1, and output past the converted pixels stays zero. */
  function ExpectedByte(pixels: seq<u8>, i: nat): u8 {
    var p := i / 4;
    var c := i % 4;
    if p < |pixels| / 3 then (if c < 3 then pixels[3 * p + c] else 1) else 0
  }

  /** Whether `add_alpha_channel` runs to completion: the output size
      `height * width * 4` is computed in u32, and every 3-byte slice of the
      input must exist and fit in the output. */
  predicate ExpansionSucceeds(pixels: seq<u8>, width: nat, height: nat) {
    IsU32(height * width) && IsU32(height * width * 4)
    && |pixels| % 3 == 0 && |pixels| <= width * height * 3
  }

  /** Byte `c` of output pixel `k`, for a pixel that exists in the input. */
  lemma ExpectedInPixel(pixels: seq<u8>, k: nat, c: nat)
    requires 3 * k + 3 <= |pixels| && c < 4
    ensures ExpectedByte(pixels, 4 * k + c) == if c < 3 then pixels[3 * k + c] else 1
  {
    assert (4 * k + c) / 4 == k && (4 * k + c) % 4 == c;
  }

  /** Output bytes from pixel `|pixels| / 3` on are zero. */
  lemma ExpectedPastInput(pixels: seq<u8>, k: nat, i: nat)
    requires |pixels| == 3 * k && 4 * k <= i
    ensures ExpectedByte(pixels, i) == 0
  {
  }

  /** Writing pixel `k` (its three bytes, then the alpha byte) extends the
      finished prefix of the output by four bytes. */
  lemma PixelWritten(pixels: seq<u8>, out: seq<u8>, k: nat)
    requires 3 * k + 3 <= |pixels| && 4 * k + 4 <= |out|
    requires forall i :: 0 <= i < 4 * k ==> out[i] == ExpectedByte(pixels, i)
    requires forall i :: 4 * k <= i < |out| ==> out[i] == 0
    ensures var out' := out[4 * k := pixels[3 * k]][4 * k + 1 := pixels[3 * k + 1]][4 * k + 2 := pixels[3 * k + 2]][4 * k + 3 := 1];
      && (forall i :: 0 <= i < 4 * k + 4 ==> out'[i] == ExpectedByte(pixels, i))
      && (forall i :: 4 * k + 4 <= i < |out| ==> out'[i] == 0)
  {
    ExpectedInPixel(pixels, k, 0);
    ExpectedInPixel(pixels, k, 1);
    ExpectedInPixel(pixels, k, 2);
    ExpectedInPixel(pixels, k, 3);
  }

  /** `add_alpha_channel`: a zero-filled `width * height * 4` buffer into which
      each input pixel is copied 3 bytes at a time, with an alpha byte of 1
      after it; input advances by 3 while output advances by 4. The panics of
      the source are `Failure`: a u32 overflow of the size (the debug-build
      check; a release build wraps) and a slice past either end. */
  method AddAlphaChannel(pixels: seq<u8>, width: nat, height: nat) returns (r: Result<seq<u8>, string>)
    ensures r.Success? <==> ExpansionSucceeds(pixels, width, height)
    ensures r.Success? ==> |r.value| == width * height * 4
    ensures r.Success? ==> forall i :: 0 <= i < |r.value| ==> r.value[i] == ExpectedByte(pixels, i)
  {
    var area := height * width;
    if !IsU32(area) || !IsU32(area * 4) {
      return Failure(MUL_OVERFLOW);
    }
    assert width * height == area && width * height * 3 == area * 3 && height * width * 4 == area * 4;
    r := CopyPixels(pixels, area);
  }

  /** The copy loop of `add_alpha_channel` into a buffer of `area` pixels. */
  method CopyPixels(pixels: seq<u8>, area: nat) returns (r: Result<seq<u8>, string>)
    ensures r.Success? <==> |pixels| % 3 == 0 && |pixels| <= area * 3
    ensures r.Success? ==> |r.value| == area * 4
    ensures r.Success? ==> forall i :: 0 <= i < |r.value| ==> r.value[i] == ExpectedByte(pixels, i)
  {
    var finalSize := area * 4;
    var out: seq<u8> := seq(finalSize, _ => 0);
    var oi := 0;
    var fi := 0;
    ghost var k := 0;
    while oi < |pixels|
      invariant oi == 3 * k && fi == 4 * k && k <= area
      invariant oi <= |pixels|
      invariant |out| == finalSize
      invariant forall i :: 0 <= i < fi ==> out[i] == ExpectedByte(pixels, i)
      invariant forall i :: fi <= i < finalSize ==> out[i] == 0
    {
      if oi + 3 > |pixels| {
        assert |pixels| % 3 != 0;
        return Failure(SLICE_END_OUT_OF_RANGE);
      }
      if fi + 4 > finalSize {
        assert |pixels| > area * 3;
        return Failure(SLICE_END_OUT_OF_RANGE);
      }
      PixelWritten(pixels, out, k);
      out := out[fi := pixels[oi]][fi + 1 := pixels[oi + 1]][fi + 2 := pixels[oi + 2]][fi + 3 := 1];
      oi := oi + 3;
      fi := fi + 4;
      k := k + 1;
    }
    forall i | fi <= i < finalSize
      ensures out[i] == ExpectedByte(pixels, i)
    {
      ExpectedPastInput(pixels, k, i);
    }
    return Success(out);
  }

  /** Dropping the alpha byte of each of the first `count` output pixels. */
  function StripAlpha(rgba: seq<u8>, count: nat): (rgb: seq<u8>)
    requires 4 * count <= |rgba|
    ensures |rgb| == 3 * count
  {
    if count == 0 then []
    else StripAlpha(rgba, count - 1) + rgba[4 * (count - 1)..4 * (count - 1) + 3]
  }

  /** The colour bytes of output pixel `p` are those of input pixel `p`. */
  lemma PixelBytes(pixels: seq<u8>, out: seq<u8>, p: nat)
    requires 3 * p + 3 <= |pixels| && 4 * p + 4 <= |out|
    requires forall i :: 0 <= i < |out| ==> out[i] == ExpectedByte(pixels, i)
    ensures out[4 * p..4 * p + 3] == pixels[3 * p..3 * p + 3]
  {
    ExpectedInPixel(pixels, p, 0);
    ExpectedInPixel(pixels, p, 1);
    ExpectedInPixel(pixels, p, 2);
  }

  /** Stripping the alpha bytes of the expanded image gives back the input. */
  lemma {:induction false} StripAlphaOfExpansion(pixels: seq<u8>, out: seq<u8>, count: nat)
    requires 3 * count <= |pixels| && 4 * count <= |out|
    requires forall i :: 0 <= i < |out| ==> out[i] == ExpectedByte(pixels, i)
    ensures StripAlpha(out, count) == pixels[..3 * count]
  {
    if count > 0 {
      StripAlphaOfExpansion(pixels, out, count - 1);
      var p := count - 1;
      PixelBytes(pixels, out, p);
      assert pixels[..3 * count] == pixels[..3 * p] + pixels[3 * p..3 * p + 3];
    }
  }
}

=== FILE: transforms.dfy ===
/** Scene-graph transform propagation. Every entity with a parent walks up
    its chain of parents, composing the transforms it meets, and ends at a
    root whose global transform it finally applies.

    The engine's transforms are floating-point affine maps; here a
    transform is a uniform integer scale followed by an integer
    translation, composed as the affine product, which keeps the algebra
    the systems rely on (associativity and an identity) exact. */
module Transforms {
  import opened Wrappers

  datatype Vec3 = Vec3(x: int, y: int, z: int)

  function Add(a: Vec3, b: Vec3): Vec3 {
    Vec3(a.x + b.x, a.y + b.y, a.z + b.z)
  }

  function Scale(k: int, v: Vec3): Vec3 {
    Vec3(k * v.x, k * v.y, k * v.z)
  }

  /** The map p |-> scale * p + translation. */
  datatype Affine = Affine(scale: int, translation: Vec3)

  const IDENTITY: Affine := Affine(1, Vec3(0, 0, 0))

  function Translation(t: Vec3): Affine {
    Affine(1, t)
  }

  function Apply(a: Affine, p: Vec3): Vec3 {
    Add(Scale(a.scale, p), a.translation)
  }

  /** `a * b`: first b, then a. */
  function Compose(a: Affine, b: Affine): (c: Affine)
    ensures forall p :: Apply(c, p) == Apply(a, Apply(b, p))
  {
    Affine(a.scale * b.scale, Add(Scale(a.scale, b.translation), a.translation))
  }

  lemma ComposeAssociative(a: Affine, b: Affine, c: Affine)
    ensures Compose(Compose(a, b), c) == Compose(a, Compose(b, c))
  {
    assert a.scale * b.scale * c.scale == a.scale * (b.scale * c.scale);
    var l := Compose(Compose(a, b), c).translation;
    var r := Compose(a, Compose(b, c)).translation;
    assert a.scale * b.scale * c.translation.x + (a.scale * b.translation.x + a.translation.x)
      == a.scale * (b.scale * c.translation.x + b.translation.x) + a.translation.x;
    assert a.scale * b.scale * c.translation.y + (a.scale * b.translation.y + a.translation.y)
      == a.scale * (b.scale * c.translation.y + b.translation.y) + a.translation.y;
    assert a.scale * b.scale * c.translation.z + (a.scale * b.translation.z + a.translation.z)
      == a.scale * (b.scale * c.translation.z + b.translation.z) + a.translation.z;
  }

  lemma ComposeIdentity(a: Affine)
    ensures Compose(IDENTITY, a) == a && Compose(a, IDENTITY) == a
  {
  }

  /** Composing translations adds them. */
  lemma ComposeTranslations(s: Vec3, t: Vec3)
    ensures Compose(Translation(s), Translation(t)) == Translation(Add(t, s))
  {
  }

  /** The hierarchy has no cycles: `rank` gives every entity with a parent
      a rank above its parent's, when the parent has one too. Following a
      cyclic chain of parents, the engine's walk would never end. */
  ghost predicate Acyclic(parent: map<nat, nat>, rank: map<nat, nat>) {
    forall e :: e in parent ==> e in rank && (parent[e] in parent ==> parent[e] in rank && rank[parent[e]] < rank[e])
  }

  /** The walk up the hierarchy: while the ancestor is in the view of
      entities that have both a parent and a step transform, apply its
      step on the left and move to its parent. Returns the entity where
      the walk stops and the accumulated transform. */
  function Climb(parent: map<nat, nat>, step: map<nat, Affine>, rank: map<nat, nat>, ancestor: nat, relative: Affine): (r: (nat, Affine))
    requires Acyclic(parent, rank)
    ensures r.0 !in parent || r.0 !in step
    decreases if ancestor in parent then rank[ancestor] + 1 else 0
  {
    if ancestor in parent && ancestor in step then
      Climb(parent, step, rank, parent[ancestor], Compose(step[ancestor], relative))
    else (ancestor, relative)
  }

  /** The top-down reading of the same hierarchy: where an entity's chain
      of parents ends, and the product of the steps from there down to the
      entity. */
  function Top(parent: map<nat, nat>, step: map<nat, Affine>, rank: map<nat, nat>, e: nat): nat
    requires Acyclic(parent, rank)
    decreases if e in parent then rank[e] + 1 else 0
  {
    if e in parent && e in step then Top(parent, step, rank, parent[e]) else e
  }

  function Prefix(parent: map<nat, nat>, step: map<nat, Affine>, rank: map<nat, nat>, e: nat): Affine
    requires Acyclic(parent, rank)
    decreases if e in parent then rank[e] + 1 else 0
  {
    if e in parent && e in step then Compose(Prefix(parent, step, rank, parent[e]), step[e]) else IDENTITY
  }

  /** The bottom-up walk computes the top-down product: it stops at the top
      of the chain, holding the product of the steps from there down,
      followed by what it started with. */
  lemma {:induction false} ClimbIsTopDown(parent: map<nat, nat>, step: map<nat, Affine>, rank: map<nat, nat>, a: nat, relative: Affine)
    requires Acyclic(parent, rank)
    ensures Climb(parent, step, rank, a, relative)
      == (Top(parent, step, rank, a), Compose(Prefix(parent, step, rank, a), relative))
    decreases if a in parent then rank[a] + 1 else 0
  {
    if a in parent && a in step {
      var p := parent[a];
      ClimbIsTopDown(parent, step, rank, p, Compose(step[a], relative));
      ComposeAssociative(Prefix(parent, step, rank, p), step[a], relative);
    } else {
      ComposeIdentity(relative);
    }
  }

  /** The number of steps from an entity to the top of its chain. */
  function Depth(parent: map<nat, nat>, step: map<nat, Affine>, rank: map<nat, nat>, e: nat): nat
    requires Acyclic(parent, rank)
    decreases if e in parent then rank[e] + 1 else 0
  {
    if e in parent && e in step then 1 + Depth(parent, step, rank, parent[e]) else 0
  }

  /** When every step is the same unit translation, the product down a
      chain is that translation times the chain's length. */
  lemma {:induction false} UnitStepsCount(parent: map<nat, nat>, step: map<nat, Affine>, rank: map<nat, nat>, e: nat, unit: Vec3)
    requires Acyclic(parent, rank)
    requires forall k :: k in step ==> step[k] == Translation(unit)
    ensures var d := Depth(parent, step, rank, e);
      Prefix(parent, step, rank, e) == Translation(Scale(d, unit))
    decreases if e in parent then rank[e] + 1 else 0
  {
    if e in parent && e in step {
      var d := Depth(parent, step, rank, parent[e]);
      UnitStepsCount(parent, step, rank, parent[e], unit);
      ComposeTranslations(Scale(d, unit), unit);
      assert Add(unit, Scale(d, unit)) == Scale(d + 1, unit);
    }
  }

  // ---------------------------------------------------------------------
  // update_global_transform_system: local transforms along parent links.

  /** The components the system touches: `LocalTransform` (as the affine
      map it stands for), `GlobalTransform`, and `Parent`. */
  datatype World = World(local: map<nat, Affine>, global: map<nat, Affine>, parent: map<nat, nat>)

  /** The panic of `Option::unwrap` on `None`: the walk up the hierarchy
      ended at an entity without the component it reads. */
  const UNWRAP_NONE := "called `Option::unwrap()` on a `None` value"

  /** A root's global transform once the first loop has run: a root with a
      local transform takes it, one without keeps its own. */
  function RootGlobal(w: World, e: nat): (g: Option<Affine>)
    ensures g.Some? <==> e in w.global && e !in w.parent
  {
    if e in w.global && e !in w.parent then Some(if e in w.local then w.local[e] else w.global[e]) else None
  }

  /** The entities the second loop visits. */
  predicate IsChild(w: World, e: nat) {
    e in w.parent && e in w.local && e in w.global
  }

  /** The second loop's work for one entity: walk up from its parent
      starting with its own local transform, then apply the root's global
      transform; `None` where `unwrap` panics, because the walk stopped at
      an entity that has a parent but no local transform, or at a root
      without a global transform. */
  function Resolve(w: World, rank: map<nat, nat>, e: nat): (g: Option<Affine>)
    requires Acyclic(w.parent, rank) && IsChild(w, e)
    ensures var top := Top(w.parent, w.local, rank, e);
      g.Some? <==> top in w.global && top !in w.parent
    ensures g.Some? ==>
      g.value == Compose(RootGlobal(w, Top(w.parent, w.local, rank, e)).value, Prefix(w.parent, w.local, rank, e))
  {
    ClimbIsTopDown(w.parent, w.local, rank, w.parent[e], w.local[e]);
    var (top, relative) := Climb(w.parent, w.local, rank, w.parent[e], w.local[e]);
    match RootGlobal(w, top)
    case None => None
    case Some(g) => Some(Compose(g, relative))
  }

  /** Every child's walk ends at a root with a global transform, so no
      `unwrap` in the second loop panics. */
  predicate AllResolve(w: World, rank: map<nat, nat>)
    requires Acyclic(w.parent, rank)
  {
    forall e {:trigger Resolve(w, rank, e)} | e in w.parent :: IsChild(w, e) ==> Resolve(w, rank, e).Some?
  }

  /** The global transforms after both loops, when every walk succeeds. */
  function Globals(w: World, rank: map<nat, nat>): (g: map<nat, Affine>)
    requires Acyclic(w.parent, rank) && AllResolve(w, rank)
    ensures g.Keys == w.global.Keys
    ensures forall e :: e in w.global && e !in w.parent && e in w.local ==> g[e] == w.local[e]
    ensures forall e :: e in w.global && e !in w.local ==> g[e] == w.global[e]
  {
    map e | e in w.global ::
      if IsChild(w, e) then Resolve(w, rank, e).value
      else if e !in w.parent && e in w.local then w.local[e]
      else w.global[e]
  }

  /** `update_global_transform_system_inner`. */
  function UpdateGlobalTransform(w: World, rank: map<nat, nat>): (r: Result<World, string>)
    requires Acyclic(w.parent, rank)
    ensures r.Success? <==> AllResolve(w, rank)
    ensures r.Success? ==> r.value.local == w.local && r.value.parent == w.parent
    ensures r.Success? ==> r.value.global.Keys == w.global.Keys
    ensures r.Success? ==> forall e :: e in w.global && e !in w.parent && e in w.local ==> r.value.global[e] == w.local[e]
    ensures r.Success? ==> forall e :: e in w.global && e !in w.local ==> r.value.global[e] == w.global[e]
  {
    if AllResolve(w, rank) then Success(w.(global := Globals(w, rank)))
    else Failure(UNWRAP_NONE)
  }

  /** The hierarchy is consistent afterwards: a child's global transform is
      its parent's new global transform followed by its own local one. */
  lemma ChildFollowsParent(w: World, rank: map<nat, nat>, e: nat)
    requires Acyclic(w.parent, rank)
    requires UpdateGlobalTransform(w, rank).Success?
    requires IsChild(w, e) && w.parent[e] in w.global
    ensures var g := UpdateGlobalTransform(w, rank).value.global;
      g[e] == Compose(g[w.parent[e]], w.local[e])
  {
    var g := UpdateGlobalTransform(w, rank).value.global;
    var p := w.parent[e];
    var top := Top(w.parent, w.local, rank, e);
    var re := Resolve(w, rank, e);
    assert re.Some?;
    assert g[e] == re.value;
    assert top == Top(w.parent, w.local, rank, p);
    assert Prefix(w.parent, w.local, rank, e) == Compose(Prefix(w.parent, w.local, rank, p), w.local[e]);
    if IsChild(w, p) {
      var rp := Resolve(w, rank, p);
      assert rp.Some?;
      assert g[p] == rp.value;
      ComposeAssociative(RootGlobal(w, top).value, Prefix(w.parent, w.local, rank, p), w.local[e]);
    } else {
      assert p !in w.parent;
      assert g[p] == RootGlobal(w, p).value;
      ComposeIdentity(RootGlobal(w, p).value);
    }
  }

  /** With every local transform a unit translation, an entity's global
      transform is its root's followed by that unit times its depth, the
      expectation of the engine's own extensive test. */
  lemma UnitTranslationsAccumulate(w: World, rank: map<nat, nat>, e: nat, unit: Vec3)
    requires Acyclic(w.parent, rank)
    requires forall k :: k in w.local ==> w.local[k] == Translation(unit)
    requires UpdateGlobalTransform(w, rank).Success? && IsChild(w, e)
    ensures var top := Top(w.parent, w.local, rank, e);
      UpdateGlobalTransform(w, rank).value.global[e]
        == Compose(RootGlobal(w, top).value, Translation(Scale(Depth(w.parent, w.local, rank, e), unit)))
  {
    assert Resolve(w, rank, e).Some?;
    UnitStepsCount(w.parent, w.local, rank, e, unit);
  }

  /** Three entities, each translated by (1, 1, 100) from the next: the
      child ends at (2, 2, 200) and the grandchild at (3, 3, 300). */
  lemma ThreeLevelChain()
    ensures var t := Translation(Vec3(1, 1, 100));
      var w := World(map[0 := t, 1 := t, 2 := t], map[0 := t, 1 := t, 2 := t], map[1 := 0, 2 := 1]);
      var r := UpdateGlobalTransform(w, map[1 := 1, 2 := 2]);
      && r.Success?
      && r.value.global[1] == Translation(Vec3(2, 2, 200))
      && r.value.global[2] == Translation(Vec3(3, 3, 300))
  {
    var t := Translation(Vec3(1, 1, 100));
    var w := World(map[0 := t, 1 := t, 2 := t], map[0 := t, 1 := t, 2 := t], map[1 := 0, 2 := 1]);
    var rank := map[1 := 1, 2 := 2];
    assert Climb(w.parent, w.local, rank, 0, t) == (0, t);
    assert Climb(w.parent, w.local, rank, 1, t) == (0, Compose(t, t));
    assert Resolve(w, rank, 1) == Some(Translation(Vec3(2, 2, 200)));
    assert Resolve(w, rank, 2) == Some(Translation(Vec3(3, 3, 300)));
    forall e | IsChild(w, e)
      ensures Resolve(w, rank, e).Some?
    {
      assert e == 1 || e == 2;
    }
  }

  // ---------------------------------------------------------------------
  // update_global_transform_with_parent_system: `from_child` steps.

  /** `Parent` in its second form: the parent entity and the transform
      from the child's frame to the parent's. */
  datatype ParentLink = ParentLink(entity: nat, fromChild: Affine)

  datatype LinkedWorld = LinkedWorld(global: map<nat, Affine>, parent: map<nat, ParentLink>)

  function Targets(w: LinkedWorld): (m: map<nat, nat>)
    ensures m.Keys == w.parent.Keys
  {
    map e | e in w.parent :: w.parent[e].entity
  }

  function Steps(w: LinkedWorld): (m: map<nat, Affine>)
    ensures m.Keys == w.parent.Keys
  {
    map e | e in w.parent :: w.parent[e].fromChild
  }

  /** The absolute transform of one entity with a parent; `None` where the
      walk ends at a root without a global transform. */
  function Absolute(w: LinkedWorld, rank: map<nat, nat>, e: nat): (g: Option<Affine>)
    requires Acyclic(Targets(w), rank) && e in w.parent
    ensures var top := Top(Targets(w), Steps(w), rank, e);
      g.Some? <==> top in w.global
    ensures g.Some? ==> g.value == Compose(w.global[Top(Targets(w), Steps(w), rank, e)], Prefix(Targets(w), Steps(w), rank, e))
  {
    var link := w.parent[e];
    ClimbIsTopDown(Targets(w), Steps(w), rank, link.entity, link.fromChild);
    var (top, relative) := Climb(Targets(w), Steps(w), rank, link.entity, link.fromChild);
    if top in w.global then Some(Compose(w.global[top], relative)) else None
  }

  /** `update_global_transform_with_parent_system_inner`: roots keep their
      global transform; every entity with a parent and a global transform
      gets its root's, followed by the `from_child` steps down to it. */
  function UpdateWithParent(w: LinkedWorld, rank: map<nat, nat>): (r: Result<LinkedWorld, string>)
    requires Acyclic(Targets(w), rank)
    ensures r.Success? <==> forall e :: e in w.parent && e in w.global ==> Absolute(w, rank, e).Some?
    ensures r.Success? ==> r.value.parent == w.parent && r.value.global.Keys == w.global.Keys
    ensures r.Success? ==> forall e :: e in w.global && e !in w.parent ==> r.value.global[e] == w.global[e]
  {
    if exists e | e in w.parent :: e in w.global && Absolute(w, rank, e).None? then
      Failure(UNWRAP_NONE)
    else
      Success(w.(global := map e | e in w.global :: if e in w.parent then Absolute(w, rank, e).value else w.global[e]))
  }

  /** Consistency, as for the first system: a child's absolute transform is
      its parent's new one followed by its own `from_child`. */
  lemma LinkedChildFollowsParent(w: LinkedWorld, rank: map<nat, nat>, e: nat)
    requires Acyclic(Targets(w), rank)
    requires UpdateWithParent(w, rank).Success?
    requires e in w.parent && e in w.global && w.parent[e].entity in w.global
    ensures var g := UpdateWithParent(w, rank).value.global;
      g[e] == Compose(g[w.parent[e].entity], w.parent[e].fromChild)
  {
    var p := w.parent[e].entity;
    var top := Top(Targets(w), Steps(w), rank, e);
    assert Absolute(w, rank, e).Some?;
    if p in w.parent {
      assert Absolute(w, rank, p).Some?;
      ComposeAssociative(w.global[top], Prefix(Targets(w), Steps(w), rank, p), w.parent[e].fromChild);
    } else {
      assert Prefix(Targets(w), Steps(w), rank, e) == Compose(IDENTITY, w.parent[e].fromChild);
    }
  }

  /** The chain of the three-level example, linked through `from_child`. */
  function LinkedChain(): LinkedWorld {
    var t := Translation(Vec3(1, 1, 100));
    LinkedWorld(map[0 := t, 1 := t, 2 := t], map[1 := ParentLink(0, t), 2 := ParentLink(1, t)])
  }

  /** The linked chain's parent and step views, and its ranks. */
  lemma LinkedChainViews()
    ensures Targets(LinkedChain()) == map[1 := 0, 2 := 1]
    ensures Steps(LinkedChain()) == map[1 := Translation(Vec3(1, 1, 100)), 2 := Translation(Vec3(1, 1, 100))]
    ensures Acyclic(Targets(LinkedChain()), map[1 := 1, 2 := 2])
  {
    var w := LinkedChain();
    assert w.parent.Keys == {1, 2};
  }

  /** In the linked chain, the child sits one step below the root and the
      grandchild two. */
  lemma LinkedChainAbsolutes()
    ensures Acyclic(Targets(LinkedChain()), map[1 := 1, 2 := 2])
    ensures Absolute(LinkedChain(), map[1 := 1, 2 := 2], 1) == Some(Translation(Vec3(2, 2, 200)))
    ensures Absolute(LinkedChain(), map[1 := 1, 2 := 2], 2) == Some(Translation(Vec3(3, 3, 300)))
  {
    var t := Translation(Vec3(1, 1, 100));
    var parent, step, rank := map[1 := 0, 2 := 1], map[1 := t, 2 := t], map[1 := 1, 2 := 2];
    LinkedChainViews();
    var c0 := Climb(parent, step, rank, 0, t);
    assert c0 == (0, t);
    assert Climb(parent, step, rank, 1, t) == Climb(parent, step, rank, 0, Compose(t, t));
    assert Climb(parent, step, rank, 0, Compose(t, t)) == (0, Compose(t, t));
  }

  /** The same chain through `from_child` links, passed through
      `update_global_transform_with_parent_system` alone: the root's (1, 1, 100) is
      followed by one step for the child and two for the grandchild. */
  lemma LinkedThreeLevelChain()
    ensures Acyclic(Targets(LinkedChain()), map[1 := 1, 2 := 2])
    ensures var r := UpdateWithParent(LinkedChain(), map[1 := 1, 2 := 2]);
      && r.Success?
      && r.value.global[1] == Translation(Vec3(2, 2, 200))
      && r.value.global[2] == Translation(Vec3(3, 3, 300))
  {
    var w := LinkedChain();
    var rank := map[1 := 1, 2 := 2];
    LinkedChainAbsolutes();
    assert w.parent.Keys == {1, 2};
  }
}

=== FILE: vertex.dfy ===
/** `Vertex`: the per-vertex record the importer builds from glTF attributes.
    Joint indices and joint weights are each packed into one u32, one byte
    per joint, least significant byte first. */
module Vertex {
  import opened Bytes

  datatype Vec2 = Vec2(x: real, y: real)
  datatype Vec3 = Vec3(x: real, y: real, z: real)

  datatype Vertex = Vertex(normal: Vec3, textureCoords: Vec2, jointIndices: int, jointWeights: int)

  /** Four bytes, as a glTF `[u8; 4]` joint tuple. */
  type Quad = s: seq<u8> | |s| == 4 witness [0, 0, 0, 0]

  /** `Vertex::new` stores its four arguments verbatim. */
  function New(normal: Vec3, textureCoords: Vec2, jointIndices: int, jointWeights: int): (v: Vertex)
    requires IsU32(jointIndices) && IsU32(jointWeights)
    ensures v.normal == normal && v.textureCoords == textureCoords
    ensures v.jointIndices == jointIndices && v.jointWeights == jointWeights
  {
    Vertex(normal, textureCoords, jointIndices, jointWeights)
  }

  /** `b[0] + b[1]*256 + b[2]*256^2 + b[3]*256^3`. */
  function Pack(b: Quad): (n: int)
    ensures IsU32(n)
  {
    b[0] as int + b[1] as int * 256 + b[2] as int * 65536 + b[3] as int * 16777216
  }

  /** The byte of a packed u32 that holds joint `k`. */
  function ByteAt(n: int, k: nat): (b: u8)
    requires IsU32(n) && k < 4
  {
    var d := if k == 0 then 1 else if k == 1 then 256 else if k == 2 then 65536 else 16777216;
    ((n / d) % 256) as u8
  }

  function Unpack(n: int): (b: Quad)
    requires IsU32(n)
  {
    [ByteAt(n, 0), ByteAt(n, 1), ByteAt(n, 2), ByteAt(n, 3)]
  }

  /** Reading the packed word byte by byte recovers the four joint indices. */
  lemma UnpackPack(b: Quad)
    ensures Unpack(Pack(b)) == b
  {
    var n := Pack(b);
    var b0, b1, b2, b3 := b[0] as int, b[1] as int, b[2] as int, b[3] as int;
    assert n == b0 + 256 * (b1 + 256 * (b2 + 256 * b3));
    assert n % 256 == b0;
    assert n / 256 == b1 + 256 * (b2 + 256 * b3);
    assert n / 65536 == (n / 256) / 256 by { DivDiv(n, 256, 256); }
    assert (n / 256) / 256 == b2 + 256 * b3;
    assert n / 16777216 == (n / 65536) / 256 by { DivDiv(n, 65536, 256); }
    assert (n / 65536) / 256 == b3;
  }

  /** Every u32 is the packing of its four bytes. */
  lemma PackUnpack(n: int)
    requires IsU32(n)
    ensures Pack(Unpack(n)) == n
  {
    DivDiv(n, 256, 256);
    DivDiv(n, 65536, 256);
    var q1 := n / 256;
    var q2 := n / 65536;
    var q3 := n / 16777216;
    assert n == n % 256 + 256 * q1;
    assert q1 == q1 % 256 + 256 * q2;
    assert q2 == q2 % 256 + 256 * q3;
    assert q3 < 256;
  }

  /** `Vertex::from_zip`. Normal and texture coordinates pass through; the
      joint tuple is packed bytewise. The weights are normalised to 0..=255
      and rounded in floating point before the same packing; here they are
      given already as the four rounded bytes. */
  function FromZip(normal: Vec3, textureCoords: Vec2, joints: Quad, roundedWeights: Quad): (v: Vertex)
    ensures v.normal == normal && v.textureCoords == textureCoords
    ensures IsU32(v.jointIndices) && Unpack(v.jointIndices) == joints
    ensures IsU32(v.jointWeights) && Unpack(v.jointWeights) == roundedWeights
  {
    UnpackPack(joints);
    UnpackPack(roundedWeights);
    New(normal, textureCoords, Pack(joints), Pack(roundedWeights))
  }
}

=== FILE: vulkan_helpers.dfy ===
/** Integer helpers of the Vulkan context: uniform-buffer alignment, the
    copy regions for uploading a mip chain, image view type and sample count
    selection, and the aspect of a format. `contexts/vulkan_context.rs` is
    the current context; `resources/vulkan_context.rs` is its predecessor,
    which lays the upload out one region per layer and mip level. Panics in
    debug builds (arithmetic overflow, shifts past the width, indexing out of
    range) are `Failure`s. */
module VulkanHelpers {
  import opened Bytes
  import opened Wrappers

  // Panic and error messages, as the source words them.
  const ADD_OVERFLOW := "attempt to add with overflow"
  const SHR_OVERFLOW := "attempt to shift right with overflow"
  const MUL_OVERFLOW := "attempt to multiply with overflow"
  const INDEX_OUT_OF_BOUNDS := "index out of bounds"

  function Pow2(k: nat): (r: nat)
    ensures r >= 1
  {
    if k == 0 then 1 else 2 * Pow2(k - 1)
  }

  /** `get_alignment_info::<T>`: `(max(align_of T, min_alignment),
      (size + min_alignment - 1) & !(min_alignment - 1))`. Vulkan guarantees
      that `minUniformBufferOffsetAlignment` is a power of two, and for a
      power of two the mask clears the low bits, i.e. rounds down to a
      multiple of it. Rust evaluates `original_size + min_alignment` before
      subtracting one, so that first sum is the one that can overflow. */
  datatype Alignment = Alignment(alignment: int, alignedSize: int)

  function AlignmentInfo(alignOfT: nat, minAlignmentLog2: nat, size: nat): (r: Result<Alignment, string>)
    requires minAlignmentLog2 < 64 && IsU64(alignOfT) && IsU64(size)
    ensures r.Success? <==> size + Pow2(minAlignmentLog2) < U64_LIMIT
    ensures r.Success? ==>
      && r.value.alignment >= alignOfT && r.value.alignment >= Pow2(minAlignmentLog2)
      && (r.value.alignment == alignOfT || r.value.alignment == Pow2(minAlignmentLog2))
      && r.value.alignedSize % Pow2(minAlignmentLog2) == 0
      && size <= r.value.alignedSize < size + Pow2(minAlignmentLog2)
  {
    var minAlignment := Pow2(minAlignmentLog2);
    var alignment := if alignOfT >= minAlignment then alignOfT else minAlignment;
    if size + minAlignment >= U64_LIMIT then Failure(ADD_OVERFLOW)
    else
      var bumped := size + minAlignment - 1;
      var aligned := bumped - bumped % minAlignment;
      assert aligned == (bumped / minAlignment) * minAlignment;
      DivModOf(bumped / minAlignment, 0, minAlignment);
      Success(Alignment(alignment, aligned))
  }

  /** One `vk::BufferImageCopy`: where the data starts in the staging buffer,
      the mip level and layers it fills, and the extent of that level. */
  datatype Region = Region(bufferOffset: nat, mipLevel: nat, baseLayer: nat, layerCount: nat, width: nat, height: nat)

  /** `x >> k` on a u32, which panics in debug builds once `k >= 32`: `k`
      halvings, each rounding down. */
  function Shr(x: nat, k: nat): nat
    requires k < 32
  {
    if k == 0 then x else Shr(x, k - 1) / 2
  }

  /** Shifting right by `k` divides by `2^k`, rounding down. */
  lemma {:induction false} ShrIsDiv(x: nat, k: nat)
    requires k < 32
    ensures Shr(x, k) == x / Pow2(k)
  {
    if k > 0 {
      ShrIsDiv(x, k - 1);
      DivDiv(x, Pow2(k - 1), 2);
    }
  }

  /** Sum of the first `k` per-level sizes. */
  function SumPrefix(sizes: seq<nat>, k: nat): nat
    requires k <= |sizes|
  {
    if k == 0 then 0 else SumPrefix(sizes, k - 1) + sizes[k - 1]
  }

  lemma {:induction false} SumPrefixMonotone(sizes: seq<nat>, j: nat, k: nat)
    requires j <= k <= |sizes|
    ensures SumPrefix(sizes, j) <= SumPrefix(sizes, k)
  {
    if j < k {
      SumPrefixMonotone(sizes, j, k - 1);
    }
  }

  /** The offset after level `k` is the one before it plus the level's
      `layerCount` copies. */
  lemma OffsetStep(sizes: seq<nat>, k: nat, layerCount: nat)
    requires k < |sizes|
    ensures SumPrefix(sizes, k + 1) * layerCount == SumPrefix(sizes, k) * layerCount + sizes[k] * layerCount
  {
    assert (SumPrefix(sizes, k) + sizes[k]) * layerCount == SumPrefix(sizes, k) * layerCount + sizes[k] * layerCount;
  }

  /** Offsets only grow, so once one overflows so does the total. */
  lemma OverflowPersists(sizes: seq<nat>, k: nat, layerCount: nat)
    requires k <= |sizes|
    ensures SumPrefix(sizes, k) * layerCount <= SumPrefix(sizes, |sizes|) * layerCount
  {
    SumPrefixMonotone(sizes, k, |sizes|);
    MulMonotone(SumPrefix(sizes, k), SumPrefix(sizes, |sizes|), layerCount);
  }

  /** The region list of `copy_buffer_to_image`: level `k` covers all
      `layerCount` layers, has extent `(w >> k, h >> k)`, and starts after
      the earlier levels' data, each of which holds `layerCount` copies of
      its size. */
  predicate MipRegion(r: Region, k: nat, width: nat, height: nat, layerCount: nat, sizes: seq<nat>)
    requires k < |sizes| && k < 32
  {
    r == Region(SumPrefix(sizes, k) * layerCount, k, 0, layerCount, Shr(width, k), Shr(height, k))
  }

  /** Builds the regions level by level; the first level whose increment
      `offset_increment * layer_count` overflows panics in the multiply,
      and one whose increment fits but whose new offset does not panics in
      the add. */
  method CopyRegions(width: nat, height: nat, layerCount: nat, sizes: seq<nat>) returns (r: Result<seq<Region>, string>)
    requires IsU32(width) && IsU32(height) && IsU32(layerCount)
    requires forall k :: 0 <= k < |sizes| ==> IsU64(sizes[k])
    ensures r.Success? <==> |sizes| <= 32 && SumPrefix(sizes, |sizes|) * layerCount < U64_LIMIT
    ensures r.Success? ==> |r.value| == |sizes|
    ensures r.Success? ==> forall k :: 0 <= k < |sizes| ==> MipRegion(r.value[k], k, width, height, layerCount, sizes)
    ensures r == Failure(MUL_OVERFLOW) ==> exists k ::
      && 0 <= k < |sizes| && k < 32 && SumPrefix(sizes, k) * layerCount < U64_LIMIT
      && sizes[k] * layerCount >= U64_LIMIT
    ensures r == Failure(ADD_OVERFLOW) ==> exists k ::
      && 0 <= k < |sizes| && k < 32 && SumPrefix(sizes, k) * layerCount < U64_LIMIT
      && sizes[k] * layerCount < U64_LIMIT <= SumPrefix(sizes, k + 1) * layerCount
  {
    var regions: seq<Region> := [];
    var offset := 0;
    var k := 0;
    while k < |sizes|
      invariant 0 <= k <= |sizes| && k <= 32
      invariant offset == SumPrefix(sizes, k) * layerCount && offset < U64_LIMIT
      invariant |regions| == k
      invariant forall j :: 0 <= j < k ==> MipRegion(regions[j], j, width, height, layerCount, sizes)
    {
      if k >= 32 {
        return Failure(SHR_OVERFLOW);
      }
      regions := regions + [Region(offset, k, 0, layerCount, Shr(width, k), Shr(height, k))];
      var increment := sizes[k] * layerCount;
      OffsetStep(sizes, k, layerCount);
      if increment >= U64_LIMIT {
        OverflowPersists(sizes, k + 1, layerCount);
        return Failure(MUL_OVERFLOW);
      }
      var next := offset + increment;
      if next >= U64_LIMIT {
        OverflowPersists(sizes, k + 1, layerCount);
        return Failure(ADD_OVERFLOW);
      }
      offset := next;
      k := k + 1;
    }
    return Success(regions);
  }

  /** Consecutive levels abut: level `k + 1` starts where level `k`'s
      `layerCount` copies end. */
  lemma RegionsAbut(width: nat, height: nat, layerCount: nat, sizes: seq<nat>, regions: seq<Region>, k: nat)
    requires k + 1 < |sizes| && |sizes| <= 32 && |regions| == |sizes|
    requires forall j :: 0 <= j < |sizes| ==> MipRegion(regions[j], j, width, height, layerCount, sizes)
    ensures regions[k + 1].bufferOffset == regions[k].bufferOffset + sizes[k] * layerCount
    ensures regions[k + 1].width == regions[k].width / 2 && regions[k + 1].height == regions[k].height / 2
  {
    assert MipRegion(regions[k], k, width, height, layerCount, sizes);
    assert MipRegion(regions[k + 1], k + 1, width, height, layerCount, sizes);
  }

  /** `layer * mip_count + mip_level`, the legacy layout's index. */
  function FlatIndex(layer: nat, mip: nat, mipCount: nat): nat {
    layer * mipCount + mip
  }

  /** The legacy layout: one region per (layer, mip) pair, layer-major, each
      reading its own entry `offsets[layer * mip_count + mip]`. */
  predicate LegacyRegion(r: Region, layer: nat, mip: nat, width: nat, height: nat, offsets: seq<nat>, mipCount: nat)
    requires mip < mipCount && mip < 32 && FlatIndex(layer, mip, mipCount) < |offsets|
  {
    r == Region(offsets[FlatIndex(layer, mip, mipCount)], mip, layer, 1, Shr(width, mip), Shr(height, mip))
  }

  lemma IndexBound(layer: nat, mip: nat, layerCount: nat, mipCount: nat)
    requires layer < layerCount && mip < mipCount
    ensures layer * mipCount + mip < layerCount * mipCount
  {
    assert layer * mipCount + mip < layer * mipCount + mipCount == (layer + 1) * mipCount;
    MulMonotone(layer + 1, layerCount, mipCount);
  }

  function LegacyCopyRegions(width: nat, height: nat, layerCount: nat, mipCount: nat, offsets: seq<nat>): (r: Result<seq<Region>, string>)
    requires IsU32(width) && IsU32(height) && IsU32(layerCount) && IsU32(mipCount)
    ensures r.Success? <==>
      (layerCount == 0 || mipCount == 0
       || (mipCount <= 32 && layerCount * mipCount <= |offsets| && layerCount * mipCount <= U32_LIMIT))
    ensures r.Success? ==> |r.value| == layerCount * mipCount
    ensures r.Success? ==> forall layer, mip :: 0 <= layer < layerCount && 0 <= mip < mipCount ==>
      FlatIndex(layer, mip, mipCount) < |r.value| && mip < 32 && FlatIndex(layer, mip, mipCount) < |offsets|
      && LegacyRegion(r.value[FlatIndex(layer, mip, mipCount)], layer, mip, width, height, offsets, mipCount)
  {
    if layerCount == 0 || mipCount == 0 then Success([])
    else if mipCount > 32 then Failure(SHR_OVERFLOW)
    else if layerCount * mipCount > U32_LIMIT then Failure(MUL_OVERFLOW)
    else if layerCount * mipCount > |offsets| then Failure(INDEX_OUT_OF_BOUNDS)
    else
      var r := seq(layerCount * mipCount, i requires 0 <= i < layerCount * mipCount =>
        Region(offsets[i], i % mipCount, i / mipCount, 1, Shr(width, i % mipCount), Shr(height, i % mipCount)));
      assert forall layer, mip :: 0 <= layer < layerCount && 0 <= mip < mipCount ==>
        FlatIndex(layer, mip, mipCount) < |r| && LegacyRegion(r[FlatIndex(layer, mip, mipCount)], layer, mip, width, height, offsets, mipCount) by {
        forall layer, mip | 0 <= layer < layerCount && 0 <= mip < mipCount
          ensures FlatIndex(layer, mip, mipCount) < |r| && LegacyRegion(r[FlatIndex(layer, mip, mipCount)], layer, mip, width, height, offsets, mipCount)
        {
          IndexBound(layer, mip, layerCount, mipCount);
          DivModOf(layer, mip, mipCount);
        }
      }
      Success(r)
  }

  datatype ViewType = Type2D | Cube | Type2DArray

  /** `(image create flags, view type)` for an image with `layers` array
      layers: a single layer is a plain 2D image, six layers a cube map (the
      only case with `CUBE_COMPATIBLE`), anything else a 2D array. */
  datatype ImageKind = ImageKind(cubeCompatible: bool, viewType: ViewType)

  function ImageKindFor(layers: nat): (k: ImageKind)
    ensures k.cubeCompatible <==> layers == 6
    ensures k.viewType == Type2D <==> layers == 1
    ensures k.viewType == Cube <==> layers == 6
  {
    if layers == 1 then ImageKind(false, Type2D)
    else if layers == 6 then ImageKind(true, Cube)
    else ImageKind(false, Type2DArray)
  }

  /** `vk::ImageUsageFlags::TRANSIENT_ATTACHMENT`. */
  const TRANSIENT_ATTACHMENT: bv32 := 0x40
  /** `SAMPLES`, the multisample count of the render pass (`TYPE_4`). */
  const SAMPLES: nat := 4

  /** The current context multisamples exactly the transient attachments. */
  function SamplesFor(usage: bv32): (n: nat)
    ensures n == SAMPLES <==> Contains(usage, TRANSIENT_ATTACHMENT)
    ensures n == 1 <==> !Contains(usage, TRANSIENT_ATTACHMENT)
  {
    if Contains(usage, TRANSIENT_ATTACHMENT) then SAMPLES else 1
  }

  /** The legacy context also multisamples images whose usage contains the
      depth attachment usage flags, given here as `depthUsage`. */
  function LegacySamplesFor(usage: bv32, depthUsage: bv32): (n: nat)
    ensures n == 4 <==> Contains(usage, TRANSIENT_ATTACHMENT) || Contains(usage, depthUsage)
    ensures n == 1 <==> !(Contains(usage, TRANSIENT_ATTACHMENT) || Contains(usage, depthUsage))
  {
    if Contains(usage, TRANSIENT_ATTACHMENT) || Contains(usage, depthUsage) then 4 else 1
  }

  /** The legacy rule multisamples every image the current rule does. */
  lemma LegacySamplesMore(usage: bv32, depthUsage: bv32)
    ensures SamplesFor(usage) == SAMPLES ==> LegacySamplesFor(usage, depthUsage) == 4
    ensures LegacySamplesFor(usage, depthUsage) == 1 ==> SamplesFor(usage) == 1
  {
  }

  /** `vk::Format` codes used by the engine. */
  const FORMAT_R8G8B8A8_SRGB: int := 43
  const FORMAT_D32_SFLOAT: int := 126
  /** The engine's depth buffer format. */
  const DEPTH_FORMAT: int := FORMAT_D32_SFLOAT

  datatype Aspect = Color | Depth

  /** `get_aspect_mask`: depth for the depth format, colour for every other
      format. */
  function AspectFor(format: int): (a: Aspect)
    ensures a == Depth <==> format == DEPTH_FORMAT
    ensures a == Color <==> format != DEPTH_FORMAT
  {
    if format == DEPTH_FORMAT then Depth else Color
  }
}

=== FILE: wrappers.dfy ===
/** Failure-compatible wrappers shared by every module of the model.
    `Option` stands for Rust's `Option`, `Result` for `Result`/`anyhow::Result`
    and for the places where the source panics (`unwrap`, `expect`, `panic!`). */
module Wrappers {

  datatype Option<+T> = None | Some(value: T) {

    predicate IsFailure() {
      None?
    }

    function PropagateFailure<U>(): Option<U>
      requires None?
    {
      None
    }

    function Extract(): T
      requires Some?
    {
      value
    }

    function GetOr(default: T): T {
      match this
      case Some(v) => v
      case None => default
    }
  }

  datatype Result<+R, +E> = Success(value: R) | Failure(error: E) {

    predicate IsFailure() {
      Failure?
    }

    function PropagateFailure<U>(): Result<U, E>
      requires Failure?
    {
      Failure(error)
    }

    function Extract(): R
      requires Success?
    {
      value
    }
  }
}

=== FILE: xr_context.dfy ===
/** The engine's side of the OpenXR session: the session state it tracks
    from polled events, the frame it begins and ends, and the eye views it
    keeps. Calls into the OpenXR runtime are replaced by their outcomes,
    given as parameters. */
module XrContext {
  import opened Wrappers
  import opened SimulatorSession

  // Panic and error messages, as the source words them.
  const VIEW_INDEX_OUT_OF_BOUNDS := "view index out of bounds"

  /** Two eyes. */
  const VIEW_COUNT: nat := 2

  /** An eye view (pose and field of view); `DEFAULT_VIEW` is the default
      value the context starts with. */
  datatype View = View(pose: nat, fov: nat)

  const DEFAULT_VIEW: View := View(0, 0)

  /** The events `poll_event` can deliver, as far as the context tells them
      apart. */
  datatype XrEvent = SessionStateChanged(state: SessionState) | InstanceLossPending | OtherEvent

  /** `viewFlags` stands for `ViewStateFlags`; `EMPTY` is 0. */
  datatype Xr = Xr(sessionState: SessionState, shouldRender: bool, views: seq<View>, viewFlags: nat)

  /** The context as `XrContext::new` leaves it. */
  function New(): (x: Xr)
    ensures x.sessionState == Idle && !x.shouldRender && x.viewFlags == 0
    ensures |x.views| == VIEW_COUNT && forall i :: 0 <= i < |x.views| ==> x.views[i] == DEFAULT_VIEW
  {
    Xr(Idle, false, seq(VIEW_COUNT, _ => DEFAULT_VIEW), 0)
  }

  /** `poll_xr_event`: only a state-change event changes the tracked
      state; whatever happened, the tracked state is returned. */
  function PollXrEvent(x: Xr, event: Option<XrEvent>): (r: (Xr, SessionState))
    ensures r.0.sessionState == r.1
    ensures (event.Some? && event.value.SessionStateChanged?) ==> r.1 == event.value.state
    ensures !(event.Some? && event.value.SessionStateChanged?) ==> r.0 == x
    ensures r.0 == x.(sessionState := r.1)
  {
    match event
    case Some(SessionStateChanged(state)) => (x.(sessionState := state), state)
    case _ => (x, x.sessionState)
  }

  datatype FrameError = NotRendering

  /** `begin_frame`: the frame state from `wait_frame` is kept; without
      `should_render` the frame is begun but no image is acquired. */
  function BeginFrame(x: Xr, shouldRender: bool, imageIndex: nat): (r: (Xr, Result<nat, FrameError>))
    ensures r.0 == x.(shouldRender := shouldRender)
    ensures r.1.Success? <==> shouldRender
    ensures r.1.Success? ==> r.1.value == imageIndex
  {
    var x' := x.(shouldRender := shouldRender);
    if !shouldRender then (x', Failure(NotRendering)) else (x', Success(imageIndex))
  }

  /** `update_views`: located views replace the kept ones only when the
      runtime says they are valid; otherwise the last valid ones stay. */
  function UpdateViews(x: Xr, valid: bool, flags: nat, located: seq<View>): (r: Xr)
    ensures r.sessionState == x.sessionState && r.shouldRender == x.shouldRender
    ensures valid ==> r.views == located && r.viewFlags == flags
    ensures !valid ==> r == x
  {
    if valid then x.(views := located, viewFlags := flags) else x
  }

  /** A projection layer: one projection view per eye, each showing its
      own layer of the swapchain image. */
  datatype ProjectionView = ProjectionView(view: View, imageArrayIndex: nat)

  /** What `end_frame` submits: the layers, and whether the swapchain
      image was released first. */
  datatype Submission = Submission(layers: seq<seq<ProjectionView>>, releasedImage: bool)

  /** `end_frame`: without `should_render` no layer is submitted (and no
      image was acquired, so none is released); otherwise one projection
      layer with both eyes. Fewer than two kept views is an index panic. */
  function EndFrame(x: Xr): (r: Result<Submission, string>)
    ensures !x.shouldRender ==> r == Success(Submission([], false))
    ensures x.shouldRender ==> (r.Success? <==> |x.views| >= 2)
    ensures r.Success? && x.shouldRender ==>
      && r.value.releasedImage && |r.value.layers| == 1 && |r.value.layers[0]| == VIEW_COUNT
      && forall i :: 0 <= i < VIEW_COUNT ==> r.value.layers[0][i] == ProjectionView(x.views[i], i)
  {
    if !x.shouldRender then Success(Submission([], false))
    else if |x.views| < 2 then Failure(VIEW_INDEX_OUT_OF_BOUNDS)
    else Success(Submission([[ProjectionView(x.views[0], 0), ProjectionView(x.views[1], 1)]], true))
  }

  /** A frame begun without rendering is ended with nothing submitted, and
      one begun with rendering submits both eyes' views. */
  lemma BeginEndAgree(x: Xr, shouldRender: bool, imageIndex: nat)
    requires |x.views| == VIEW_COUNT
    ensures var (x', begun) := BeginFrame(x, shouldRender, imageIndex);
      var ended := EndFrame(x');
      && ended.Success?
      && (begun.Success? <==> |ended.value.layers| == 1)
      && (begun.Success? <==> ended.value.releasedImage)
  {
  }

  /** Starting from the two default views the context is created with, an
      invalid location keeps both, while a valid one keeps whatever the
      runtime located; ending a rendered frame then panics exactly when a
      valid location reported fewer than two views. */
  lemma ViewCountKept(x: Xr, valid: bool, flags: nat, located: seq<View>)
    requires |x.views| == VIEW_COUNT
    ensures var r := UpdateViews(x, valid, flags, located);
      && (!valid || |located| == VIEW_COUNT ==> |r.views| == VIEW_COUNT)
      && (x.shouldRender ==> (EndFrame(r).Success? <==> !valid || |located| >= VIEW_COUNT))
  {
  }
}
